=== FILE: README.md ===
# SL webapp core, modelled in Dafny

The SL webapp is a PHP web application for a sailing club: members
(`Medlem`), their roles, payments (`Betalning`) and sailing events
(`Segling`), with login, registration and password reset, a PSR-15
middleware chain, a CSV importer for the old member register, and two
Python helpers for cleaning and de-duplicating exported spreadsheets.

This project models that core as pure Dafny functions over immutable
data, one module per source file, and proves what the code promises:

- the middleware gates decide who reaches which page;
- the middleware stack composes;
- the CSRF token is stable and round-trips through hex;
- the sanitizer and the date round-trip accept exactly the canonical renderings;
- the member, payment and sailing services reply as the code does on every path, error paths included;
- registration followed by activation succeeds, and so does a password-reset request followed by a reset;
- the token store keeps exactly the valid tokens;
- the Python exporter's cell cleaning is idempotent, and its row and column dropping is exact.

PHP's own semantics are modelled where the code depends on them, in the
`Php` module:

- truthiness;
- loose `==` and `in_array`;
- `trim`, `explode` and `str_replace`;
- `declare(strict_types=1)` type errors;
- reading an uninitialized typed property.

Code outside the model becomes a parameter of the function that calls it:

- the database repositories;
- the mailer;
- the router;
- the clock and `random_bytes`;
- `strtotime`;
- git and the shell;
- password hashing.

A call into such code is a `Wrappers.Effect`: a value, or the message of
the exception it threw.

## Model

| member | source | states |
|---|---|---|
| Application.ConvertValue | App/Application.php:92-94 | exactly "true" and "false" become booleans; every other string stays a string |
| Application.LoadConfig | App/Application.php:90-96 | every environment key is kept, none is added, each value converted |
| Application.LoadConfigInvertible | App/Application.php:90-96 | the environment can be read back from the configuration: the conversion loses nothing |
| Application.OnlyExactWordsConvert | App/Application.php:93 | "TRUE", "1" and "True" stay strings |
| Application.GetAppEnv | App/Application.php:123-127 | "DEV" exactly when APP_ENV is the string "DEV", else "PROD" |
| Application.GetConfig | App/Application.php:136-139 | null for an absent key, the string for a string value, and a TypeError for a converted boolean under the `string\|null` return type |
| Application.GetConfigThrowsIff | App/Application.php:90-139 | on a loaded configuration the getter throws exactly for keys whose value was "true" or "false", and returns other values unchanged |
| Application.SplitTarget | App/Application.php:233-236 | a target splits iff it is a string holding '#'; controller and action hold no '#' and are the first two pieces of the target |
| AuthenticationMiddleware.Handle | App/Middleware/AuthenticationMiddleware.php:12-47 | an ajax call without a truthy user id gets the 401 JSON reply and exits; a page request to a matched non-open route without one stores the route, sets the flash, redirects to the login page with 401 and exits; everything else passes |
| AuthenticationMiddleware.AjaxIgnoresRoute | App/Middleware/AuthenticationMiddleware.php:17-28 | for an ajax call the matched route makes no difference |
| AuthenticationMiddleware.PageReachedIff | App/Middleware/AuthenticationMiddleware.php:29-46 | a logged-out page request passes iff no route matched or the route is open |
| AuthenticationMiddleware.FalsyUserIdIsLoggedOut | App/Middleware/AuthenticationMiddleware.php:18-29 | a stored user id of 0, "0" or "" counts as logged in for the session helper but logged out for this gate |
| AuthorizationMiddleware.Handle | App/Middleware/AuthorizationMiddleware.php:27-56 | no match exits; an admin, a user route or an open route passes; otherwise an ajax call gets the JSON denial and a page request the flash and the user-home redirect, and both exit |
| AuthorizationMiddleware.AdminPassesEverywhere | App/Middleware/AuthorizationMiddleware.php:33-35 | an admin passes every matched route |
| AuthorizationMiddleware.DenialKeepsSession | App/Middleware/AuthorizationMiddleware.php:41-51 | a denial changes nothing in the session but the flash message |
| AuthorizationMiddleware.MemberListIsProtected | App/Middleware/AuthorizationMiddleware.php:37-46 | "medlem-list" is neither a user route nor an open route, so a non-admin is denied it |
| AuthorizationMiddleware.IntegerAdminDenied | App/Middleware/AuthorizationMiddleware.php:33 | the admin test is strict: `is_admin` stored as 1 instead of `true` is denied |
| Middleware.RequireLogin | App/Middleware/AuthenticationMiddleware.php:38-40 | the redirect target is the route when it is truthy and the earlier one otherwise; the flash asks for a login; nothing else in the session changes |
| Middleware.IsAjaxRequest | App/Middleware/BaseMiddleware.php:28-35 | the X-Requested-With header is present and lower-cases to "xmlhttprequest"; `AuthenticationMiddleware.AjaxIgnoresRoute` uses it |
| Middleware.IsOpenRoute | App/Middleware/AuthorizationMiddleware.php:58-64 | the route name is loosely in the no-login list; `Middleware.OpenRouteIsLoose` shows the looseness |
| Middleware.IsUserRoute | App/Middleware/AuthorizationMiddleware.php:66-71 | "user-" occurs anywhere in the route name; `Middleware.UserRouteIsSubstring` |
| Middleware.OpenRouteIsLoose | App/Middleware/AuthorizationMiddleware.php:58-64 | `in_array` compares loosely: "0404" counts as the open route "404" though it is not in the list |
| Middleware.UserRouteIsSubstring | App/Middleware/AuthorizationMiddleware.php:66-71 | "user-" anywhere in the name makes a user route, as in "admin-user-list" |
| RequireAuthenticationMiddleware.Process | App/Middleware/RequireAuthenticationMiddleware.php:16-28 | a logged-out request is redirected to /login with the flash, and the route name is stored when truthy; a logged-in request gets the handler's response unchanged |
| RequireAuthenticationMiddleware.KeepsEarlierRedirect | App/Middleware/RequireAuthenticationMiddleware.php:19-22 | without a route name an earlier post-login redirect target is kept |
| RequireAdminMiddleware.Process | App/Middleware/RequireAdminMiddleware.php:16-32 | logged out: the login redirect with the flash; logged in but not a truthy admin: redirect to /user; otherwise the handler's response |
| RequireAdminMiddleware.RefinesLoginGate | App/Middleware/RequireAdminMiddleware.php:16-32 | a logged-out visitor gets the same answer from the admin gate as from the login gate, and whatever passes the admin gate passes the login gate |
| RequireAdminMiddleware.LooseAdminPasses | App/Middleware/RequireAdminMiddleware.php:27 | an `is_admin` of 1 or "1" passes by truthiness |
| CsrfMiddleware.HexValue | App/Middleware/CsrfMiddleware.php:33 | the value of a lower-case hex digit, inverse to the digit of a nibble |
| CsrfMiddleware.Bin2Hex | App/Middleware/CsrfMiddleware.php:33 | two lower-case hex digits per byte, high nibble first |
| CsrfMiddleware.Hex2Bin | App/Middleware/CsrfMiddleware.php:33 | half as many bytes as digits, each read from its two digits |
| CsrfMiddleware.Hex2BinOfBin2Hex | App/Middleware/CsrfMiddleware.php:33 | reading the hex token back gives the random bytes: distinct byte strings give distinct tokens |
| CsrfMiddleware.WithToken | App/Middleware/CsrfMiddleware.php:32-34 | a token is stored iff none is set; nothing else changes |
| CsrfMiddleware.Handle | App/Middleware/CsrfMiddleware.php:30-63 | an excluded path prefix or a non-POST passes; a POST passes iff the posted token equals the session token; a mismatch gets the JSON 401 or the flash and tech-error redirect and exits; a non-string token makes `hash_equals` throw |
| CsrfMiddleware.FreshTokenShape | App/Middleware/CsrfMiddleware.php:32-34 | a fresh session gets a 64-digit lower-case hex token |
| CsrfMiddleware.TokenIsStable | App/Middleware/CsrfMiddleware.php:32-34 | a second request, with other random bytes, keeps the token the first stored |
| CsrfMiddleware.HomepageSkipsValidation | App/Middleware/CsrfMiddleware.php:19-43 | the exclusion is a prefix test: "/homepage" skips validation even for a POST without a token |
| MiddlewareStack.Add | App/Middleware/Contracts/MiddlewareStack.php:20-23 | the middleware is appended and the others keep their places |
| MiddlewareStack.Process | App/Middleware/Contracts/MiddlewareStack.php:30-51 | past the last middleware the fallback answers; otherwise the middleware at the index runs with the rest of the chain as its handler |
| MiddlewareStack.Handle | App/Middleware/Contracts/MiddlewareStack.php:25-28 | the chain starts at the first middleware added |
| MiddlewareStack.FallbackIffAllDelegate | App/Middleware/Contracts/MiddlewareStack.php:30-51 | the fallback handler runs iff every middleware passed the request on |
| MiddlewareStack.ShortCircuit | App/Middleware/Contracts/MiddlewareStack.php:30-51 | a middleware that answers ends the chain and its answer is the result |
| MiddlewareStack.SingleMiddleware | App/Middleware/Contracts/MiddlewareStack.php:30-51 | a stack of one answering middleware returns that answer |
| MiddlewareStack.ProcessConcat | App/Middleware/Contracts/MiddlewareStack.php:30-51 | the stack a + b behaves as the stack a whose fallback is the stack b over the original fallback |
| MiddlewareStack.StepResponse | App/Middleware/Contracts/MiddlewareStack.php:36-50 | one step: an answer is the result, a delegation wraps the rest of the chain |
| MiddlewareStack.AddIsInnermost | App/Middleware/Contracts/MiddlewareStack.php:20-51 | adding a middleware places it just in front of the fallback |
| BetalningService.BuildPayment | App/Services/BetalningService.php:96-102 | the payment carries the cleaned date and the int casts of member id, amount and year, and an empty comment when none; a null date is a TypeError on the `string` property |
| BetalningService.SendWelcomeEmail | App/Services/BetalningService.php:153-187 | a mail goes out only when the setting is "1", the member exists, has not been welcomed and has an address; the member is saved with the welcome flag iff the mail went out and the save did not throw; a boolean setting or an uninitialized name is an uncaught error |
| BetalningService.ReadForm | App/Services/BetalningService.php:85-102 | the sanitizer throws iff a posted value does not fit its rule; a read payment holds the digits of the posted amount and the trimmed posted date, which survives the Y-m-d round trip |
| BetalningService.Store | App/Services/BetalningService.php:109-124 | a create that throws gives the error reply and stores nothing; success reports the repository's id in the message; a mail is sent only under the welcome conditions |
| BetalningService.CreatePayment | App/Services/BetalningService.php:75-125 | a missing required field, a rejected form, an invalid payment and a thrown create each give their reply; a stored payment is valid and read from the post; success carries the new id; a member is marked welcomed only after a mail |
| BetalningService.StoredFromPost | App/Services/BetalningService.php:87-102 | the stored amount and date come from the posted fields through their rules |
| BetalningService.RequiredCheckFirst | App/Services/BetalningService.php:78-83 | a missing required field is answered without consulting repository, mailer or settings, and nothing is stored |
| BetalningService.InvalidPaymentNotStored | App/Services/BetalningService.php:105-107 | a form that reads into an invalid payment is answered "Invalid input" whatever the backend does |
| BetalningService.ValidPaymentStored | App/Services/BetalningService.php:109-111 | a valid form whose create returns is stored as read |
| BetalningService.SuccessMessageNamesId | App/Services/BetalningService.php:116-120 | the id in the success message reads back, by an int cast, as the repository's id |
| BetalningService.AtMostOneWelcomeMail | App/Services/BetalningService.php:166-181 | once a member was mailed and saved, a later payment for that member sends no mail |
| BetalningService.DecimalPointDropped | App/Services/BetalningService.php:91-100 | the `float` rule drops the decimal point: "100.50" is read as 10050 |
| BetalningService.BooleanMailSettingIsFatal | App/Services/BetalningService.php:155 | a welcome setting of "true" becomes a boolean, and every valid payment then ends in the getter's TypeError after it was stored |
| BetalningService.SaveFailureAfterMail | App/Services/BetalningService.php:176-186 | a member save that throws after the mail was sent makes the call report an error though the payment is stored and the member mailed |
| BetalningService.DeletePayment | App/Services/BetalningService.php:133-145 | success iff the delete returned true; false is "Payment not found"; an exception's message is reported after the error prefix |
| BetalningService.PaymentsForMember | App/Services/BetalningService.php:56-67 | an exception "Medlem not found" iff the member is missing; otherwise the member and the repository's payments |
| CsvExporter.LfToSpace | db/csv-data/csv-exporter.py:7 | `replace("\n", " ")`: same length, every line feed becomes a space at its own position, and every other character stays where it was |
| CsvExporter.DeleteCr | db/csv-data/csv-exporter.py:7 | `replace("\r", "")`: exactly the carriage returns are deleted and the other characters stay in their order |
| CsvExporter.DeleteCrUnique | db/csv-data/csv-exporter.py:7 | any order-keeping deletion of carriage returns that leaves none is that result |
| CsvExporter.Collapse | db/csv-data/csv-exporter.py:9 | `re.sub(" +", " ", ...)`: exactly the spaces followed by a space are deleted, the others stay in order, and no two adjacent spaces remain |
| CsvExporter.CollapseUnique | db/csv-data/csv-exporter.py:9 | any order-keeping deletion of spaces that precede a space and leaves no double space is that result |
| CsvExporter.Strip | db/csv-data/csv-exporter.py:11 | `strip()`: no whitespace at either end, no longer than the input, and empty iff the input is all whitespace |
| CsvExporter.StripExact | db/csv-data/csv-exporter.py:11 | the result is the input with exactly its leading and trailing whitespace removed, and that string is unique |
| CsvExporter.CleanCell | db/csv-data/csv-exporter.py:4-12 | text stays text, a missing cell stays missing, and numbers pass through unchanged |
| CsvExporter.CleanText | db/csv-data/csv-exporter.py:7-11 | cleaned text has no line breaks, no double spaces and no surrounding whitespace, is no longer than the input, and clean text is left unchanged |
| CsvExporter.CleanCellIdempotent | db/csv-data/csv-exporter.py:4-12 | cleaning twice is cleaning once |
| CsvExporter.LineFeedBecomesSpace | db/csv-data/csv-exporter.py:7 | a line feed between two clean words becomes one space |
| CsvExporter.CarriageReturnVanishes | db/csv-data/csv-exporter.py:7 | a carriage return between two clean words is deleted, joining them |
| CsvExporter.InteriorTabSurvives | db/csv-data/csv-exporter.py:9-11 | only spaces collapse and only the ends are stripped: an inner tab survives |
| CsvExporter.KeptRows | db/csv-data/csv-exporter.py:22 | the increasing indices of exactly the rows with a non-missing cell |
| CsvExporter.KeptColumns | db/csv-data/csv-exporter.py:25 | the increasing indices of exactly the columns with a non-missing cell |
| CsvExporter.Project | db/csv-data/csv-exporter.py:25 | each row restricted to the kept columns, in their order |
| CsvExporter.Export | db/csv-data/csv-exporter.py:14-28 | a rectangular frame stays rectangular and never grows |
| CsvExporter.ProjectKeepsValues | db/csv-data/csv-exporter.py:22-25 | dropping empty columns keeps every row's value and every kept column's value |
| CsvExporter.ExportHasNoEmptyRowOrColumn | db/csv-data/csv-exporter.py:19-25 | after export no row and no column is wholly missing |
| CsvExporter.CleanKeepsSameRows | db/csv-data/csv-exporter.py:19-22 | cleaning never turns a missing cell into a value or back, so the same rows survive |
| CsvExporter.CleanKeepsSameColumns | db/csv-data/csv-exporter.py:19-25 | cleaning keeps the same columns |
| CsvExporter.RowDropKeepsSameColumns | db/csv-data/csv-exporter.py:22-25 | dropping the wholly missing rows first does not change which columns survive |
| CsvExporter.ExportDropsExactlyMissing | db/csv-data/csv-exporter.py:14-28 | the output is the cleaned input restricted to exactly the rows and columns holding a value, with the header selected alike |
| CsvExporter.WhitespaceCellKeepsRow | db/csv-data/csv-exporter.py:11-22 | a whitespace-only text cell cleans to "", which is not missing, so its row and column are kept |
| DuplicateFinder.FindDuplicates | db/csv-data/find-duplicates.py:4-40 | the outcome is "column missing" iff the key column is absent |
| DuplicateFinder.SortBy | db/csv-data/find-duplicates.py:29 | a sorted permutation of its input |
| DuplicateFinder.NonBlank | db/csv-data/find-duplicates.py:19 | only rows whose key is neither NaN nor "" survive |
| DuplicateFinder.ReportOn | db/csv-data/find-duplicates.py:19-37 | "no duplicates" iff the duplicated rows are none; a report is sorted by key, is a permutation of the duplicated rows and counts them; the sort fails iff the keys mix text and numbers |
| DuplicateFinder.ReportIsExactlyDuplicates | db/csv-data/find-duplicates.py:19-22 | each row appears in the report exactly as often as in the input when its key is valid and occurs at least twice among the valid rows, and otherwise not at all |
| DuplicateFinder.ReportedKeysRepeat | db/csv-data/find-duplicates.py:22 | every reported key is valid and occurs at least twice in the report |
| DuplicateFinder.NoDuplicatesIff | db/csv-data/find-duplicates.py:22-26 | "no duplicates" iff every valid key occurs once among the valid rows |
| DuplicateFinder.LexLeqTotal | db/csv-data/find-duplicates.py:29 | string order is total |
| DuplicateFinder.LexLeqTransitive | db/csv-data/find-duplicates.py:29 | string order is transitive |
| CsvImporter.FindMembersInCsv | App/Utils/CsvImporter.php:39-50 | the hits are the matching rows paired with their original positions, in order, and every matching row is a hit |
| CsvImporter.WildcardFindsColumn | App/Utils/CsvImporter.php:43-44 | for "*" or "" a row is found iff it has the column |
| CsvImporter.ExactSearch | App/Utils/CsvImporter.php:45-46 | for any other value a row is found iff its cell is exactly that string |
| CsvImporter.IsValidCsvRow | App/Utils/CsvImporter.php:159-184 | a valid row has 32 columns, a non-empty surname, and a birth date that is empty or has a non-zero timestamp |
| CsvImporter.ValidRowIff | App/Utils/CsvImporter.php:159-184 | those three checks are all there is: a row meeting them is valid |
| CsvImporter.BlankSurnamePasses | App/Utils/CsvImporter.php:169-181 | the surname check runs before trimming: a surname " " passes though it trims to nothing |
| CsvImporter.EpochBirthDateRejected | App/Utils/CsvImporter.php:174-176 | a birth date whose timestamp is 0 is rejected as if it were no date |
| CsvImporter.RoleNames | App/Utils/CsvImporter.php:206 | `array_column($allRoles, 'roll_namn')`: the names, position by position |
| CsvImporter.LinkOne | App/Utils/CsvImporter.php:201-209 | a PHP-empty trimmed name links nothing; otherwise a role is linked iff the trimmed name is loosely in the role names |
| CsvImporter.LinkAll | App/Utils/CsvImporter.php:201-210 | at most one id per name |
| CsvImporter.AddRolesForMember | App/Utils/CsvImporter.php:194-211 | the crew names and then the maintenance names, each split at commas, linked in turn; `CsvImporter.LinkedRoles` and `CsvImporter.CrewRolesFirst` |
| CsvImporter.LinkAllConcat | App/Utils/CsvImporter.php:196-210 | linking a concatenated list links each part in turn |
| CsvImporter.LinkAllSound | App/Utils/CsvImporter.php:201-210 | every linked id comes from some name of the list |
| CsvImporter.LinkAllComplete | App/Utils/CsvImporter.php:201-210 | every name that links contributes its id |
| CsvImporter.NothingLinked | App/Utils/CsvImporter.php:201-210 | when no name links, nothing is inserted |
| CsvImporter.LinkedRoles | App/Utils/CsvImporter.php:194-211 | an id is inserted iff some name links to it |
| CsvImporter.CrewRolesFirst | App/Utils/CsvImporter.php:196-199 | the crew roles are inserted first, then the maintenance roles |
| CsvImporter.LinkOneFirst | App/Utils/CsvImporter.php:206-208 | a linked name gets the first role loosely named like it |
| CsvImporter.LooseRoleName | App/Utils/CsvImporter.php:201-209 | `array_search` compares loosely: any name that trims to "01" links the role named "1" |
| CsvImporter.PrefKommunikation | App/Utils/CsvImporter.php:81 | the int the code computes for the preference is 0 or 1; it is never stored, since assigning it to the bool property throws (`CsvImporter.StoreBool`) |
| CsvImporter.PrefKommunikationExact | App/Utils/CsvImporter.php:81 | the computed int is 0 iff EjUtskick is exactly "Nej"; "nej" or " Nej" give 1 |
| CsvImporter.StoreBool | App/Utils/CsvImporter.php:81-83 | under strict types a bool property accepts exactly a bool and keeps it; any other value is the `TypeError` naming its type and the property |
| CsvImporter.ImportRowWith | App/Utils/CsvImporter.php:63-105 | one pass of the loop: a missing birth-date or surname column throws first; the row is stored iff all three flag values are bools and, after a create, the role and payment columns are there; a failed create is caught; a stored row carries the created id, the flags, the linked roles and the payments |
| CsvImporter.EveryRowFails | App/Utils/CsvImporter.php:81-83 | as written, every row throws: one with a birth date and a surname throws the preference's `TypeError`, whatever create and the roles would do |
| CsvImporter.ImportRowStores | App/Utils/CsvImporter.php:81-99 | with bools, a row with all its columns whose create succeeds is stored, opted in iff EjUtskick is not exactly "Nej", neither GDPR-approved nor admin, with the linked roles |
| CsvImporter.InsertRows | App/Utils/CsvImporter.php:57-114 | the loop ends at the first uncaught exception; a completed loop counts at most one per row |
| CsvImporter.InsertToDbAsWritten | App/Utils/CsvImporter.php:57-114 | as written, `insertToDb` returns only for an empty file; otherwise it throws the first row's error |
| CsvImporter.InsertToDbCounts | App/Utils/CsvImporter.php:86-113 | as intended, a completed import returns exactly the number of rows whose create succeeded |
| CsvImporter.PaymentsFor | App/Utils/CsvImporter.php:93-236 | the payments exist iff every listed column is present; at most one per column, each for the member, with the import fee and the import comment |
| CsvImporter.Payments | App/Utils/CsvImporter.php:93-99 | the payments of the B24, B23 and B22 columns through `formatDateWithHms`; `CsvImporter.ImportPayment` |
| CsvImporter.PaymentForYear | App/Utils/CsvImporter.php:93-225 | a payment for a year exists iff the formatter accepts that year's cell, and it carries the formatted date |
| CsvImporter.YearsListed | App/Utils/CsvImporter.php:93-97 | every payment's year is one of the listed years |
| CsvImporter.ImportPayment | App/Utils/CsvImporter.php:93-99 | for the import's three columns, a payment for a year exists iff the cell is a date-time the formatter accepts, and its date is then a canonical Y-m-d date |
| DateFormat.Tokenize | App/Utils/Sanitizer.php:83 | one token per format character: a field for a field letter, a literal otherwise |
| DateFormat.ParseFormat | App/Utils/Sanitizer.php:83 | a format is supported iff it uses only the six modelled field letters, repeats none and is clock-free (a month or day comes with the year, month and day), and it then reads as its tokens |
| DateFormat.ClockDependentUnsupported | App/Utils/Sanitizer.php:83-84 | "m-d" and "Y-m", whose missing fields PHP takes from today's date, are unsupported; "Y" and "Y-m-d" are supported |
| DateFormat.Scan | App/Utils/Sanitizer.php:83 | a successful strict-width scan sets exactly the format's fields and keeps the others |
| DateFormat.CreateFromFormat | App/Utils/DateFormatter.php:11-22 | a parsed value holds exactly the fields of its format; the scanner is strict-width, which agrees with PHP on which texts survive the round trip |
| DateFormat.ScanRender | App/Utils/DateFormatter.php:11-13 | scanning a rendering succeeds iff nothing trails it, and then reads back every rendered field |
| DateFormat.RenderScan | App/Utils/DateFormatter.php:11-13 | whatever scanning accepts is the rendering of what it read |
| DateFormat.ScanFits | App/Utils/DateFormatter.php:11 | the strict-width scan reads each field from exactly its width of digits, so every value it reads fits that width |
| DateFormat.SurvivesIffCanonical | App/Utils/Sanitizer.php:81-85 | the parse-and-format round trip accepts a text iff it is the rendering of valid field values |
| DateFormat.SurvivorIsCanonical | App/Utils/Sanitizer.php:83-84 | a text that survives is the rendering of the valid fields it parses to |
| DateFormat.CanonicalSurvives | App/Utils/Sanitizer.php:83-84 | for a supported format, the rendering of valid field values survives the parse-and-format round trip |
| DateFormat.ScanCanonical | App/Utils/Sanitizer.php:83 | scanning the rendering of values that fit their widths reads back exactly those values |
| DateFormat.SurvivesIffParsesValid | App/Utils/Sanitizer.php:83-84 | for a supported format, a text survives iff it parses to valid fields: the comparison with the rendering, not the parser, rejects month 13 or day 32 |
| DateFormat.ValidFits | App/Utils/Sanitizer.php:84 | valid field values fit their field widths |
| DateFormatter.RenderYmd | App/Utils/DateFormatter.php:14-25 | ten characters with '-' at positions 4 and 7 |
| DateFormatter.RenderHms | App/Utils/DateFormatter.php:13 | eight characters |
| DateFormatter.DatePrefix | App/Utils/DateFormatter.php:13-14 | the date part of a date-time rendering is its first ten characters |
| DateFormatter.FormatDateYmd | App/Utils/DateFormatter.php:20-29 | `formatDateYmd` accepts a text iff it is the rendering of a valid date, and returns it unchanged |
| DateFormatter.FormatDateWithHms | App/Utils/DateFormatter.php:9-18 | `formatDateWithHms` accepts a text iff it is the rendering of a valid date and time, and returns its first ten characters |
| DateFormatter.HmsDatePart | App/Utils/DateFormatter.php:11-14 | a surviving date-time renders a valid date and time, and the date it parses to renders as its first ten characters |
| DateFormatter.HmsResultIsYmd | App/Utils/DateFormatter.php:9-29 | a date returned by `formatDateWithHms` is accepted unchanged by `formatDateYmd` |
| DateFormatter.FormatDateYmdIdempotent | App/Utils/DateFormatter.php:20-29 | an accepted date is returned unchanged, so a second call changes nothing |
| DateFormatter.FormatDateYmdLength | App/Utils/DateFormatter.php:24 | accepted values are ten characters long: "2023-1-05" is rejected |
| DateFormatter.OverflowDayRejected | App/Utils/DateFormatter.php:22-24 | a day past the end of its month is never accepted, though the parser would roll it over |
| DateFormatter.RenderYmdInjective | App/Utils/DateFormatter.php:25 | distinct dates render differently |
| DateFormatter.RenderYmdDecodes | App/Utils/DateFormatter.php:25 | year, month and day can be read back off a rendering |
| GitRepositoryService.PathOfNames | App/Services/Github/GitRepositoryService.php:103 | the pattern's path part accepts "owner/repo.git" for any two names of letters, digits, '_' and '-' |
| GitRepositoryService.NamesOfPath | App/Services/Github/GitRepositoryService.php:103 | whatever the path part accepts is "owner/repo.git" for two such names |
| GitRepositoryService.IsValidRepositoryUrl | App/Services/Github/GitRepositoryService.php:101-104 | the anchored clone-URL pattern matches, `$` admitting one final newline; `GitRepositoryService.ValidUrlIff` states the accepted URLs |
| GitRepositoryService.ValidUrlIff | App/Services/Github/GitRepositoryService.php:101-104 | a URL passes the guard iff it is the GitHub HTTPS clone URL of two names, or that plus one final "\n", which `$` lets through |
| GitRepositoryService.ValidUrlIsInert | App/Services/Github/GitRepositoryService.php:57-104 | a URL that passes holds only name characters, ':', '/' and '.', apart from a final newline |
| GitRepositoryService.Basename | App/Services/Github/GitRepositoryService.php:63 | `basename` gives a component without '/' |
| GitRepositoryService.CloneDir | App/Services/Github/GitRepositoryService.php:63 | the base directory, a '/', and the URL's basename without ".git"; `GitRepositoryService.CloneDirOfRepo` and `GitRepositoryService.CloneDirWithNewline` |
| GitRepositoryService.CloneDirOfRepo | App/Services/Github/GitRepositoryService.php:63 | for a clone URL the clone directory is the base directory and the repository name |
| GitRepositoryService.CloneDirWithNewline | App/Services/Github/GitRepositoryService.php:63-103 | with the trailing newline the guard admits, ".git" is not stripped and the directory ends in ".git\n" |
| GitRepositoryService.Plan | App/Services/Github/GitRepositoryService.php:63-86 | three commands: clone when the directory is missing or fetch when it exists, then checkout, then pull, all on the clone directory |
| GitRepositoryService.RunSteps | App/Services/Github/GitRepositoryService.php:66-89 | commands run in order up to the first failure, whose message is the answer; success iff all ran and succeeded |
| GitRepositoryService.UpdateRepository | App/Services/Github/GitRepositoryService.php:55-90 | a refused URL runs nothing and answers "Invalid repository URL"; otherwise the plan runs fail-fast |
| GitRepositoryService.UpdateOutcome | App/Services/Github/GitRepositoryService.php:55-90 | nothing runs iff the URL is refused; success iff the URL passes and all three commands succeed; every command before the last one run succeeded |
| GitRepositoryService.CloneOrFetch | App/Services/Github/GitRepositoryService.php:66-76 | the first command is the clone or the fetch, chosen by whether the directory exists, and no later command clones or fetches |
| GitHubService.LeadingDigits | App/Services/Github/GitHubService.php:24 | the length of the leading run of ASCII digits |
| GitHubService.VersionMatchIff | App/Services/Github/GitHubService.php:24 | the scan accepts exactly digits, optionally '.' and digits |
| GitHubService.IsReleaseBranch | App/Services/Github/GitHubService.php:75-78 | the release pattern matches, `$` admitting one final newline; `GitHubService.ReleaseBranchIff` states the accepted names |
| GitHubService.ReleaseBranchIff | App/Services/Github/GitHubService.php:24-78 | a release branch is "release/v" and a version, possibly followed by one "\n" |
| GitHubService.ReleaseMajor | App/Services/Github/GitHubService.php:24 | "release/v" and digits is a release branch, with or without a final newline |
| GitHubService.ReleaseMajorMinor | App/Services/Github/GitHubService.php:24 | "release/v" and digits '.' digits is a release branch |
| GitHubService.ThreeComponentsRejected | App/Services/Github/GitHubService.php:24 | "release/v1.0.0" is rejected |
| GitHubService.NotReleaseBranches | App/Services/Github/GitHubService.php:24 | a name without the "release/v" prefix is rejected |
| GitHubService.ExtractBranchName | App/Services/Github/GitHubService.php:91-94 | never longer than the ref, and a ref without "refs/heads/" is returned unchanged |
| GitHubService.StripsHeadsPrefix | App/Services/Github/GitHubService.php:93 | "refs/heads/" followed by a branch gives the branch |
| GitHubService.ExtractNotIdempotent | App/Services/Github/GitHubService.php:93 | removal is a single pass: "refs/herefs/heads/ads/x" gives "refs/heads/x", which a second call shortens again |
| GitHubService.IsValidRepository | App/Services/Github/GitHubService.php:60-63 | the payload's repository id is set and identical to the integer 781366756; `GitHubService.OnlyTheIntegerId` |
| GitHubService.OnlyTheIntegerId | App/Services/Github/GitHubService.php:21-63 | a payload is accepted iff its repository id is the integer 781366756; the string "781366756" is refused |
| Medlem.FromIds | App/Models/Medlem.php:31 | roles as loaded are a list: each entry's key is its position |
| Medlem.Ids | App/Models/Medlem.php:49-65 | `array_column(..., 'roll_id')`: the ids in entry order, re-indexed from 0 |
| Medlem.Unset | App/Models/Medlem.php:52 | `unset` removes exactly the entry with that key and leaves the next free key where it was |
| Medlem.Append | App/Models/Medlem.php:58 | `$roller[] = ...` appends the id and keeps the keys well formed |
| Medlem.ToRemove | App/Models/Medlem.php:49 | `array_diff`: an id is listed iff it is held and not among the new ids |
| Medlem.RemoveAsWritten | App/Models/Medlem.php:50-53 | the removal loop as written only removes entries, and keeps the next free key |
| Medlem.AddOne | App/Models/Medlem.php:56-60 | one round appends only when the id is not loosely present; afterwards it is, old ids keep their places and nothing else is added |
| Medlem.AddNew | App/Models/Medlem.php:56-60 | the adding loop keeps the old ids as a prefix |
| Medlem.AddNewHoldsAll | App/Models/Medlem.php:56-60 | after the adding loop every new id is loosely present |
| Medlem.AddNewOnlyNew | App/Models/Medlem.php:56-60 | the adding loop adds nothing but new ids |
| Medlem.AddNewAppends | App/Models/Medlem.php:56-60 | old entries stay as they are and new ones get fresh keys, no two appended ids loosely equal to an earlier one |
| Medlem.UpdateRolesAsWritten | App/Models/Medlem.php:46-61 | the update as written: every requested role is loosely held; every held role was held before or requested; old entries only disappear; each appended id was loosely absent from what precedes it |
| Medlem.RemoveFixed | App/Models/Medlem.php:48-53 | the intended removal: an entry survives iff its id is among the new ids |
| Medlem.UpdateRoles | App/Models/Medlem.php:46-61 | the corrected update keeps the keys well formed |
| Medlem.UpdateRolesExact | App/Models/Medlem.php:46-61 | after the corrected update every new id is loosely held and every held id is a new id |
| Medlem.UpdateRolesKeepsOrder | App/Models/Medlem.php:46-61 | roles kept by the corrected update keep their order, ahead of the added ones |
| Medlem.StaleRoleGeneral | App/Models/Medlem.php:49-53 | for any three loosely distinct ids x, y, z, updating [x, y, z] to [x] keeps z |
| Medlem.StaleRoleAsWritten | App/Models/Medlem.php:46-61 | roles 1, 2, 3 updated to [1] keep role 3 |
| Medlem.StaleSurvivesAdd | App/Models/Medlem.php:56-60 | a role left by the removal outlives the adding loop |
| Medlem.AddNewKeeps | App/Models/Medlem.php:56-60 | the adding loop never drops a held role |
| Medlem.WantedRemovalRounds | App/Models/Medlem.php:50-53 | from a, y, b, z with y and z to remove, the loop unsets keys 1 and 2 and leaves a, z |
| Medlem.WantedRoleMoved | App/Models/Medlem.php:49-53 | roles 1, 2, 3, 4 asked to become [1, 3]: the removal loop drops the wanted role 3 and keeps role 4 |
| Medlem.OneRemovalAgrees | App/Models/Medlem.php:46-61 | with freshly loaded, loosely distinct roles and at most one role to remove, the code as written equals the corrected update |
| Medlem.RemovalsAgree | App/Models/Medlem.php:46-61 | the two updates differ only in their removal step |
| Medlem.NothingRemovedAgrees | App/Models/Medlem.php:49-53 | when every held role is wanted, both removals leave the roles alone |
| Medlem.HasRole | App/Models/Medlem.php:63-67 | true iff some held id loosely equals the searched role |
| Medlem.HasRoleAfterUpdate | App/Models/Medlem.php:46-67 | after either update every requested role is held; after the corrected one only roles loosely equal to a requested one are |
| Medlem.NewMember | App/Models/Medlem.php:10-39 | a new member has no id, no string property initialized and no password, the six preferences at their defaults (only `pref_kommunikation` true), no roles and empty timestamps |
| Medlem.Namn | App/Models/Medlem.php:41-44 | `getNamn()`: first name, one space, last name, a null first name reading as ""; none when a name is uninitialized; `Medlem.NamnSplits` reads the names back |
| Medlem.NamnSplits | App/Models/Medlem.php:41-44 | a first name without spaces and the last name can be read back off the display name |
| MedlemValidator.Missing | App/Services/MedlemDataValidatorService.php:80-97 | a required field is reported iff its sanitized value is PHP-empty, in the order of the required list |
| MedlemValidator.CopyFields | App/Services/MedlemDataValidatorService.php:106-117 | every sanitized string property is assigned its value; every other property is left as it was |
| MedlemValidator.SetFlags | App/Services/MedlemDataValidatorService.php:126-131 | each preference is true iff it survived sanitizing as a non-null value; nothing else changes |
| MedlemValidator.RollerArg | App/Services/MedlemDataValidatorService.php:61-140 | absent or null roles give the empty list; only a list or an array of strings passes the `array` parameter, anything else is a TypeError |
| MedlemValidator.UpdateRoller | App/Services/MedlemDataValidatorService.php:140-145 | an empty list changes nothing; a non-empty one is the role update as written; the other properties are untouched |
| MedlemValidator.UpdateRollerKeepsStaleRole | App/Services/MedlemDataValidatorService.php:140-145 | through the validator too, roles 1, 2, 3 posted as [1] keep role 3 |
| MedlemValidator.Update | App/Services/MedlemDataValidatorService.php:67-71 | the update steps never reject; they succeed iff the roles argument is an array, and the email flag is set iff it was set before or a set email differs |
| MedlemValidator.ValidateAndPrepare | App/Services/MedlemDataValidatorService.php:55-72 | a sanitizer exception is thrown on with its message; a form is rejected iff a required field is empty, with the message naming them; an accepted form posted no id and had array roles; the email flag as in `updateMedlemFields` |
| MedlemValidator.PrepareClean | App/Services/MedlemDataValidatorService.php:63-71 | after sanitizing: rejected iff a required field is missing, with the message naming them; accepted only without a posted id and with array roles, keeping the roles well keyed; the email flag set iff it was or a set email differs |
| MedlemValidator.SanitizeIdPresent | App/Services/MedlemDataValidatorService.php:17-58 | the id is among the sanitized values iff it was posted |
| MedlemValidator.RulesDistinct | App/Services/MedlemDataValidatorService.php:16-34 | each field has one rule |
| MedlemValidator.PostedBooleanFails | App/Services/MedlemDataValidatorService.php:28-33 | the sanitizer has no rule 'bool', so a posted preference makes it throw |
| MedlemValidator.PostedBooleanThrows | App/Services/MedlemDataValidatorService.php:28-58 | posting any preference ends in an exception: the form can never switch one on |
| MedlemValidator.PostedBooleanMessage | App/Utils/Sanitizer.php:61-62 | with string fields, posting a preference throws exactly the `InvalidArgumentException` "Sanitization rule 'bool' does not exist." |
| MedlemValidator.StringsFailOnlyOnBool | App/Services/MedlemDataValidatorService.php:16-34 | on a string, the only rule of the form that can fail is the missing 'bool' |
| MedlemValidator.SanitizedKeys | App/Services/MedlemDataValidatorService.php:16-34 | without a posted id, a successful sanitize gives string properties only |
| MedlemValidator.AcceptedMember | App/Services/MedlemDataValidatorService.php:67-145 | an accepted form copies the sanitized strings and nothing else, switches every preference off, applies the role update as written to non-empty roles, and keeps the id |
| MedlemValidator.BirthDateEmpty | App/Services/MedlemDataValidatorService.php:18 | a sanitized birth date is empty iff the trimmed posted value fails the Y-m-d round trip |
| MedlemValidator.BirthDateCounted | App/Services/MedlemDataValidatorService.php:18-97 | a posted birth date counts as missing iff it is not a canonical valid Y-m-d date, and such a form is rejected |
| MedlemValidator.EmailChangeFromPost | App/Services/MedlemDataValidatorService.php:111-113 | with an address made of email characters, the flag is set iff it was already set or a set email differs from the trimmed address |
| MedlemValidator.NoRequiredFieldPosted | App/Services/MedlemDataValidatorService.php:84-93 | a form without the required fields is rejected naming all three, in order |
| MedlemValidator.RequiredMessage | App/Services/MedlemDataValidatorService.php:91 | the message naming every required field |
| MedlemValidator.FormApplies | App/Services/MedlemDataValidatorService.php:16-34 | a form of plain names, a valid date and a plain email passes every rule |
| MedlemValidator.CompleteFormAccepted | App/Services/MedlemDataValidatorService.php:55-117 | a complete form is accepted, the member takes the posted names, birth date and email, and the email counts as changed iff the flag was set or a set email differs |
| MedlemValidator.CompleteFormUpdates | App/Services/MedlemDataValidatorService.php:55-69 | a complete form passes the required check and reaches the update steps |
| MedlemValidator.ReachesUpdate | App/Services/MedlemDataValidatorService.php:63-69 | without an id and with nothing missing, the form reaches the update steps |
| PasswordService.ByteLength | App/Services/Auth/PasswordService.php:21 | `strlen` counts UTF-8 bytes: between one and four per character |
| PasswordService.LocalPart | App/Services/Auth/PasswordService.php:37 | `strstr(..., '@', true)`: false iff there is no '@'; otherwise the text before the first '@' |
| PasswordService.NameParts | App/Services/Auth/PasswordService.php:45-46 | split iff the local part holds a '.': the text before the first '.' and the rest |
| PasswordService.Message | App/Services/Auth/PasswordService.php:20-54 | the source's message text for each of the seven rules; `UserAuthenticationService.Messages` lists them per error |
| PasswordService.ClassViolations | App/Services/Auth/PasswordService.php:20-34 | exactly the length and character-class rules that fire, in check order |
| PasswordService.NameViolations | App/Services/Auth/PasswordService.php:45-54 | exactly the first-name and last-name rules that fire, in check order |
| PasswordService.MailViolations | App/Services/Auth/PasswordService.php:36-54 | exactly the address-based rules that fire, in check order |
| PasswordService.Violations | App/Services/Auth/PasswordService.php:18-56 | exactly the rules that fire, in check order |
| PasswordService.ValidatePassword | App/Services/Auth/PasswordService.php:16-57 | an address without '@' makes `strtolower(false)` throw under strict types; otherwise the errors are exactly the rules that fire for the local part, in check order |
| PasswordService.PasswordsMatch | App/Services/Auth/PasswordService.php:66-69 | true iff the two strings are identical |
| PasswordService.InCheckOrderUnique | App/Services/Auth/PasswordService.php:18-56 | two lists in check order with the same errors are the same list |
| PasswordService.AtMostSeven | App/Services/Auth/PasswordService.php:18-56 | at most seven errors are reported |
| PasswordService.ValidatePasswordIsUnique | App/Services/Auth/PasswordService.php:16-57 | any list in check order holding exactly the firing rules is the result |
| PasswordService.MailPartBringsNames | App/Services/Auth/PasswordService.php:40-53 | a password holding a dotted local part also holds both its halves, so the mail error never comes alone |
| PasswordService.EmptyLocalPartAlwaysFires | App/Services/Auth/PasswordService.php:37-42 | an address starting with '@' has an empty local part, which every password contains |
| PasswordService.LengthCountsBytes | App/Services/Auth/PasswordService.php:21 | four two-byte letters pass the eight-character minimum |
| PasswordService.AsciiByteLength | App/Services/Auth/PasswordService.php:21 | on ASCII text the byte length is the character count |
| PasswordService.NoNameLetters | App/Services/Auth/PasswordService.php:16-57 | a password with every character class, long enough, holding neither name half's first letter is accepted for first.last at any domain |
| PasswordService.AcceptsTestPass | App/Services/Auth/PasswordService.php:16-57 | "TestPass123" is accepted for john.doe at any domain |
| PasswordService.ShortClasses | App/Services/Auth/PasswordService.php:20-34 | "short" breaks the length, uppercase and digit rules |
| PasswordService.ShortPasswordErrors | App/Services/Auth/PasswordService.php:16-57 | "short" for test at any domain gives exactly the length, uppercase and digit errors |
| PasswordService.LocalPartInPassword | App/Services/Auth/PasswordService.php:36-54 | a password of every class starting with first.last breaks the mail and both name rules, and only those |
| PasswordService.RejectsNameInPassword | App/Services/Auth/PasswordService.php:36-54 | "john.doePass123" breaks the mail, first-name and last-name rules for john.doe |
| PasswordService.MatchIsStrict | App/Services/Auth/PasswordService.php:68 | "1" and "01" do not match though PHP's `==` equates them |
| Php.Lookup | App/Utils/Session.php:62 | `$a[$k] ?? null` is null exactly when the key is not set |
| Php.Trim | App/Utils/Sanitizer.php:58 | `trim`: no trim character at either end, no longer than the input, and empty iff the input consists of trim characters |
| Php.TrimExact | App/Utils/Sanitizer.php:58 | `trim` removes exactly the leading and trailing trim characters, and any string so obtained is the result |
| Strings.TrimByUnique | App/Utils/Sanitizer.php:58 | a string cut from the input with only trimmed characters outside it and none at its ends is the trim |
| Php.Lower | App/Services/Auth/PasswordService.php:38 | `strtolower` keeps the length and maps each character on its own |
| Php.LooseEqStrDigits | App/Models/Medlem.php:57 | under `==`, two digit strings are equal iff their decimal values are |
| Php.LooseEqStrNumeric | App/Models/Medlem.php:66 | "1" and "01" are loosely equal although they differ as strings |
| Php.LooseEqStrSymmetric | App/Models/Medlem.php:66 | loose equality of strings is symmetric |
| Php.SearchLoose | App/Models/Medlem.php:51 | `array_search` finds nothing iff no element is loosely equal; otherwise the first loosely equal position |
| Php.SearchLooseAt | App/Utils/CsvImporter.php:206 | a loosely equal position with none before it is the search result |
| Php.IntCast | App/Services/SeglingService.php:121-123 | `(int)` of a string: leading whitespace, an optional sign and the longest run of digits, else 0; `Php.IntCastOfDigits` and `Php.IntCastOfIntToString` show it reads back decimal digits and rendered integers |
| Php.IntCastOfIntToString | App/Services/SeglingService.php:121-122 | the `(int)` cast undoes the decimal rendering of any integer |
| Php.StrReplaceAbsent | App/Services/Github/GitHubService.php:93 | a string without the search string is returned unchanged |
| Php.StrReplaceAtStart | App/Services/Github/GitHubService.php:93 | a leading occurrence is replaced and the rest processed on its own |
| Php.StrReplaceKeepsPrefix | App/Services/Github/GitHubService.php:93 | characters before the first occurrence are copied unchanged |
| Php.Explode | App/Application.php:236 | `explode` with a one-character delimiter: pieces free of the delimiter that join back to the input |
| Sanitizer.RuleName | App/Utils/Sanitizer.php:60 | a listed rule is named by its first element; an empty list reads null, the empty key |
| Sanitizer.RuleArgument | App/Utils/Sanitizer.php:68 | `$rule[1] ?? null`: a list's second element, or a bare name's second character |
| Sanitizer.FilterVar | App/Utils/Sanitizer.php:17-70 | the filter keeps exactly the whitelisted characters, each as often as in the input |
| Sanitizer.FilterVarKeepsClean | App/Utils/Sanitizer.php:70 | a string within the whitelist passes unchanged |
| Sanitizer.FilterVarIdempotent | App/Utils/Sanitizer.php:70 | filtering twice is filtering once |
| Sanitizer.EscapeChar | App/Utils/Sanitizer.php:76-79 | a special character becomes an entity starting with '&'; any other character is kept |
| Sanitizer.HtmlEscape | App/Utils/Sanitizer.php:76-79 | the escaped text never gets shorter and holds no '<', '>', '"' or '\'' |
| Sanitizer.HtmlRoundTrip | App/Utils/Sanitizer.php:76-79 | decoding the entities gives back the original text |
| Sanitizer.HtmlEscapePlain | App/Utils/Sanitizer.php:76-79 | text with no special character is unchanged |
| Sanitizer.HtmlEscapeNotIdempotent | App/Utils/Sanitizer.php:76-79 | text with a special character changes when sanitized a second time |
| Sanitizer.HtmlEscapeGrows | App/Utils/Sanitizer.php:76-79 | text with a special character gets longer |
| Sanitizer.SanitizeDate | App/Utils/Sanitizer.php:81-85 | the value when it survives parsing and rendering in the format, otherwise null; a missing format is a `TypeError` |
| Sanitizer.Apply | App/Utils/Sanitizer.php:56-79 | success only for a string under a known rule; the string rule always succeeds, and its result decodes back to the trimmed value |
| Sanitizer.HtmlDecode | App/Utils/Sanitizer.php:78 | decoding never lengthens; `Sanitizer.HtmlRoundTrip` shows it undoes `htmlspecialchars` |
| Sanitizer.ApplyOutcomes | App/Utils/Sanitizer.php:56-74 | a non-string value is a `TypeError`, an unknown rule name is an `InvalidArgumentException` naming it, success only for strings under known rules |
| Sanitizer.ApplyString | App/Utils/Sanitizer.php:58-79 | the string rule gives the escaped trimmed value, which decodes back to it |
| Sanitizer.ApplyFilter | App/Utils/Sanitizer.php:58-70 | a bare filter rule filters the trimmed value; a listed filter rule is a `TypeError` at `isset($this->sanitizing_rules[$rule])` |
| Sanitizer.ApplyDate | App/Utils/Sanitizer.php:58-85 | the date rule with a format keeps the trimmed value iff it survives the format |
| Sanitizer.ApplyDateWithoutFormat | App/Utils/Sanitizer.php:60-68 | bare 'date' passes the character "a" as the format and nulls every value; `['date']` passes null to a string parameter |
| Sanitizer.SanitizeFrom | App/Utils/Sanitizer.php:35-39 | the loop succeeds iff every present field's rule does, and adds exactly the present fields |
| Sanitizer.Sanitize | App/Utils/Sanitizer.php:31-42 | the result holds exactly the fields the input carries a non-null value for |
| Sanitizer.SanitizeValues | App/Utils/Sanitizer.php:35-39 | with distinct fields, each present field holds its own rule's result |
| Sanitizer.SanitizeFirstError | App/Utils/Sanitizer.php:35-39 | a failure is the error of the first present field whose rule fails |
| Sanitizer.SanitizeIgnoresAbsent | App/Utils/Sanitizer.php:36 | a field that is absent or null is not in the result and does not affect it |
| Segling.NewSegling | App/Models/Segling.php:31-49 | the default constructor gives id 0, empty strings, no comment and no crew |
| Segling.Picks | App/Models/Segling.php:63-67 | each result row is the id and both names of its source row |
| Segling.GetDeltagareByRoleName | App/Models/Segling.php:57-71 | the picked fields of the crew rows whose role name is identical to the target, in order |
| Segling.MatchingInOrder | App/Models/Segling.php:61-69 | the matches are the rows at increasing positions that carry the role, and every such row is among them |
| Segling.MatchingMembership | App/Models/Segling.php:61-69 | a row is matched iff it is crew and carries the role |
| Segling.EmptyIffNoMatch | App/Models/Segling.php:57-71 | the result is empty iff no crew row carries the role |
| Segling.StrictRoleMatch | App/Models/Segling.php:62 | an integer role name matches no target under `===` |
| Segling.CaseSensitiveRole | App/Models/Segling.php:62 | "Skeppare" does not match "skeppare" |
| Segling.FirstAndLastMatch | App/Models/Segling.php:57-71 | of three rows, the first and last carrying the role are returned in order |
| SeglingService.YearOfDate | App/Services/SeglingService.php:41 | a start date beginning with four digits gives the year they spell |
| SeglingService.MarkRow | App/Services/SeglingService.php:44-48 | each participant gains `har_betalt` from the payment lookup for its id and year; every other column is kept |
| SeglingService.WithPayments | App/Services/SeglingService.php:44-50 | a non-integer member id is a `TypeError` under strict types; otherwise every row is marked, in order |
| SeglingService.EditData | App/Services/SeglingService.php:33-50 | a missing trip throws "Segling not found"; otherwise the trip with every participant marked and nothing else changed |
| SeglingService.EditDataKeepsCrewLookup | App/Services/SeglingService.php:44-50 | marking payments changes no role lookup on the trip |
| SeglingService.UpdateSegling | App/Services/SeglingService.php:61-77 | a sanitizer failure propagates; otherwise success iff the repository accepts the sanitized fields, with the source's messages and route |
| SeglingService.DeleteSegling | App/Services/SeglingService.php:79-88 | success iff the repository deletes; both outcomes redirect to the list |
| SeglingService.CreateFromClean | App/Services/SeglingService.php:101-112 | a missing field fails before the repository; otherwise success iff the new id is truthy, then redirecting to the editor with that id |
| SeglingService.CreateSegling | App/Services/SeglingService.php:90-113 | the sanitized form decides the outcome as above |
| SeglingService.CreateChecksBeforeRepository | App/Services/SeglingService.php:102-104 | a form missing a field gives the same failure whatever the repository would do |
| SeglingService.InvalidStartDateIsMissing | App/Services/SeglingService.php:93-104 | a start date that does not survive "Y-m-d" is nulled and reported as missing input |
| SeglingService.RoleArgument | App/Services/SeglingService.php:123 | no role id iff the form does not carry one |
| SeglingService.AddMember | App/Services/SeglingService.php:115-138 | missing input, already aboard, inserted, failed insert or `PDOException` message; the insert is called iff both ids are set and the member is not aboard, with the cast ids |
| SeglingService.RemoveMember | App/Services/SeglingService.php:140-157 | falsy ids give "Invalid data" without a call; otherwise the cast ids are removed and success is the repository's answer |
| SeglingService.RemoveTruthinessNotCast | App/Services/SeglingService.php:145-150 | a truthy id starting with a letter passes the check and is cast to 0; "0" is rejected |
| SeglingService.LetterCastsToZero | App/Services/SeglingService.php:150 | a string starting with a letter casts to 0 |
| Session.Get | App/Utils/Session.php:60-63 | the stored value, null when absent |
| Session.Set | App/Utils/Session.php:38-41 | only the key changes, and it reads the new value |
| Session.Remove | App/Utils/Session.php:70-73 | the key reads null afterwards and the other keys are kept |
| Session.SetFlashMessage | App/Utils/Session.php:49-52 | the flash message is replaced and nothing else changes |
| Session.IsAdmin | App/Utils/Session.php:100-103 | `is_admin` is set and is the boolean true itself; `Session.AdminIsStrict` shows 1 and "1" are not |
| Session.IsLoggedIn | App/Utils/Session.php:90-93 | a user id is stored, whatever its value; `Session.LoggedInIffStored` and `AuthenticationMiddleware.FalsyUserIdIsLoggedOut` relate it to the gates |
| Session.Flash | App/Utils/Session.php:51 | the flash message is the array of its type and its text; `Session.SetFlashMessage` stores it |
| Session.AdminIsStrict | App/Utils/Session.php:100-103 | only the boolean true makes an admin: 1 and "1" do not |
| Session.LoggedInIffStored | App/Utils/Session.php:90-93 | any stored user id but null counts as logged in |
| Session.SessionDataForViews | App/Utils/Session.php:110-120 | the six view fields read the session, with logged-in iff a user id is stored |
| TokenHandler.Sextet | App/Utils/TokenHandler.php:27 | the base64 alphabet: the first 62 digits are letters and digits, none is '=' |
| TokenHandler.Group2 | App/Utils/TokenHandler.php:27 | two trailing bytes encode to three digits and one '=' |
| TokenHandler.Group1 | App/Utils/TokenHandler.php:27 | one trailing byte encodes to two digits and two '=' |
| TokenHandler.Blocks | App/Utils/TokenHandler.php:27 | the number of four-character groups covers the bytes in threes |
| TokenHandler.Base64 | App/Utils/TokenHandler.php:27 | `base64_encode` gives four characters per started group of three bytes, padded with '=' as the remainder requires |
| TokenHandler.GenerateToken | App/Utils/TokenHandler.php:23-29 | twenty random bytes, encoded and stripped, give between 1 and 27 letters and digits |
| TokenHandler.SaveToken | App/Utils/TokenHandler.php:31-59 | a caught storage failure returns false and stores nothing; otherwise one row is appended, with the password hash only for activation tokens |
| TokenHandler.HashOrEmpty | App/Utils/TokenHandler.php:80 | `?: ''`: null, "" and "0" read as "" and any other hash is kept |
| TokenHandler.IsValidToken | App/Utils/TokenHandler.php:61-82 | "not valid" iff no row has both the token and the type; otherwise the first such row decides: older than 30 minutes gives the expiry message, else its email and its hash read through `?: ''` |
| TokenHandler.FirstWhereMatches | App/Utils/TokenHandler.php:64-68 | the fetch finds no row iff none matches token and type, and otherwise the unique first matching row |
| TokenHandler.Expired | App/Utils/TokenHandler.php:75-77 | a row is expired when the clock is past its creation time plus 1800 seconds; `TokenHandler.ExpiryBoundary` pins the boundary |
| TokenHandler.TypeMustMatch | App/Utils/TokenHandler.php:64 | a reset token never validates as an activation token |
| TokenHandler.SavedTokenValidates | App/Utils/TokenHandler.php:31-82 | a fresh token validates with its email and hash until 1800 seconds have passed, then reports expiry |
| TokenHandler.ExpiryBoundary | App/Utils/TokenHandler.php:75-77 | a token is still valid at exactly 1800 seconds and expired at 1801 |
| TokenHandler.DeleteToken | App/Utils/TokenHandler.php:84-95 | every row with the token goes, whatever its type, and only those |
| TokenHandler.DeletedTokenInvalid | App/Utils/TokenHandler.php:84-95 | after deletion the token is not valid for any type |
| TokenHandler.DeleteExpiredTokens | App/Utils/TokenHandler.php:97-104 | rows older than one hour go, the rest stay, and the count is the number removed |
| TokenHandler.ValidTokensSurviveCleanup | App/Utils/TokenHandler.php:75-99 | cleanup never removes the row that makes a token valid |
| TokenHandler.ExpiredButRetained | App/Utils/TokenHandler.php:75-99 | between 30 and 60 minutes a token is reported expired yet kept |
| UserAuthenticationService.FormString | App/Services/Auth/UserAuthenticationService.php:42-43 | a form field read where a string is required: present only when it holds a string |
| UserAuthenticationService.FormEmail | App/Services/Auth/UserAuthenticationService.php:37-41 | the sanitized email: a `TypeError` for a non-string, null when the field is not set |
| UserAuthenticationService.FormEmailIsSanitize | App/Services/Auth/UserAuthenticationService.php:37-41 | the email read agrees with the sanitizer run on the rule `'email' => 'email'` |
| UserAuthenticationService.Messages | App/Services/Auth/PasswordService.php:21-54 | one message per password error, in order |
| UserAuthenticationService.FormatPasswordErrors | App/Services/Auth/UserAuthenticationService.php:70-76 | the errors as an HTML list: opens with `<ul>`, closes with `</ul>`, nine characters of markup per item |
| UserAuthenticationService.ItemsListEvery | App/Services/Auth/UserAuthenticationService.php:70-76 | every message appears as its own list item |
| UserAuthenticationService.FormatTwo | App/Services/Auth/UserAuthenticationService.php:70-76 | two messages give the list of exactly those two items |
| UserAuthenticationService.SavePassword | App/Services/Auth/UserAuthenticationService.php:210-225 | only the account with that address changes, and only its password; a caught failure changes nothing |
| UserAuthenticationService.SendMail | App/Services/Auth/UserAuthenticationService.php:227-251 | a boolean site address throws outside the `try`; otherwise the mailer's outcome |
| UserAuthenticationService.CheckPasswords | App/Services/Auth/UserAuthenticationService.php:64-77 | no reply iff both passwords are strings, identical and violation-free; a mismatch gives its message; every reply is a failure |
| UserAuthenticationService.ShortPasswordHitsUndefinedFormat | App/Services/Auth/UserAuthenticationService.php:64-77 | as written, "short" for test at any domain ends in the undefined-method `Error`; with the formatter it gets the list of its three errors |
| UserAuthenticationService.RegisterUserAsWritten | App/Services/Auth/UserAuthenticationService.php:35-108 | as written, no registration succeeds and no account changes: the member built at line 55 has no first name, so sending the mail fails |
| UserAuthenticationService.RegisteredMemberGetsNewToken | App/Services/Auth/UserAuthenticationService.php:55-86 | as written, an already registered member is not turned away: the token store gains exactly one activation row, for that address, with the hash of the new password |
| UserAuthenticationService.RegisterUser | App/Services/Auth/UserAuthenticationService.php:35-108 | with the looked-up member: an account with a password is turned away; success stores the activation token with the hash and mails the member's first name |
| UserAuthenticationService.RegisterAccount | App/Services/Auth/UserAuthenticationService.php:57-95 | the steps after the lookup, in the source's order of checks |
| UserAuthenticationService.ActivateAccount | App/Services/Auth/UserAuthenticationService.php:110-131 | an invalid token returns the token check's reply; success iff the token is valid for a known account, which then gets the stored hash, and the token is deleted |
| UserAuthenticationService.ActivateOnce | App/Services/Auth/UserAuthenticationService.php:112-123 | a second activation with the same token is refused |
| UserAuthenticationService.RegisterThenActivate | App/Services/Auth/UserAuthenticationService.php:35-131 | registering and then activating within 30 minutes sets the account's password to the hash of the registered password |
| UserAuthenticationService.RequestPasswordReset | App/Services/Auth/UserAuthenticationService.php:133-166 | an unknown address fails with no change; otherwise a reset token is stored and mailed, and success is the mailer's |
| UserAuthenticationService.ResetChecks | App/Services/Auth/UserAuthenticationService.php:175-193 | no reply iff the address and both passwords are strings, the passwords match and pass validation |
| UserAuthenticationService.ResetPasswordAsWritten | App/Services/Auth/UserAuthenticationService.php:173-208 | as written, the password is saved for a known address whatever the token |
| UserAuthenticationService.ResetWithoutValidToken | App/Services/Auth/UserAuthenticationService.php:173-208 | as written, a token that was never issued still resets the password |
| UserAuthenticationService.ResetPassword | App/Services/Auth/UserAuthenticationService.php:168-208 | with the token checked: a password changes only for the address the valid reset token was issued to |
| UserAuthenticationService.ResetWithToken | App/Services/Auth/UserAuthenticationService.php:195-207 | the database steps of a reset after the token check |
| UserAuthenticationService.RequestThenReset | App/Services/Auth/UserAuthenticationService.php:133-208 | a requested reset followed by a reset with the mailed token sets the new password's hash |
| MedlemService.RefreshAliases | App/Services/MedlemService.php:193-201 | the alias service gets the alias name and the active addresses iff the enable setting is truthy and the alias name is set; a boolean setting throws, and an unset alias name throws the `updateAlias` TypeError and sends nothing |
| MedlemService.UnsetAliasNameIsFatal | App/Services/MedlemService.php:195-199 | with aliases enabled and no alias name in the environment, refreshing sends no update and fails with the `updateAlias` TypeError |
| MedlemService.UnsetAliasNameFailsCreate | App/Services/MedlemService.php:136-150 | with aliases enabled and no alias name, creating a member stores the member but the request fails with the `updateAlias` TypeError and no alias update is sent |
| MedlemService.BooleanAliasSettingIsFatal | App/Services/MedlemService.php:195 | SMARTEREMAIL_ENABLED=true in the environment makes the refresh throw before any alias update |
| MedlemService.Finish | App/Services/MedlemService.php:107-150 | the saved member is kept; success iff the alias refresh did not throw and the member has both names, with "Medlem <name><verb>" |
| MedlemService.UpdateMember | App/Services/MedlemService.php:80-116 | not found, rejected, save failure or success; only an accepted member is stored, aliases are refreshed only after a save that changed the address |
| MedlemService.RejectedUpdateWritesNothing | App/Services/MedlemService.php:91-97 | a rejected form returns to the editor with no message, no save and no alias update |
| MedlemService.FinishMessageNamesMember | App/Services/MedlemService.php:113-148 | the success message is "Medlem ", the member's name, then the verb |
| MedlemService.UpdateMessageNamesMember | App/Services/MedlemService.php:111-115 | a successful update names the stored member, followed by " uppdaterad!" |
| MedlemService.CreateMember | App/Services/MedlemService.php:124-151 | a rejected form goes back to the new-member page; a failed save to the create route; after a save the aliases are always refreshed |
| MedlemService.SaveNew | App/Services/MedlemService.php:128-150 | only an accepted member is stored; aliases are refreshed only after a successful save; a rejection goes back to the new-member page and a failed save to the create route |
| MedlemService.CreateRejectsPostedId | App/Services/MedlemService.php:124-134 | a form carrying an id never creates a member |
| MedlemService.DeleteMember | App/Services/MedlemService.php:159-186 | success iff the member exists, the deletion succeeds, the alias refresh does not throw and the log line can read both names; an uninitialized name is the typed-property `Error` |
| MedlemService.FailureLeavesAliasAlone | App/Services/MedlemService.php:99-178 | when the repository write fails, no alias update is sent |

Where the code and its comments or tests disagree, the model follows the
code:

- `validatePassword` with an address lacking '@': `strstr` returns false, and under strict types `strtolower(false)` throws. The mail error does not simply fire.
- `getConfig` is declared `string|null`, but `loadConfig` turns "true" and "false" into booleans. Reading such a setting is a `TypeError`.
- The sanitizer has no 'bool' rule. Any form that posts a boolean field of a member makes it throw.
- The CSRF mismatch answers 401. The rejection response is the code's, not the 403 some tests expect.
- `formatPasswordErrors` is called by the authentication service but defined nowhere in `PasswordService`. The corrected model formats the errors as the unit test for it expects.

## Left out

- The views, layouts, controllers, repositories, `Database` and `BaseModel` are SQL and HTTP plumbing. Their results are parameters of the services that call them.
- Logging is left out throughout: no outcome depends on it.
- `Application`'s loading of `.env` and the router are not modelled. Neither are `run`, the session start, or the `class_exists`/`method_exists` checks of `dispatch`; only its target split is.
- The PSR-15 base class, `jsonResponse`, `doExit`, and the `Location`/302 headers are outside the model. The middlewares are modelled as decisions: pass, or answer with a described response.
- `Session::start`, `regenerateId` and `destroy` are runtime effects of PHP's session handling.
- Cryptography is not modelled: `password_hash`, `password_verify` and `hash_hmac`. A password hash is an opaque function parameter.
- The webhook signature check (`validateSignature`) and the disabled check in the webhook controller are left out.
- `random_bytes` and the clock are inputs. `strtotime` is an opaque parameter in the importer and the token store, and times are whole seconds.
- TokenHandler.IsValidToken: the SQL `SELECT` has no `ORDER BY`. The model lets the first matching row in insertion order decide.
- The git `exec` calls, the shell and the filesystem are left out. Each git step is an abstract outcome, and the directory test is a boolean input.
- The mailers (PHPMailer templates, the SmarterMail alias service over Guzzle) and Turnstile are left out. A send is an `Effect`, a value or the exception it threw.
- The CSV file reading, `addJohanWithPwdAndAdmin`, `deleteMedlemmar`, the SQL of `addRolesForMember` and `addPaymentsForMember`, the report `echo`s and the importer's top-level script are left out. The row checks, the role linking, the payment mapping and the control flow of `insertToDb` are modelled.
- CsvImporter.ImportRowWith: `$member->create()` is an input, the created id or a caught `PDOException`. `Medlem` defines no `create` method, so as written that call would be an `Error` too; the preference's `TypeError` comes first on every row. A `PDOException` from the role or payment inserts is not modelled. The string properties the loop assigns are not part of the outcome.
- pandas `read_excel`, `read_csv`, `to_csv`, the printed report and its timestamp are I/O. The duplicate finder's outcome names which message would be printed.
- Floating point is left out. Spreadsheet numbers are integers and NaN is an explicit `Missing` cell. Payment amounts are the integers the `float` filter leaves behind.
- The pass-through reads are not modelled: `getAllPayments`, `getAllSeglingar`, `getAllRoles`, `getAllMembers`, `validateResetToken` and `getMemberEditData`. They hand a repository result back unchanged, and `getMemberEditData`'s only decision is the "Medlem not found" exception.
- SeglingService.EditData: the three crew-role lists of `getSeglingEditData` are plain repository reads and are not part of the result.
- SeglingService.AddMember: `isMemberOnSegling` is a total boolean input. An exception it throws sits outside the `try` and would propagate, and that path is not modelled. An exception from the insert is taken to be a `PDOException`; any other kind would propagate instead of becoming the 'PDO error: ' reply.
- MiddlewareStack.Process: a middleware either answers or delegates exactly once. PSR-15 lets a middleware call `$handler->handle` several times or not at all after inspecting a response, and that is not modelled.
- CsvImporter.LinkOne: loose `==` treats only integer-like numeric strings numerically: optional whitespace, optional sign, digits. PHP 8 also compares "1.0", "1e0" and ".5" as numbers, and the model compares those as strings.
- Medlem.AddNew: the same limit of loose `in_array` applies. A role id "1.0" is not recognised as equal to "1".
- Medlem.HasRole: the same limit applies to `in_array` over the role ids.
- DateFormat.SurvivesIffCanonical: only the format letters Y, m, d, H, i and s are modelled. Years run from 0 to 9999, the four digits `createFromFormat` reads for 'Y'; negative (BCE) years are not modelled. A format naming a month or a day without all of year, month and day takes the rest from today's date, and is left unsupported.
- DateFormat.CanonicalSurvives: stated for the supported formats only. The code passes "Y-m-d" and "Y-m-d H:i:s", which are supported; a clock-dependent format is not promised anything.
- DateFormat.SurvivesIffParsesValid: likewise stated for the supported formats only; for an unsupported format the model reports that nothing survives.
- DateFormatter.FormatDateYmd: time zones, leap seconds and `DateTime`'s other parsing modes are left out. Validity is the Gregorian calendar predicate.
- Php.Trim: the contract states the ends, the length bound and when the result is empty. That exactly the surrounding trim characters are removed is the separate lemma `Php.TrimExact`, because as an `ensures` its existential offset makes every caller that also knows `Trim(s) == s` unroll positions without end.
- CsvExporter.Strip: the same split, with `CsvExporter.StripExact` stating the exact removal.
- Medlem.Namn: `Medlem.php` declares `efternamn` as a non-null `string`, so PHP never holds null there. The model keeps every string property as an optional value and reads a null last name like an uninitialized one. The declared `string` is taken as intended: a null last name cannot arise in PHP, and the model gives it the same `Error` as an uninitialized one.
- TokenHandler.SaveToken: `prepare` runs before the `try` (TokenHandler.php lines 35-39), so an exception it throws would propagate instead of returning false. Only the failures inside the `try` are modelled.
- Php.IntCast: exponent forms are not modelled: PHP 8 casts "1e3" to 1000, the model to 1. The result is an unbounded integer: PHP saturates an out-of-range numeric string such as "99999999999999999999" at PHP_INT_MAX. Posted ids and amounts that reach the cast in `SeglingService` and `BetalningService` are read accordingly.
- UserAuthenticationService.SavePassword: `prepare` runs before the `try` (UserAuthenticationService.php line 212), so an exception it throws would propagate out of `activateAccount` or `resetPassword` instead of returning false. Only the failures inside the `try` are modelled.
- Middleware.IsOpenRoute: the loose-`==` limit of `CsvImporter.LinkOne` applies to this `in_array` too: PHP 8 also equates "4.04e2" or "404.0" with "404", and the model compares those as strings.
- PasswordService.ByteLength: strings are sequences of characters. `strlen` is modelled by each character's UTF-8 width, not by an encoding of the string.
- DuplicateFinder.FindDuplicates: the sort is a stable insertion sort. pandas' default sort is not guaranteed stable, so this is one of the orders pandas may produce within a key.
- MedlemService.RefreshAliases: the active members' addresses are an input, and a failure of `getEmailForActiveMembers` is not modelled.
- UserAuthenticationService.SendMail: the router's `generate` is assumed not to throw for the two fixed route names.
- The member lookups assume the repositories find a member by exact address and take string parameters, as their SQL does.

## Findings

| source | as written | input that shows it | evidently intended | confidence | as-written member | corrected member |
|---|---|---|---|---|---|---|
| App/Models/Medlem.php:46-53 | each role to remove is found by its position in the re-indexed `array_column`, but `unset` removes the original key at that number | roles 1, 2, 3 updated to ["1"]: the first removal unsets key 1, the second searches for "3", finds position 1 and unsets the already missing key 1, so role 3 stays | after the update the roles are exactly the requested ids | not executed | Medlem.StaleRoleAsWritten | Medlem.UpdateRolesExact |
| App/Services/Auth/UserAuthenticationService.php:55-106 | the member found by address is replaced by `new Medlem(...)`, whose constructor takes no arguments: its password is null and its first name uninitialized | any registration of an existing address: the already-registered check never fires, a new activation token is stored, and reading the first name for the mail throws | check the found member's password and mail its first name | not executed | UserAuthenticationService.RegisteredMemberGetsNewToken | UserAuthenticationService.RegisterThenActivate |
| App/Services/Auth/UserAuthenticationService.php:173-208 | `resetPassword` never checks the token it is given | a known address, a token that was never issued, and a matching valid password: the password is changed and success is reported | reset only with a valid reset token issued to that address | not executed | UserAuthenticationService.ResetWithoutValidToken | UserAuthenticationService.RequestThenReset |
| App/Services/Auth/UserAuthenticationService.php:71-76 | a password that breaks a rule reaches `formatPasswordErrors`, which `PasswordService` does not define | registering or resetting with "short" for test@domain: the call throws an `Error` instead of listing the three broken rules | reply with the errors as an HTML list | not executed | UserAuthenticationService.ShortPasswordHitsUndefinedFormat | UserAuthenticationService.FormatTwo |
| App/Utils/CsvImporter.php:81-86 | the ints 0 and 1 are assigned to the `bool` properties `pref_kommunikation`, `godkant_gdpr` and `isAdmin` under `declare(strict_types=1)`, and the row is then stored through `$member->create()`, which `Medlem` does not define | any file with a row that has a birth date and a surname: the first assignment throws a `TypeError` outside the `try`, so `insertToDb` stops at the first row and imports nothing | assign the booleans, create the member, then link its roles and payments | not executed | CsvImporter.EveryRowFails | CsvImporter.ImportRowStores |

=== FILE: application.dfy ===
/**
 * The parts of the application object with behaviour of their own: the
 * conversion of environment strings into configuration values, the
 * environment and configuration getters, and the split of a route target
 * "Controller#action". Loading `.env`, the router and the session are
 * runtime wiring and are not modelled.
 */
module Application {
  import opened Wrappers
  import opened Strings
  import opened Php

  /** The configuration: environment values, with "true" and "false" turned into booleans. */
  type Config = map<string, Val>

  /** The conversion `loadConfig` applies to one environment value. */
  function ConvertValue(v: string): (r: Val)
    ensures r == Bool(true) <==> v == "true"
    ensures r == Bool(false) <==> v == "false"
    ensures r.Str? <==> v != "true" && v != "false"
    ensures r.Str? ==> r.s == v
  {
    if v == "true" then Bool(true) else if v == "false" then Bool(false) else Str(v)
  }

  /** `loadConfig()`: every environment entry, converted; no key is added or lost. */
  function LoadConfig(env: map<string, string>): (c: Config)
    ensures c.Keys == env.Keys
    ensures forall k :: k in env ==> c[k] == ConvertValue(env[k])
  {
    map k | k in env :: ConvertValue(env[k])
  }

  /** The environment string a configuration value came from. */
  function EnvString(v: Val): string {
    match v
    case Bool(b) => if b then "true" else "false"
    case Str(s) => s
    case _ => ""
  }

  /** No information is lost: the environment can be read back from the configuration. */
  lemma LoadConfigInvertible(env: map<string, string>)
    ensures forall k :: k in env ==> EnvString(LoadConfig(env)[k]) == env[k]
  {
  }

  /** Only the exact lower-case words are converted: "TRUE" and "1" stay strings. */
  lemma OnlyExactWordsConvert()
    ensures ConvertValue("TRUE") == Str("TRUE") && ConvertValue("1") == Str("1")
    ensures ConvertValue("true") == Bool(true)
  {
  }

  const AppEnvKey := "APP_ENV"

  /** `getAppEnv()`: "DEV" only for exactly "DEV"; anything else, or no value, is "PROD". */
  function GetAppEnv(c: Config): (r: string)
    ensures r == "DEV" || r == "PROD"
    ensures r == "DEV" <==> AppEnvKey in c && c[AppEnvKey] == Str("DEV")
  {
    if AppEnvKey in c && c[AppEnvKey] == Str("DEV") then "DEV" else "PROD"
  }

  /** The error a strict `string|null` return type raises for a boolean. */
  const ReturnTypeError := "TypeError: Return value must be of type ?string, bool returned"

  /**
   * `getConfig($key)`: the value, or null for an absent key. The declared
   * return type is `string|null` under strict types, so a value converted
   * to a boolean makes the call throw.
   */
  function GetConfig(c: Config, key: string): (r: Result<Option<string>, string>)
    ensures key !in c ==> r == Success(None)
    ensures key in c && c[key].Str? ==> r == Success(Some(c[key].s))
    ensures key in c && c[key].Bool? ==> r == Failure(ReturnTypeError)
  {
    if key !in c then Success(None)
    else match c[key]
      case Str(s) => Success(Some(s))
      case Bool(_) => Failure(ReturnTypeError)
      case _ => Success(None)
  }

  /** On a loaded configuration, `getConfig` throws exactly for a key whose value was "true" or "false". */
  lemma GetConfigThrowsIff(env: map<string, string>, key: string)
    ensures GetConfig(LoadConfig(env), key).Failure? <==> key in env && (env[key] == "true" || env[key] == "false")
    ensures key in env && env[key] != "true" && env[key] != "false" ==> GetConfig(LoadConfig(env), key) == Success(Some(env[key]))
  {
  }

  /**
   * The controller and action of a route target: only a string holding '#'
   * is split; `list($controller, $action) = explode('#', ...)` takes the
   * first two pieces.
   */
  function SplitTarget(target: Val): (r: Option<(string, string)>)
    ensures r.Some? <==> target.Str? && '#' in target.s
    ensures r.Some? ==>
      var (controller, action) := r.value;
      && '#' !in controller && '#' !in action
      && IsPrefix(controller + "#" + action, target.s)
      && (|target.s| == |controller| + 1 + |action| || target.s[|controller| + 1 + |action|] == '#')
  {
    if target.Str? && '#' in target.s then
      var parts := Explode('#', target.s);
      ExplodeSplits(target.s, parts);
      Some((parts[0], parts[1]))
    else None
  }

  /** The first two pieces of `explode` on a string that holds the delimiter, and what follows them. */
  lemma ExplodeSplits(s: string, parts: seq<string>)
    requires '#' in s && |parts| >= 1 && Join(parts, "#") == s
    requires forall k :: 0 <= k < |parts| ==> '#' !in parts[k]
    ensures |parts| >= 2
    ensures IsPrefix(parts[0] + "#" + parts[1], s)
    ensures |s| == |parts[0]| + 1 + |parts[1]| || s[|parts[0]| + 1 + |parts[1]|] == '#'
  {
    JoinHead(parts, "#");
    assert |parts| >= 2;
    var tail := if |parts| > 2 then "#" + Join(parts[2..], "#") else "";
    JoinHead(parts[1..], "#");
    DropTwice(parts);
    Regroup(parts[0], parts[1], tail);
    assert s == (parts[0] + "#" + parts[1]) + tail;
  }

  /** `implode` of two or more pieces begins with the first piece and the separator. */
  lemma JoinHead(parts: seq<string>, sep: string)
    requires |parts| >= 1
    ensures |parts| >= 2 ==> Join(parts, sep) == parts[0] + sep + Join(parts[1..], sep)
    ensures |parts| == 1 ==> Join(parts, sep) == parts[0]
  {
  }

  lemma DropTwice<T>(s: seq<T>)
    requires |s| >= 2
    ensures s[1..][1..] == s[2..]
  {
  }

  lemma Regroup(a: string, b: string, tail: string)
    ensures a + "#" + (b + tail) == (a + "#" + b) + tail
    ensures IsPrefix(a + "#" + b, (a + "#" + b) + tail)
    ensures |tail| > 0 ==> ((a + "#" + b) + tail)[|a| + 1 + |b|] == tail[0]
  {
  }
}

=== FILE: authentication_middleware.dfy ===
/**
 * The authentication gate: ajax calls need a logged-in user; a page that
 * needs a login sends a logged-out visitor to the login page and
 * remembers where they were going.
 */
module AuthenticationMiddleware {
  import opened Wrappers
  import opened Php
  import opened Session
  import opened Middleware

  const AjaxMessage := "Du måste vara inloggad för åtkomst till denna tjänst."

  /** The JSON body an ajax call without a user gets. */
  const AjaxBody: seq<(string, Val)> := [("success", Bool(false)), ("message", Str(AjaxMessage))]

  /**
   * `handle()`. `matched` is the name of the route the router matched, None
   * when nothing matched. "Logged in" means a truthy `user_id`.
   */
  function Handle(req: Request, matched: Option<string>, s: SessionMap): (o: Outcome)
    ensures HasTruthyUser(s) ==> Passes(o) && o.session == s
    ensures IsAjaxRequest(req) && !HasTruthyUser(s) ==> o == Outcome(s, Some(Json(Some(401), AjaxBody)), true)
    ensures !IsAjaxRequest(req) && !HasTruthyUser(s) ==>
      (o.exits <==> matched.Some? && !IsOpenRoute(matched.value))
    ensures !IsAjaxRequest(req) && o.exits ==>
      && o.reply == Some(Location(Some(401), "show-login"))
      && Get(o.session, "redirect_url") == Str(matched.value)
      && Get(o.session, FlashKey) == Flash("error", LoginMessage)
    ensures !o.exits ==> Passes(o) && o.session == s
    ensures OnlyFlashAndRedirect(s, o.session)
  {
    if IsAjaxRequest(req) then
      if !HasTruthyUser(s) then Outcome(s, Some(Json(Some(401), AjaxBody)), true)
      else Outcome(s, None, false)
    else if matched.Some? && !IsOpenRoute(matched.value) && !HasTruthyUser(s) then
      var s1 := Set(s, "redirect_url", Str(matched.value));
      Outcome(SetFlashMessage(s1, "error", LoginMessage), Some(Location(Some(401), "show-login")), true)
    else Outcome(s, None, false)
  }

  /** For an ajax call the matched route makes no difference. */
  lemma AjaxIgnoresRoute(req: Request, m1: Option<string>, m2: Option<string>, s: SessionMap)
    requires IsAjaxRequest(req)
    ensures Handle(req, m1, s) == Handle(req, m2, s)
  {
  }

  /** A logged-out visitor reaches a page only when no route matched or the route is open. */
  lemma PageReachedIff(req: Request, matched: Option<string>, s: SessionMap)
    requires !IsAjaxRequest(req) && !HasTruthyUser(s)
    ensures Passes(Handle(req, matched, s)) <==> matched.None? || IsOpenRoute(matched.value)
  {
  }

  /**
   * A user id of 0, "0" or "" is stored, so `Session::isLoggedIn` holds,
   * yet this gate treats the visitor as logged out.
   */
  lemma FalsyUserIdIsLoggedOut(req: Request, route: string, s: SessionMap, id: Val)
    requires !IsAjaxRequest(req) && !IsOpenRoute(route)
    requires id == Int(0) || id == Str("0") || id == Str("")
    ensures IsLoggedIn(Set(s, UserIdKey, id))
    ensures Handle(req, Some(route), Set(s, UserIdKey, id)).exits
  {
    assert Get(Set(s, UserIdKey, id), UserIdKey) == id;
  }
}

=== FILE: authorization_middleware.dfy ===
/**
 * The authorization gate: an admin may go anywhere; anyone else only to
 * user routes and to the routes that need no login.
 */
module AuthorizationMiddleware {
  import opened Wrappers
  import opened Strings
  import opened Php
  import opened Session
  import opened Middleware

  const AjaxMessage := "Du måste vara administratör för att få komma åt denna resurs."
  const PageMessage := "Du måste vara administratör för att se denna sida."

  /** The ajax denial: 401 is the array's element at key 0, not a status code. */
  const AjaxBody: seq<(string, Val)> := [("success", Bool(false)), ("message", Str(AjaxMessage)), ("0", Int(401))]

  /** The route is one anyone may use. */
  predicate Permitted(s: SessionMap, name: string) {
    IsAdmin(s) || IsUserRoute(name) || IsOpenRoute(name)
  }

  /** `handle()`, with `matched` the name of the matched route, None when nothing matched. */
  function Handle(req: Request, matched: Option<string>, s: SessionMap): (o: Outcome)
    ensures matched.None? ==> o == Outcome(s, None, true)
    ensures matched.Some? ==> (Passes(o) <==> Permitted(s, matched.value))
    ensures !o.exits ==> Passes(o) && o.session == s
    ensures matched.Some? && !Permitted(s, matched.value) ==>
      && o.exits
      && (IsAjaxRequest(req) ==> o.session == s && o.reply == Some(Json(None, AjaxBody)))
      && (!IsAjaxRequest(req) ==>
            o.session == SetFlashMessage(s, "error", PageMessage) && o.reply == Some(Location(None, "user-home")))
  {
    match matched
    case None => Outcome(s, None, true)
    case Some(name) =>
      if IsAdmin(s) then Outcome(s, None, false)
      else if IsUserRoute(name) || IsOpenRoute(name) then Outcome(s, None, false)
      else if IsAjaxRequest(req) then Outcome(s, Some(Json(None, AjaxBody)), true)
      else Outcome(SetFlashMessage(s, "error", PageMessage), Some(Location(None, "user-home")), true)
  }

  /** An admin passes every matched route. */
  lemma AdminPassesEverywhere(req: Request, name: string, s: SessionMap)
    requires IsAdmin(s)
    ensures Passes(Handle(req, Some(name), s))
  {
  }

  /** Denial never touches anything in the session but the flash message. */
  lemma DenialKeepsSession(req: Request, name: string, s: SessionMap, k: string)
    requires k != FlashKey
    ensures Get(Handle(req, Some(name), s).session, k) == Get(s, k)
  {
  }

  /** "medlem-list" is no user route and no open route. */
  lemma MemberListIsProtected()
    ensures !IsUserRoute("medlem-list") && !IsOpenRoute("medlem-list")
  {
    var n := "medlem-list";
    assert !IsDigit(n[0]) && !IsNumericSpace(n[0]) && n[0] != '-' && n[0] != '+';
    assert IntNumericValue(n) == None by {
      assert !AllDigits(n);
      NotNumericSuffix(n);
    }
    forall i | 0 <= i <= |n|
      ensures !OccursAt(n, "user-", i)
    {
      assert i + 5 <= |n| ==> n[i..i + 5][0] == n[i] != 'u';
    }
  }

  lemma NotNumericSuffix(n: string)
    requires n == "medlem-list"
    ensures UnsignedValue(n) == None
  {
    assert !IsNumericSpace(n[|n| - 1]);
    assert !IsDigit(n[0]);
  }

  /**
   * The admin test is strict: a session whose `is_admin` is 1 rather than
   * `true` is denied a protected page.
   */
  lemma IntegerAdminDenied(req: Request, s: SessionMap)
    requires s == map[UserIdKey := Int(7), IsAdminKey := Int(1)]
    ensures !Passes(Handle(req, Some("medlem-list"), s))
  {
    MemberListIsProtected();
  }
}

=== FILE: base_middleware.dfy ===
/**
 * What the request-gating middlewares share: the request as they read it,
 * the ajax test, the routes that need no login, and the outcome of a
 * middleware run, namely the session afterwards, what was sent, and
 * whether the script exits. Logging is not modelled.
 */
module Middleware {
  import opened Wrappers
  import opened Strings
  import opened Php
  import opened Session

  /**
   * The parts of a request the middlewares read: the raw headers, the
   * method, the URI path, the parsed body and the `route_name` attribute.
   */
  datatype Request = Request(
    headers: map<string, string>,
    httpMethod: string,
    path: string,
    body: map<string, Val>,
    routeName: Val)

  const AjaxHeader := "HTTP_X_REQUESTED_WITH"

  /** `isAjaxRequest()`: the X-Requested-With header is "XMLHttpRequest" in any letter case. */
  predicate IsAjaxRequest(req: Request) {
    AjaxHeader in req.headers && Lower(req.headers[AjaxHeader]) == "xmlhttprequest"
  }

  /** `RouteConfig::$noLoginRequiredRoutes`. */
  const NoLoginRequiredRoutes: seq<string> := [
    "show-login", "login", "register", "register-activate", "show-request-password",
    "handle-request-password", "show-reset-password", "reset-password", "404", "home"]

  /** `in_array($routeName, RouteConfig::$noLoginRequiredRoutes)`, a loose comparison. */
  predicate IsOpenRoute(name: string) {
    InLoose(name, NoLoginRequiredRoutes)
  }

  /** `strpos($routeName, 'user-') !== false`: "user-" anywhere in the name. */
  predicate IsUserRoute(name: string) {
    StrContains(name, "user-")
  }

  /** `!Session::get('user_id')` negated: the stored user id is truthy. */
  predicate HasTruthyUser(s: SessionMap) {
    Truthy(Get(s, UserIdKey))
  }

  /** What a middleware sends. */
  datatype Reply =
    /** A JSON body; `status` is None when the helper's default status is left in place. */
    | Json(status: Option<int>, body: seq<(string, Val)>)
    /** A `Location:` header for a named route, after the status the middleware set, if any. */
    | Location(status: Option<int>, route: string)
    /** A PSR-7 redirect response to a path. */
    | RedirectResponse(path: string)

  /**
   * The session after the middleware, what it sent (None: nothing of its
   * own, so the request goes on to the next handler unless it exits), and
   * whether it ends the script.
   */
  datatype Outcome = Outcome(session: SessionMap, reply: Option<Reply>, exits: bool)

  /** The request goes on untouched. */
  predicate Passes(o: Outcome) {
    o.reply.None? && !o.exits
  }

  /** Only the flash message and the post-login redirect may have changed. */
  ghost predicate OnlyFlashAndRedirect(before: SessionMap, after: SessionMap) {
    forall k :: k != FlashKey && k != "redirect_url" ==> Get(after, k) == Get(before, k)
  }

  /** Remember where the user was going, then ask them to log in. */
  function RequireLogin(s: SessionMap, route: Val): (r: SessionMap)
    ensures Get(r, "redirect_url") == (if Truthy(route) then route else Get(s, "redirect_url"))
    ensures Get(r, FlashKey) == Flash("error", LoginMessage)
    ensures OnlyFlashAndRedirect(s, r)
  {
    var s1 := if Truthy(route) then Set(s, "redirect_url", route) else s;
    SetFlashMessage(s1, "error", LoginMessage)
  }

  const LoginMessage := "Du måste vara inloggad för att se denna sida."

  /** A route number written with a leading zero still counts as the open route "404". */
  lemma OpenRouteIsLoose()
    ensures IsOpenRoute("0404") && "0404" !in NoLoginRequiredRoutes
  {
    assert AllDigits("404") && AllDigits("0404");
    assert "0404"[..3] == "040" && "040"[..2] == "04" && "04"[..1] == "0";
    assert "404"[..2] == "40" && "40"[..1] == "4";
    DigitsValueOne("0");
    DigitsValueOne("4");
    assert DigitsValue("404") == 404;
    assert DigitsValue("0404") == 404;
    LooseEqStrDigits("404", "0404");
    assert NoLoginRequiredRoutes[8] == "404";
  }

  /** "user-" is found anywhere in the name, not only at its start. */
  lemma UserRouteIsSubstring()
    ensures IsUserRoute("admin-user-list") && !IsPrefix("user-", "admin-user-list")
  {
    assert OccursAt("admin-user-list", "user-", 6);
    assert "admin-user-list"[0] != "user-"[0];
  }
}

=== FILE: betalning_service.dfy ===
/**
 * The payment service: creating a payment from a submitted form (with the
 * welcome mail sent on a member's first payment), deleting a payment, and
 * the payments of one member. Repositories, the mailer and the
 * configuration are parameters: the outcome of each call they would make
 * is given, an exception as `Threw`.
 */
module BetalningService {
  import opened Wrappers
  import opened Strings
  import opened Php
  import opened DateFormat
  import opened Sanitizer
  import opened Medlem
  import Application

  /**
   * A payment as stored. `belopp` is what the float cast reads from the
   * sanitized amount; the filter leaves only digits and signs, so it is a
   * whole number.
   */
  datatype Payment = Payment(medlemId: int, belopp: int, datum: string, avserAr: int, kommentar: string)

  /** `BetalningServiceResult`: success, a message, and the new payment's id. */
  datatype ServiceResult = ServiceResult(success: bool, message: string, id: Option<int>)

  /** The mailer: delivers, throws its own exception (caught on the spot), or throws another one. */
  datatype Mail = Delivered | MailerFailed(message: string) | MailThrew(message: string)

  /** The outcomes of the calls `createPayment` may make, in the order it makes them. */
  datatype Backend = Backend(
    create: Effect<int>,
    config: Application.Config,
    lookup: Effect<Option<Member>>,
    mail: Mail,
    save: Effect<bool>)

  /** An error nothing catches: a sanitizer exception, or an `Error` raised after the form was read. */
  datatype Uncaught = Rejected(error: SanError) | Fatal(message: string, stored: Option<Payment>)

  /** What one `createPayment` call did: its result, the payment stored, whether a mail went out, the member saved. */
  datatype CreateRun = CreateRun(result: ServiceResult, stored: Option<Payment>, mailed: bool, saved: Option<Member>)

  /** What the welcome step did, and how it ended: its return value, or an exception for the caller. */
  datatype WelcomeRun = WelcomeRun(mailed: bool, saved: Option<Member>, outcome: Effect<bool>)

  const RequiredMessage := "Belopp, datum, and avser_ar are required fields."
  const InvalidMessage := "Invalid input"
  const CreatedPrefix := "Betalning created successfully. Id: "
  const CreateErrorPrefix := "Error creating Betalning: "
  const NotFoundMessage := "Payment not found"
  const DeletedMessage := "Betalning deleted successfully"
  const DeleteErrorPrefix := "Error deleting Betalning: "
  const MemberNotFound := "Medlem not found"
  const WelcomeKey := "WELCOME_MAIL_ENABLED"
  const SentFlag := "skickat_valkomstbrev"
  const NullDatumError := "TypeError: Cannot assign null to property App\\Models\\Betalning::$datum of type string"

  /** The sanitizing rules of the payment form. */
  const PaymentRules: seq<(string, Rule)> := [
    ("medlem_id", Named("string")),
    ("datum", Listed(["date", "Y-m-d"])),
    ("avser_ar", Listed(["date", "Y"])),
    ("belopp", Named("float")),
    ("kommentar", Named("string"))]

  lemma PaymentRulesDistinct()
    ensures DistinctFields(PaymentRules)
  {
  }

  /** Any of the three required fields is empty in PHP's sense (absent, null, "", "0", ...). */
  predicate RequiredMissing(post: map<string, Val>) {
    EmptyAt(post, "belopp") || EmptyAt(post, "datum") || EmptyAt(post, "avser_ar")
  }

  /** `(int) $cleanValues[$f]`: an absent field or a null value casts to 0. */
  function CleanInt(clean: map<string, Clean>, f: string): int {
    if f in clean && clean[f].Some? then IntCast(clean[f].value) else 0
  }

  /** The `Betalning` built from the sanitized values; assigning a null date to the string property is a `TypeError`. */
  function BuildPayment(clean: map<string, Clean>): (r: Result<Payment, string>)
    ensures r.Failure? <==> "datum" !in clean || clean["datum"].None?
    ensures r.Success? ==>
      && r.value.datum == clean["datum"].value
      && r.value.medlemId == CleanInt(clean, "medlem_id")
      && r.value.belopp == CleanInt(clean, "belopp")
      && r.value.avserAr == CleanInt(clean, "avser_ar")
      && ("kommentar" in clean && clean["kommentar"].Some? ==> r.value.kommentar == clean["kommentar"].value)
      && (("kommentar" !in clean || clean["kommentar"].None?) ==> r.value.kommentar == "")
  {
    if "datum" !in clean || clean["datum"].None? then Failure(NullDatumError)
    else
      var kommentar := if "kommentar" in clean && clean["kommentar"].Some? then clean["kommentar"].value else "";
      Success(Payment(CleanInt(clean, "medlem_id"), CleanInt(clean, "belopp"), clean["datum"].value,
                      CleanInt(clean, "avser_ar"), kommentar))
  }

  /** The validation before storing: every field must be truthy. */
  predicate PaymentValid(p: Payment) {
    p.medlemId != 0 && Truthy(Str(p.datum)) && p.belopp != 0 && p.avserAr != 0
  }

  /** The member's welcome mail is marked as sent. */
  predicate WelcomeSent(m: Member) {
    SentFlag in m.flags && m.flags[SentFlag]
  }

  /** `empty($member->email)`: unset, null, "" or "0". */
  predicate NoEmail(m: Member) {
    Email(m).None? || EmptyStr(Email(m).value)
  }

  /**
   * `sendWelcomeEmailOnFirstPayment($memberId)`. A Failure is an `Error`
   * no `catch (Exception)` stops: the configuration value being a
   * boolean, or a name property never initialized.
   */
  function SendWelcomeEmail(b: Backend): (r: Result<WelcomeRun, string>)
    ensures r.Success? && r.value.mailed ==>
      && Application.GetConfig(b.config, WelcomeKey) == Success(Some("1"))
      && b.lookup.Done? && b.lookup.value.Some?
      && !WelcomeSent(b.lookup.value.value) && !NoEmail(b.lookup.value.value)
      && b.mail == Delivered
    ensures r.Success? && r.value.saved.Some? ==>
      r.value.mailed && r.value.saved.value == b.lookup.value.value.(flags := b.lookup.value.value.flags[SentFlag := true])
    ensures r.Success? ==> (r.value.outcome == Done(true) <==> r.value.saved.Some?)
    ensures r.Success? && r.value.mailed ==> (r.value.saved.Some? <==> b.save.Done?)
    ensures r.Failure? <==>
      (|| Application.GetConfig(b.config, WelcomeKey).Failure?
       || (&& Application.GetConfig(b.config, WelcomeKey) == Success(Some("1")) && b.lookup.Done? && b.lookup.value.Some?
           && !WelcomeSent(b.lookup.value.value) && !NoEmail(b.lookup.value.value)
           && !("fornamn" in b.lookup.value.value.strs && "efternamn" in b.lookup.value.value.strs)))
  {
    match Application.GetConfig(b.config, WelcomeKey)
    case Failure(e) => Failure(e)
    case Success(enabled) =>
      if enabled != Some("1") then Success(WelcomeRun(false, None, Done(false)))
      else match b.lookup
        case Threw(msg) => Success(WelcomeRun(false, None, Threw(msg)))
        case Done(None) => Success(WelcomeRun(false, None, Done(false)))
        case Done(Some(m)) =>
          if WelcomeSent(m) || NoEmail(m) then Success(WelcomeRun(false, None, Done(false)))
          else if !("fornamn" in m.strs && "efternamn" in m.strs) then Failure(NameReadError(m))
          else match b.mail
            case MailerFailed(_) => Success(WelcomeRun(false, None, Done(false)))
            case MailThrew(msg) => Success(WelcomeRun(false, None, Threw(msg)))
            case Delivered =>
              var marked := m.(flags := m.flags[SentFlag := true]);
              match b.save
              case Threw(msg) => Success(WelcomeRun(true, None, Threw(msg)))
              case Done(_) => Success(WelcomeRun(true, Some(marked), Done(true)))
  }

  /** The amount as stored from a posted value: trimmed, filtered to digits and signs, cast. */
  function Amount(v: Val): int
    requires v.Str?
  {
    IntCast(FilterVar("float", Trim(v.s)))
  }

  /**
   * Sanitizing the form and building the `Betalning` from it. Rejected is
   * an exception of the sanitizer; Fatal the `TypeError` of a null date.
   */
  function ReadForm(post: map<string, Val>): (r: Result<Payment, Uncaught>)
    requires !RequiredMissing(post)
    ensures r.Failure? && r.error.Rejected? <==> !AllApply(post, PaymentRules)
    ensures r.Failure? && r.error.Fatal? ==> r.error.stored.None?
    ensures r.Success? ==>
      && post["belopp"].Str? && r.value.belopp == Amount(post["belopp"])
      && post["datum"].Str? && r.value.datum == Trim(post["datum"].s) && Survives("Y-m-d", r.value.datum)
  {
    match Sanitize(post, PaymentRules)
    case Failure(e) => Failure(Rejected(e))
    case Success(clean) =>
      match BuildPayment(clean)
      case Failure(msg) => Failure(Fatal(msg, None))
      case Success(p) =>
        PaymentRulesDistinct();
        StoredFromPost(post, PaymentRules, clean, p);
        Success(p)
  }

  /**
   * The `try` block of `createPayment`: store the payment, try the welcome
   * mail, report success with the new id. An exception from any of these
   * is reported in the result, even once the payment is stored.
   */
  function Store(p: Payment, b: Backend): (r: Result<CreateRun, Uncaught>)
    ensures b.create.Threw? ==>
      r == Success(CreateRun(ServiceResult(false, CreateErrorPrefix + b.create.message, None), None, false, None))
    ensures b.create.Done? && r.Success? ==> r.value.stored == Some(p)
    ensures r.Failure? ==> r.error.Fatal? && r.error.stored == Some(p)
    ensures r.Success? && r.value.result.success ==>
      && r.value.result.id == Some(b.create.value)
      && r.value.result.message == CreatedPrefix + IntToString(b.create.value)
    ensures r.Success? && !r.value.result.success ==>
      r.value.result.id.None? && IsPrefix(CreateErrorPrefix, r.value.result.message)
    ensures r.Success? && r.value.mailed ==>
      && Application.GetConfig(b.config, WelcomeKey) == Success(Some("1"))
      && b.lookup.Done? && b.lookup.value.Some? && !WelcomeSent(b.lookup.value.value) && b.mail == Delivered
    ensures r.Success? && r.value.saved.Some? ==>
      r.value.mailed && r.value.saved.value == b.lookup.value.value.(flags := b.lookup.value.value.flags[SentFlag := true])
  {
    match b.create
    case Threw(msg) => Success(CreateRun(ServiceResult(false, CreateErrorPrefix + msg, None), None, false, None))
    case Done(id) =>
      match SendWelcomeEmail(b)
      case Failure(msg) => Failure(Fatal(msg, Some(p)))
      case Success(w) =>
        var res := if w.outcome.Threw? then ServiceResult(false, CreateErrorPrefix + w.outcome.message, None)
                   else ServiceResult(true, CreatedPrefix + IntToString(id), Some(id));
        Success(CreateRun(res, Some(p), w.mailed, w.saved))
  }

  /**
   * `createPayment($postData)`: the required-field check, reading the
   * form, the validation, then the `try` block.
   */
  function CreatePayment(post: map<string, Val>, b: Backend): (r: Result<CreateRun, Uncaught>)
    ensures RequiredMissing(post) ==> r == Success(CreateRun(ServiceResult(false, RequiredMessage, None), None, false, None))
    ensures (r.Failure? && r.error.Rejected?) <==> !RequiredMissing(post) && !AllApply(post, PaymentRules)
    ensures r.Success? && r.value.stored.Some? ==>
      var p := r.value.stored.value;
      && PaymentValid(p) && b.create.Done?
      && post["belopp"].Str? && p.belopp == Amount(post["belopp"])
      && post["datum"].Str? && p.datum == Trim(post["datum"].s) && Survives("Y-m-d", p.datum)
    ensures r.Success? && r.value.result.success ==>
      && r.value.stored.Some?
      && r.value.result.id == Some(b.create.value)
      && r.value.result.message == CreatedPrefix + IntToString(b.create.value)
    ensures r.Success? && !r.value.result.success ==>
      && r.value.result.id.None?
      && (r.value.result.message in {RequiredMessage, InvalidMessage} || IsPrefix(CreateErrorPrefix, r.value.result.message))
    ensures r.Success? && r.value.stored.None? ==> !r.value.mailed && r.value.saved.None?
    ensures r.Success? && r.value.mailed ==>
      b.lookup.Done? && b.lookup.value.Some? && !WelcomeSent(b.lookup.value.value) && b.mail == Delivered
    ensures r.Success? && r.value.saved.Some? ==> r.value.mailed && WelcomeSent(r.value.saved.value)
  {
    if RequiredMissing(post) then Success(CreateRun(ServiceResult(false, RequiredMessage, None), None, false, None))
    else match ReadForm(post)
      case Failure(e) => Failure(e)
      case Success(p) =>
        if !PaymentValid(p) then Success(CreateRun(ServiceResult(false, InvalidMessage, None), None, false, None))
        else Store(p, b)
  }

  /**
   * The stored amount and date come from the posted fields through their
   * rules. Stated for any rule table that agrees with the payment rules on
   * those two fields.
   */
  lemma StoredFromPost(post: map<string, Val>, rules: seq<(string, Rule)>, clean: map<string, Clean>, p: Payment)
    requires DistinctFields(rules) && |rules| > 3
    requires rules[1] == ("datum", Listed(["date", "Y-m-d"])) && rules[3] == ("belopp", Named("float"))
    requires IsSet(post, "belopp") && IsSet(post, "datum")
    requires Sanitize(post, rules) == Success(clean)
    requires BuildPayment(clean) == Success(p)
    ensures post["belopp"].Str? && p.belopp == Amount(post["belopp"])
    ensures post["datum"].Str? && p.datum == Trim(post["datum"].s) && Survives("Y-m-d", p.datum)
  {
    SanitizeValues(post, rules);
    assert AllApply(post, rules);
    assert "belopp" in PresentFields(post, rules) && "datum" in PresentFields(post, rules);
    BeloppRule(post, clean);
    DatumRule(post, clean);
  }

  lemma BeloppRule(post: map<string, Val>, clean: map<string, Clean>)
    requires IsSet(post, "belopp") && "belopp" in clean
    requires Apply(post["belopp"], Named("float")).Success?
    requires clean["belopp"] == Apply(post["belopp"], Named("float")).value
    ensures post["belopp"].Str? && CleanInt(clean, "belopp") == Amount(post["belopp"])
  {
    ApplyOutcomes(post["belopp"], Named("float"));
  }

  lemma DatumRule(post: map<string, Val>, clean: map<string, Clean>)
    requires IsSet(post, "datum") && "datum" in clean
    requires Apply(post["datum"], Listed(["date", "Y-m-d"])).Success?
    requires clean["datum"] == Apply(post["datum"], Listed(["date", "Y-m-d"])).value
    ensures post["datum"].Str?
    ensures clean["datum"].Some? ==> clean["datum"].value == Trim(post["datum"].s) && Survives("Y-m-d", clean["datum"].value)
  {
    ApplyOutcomes(post["datum"], Listed(["date", "Y-m-d"]));
    ApplyDate(post["datum"].s, "Y-m-d");
  }

  /** Nothing but the form decides a missing required field: no repository, mailer or setting is consulted. */
  lemma RequiredCheckFirst(post: map<string, Val>, b1: Backend, b2: Backend)
    requires RequiredMissing(post)
    ensures CreatePayment(post, b1) == CreatePayment(post, b2)
    ensures CreatePayment(post, b1).value.stored.None?
  {
  }

  /** A form that reads into an invalid payment is answered "Invalid input", whatever the backend does. */
  lemma InvalidPaymentNotStored(post: map<string, Val>, b: Backend)
    requires !RequiredMissing(post) && ReadForm(post).Success? && !PaymentValid(ReadForm(post).value)
    ensures CreatePayment(post, b) == Success(CreateRun(ServiceResult(false, InvalidMessage, None), None, false, None))
  {
  }

  /** A valid form whose payment the repository accepts is stored as read. */
  lemma ValidPaymentStored(post: map<string, Val>, b: Backend)
    requires !RequiredMissing(post) && ReadForm(post).Success? && PaymentValid(ReadForm(post).value)
    requires b.create.Done? && CreatePayment(post, b).Success?
    ensures CreatePayment(post, b).value.stored == Some(ReadForm(post).value)
  {
  }

  /** The id in the success message reads back, by PHP's int cast, as the id the repository returned. */
  lemma SuccessMessageNamesId(post: map<string, Val>, b: Backend)
    requires CreatePayment(post, b).Success? && CreatePayment(post, b).value.result.success
    ensures var m := CreatePayment(post, b).value.result.message;
      IsPrefix(CreatedPrefix, m) && IntCast(m[|CreatedPrefix|..]) == b.create.value
  {
    var m := CreatePayment(post, b).value.result.message;
    assert m[|CreatedPrefix|..] == IntToString(b.create.value);
    IntCastOfIntToString(b.create.value);
  }

  /**
   * At most one welcome mail per member: once a payment's mail went out
   * and the member was saved, a later payment for the same member finds
   * the flag set and sends nothing.
   */
  lemma AtMostOneWelcomeMail(post1: map<string, Val>, b1: Backend, post2: map<string, Val>, b2: Backend)
    requires CreatePayment(post1, b1).Success? && CreatePayment(post1, b1).value.saved.Some?
    requires b2.lookup == Done(CreatePayment(post1, b1).value.saved)
    requires CreatePayment(post2, b2).Success?
    ensures !CreatePayment(post2, b2).value.mailed
  {
  }

  /**
   * The amount filter drops the decimal point: a posted "100.50" is read
   * as the digits "10050", a hundred times the amount meant.
   */
  lemma DecimalPointDropped(whole: string, frac: string)
    requires |whole| > 0 && AllDigits(whole) && AllDigits(frac)
    ensures AllDigits(whole + frac)
    ensures Amount(Str(whole + "." + frac)) == DigitsValue(whole + frac)
  {
    var s := whole + "." + frac;
    assert s[0] == whole[0];
    assert s[|s| - 1] == (if |frac| > 0 then frac[|frac| - 1] else '.');
    TrimUnchanged(s);
    var p := FilterOf("float");
    assert forall i :: 0 <= i < |whole| ==> p(whole[i]);
    assert forall i :: 0 <= i < |frac| ==> p(frac[i]);
    FilterDropsSeparator(whole, '.', frac, p);
    IntCastOfDigits(whole + frac);
  }

  lemma TrimUnchanged(s: string)
    requires |s| > 0 && !IsTrimChar(s[0]) && !IsTrimChar(s[|s| - 1])
    ensures Trim(s) == s
  {
  }

  /** Filtering out a separator that fails the predicate, between two runs that pass it. */
  lemma FilterDropsSeparator<T>(a: seq<T>, sep: T, b: seq<T>, p: T -> bool)
    requires forall i :: 0 <= i < |a| ==> p(a[i])
    requires forall i :: 0 <= i < |b| ==> p(b[i])
    requires !p(sep)
    ensures Filter(a + [sep] + b, p) == a + b
  {
    FilterConcat(a + [sep], b, p);
    FilterConcat(a, [sep], p);
    FilterAllKept(a, p);
    FilterAllKept(b, p);
    assert [sep][..0] == [];
  }

  /**
   * An enabled-mail setting of "true" becomes a boolean, and reading it
   * through the `?string` getter is a `TypeError`: every valid payment the
   * repository accepts then ends in an uncaught error after it was stored.
   */
  lemma BooleanMailSettingIsFatal(post: map<string, Val>, env: map<string, string>, b: Backend)
    requires !RequiredMissing(post) && ReadForm(post).Success? && PaymentValid(ReadForm(post).value)
    requires WelcomeKey in env && env[WelcomeKey] == "true" && b.config == Application.LoadConfig(env)
    requires b.create.Done?
    ensures CreatePayment(post, b) == Failure(Fatal(Application.ReturnTypeError, Some(ReadForm(post).value)))
  {
    Application.GetConfigThrowsIff(env, WelcomeKey);
  }

  /**
   * A save that throws after the mail went out: the payment is stored and
   * the member mailed, yet the call reports an error and the flag is not
   * saved, so the next payment mails the member again.
   */
  lemma SaveFailureAfterMail(post: map<string, Val>, b: Backend, msg: string)
    requires !RequiredMissing(post) && ReadForm(post).Success? && PaymentValid(ReadForm(post).value)
    requires b.create.Done? && Application.GetConfig(b.config, WelcomeKey) == Success(Some("1"))
    requires b.lookup.Done? && b.lookup.value.Some?
    requires var m := b.lookup.value.value;
      !WelcomeSent(m) && !NoEmail(m) && "fornamn" in m.strs && "efternamn" in m.strs
    requires b.mail == Delivered && b.save == Threw(msg)
    ensures CreatePayment(post, b) ==
      Success(CreateRun(ServiceResult(false, CreateErrorPrefix + msg, None), Some(ReadForm(post).value), true, None))
  {
    assert SendWelcomeEmail(b) == Success(WelcomeRun(true, None, Threw(msg)));
  }

  /**
   * `deletePayment($id)`, given what the repository's delete returned or
   * threw.
   */
  function DeletePayment(deleted: Effect<bool>): (r: ServiceResult)
    ensures r.id.None?
    ensures r.success <==> deleted == Done(true)
    ensures deleted == Done(false) ==> r.message == NotFoundMessage
    ensures deleted.Threw? ==> r.message == DeleteErrorPrefix + deleted.message
  {
    match deleted
    case Threw(msg) => ServiceResult(false, DeleteErrorPrefix + msg, None)
    case Done(ok) => if ok then ServiceResult(true, DeletedMessage, None) else ServiceResult(false, NotFoundMessage, None)
  }

  /** `getPaymentsForMember($memberId)`: the member and their payments, or an exception for a missing member. */
  function PaymentsForMember(member: Option<Member>, payments: seq<Payment>): (r: Result<(Member, seq<Payment>), string>)
    ensures r.Failure? <==> member.None?
    ensures r.Failure? ==> r.error == MemberNotFound
    ensures r.Success? ==> r.value.0 == member.value && r.value.1 == payments
  {
    match member
    case None => Failure(MemberNotFound)
    case Some(m) => Success((m, payments))
  }
}

=== FILE: csrf_middleware.dfy ===
/**
 * The CSRF gate: a per-session token is created once, from 32 random
 * bytes written as 64 lowercase hex digits; a POST outside the excluded
 * paths must carry that token in its body. The random bytes are a
 * parameter.
 */
module CsrfMiddleware {
  import opened Wrappers
  import opened Strings
  import opened Php
  import opened Session
  import opened Middleware

  // ---------------------------------------------------------------
  // bin2hex
  // ---------------------------------------------------------------

  predicate IsLowerHex(c: char) {
    IsDigit(c) || 'a' <= c <= 'f'
  }

  function HexDigit(n: nat): (c: char)
    requires n < 16
    ensures IsLowerHex(c)
  {
    if n < 10 then ('0' as int + n) as char else ('a' as int + n - 10) as char
  }

  /** The value of a lowercase hex digit; the inverse of `HexDigit`. */
  function HexValue(c: char): (n: nat)
    requires IsLowerHex(c)
    ensures n < 16 && HexDigit(n) == c
  {
    if IsDigit(c) then c as int - '0' as int else c as int - 'a' as int + 10
  }

  /** `bin2hex($bytes)`: two lowercase hex digits per byte, high nibble first. */
  function Bin2Hex(bytes: seq<Byte>): (h: string)
    ensures |h| == 2 * |bytes|
    ensures forall i :: 0 <= i < |h| ==> IsLowerHex(h[i])
  {
    if |bytes| == 0 then ""
    else
      var rest := Bin2Hex(bytes[1..]);
      var h := [HexDigit(bytes[0] / 16), HexDigit(bytes[0] % 16)] + rest;
      assert forall i :: 2 <= i < |h| ==> h[i] == rest[i - 2];
      h
  }

  /** `hex2bin` on an even run of lowercase hex digits. */
  function Hex2Bin(h: string): (bytes: seq<Byte>)
    requires |h| % 2 == 0 && forall i :: 0 <= i < |h| ==> IsLowerHex(h[i])
    ensures |bytes| * 2 == |h|
  {
    if |h| == 0 then []
    else [HexValue(h[0]) * 16 + HexValue(h[1])] + Hex2Bin(h[2..])
  }

  /** Reading the hex digits back gives the bytes: no two byte strings share a token. */
  lemma {:induction false} Hex2BinOfBin2Hex(bytes: seq<Byte>)
    ensures Hex2Bin(Bin2Hex(bytes)) == bytes
  {
    if |bytes| > 0 {
      var h := Bin2Hex(bytes);
      var b := bytes[0];
      assert h[2..] == Bin2Hex(bytes[1..]);
      HexDigitValue(b / 16);
      HexDigitValue(b % 16);
      Hex2BinOfBin2Hex(bytes[1..]);
      assert bytes == [b] + bytes[1..];
    }
  }

  lemma HexDigitValue(n: nat)
    requires n < 16
    ensures HexValue(HexDigit(n)) == n
  {
  }

  // ---------------------------------------------------------------
  // handle
  // ---------------------------------------------------------------

  const CsrfKey := "csrf_token"
  const MismatchFlash := "Kunde inte validera CSFR-token.."
  const MismatchBody: seq<(string, Val)> := [("status", Str("error")), ("message", Str("Error validating csrf token"))]
  const TypeErrorMessage := "TypeError: hash_equals(): Argument must be of type string"

  /** `$excludedPaths`, each matched as a prefix of the path. */
  predicate IsExcludedPath(path: string) {
    StartsWith(path, "/webhooks") || StartsWith(path, "/home")
  }

  /** The session after the first step: a token is stored unless one is set. */
  function WithToken(s: SessionMap, random: seq<Byte>): (r: SessionMap)
    requires |random| == 32
    ensures IsSet(s, CsrfKey) ==> r == s
    ensures !IsSet(s, CsrfKey) ==> Get(r, CsrfKey) == Str(Bin2Hex(random))
    ensures forall k :: k != CsrfKey ==> Get(r, k) == Get(s, k)
  {
    if !IsSet(s, CsrfKey) then Set(s, CsrfKey, Str(Bin2Hex(random))) else s
  }

  /** `$request->getParsedBody()['csrf_token'] ?? ''`. */
  function BodyToken(req: Request): Val {
    if IsSet(req.body, CsrfKey) then req.body[CsrfKey] else Str("")
  }

  /**
   * `handle()` with the 32 bytes `random_bytes` would give. A Failure is
   * the TypeError `hash_equals` throws when either token is not a string.
   */
  function Handle(req: Request, s: SessionMap, random: seq<Byte>): (r: Result<Outcome, string>)
    requires |random| == 32
    ensures r.Success? ==> Get(r.value.session, CsrfKey) == Get(WithToken(s, random), CsrfKey)
    ensures r.Success? ==> forall k :: k != CsrfKey && k != FlashKey ==> Get(r.value.session, k) == Get(s, k)
    ensures IsExcludedPath(req.path) || req.httpMethod != "POST" ==> r == Success(Outcome(WithToken(s, random), None, false))
    ensures r.Failure? <==>
      !IsExcludedPath(req.path) && req.httpMethod == "POST" &&
      (!Get(WithToken(s, random), CsrfKey).Str? || !BodyToken(req).Str?)
    ensures r.Success? && !IsExcludedPath(req.path) && req.httpMethod == "POST" ==>
      (Passes(r.value) <==> Get(WithToken(s, random), CsrfKey) == BodyToken(req))
    ensures r.Success? && !Passes(r.value) ==>
      && r.value.exits
      && (IsAjaxRequest(req) ==> r.value == Outcome(WithToken(s, random), Some(Json(Some(401), MismatchBody)), true))
      && (!IsAjaxRequest(req) ==>
            r.value.reply == Some(Location(None, "tech-error")) && Get(r.value.session, FlashKey) == Flash("error", MismatchFlash))
  {
    var s1 := WithToken(s, random);
    if IsExcludedPath(req.path) then Success(Outcome(s1, None, false))
    else if req.httpMethod != "POST" then Success(Outcome(s1, None, false))
    else
      var known, given := Get(s1, CsrfKey), BodyToken(req);
      if !known.Str? || !given.Str? then Failure(TypeErrorMessage)
      else if known.s == given.s then Success(Outcome(s1, None, false))
      else if IsAjaxRequest(req) then Success(Outcome(s1, Some(Json(Some(401), MismatchBody)), true))
      else Success(Outcome(SetFlashMessage(s1, "error", MismatchFlash), Some(Location(None, "tech-error")), true))
  }

  /** A fresh session gets a 64-digit lowercase hex token, whatever the request. */
  lemma FreshTokenShape(req: Request, s: SessionMap, random: seq<Byte>)
    requires |random| == 32 && !IsSet(s, CsrfKey)
    requires Handle(req, s, random).Success?
    ensures var t := Get(Handle(req, s, random).value.session, CsrfKey);
      t.Str? && |t.s| == 64 && forall i :: 0 <= i < 64 ==> IsLowerHex(t.s[i])
  {
  }

  /**
   * The token is never replaced: a second request, with other random
   * bytes, finds the token the first one stored and keeps it.
   */
  lemma TokenIsStable(req1: Request, req2: Request, s: SessionMap, random1: seq<Byte>, random2: seq<Byte>)
    requires |random1| == 32 && |random2| == 32
    requires Handle(req1, s, random1).Success?
    requires Handle(req2, Handle(req1, s, random1).value.session, random2).Success?
    ensures var s1 := Handle(req1, s, random1).value.session;
      Get(Handle(req2, s1, random2).value.session, CsrfKey) == Get(s1, CsrfKey)
  {
    var s1 := Handle(req1, s, random1).value.session;
    assert IsSet(s1, CsrfKey);
  }

  /** The exclusion is a prefix match: "/homepage" skips validation even for a POST without a token. */
  lemma HomepageSkipsValidation(req: Request, s: SessionMap, random: seq<Byte>)
    requires |random| == 32 && req.path == "/homepage" && req.httpMethod == "POST" && req.body == map[]
    ensures Handle(req, s, random).Success? && Passes(Handle(req, s, random).value)
  {
    assert req.path[..5] == "/home";
  }
}

=== FILE: csv_exporter.dfy ===
/**
 * The member-register cleaning step: every text cell of the spreadsheet is
 * normalised (line breaks, runs of spaces, surrounding whitespace), then
 * rows whose cells are all missing are dropped, then columns whose
 * remaining cells are all missing are dropped.
 */
module CsvExporter {
  import opened Strings

  /** A spreadsheet cell: text, a number, or missing (pandas NaN). */
  datatype Cell = Text(t: string) | Num(n: int) | Missing

  /** Python's `str.isspace` for a single character. */
  predicate IsPySpace(c: char) {
    c == ' ' || ('\t' <= c <= '\r') || ('\U{1C}' <= c <= '\U{1F}')
    || c == '\U{85}' || c == '\U{A0}' || c == '\U{1680}'
    || ('\U{2000}' <= c <= '\U{200A}') || c == '\U{2028}' || c == '\U{2029}'
    || c == '\U{202F}' || c == '\U{205F}' || c == '\U{3000}'
  }

  /** No two neighbouring space characters. */
  predicate NoDoubleSpace(s: string) {
    forall i, j :: 0 <= i < |s| && 0 <= j < |s| && j == i + 1 ==> !(s[i] == ' ' && s[j] == ' ')
  }

  /** `s.replace('\n', ' ')` */
  function LfToSpace(s: string): (r: string)
    ensures |r| == |s| && '\n' !in r
    ensures forall i :: 0 <= i < |s| && s[i] != '\n' ==> r[i] == s[i]
    ensures forall i :: 0 <= i < |s| && s[i] == '\n' ==> r[i] == ' '
  {
    seq(|s|, i requires 0 <= i < |s| => if s[i] == '\n' then ' ' else s[i])
  }

  predicate NotCr(c: char) { c != '\r' }

  /**
   * `r` is `s` with some characters deleted, each one at a point where
   * `drop` holds of what remains of `s` from that character on; all other
   * characters are kept in order.
   */
  predicate Deletes(s: string, r: string, drop: string -> bool)
    decreases |s|
  {
    if |s| == 0 then r == []
    else
      || (|r| > 0 && r[0] == s[0] && Deletes(s[1..], r[1..], drop))
      || (drop(s) && Deletes(s[1..], r, drop))
  }

  /** A carriage return may be deleted. */
  predicate CrFirst(s: string) {
    |s| > 0 && s[0] == '\r'
  }

  /** A space followed by another space may be deleted. */
  predicate SpaceBeforeSpace(s: string) {
    |s| >= 2 && s[0] == ' ' && s[1] == ' '
  }

  /** `s.replace('\r', '')`: only carriage returns are deleted, and none is left. */
  function DeleteCr(s: string): (r: string)
    ensures |r| <= |s| && '\r' !in r
    ensures forall c :: c in r ==> c in s
    ensures Deletes(s, r, CrFirst)
  {
    DeleteCrDeletes(s);
    Filter(s, NotCr)
  }

  lemma {:induction false} DeleteCrDeletes(s: string)
    ensures Deletes(s, Filter(s, NotCr), CrFirst)
    decreases |s|
  {
    if |s| > 0 {
      DeleteCrDeletes(s[1..]);
      var rest := Filter(s[1..], NotCr);
      FilterConcat([s[0]], s[1..], NotCr);
      assert [s[0]] + s[1..] == s;
      assert Filter([s[0]], NotCr) == (if NotCr(s[0]) then [s[0]] else []) by {
        assert [s[0]][..0] == [];
      }
      if s[0] == '\r' {
        assert Filter(s, NotCr) == rest && CrFirst(s);
      } else {
        assert Filter(s, NotCr)[1..] == rest;
      }
    }
  }

  /** Deleting carriage returns is determined: any such deletion that leaves none is `DeleteCr`. */
  lemma {:induction false} DeleteCrUnique(s: string, t: string)
    requires Deletes(s, t, CrFirst) && '\r' !in t
    ensures t == DeleteCr(s)
    decreases |s|
  {
    if |s| > 0 {
      FilterConcat([s[0]], s[1..], NotCr);
      assert [s[0]] + s[1..] == s;
      assert Filter([s[0]], NotCr) == (if NotCr(s[0]) then [s[0]] else []) by {
        assert [s[0]][..0] == [];
      }
      if s[0] == '\r' {
        assert !(|t| > 0 && t[0] == s[0]);
        DeleteCrUnique(s[1..], t);
      } else {
        assert '\r' !in t[1..] by { assert forall k :: 0 <= k < |t| - 1 ==> t[1..][k] == t[k + 1]; }
        DeleteCrUnique(s[1..], t[1..]);
        assert t == [t[0]] + t[1..];
      }
    }
  }

  /** `re.sub(' +', ' ', s)`: every run of spaces becomes a single space. */
  function Collapse(s: string): (r: string)
    ensures |r| <= |s|
    ensures NoDoubleSpace(r)
    ensures Deletes(s, r, SpaceBeforeSpace)
    ensures forall c :: c in r ==> c in s
    ensures |s| > 0 ==> |r| > 0 && r[0] == s[0]
    decreases |s|
  {
    if |s| == 0 then []
    else if |s| >= 2 && s[0] == ' ' && s[1] == ' ' then Collapse(s[1..])
    else
      var rest := Collapse(s[1..]);
      assert forall c :: c in rest ==> c in s;
      var r := [s[0]] + rest;
      assert r[1..] == rest;
      r
  }

  /** Whatever survives of a leading space keeps a leading space. */
  lemma {:induction false} DeletesKeepsLeadingSpace(s: string, t: string)
    requires |s| > 0 && s[0] == ' ' && Deletes(s, t, SpaceBeforeSpace)
    ensures |t| > 0 && t[0] == ' '
    decreases |s|
  {
    if !(|t| > 0 && t[0] == s[0] && Deletes(s[1..], t[1..], SpaceBeforeSpace)) {
      DeletesKeepsLeadingSpace(s[1..], t);
    }
  }

  /** Keeping the first of two spaces keeps a second one right after it. */
  lemma KeptLeadingSpace(s: string, t: string)
    requires SpaceBeforeSpace(s) && |t| > 0 && t[0] == s[0] && Deletes(s[1..], t[1..], SpaceBeforeSpace)
    ensures |t| > 1 && t[0] == ' ' && t[1] == ' '
  {
    DeletesKeepsLeadingSpace(s[1..], t[1..]);
    assert t[1..][0] == t[1];
  }

  /**
   * Collapsing is determined: deleting only spaces that precede a space,
   * until no two spaces are adjacent, always gives `Collapse(s)`.
   */
  lemma {:induction false} CollapseUnique(s: string, t: string)
    requires Deletes(s, t, SpaceBeforeSpace) && NoDoubleSpace(t)
    ensures t == Collapse(s)
    decreases |s|
  {
    if |s| > 0 {
      if SpaceBeforeSpace(s) {
        if |t| > 0 && t[0] == s[0] && Deletes(s[1..], t[1..], SpaceBeforeSpace) {
          KeptLeadingSpace(s, t);
          assert false;
        }
        CollapseUnique(s[1..], t);
      } else {
        assert NoDoubleSpace(t[1..]) by {
          assert forall k :: 0 <= k < |t| - 1 ==> t[1..][k] == t[k + 1];
        }
        CollapseUnique(s[1..], t[1..]);
        assert t == [t[0]] + t[1..];
      }
    }
  }

  /** Python's `s.strip()`: the surrounding whitespace is removed (exactly that: `StripExact`). */
  function Strip(s: string): (r: string)
    ensures |r| == 0 <==> forall k :: 0 <= k < |s| ==> IsPySpace(s[k])
    ensures |r| <= |s|
    ensures |r| > 0 ==> !IsPySpace(r[0]) && !IsPySpace(r[|r| - 1])
  {
    TrimBy(s, IsPySpace)
  }

  /** `strip` removes exactly the leading and trailing whitespace, and nothing else. */
  lemma StripExact(s: string)
    ensures exists i :: TrimmedAt(s, Strip(s), IsPySpace, i)
    ensures forall t, i :: TrimmedAt(s, t, IsPySpace, i) ==> t == Strip(s)
  {
    TrimByExact(s, IsPySpace);
    forall t, i | TrimmedAt(s, t, IsPySpace, i)
      ensures t == Strip(s)
    {
      TrimByUnique(s, IsPySpace, t, i);
    }
  }

  /**
   * The text branch of `clean_cell`: the result has no line breaks, no
   * double spaces and no surrounding whitespace, is no longer than the
   * input, and an already clean text comes back unchanged.
   */
  function CleanText(s: string): (r: string)
    ensures IsClean(r)
    ensures |r| <= |s|
    ensures IsClean(s) ==> r == s
  {
    var d := DeleteCr(LfToSpace(s));
    assert '\n' !in d && '\r' !in d;
    var c := Collapse(d);
    assert '\n' !in c && '\r' !in c;
    StripIsClean(c);
    KeepsClean(s);
    Strip(c)
  }

  /** `clean_cell`: text is normalised, numbers and missing cells pass through. */
  function CleanCell(c: Cell): (r: Cell)
    ensures c.Text? <==> r.Text?
    ensures c.Missing? <==> r.Missing?
    ensures !c.Text? ==> r == c
  {
    match c
    case Text(t) => Text(CleanText(t))
    case _ => c
  }

  /** The shape of a cleaned string. */
  predicate IsClean(s: string) {
    '\n' !in s && '\r' !in s && NoDoubleSpace(s)
    && (|s| > 0 ==> !IsPySpace(s[0]) && !IsPySpace(s[|s| - 1]))
  }

  lemma {:induction false} CollapseKeepsNoDoubleSpace(s: string)
    requires NoDoubleSpace(s)
    ensures Collapse(s) == s
    decreases |s|
  {
    if |s| > 0 {
      CollapseKeepsNoDoubleSpace(s[1..]);
      assert s == [s[0]] + s[1..];
    }
  }

  lemma FilterKeepsAll(s: string)
    requires '\r' !in s
    ensures DeleteCr(s) == s
  {
    assert forall i :: 0 <= i < |s| ==> NotCr(s[i]);
    FilterAllKept(s, NotCr);
  }

  lemma SliceNoDoubleSpace(s: string, r: string, i: int)
    requires NoDoubleSpace(s) && OccursAt(s, r, i)
    ensures NoDoubleSpace(r)
  {
    assert forall k :: 0 <= k < |r| ==> r[k] == s[i + k];
  }

  /** Stripping a line-free string without double spaces gives a clean string. */
  lemma StripIsClean(c: string)
    requires '\n' !in c && '\r' !in c && NoDoubleSpace(c)
    ensures IsClean(Strip(c))
  {
    var r := Strip(c);
    StripExact(c);
    var i :| TrimmedAt(c, r, IsPySpace, i);
    SliceNoDoubleSpace(c, r, i);
    SliceAvoids(c, r, i, '\n');
    SliceAvoids(c, r, i, '\r');
  }

  /** A character missing from `s` is missing from every slice of it. */
  lemma SliceAvoids(s: string, r: string, i: int, ch: char)
    requires ch !in s && OccursAt(s, r, i)
    ensures ch !in r
  {
    forall k | 0 <= k < |r|
      ensures r[k] != ch
    {
      assert r[k] == s[i + k];
    }
  }

  /** Each cleaning step leaves an already clean string unchanged. */
  lemma KeepsClean(s: string)
    ensures IsClean(s) ==> Strip(Collapse(DeleteCr(LfToSpace(s)))) == s
  {
    if IsClean(s) {
      assert LfToSpace(s) == s;
      FilterKeepsAll(s);
      CollapseKeepsNoDoubleSpace(s);
    }
  }

  /** `clean_cell` is idempotent. */
  lemma CleanCellIdempotent(c: Cell)
    ensures CleanCell(CleanCell(c)) == CleanCell(c)
  {
    if c.Text? {
      assert CleanText(CleanText(c.t)) == CleanText(c.t);
    }
  }

  /** Two clean non-empty strings joined by a character other than a line break are clean. */
  lemma JoinIsClean(a: string, sep: string, b: string)
    requires IsClean(a) && IsClean(b) && |a| > 0 && |b| > 0
    requires |sep| <= 1 && '\n' !in sep && '\r' !in sep
    ensures IsClean(a + sep + b)
  {
    var s := a + sep + b;
    assert forall i :: 0 <= i < |a| ==> s[i] == a[i];
    assert forall i :: 0 <= i < |b| ==> s[|a| + |sep| + i] == b[i];
    assert NoDoubleSpace(s);
  }

  /** A line feed between two clean words becomes one space. */
  lemma LineFeedBecomesSpace(a: string, b: string)
    requires IsClean(a) && IsClean(b) && |a| > 0 && |b| > 0
    ensures CleanText(a + "\n" + b) == a + " " + b
  {
    var x, y := a + "\n" + b, a + " " + b;
    LfToSpaceJoin(a, b);
    JoinIsClean(a, " ", b);
    LfToSpaceFixes(y);
    CleanTextByLf(x, y);
  }

  lemma LfToSpaceFixes(s: string)
    requires '\n' !in s
    ensures LfToSpace(s) == s
  {
  }

  /** Cleaning looks at a string only through its line-feed replacement. */
  lemma CleanTextByLf(x: string, y: string)
    requires LfToSpace(x) == LfToSpace(y)
    ensures CleanText(x) == CleanText(y)
  {
  }

  /** Replacing line feeds in two line-free strings joined by one touches only the joint. */
  lemma LfToSpaceJoin(a: string, b: string)
    requires '\n' !in a && '\n' !in b
    ensures LfToSpace(a + "\n" + b) == a + " " + b
  {
    var x, y := a + "\n" + b, a + " " + b;
    var r := LfToSpace(x);
    forall i | 0 <= i < |x|
      ensures r[i] == y[i]
    {
      if i < |a| {
        assert x[i] == a[i] && y[i] == a[i];
      } else if i == |a| {
        assert x[i] == '\n' && y[i] == ' ';
      } else {
        assert x[i] == b[i - |a| - 1] && y[i] == b[i - |a| - 1];
      }
    }
  }

  lemma DeleteCrJoin(a: string, b: string)
    requires '\n' !in a && '\n' !in b && '\r' !in a && '\r' !in b
    ensures DeleteCr(LfToSpace(a + "\r" + b)) == a + b
  {
    assert LfToSpace(a + "\r" + b) == LfToSpace(a) + "\r" + LfToSpace(b);
    assert LfToSpace(a) == a && LfToSpace(b) == b;
    FilterConcat(a + "\r", b, NotCr);
    FilterConcat(a, "\r", NotCr);
    FilterKeepsAll(a);
    FilterKeepsAll(b);
    assert Filter("\r", NotCr) == [];
  }

  /** A carriage return between two clean words is deleted, not replaced by a space. */
  lemma CarriageReturnVanishes(a: string, b: string)
    requires IsClean(a) && IsClean(b) && |a| > 0 && |b| > 0
    ensures CleanText(a + "\r" + b) == a + b
  {
    var x, y := a + "\r" + b, a + b;
    DeleteCrJoin(a, b);
    JoinIsClean(a, "", b);
    assert a + "" + b == y;
    LfToSpaceFixes(y);
    FilterKeepsAll(y);
    CleanTextByDeleteCr(x, y);
  }

  /** Cleaning looks at a string only through its line-break handling. */
  lemma CleanTextByDeleteCr(x: string, y: string)
    requires DeleteCr(LfToSpace(x)) == DeleteCr(LfToSpace(y))
    ensures CleanText(x) == CleanText(y)
  {
  }

  /** A tab between two clean words survives. */
  lemma InteriorTabSurvives(a: string, b: string)
    requires IsClean(a) && IsClean(b) && |a| > 0 && |b| > 0
    ensures CleanText(a + "\t" + b) == a + "\t" + b
  {
    JoinIsClean(a, "\t", b);
  }

  // ---------------------------------------------------------------------
  // Dropping empty rows and columns.

  predicate AllMissing(row: seq<Cell>) {
    forall j :: 0 <= j < |row| ==> row[j].Missing?
  }

  predicate HasValue(row: seq<Cell>) { !AllMissing(row) }

  /** Column `j` has a non-missing cell in some row. */
  predicate ColumnHasValue(rows: seq<seq<Cell>>, j: nat) {
    exists i :: 0 <= i < |rows| && j < |rows[i]| && !rows[i][j].Missing?
  }

  /** Every row has `w` cells. */
  predicate Rect(rows: seq<seq<Cell>>, w: nat) {
    forall i :: 0 <= i < |rows| ==> |rows[i]| == w
  }

  /** A data frame: column headers and rows of cells. */
  datatype Frame = Frame(header: seq<string>, rows: seq<seq<Cell>>)

  predicate WellFormed(f: Frame) {
    Rect(f.rows, |f.header|)
  }

  function CleanRow(row: seq<Cell>): (r: seq<Cell>)
    ensures |r| == |row|
    ensures forall j :: 0 <= j < |row| ==> r[j] == CleanCell(row[j])
  {
    seq(|row|, j requires 0 <= j < |row| => CleanCell(row[j]))
  }

  /** The rows that survive `dropna(how='all')`: those with a value. */
  function KeptRows(rows: seq<seq<Cell>>): (r: seq<nat>)
    ensures forall k :: 0 <= k < |r| ==> r[k] < |rows| && HasValue(rows[r[k]])
    ensures forall i :: 0 <= i < |rows| && HasValue(rows[i]) ==> i in r
    ensures forall k, l :: 0 <= k < l < |r| ==> r[k] < r[l]
  {
    Keep(rows, HasValue)
  }

  /** The columns that survive `dropna(axis=1, how='all')`. */
  function KeptColumns(rows: seq<seq<Cell>>, w: nat): (r: seq<nat>)
    ensures forall k :: 0 <= k < |r| ==> r[k] < w && ColumnHasValue(rows, r[k])
    ensures forall j :: 0 <= j < w && ColumnHasValue(rows, j) ==> j in r
    ensures forall k, l :: 0 <= k < l < |r| ==> r[k] < r[l]
  {
    Keep(Range(w), j => ColumnHasValue(rows, j))
  }

  function CleanRows(rows: seq<seq<Cell>>): (r: seq<seq<Cell>>)
    ensures |r| == |rows|
    ensures forall i :: 0 <= i < |rows| ==> r[i] == CleanRow(rows[i])
  {
    seq(|rows|, i requires 0 <= i < |rows| => CleanRow(rows[i]))
  }

  /** Each row restricted to the columns `kc`, in the order of `kc`. */
  function Project(rows: seq<seq<Cell>>, kc: seq<nat>): (r: seq<seq<Cell>>)
    requires forall a, k :: 0 <= a < |rows| && 0 <= k < |kc| ==> kc[k] < |rows[a]|
    ensures |r| == |rows|
    ensures forall a :: 0 <= a < |rows| ==> r[a] == Select(rows[a], kc)
  {
    seq(|rows|, a requires 0 <= a < |rows| => Select(rows[a], kc))
  }

  /**
   * `clean_and_export_excel` without the file I/O: clean every cell, drop
   * the rows that are wholly missing, then the columns wholly missing in
   * the remaining rows.
   */
  function Export(f: Frame): (r: Frame)
    requires WellFormed(f)
    ensures WellFormed(r)
    ensures |r.rows| <= |f.rows| && |r.header| <= |f.header|
  {
    var cleaned := CleanRows(f.rows);
    var kr := KeptRows(cleaned);
    KeepLength(kr, |f.rows|);
    var kept := Select(cleaned, kr);
    var kc := KeptColumns(kept, |f.header|);
    KeepLength(kc, |f.header|);
    Frame(Select(f.header, kc), Project(kept, kc))
  }

  /** Projecting onto the columns that have a value keeps every row's value. */
  lemma ProjectKeepsValues(kept: seq<seq<Cell>>, w: nat)
    requires Rect(kept, w)
    ensures var p := Project(kept, KeptColumns(kept, w));
      (forall a :: 0 <= a < |kept| && HasValue(kept[a]) ==> HasValue(p[a]))
      && forall b :: 0 <= b < |KeptColumns(kept, w)| ==> ColumnHasValue(p, b)
  {
    var kc := KeptColumns(kept, w);
    var p := Project(kept, kc);
    forall a | 0 <= a < |kept| && HasValue(kept[a])
      ensures HasValue(p[a])
    {
      var j :| 0 <= j < |kept[a]| && !kept[a][j].Missing?;
      assert ColumnHasValue(kept, j);
      var b :| 0 <= b < |kc| && kc[b] == j;
      assert !p[a][b].Missing?;
    }
    forall b | 0 <= b < |kc|
      ensures ColumnHasValue(p, b)
    {
      var a :| 0 <= a < |kept| && kc[b] < |kept[a]| && !kept[a][kc[b]].Missing?;
      assert !p[a][b].Missing?;
    }
  }

  /** After export no row and no column is wholly missing. */
  lemma ExportHasNoEmptyRowOrColumn(f: Frame)
    requires WellFormed(f)
    ensures var r := Export(f);
      (forall i :: 0 <= i < |r.rows| ==> HasValue(r.rows[i]))
      && forall j :: 0 <= j < |r.header| ==> ColumnHasValue(r.rows, j)
  {
    var cleaned := CleanRows(f.rows);
    var kept := Select(cleaned, KeptRows(cleaned));
    ProjectKeepsValues(kept, |f.header|);
  }

  /** A strictly increasing sequence of indices below `n` has at most `n` elements. */
  lemma {:induction false} KeepLength(r: seq<nat>, n: nat)
    requires forall k :: 0 <= k < |r| ==> r[k] < n
    requires forall k, l :: 0 <= k < l < |r| ==> r[k] < r[l]
    ensures |r| <= n
  {
    if |r| > 0 {
      var init := r[..|r| - 1];
      assert forall k :: 0 <= k < |init| ==> init[k] < r[|r| - 1];
      KeepLength(init, r[|r| - 1]);
    }
  }

  /** Cleaning never turns a missing cell into a value or back, so it keeps the same rows. */
  lemma CleanKeepsSameRows(rows: seq<seq<Cell>>)
    ensures KeptRows(CleanRows(rows)) == KeptRows(rows)
  {
    var cleaned := CleanRows(rows);
    forall i | 0 <= i < |cleaned|
      ensures HasValue(cleaned[i]) <==> HasValue(rows[i])
    {
      assert forall j :: 0 <= j < |cleaned[i]| ==> (cleaned[i][j].Missing? <==> rows[i][j].Missing?);
    }
    KeepCongruent(cleaned, HasValue, rows, HasValue);
  }

  /** ... and the same columns. */
  lemma CleanKeepsSameColumns(rows: seq<seq<Cell>>, w: nat)
    ensures KeptColumns(CleanRows(rows), w) == KeptColumns(rows, w)
  {
    var cleaned := CleanRows(rows);
    forall j | 0 <= j < w
      ensures ColumnHasValue(cleaned, j) <==> ColumnHasValue(rows, j)
    {
      if ColumnHasValue(rows, j) {
        var i :| 0 <= i < |rows| && j < |rows[i]| && !rows[i][j].Missing?;
        assert !cleaned[i][j].Missing?;
      }
    }
    KeepCongruent(Range(w), j => ColumnHasValue(cleaned, j), Range(w), j => ColumnHasValue(rows, j));
  }

  /** Dropping the wholly missing rows first does not change which columns have a value. */
  lemma RowDropKeepsSameColumns(rows: seq<seq<Cell>>, w: nat)
    ensures KeptColumns(Select(rows, KeptRows(rows)), w) == KeptColumns(rows, w)
  {
    var kr := KeptRows(rows);
    var kept := Select(rows, kr);
    forall j | 0 <= j < w
      ensures ColumnHasValue(kept, j) <==> ColumnHasValue(rows, j)
    {
      if ColumnHasValue(rows, j) {
        var i :| 0 <= i < |rows| && j < |rows[i]| && !rows[i][j].Missing?;
        assert HasValue(rows[i]);
        var a :| 0 <= a < |kr| && kr[a] == i;
        assert !kept[a][j].Missing?;
      }
    }
    KeepCongruent(Range(w), j => ColumnHasValue(kept, j), Range(w), j => ColumnHasValue(rows, j));
  }

  /**
   * Cleaning does not influence what is dropped: the surviving rows are
   * exactly the input rows with a non-missing cell, the surviving columns
   * exactly the input columns with a non-missing cell, both in their
   * original order, and each surviving cell is the cleaned input cell.
   */
  lemma ExportDropsExactlyMissing(f: Frame)
    requires WellFormed(f)
    ensures var r := Export(f);
      var kr := KeptRows(f.rows);
      var kc := KeptColumns(f.rows, |f.header|);
      |r.rows| == |kr| && r.header == Select(f.header, kc)
      && forall a, b :: 0 <= a < |kr| && 0 <= b < |kc| ==>
           r.rows[a][b] == CleanCell(f.rows[kr[a]][kc[b]])
  {
    var w := |f.header|;
    var cleaned := CleanRows(f.rows);
    CleanKeepsSameRows(f.rows);
    RowDropKeepsSameColumns(cleaned, w);
    CleanKeepsSameColumns(f.rows, w);
  }

  /** A cell holding only whitespace cleans to "", which is not missing, so its row is kept. */
  lemma WhitespaceCellKeepsRow(f: Frame, i: nat, j: nat)
    requires WellFormed(f)
    requires i < |f.rows| && j < |f.header|
    requires f.rows[i][j].Text?
    requires forall k :: 0 <= k < |f.rows[i][j].t| ==> IsPySpace(f.rows[i][j].t[k])
    ensures CleanCell(f.rows[i][j]) == Text("")
    ensures i in KeptRows(f.rows) && j in KeptColumns(f.rows, |f.header|)
  {
    var t := f.rows[i][j].t;
    var c := Collapse(DeleteCr(LfToSpace(t)));
    assert forall k :: 0 <= k < |LfToSpace(t)| ==> IsPySpace(LfToSpace(t)[k]);
    assert forall ch :: ch in c ==> IsPySpace(ch);
    TrimAllBy(c, IsPySpace);
    assert HasValue(f.rows[i]);
    assert ColumnHasValue(f.rows, j);
  }
}

=== FILE: csv_importer.dfy ===
/**
 * The pure parts of the one-off member import from the cleaned CSV file:
 * searching the read rows, the row validity check, linking role names to
 * roles, the mailing preference and the payments created per year.
 */
module CsvImporter {
  import opened Wrappers
  import opened Strings
  import opened Php
  import opened DateFormatter

  /** A CSV line combined with the header row: column name to cell text. */
  type CsvRow = map<string, string>

  // ---------------------------------------------------------------
  // findMembersInCsv
  // ---------------------------------------------------------------

  /** The filter callback: a wildcard ("*" or "") asks only that the column is present. */
  predicate MatchesSearch(row: CsvRow, key: string, searchValue: string) {
    if searchValue == "*" || searchValue == "" then key in row
    else key in row && row[key] == searchValue
  }

  function SearchFor(key: string, searchValue: string): CsvRow -> bool {
    row => MatchesSearch(row, key, searchValue)
  }

  /**
   * `findMembersInCsv($key, $searchValue)`: `array_filter` keeps the
   * original positions as keys, so each hit is paired with its index.
   */
  function FindMembersInCsv(data: seq<CsvRow>, key: string, searchValue: string): (r: seq<(nat, CsvRow)>)
    ensures forall k :: 0 <= k < |r| ==> r[k].0 < |data| && r[k].1 == data[r[k].0]
    ensures forall k :: 0 <= k < |r| ==> MatchesSearch(r[k].1, key, searchValue)
    ensures forall k, l :: 0 <= k < l < |r| ==> r[k].0 < r[l].0
    ensures forall i :: 0 <= i < |data| && MatchesSearch(data[i], key, searchValue) ==> (i, data[i]) in r
  {
    var idx := Keep(data, SearchFor(key, searchValue));
    var r := seq(|idx|, k requires 0 <= k < |idx| => (idx[k], data[idx[k]]));
    forall i | 0 <= i < |data| && MatchesSearch(data[i], key, searchValue)
      ensures (i, data[i]) in r
    {
      assert SearchFor(key, searchValue)(data[i]);
      var k :| 0 <= k < |idx| && idx[k] == i;
      assert r[k] == (i, data[i]);
    }
    r
  }

  /** A wildcard search returns exactly the rows that have the column. */
  lemma WildcardFindsColumn(data: seq<CsvRow>, key: string, searchValue: string, i: nat)
    requires searchValue == "*" || searchValue == ""
    requires i < |data|
    ensures (i, data[i]) in FindMembersInCsv(data, key, searchValue) <==> key in data[i]
  {
  }

  /** Any other search value returns exactly the rows whose cell is that string. */
  lemma ExactSearch(data: seq<CsvRow>, key: string, searchValue: string, i: nat)
    requires searchValue != "*" && searchValue != ""
    requires i < |data|
    ensures (i, data[i]) in FindMembersInCsv(data, key, searchValue) <==> key in data[i] && data[i][key] == searchValue
  {
    var r := FindMembersInCsv(data, key, searchValue);
    if (i, data[i]) in r {
      var k :| 0 <= k < |r| && r[k] == (i, data[i]);
    }
  }

  // ---------------------------------------------------------------
  // isValidCsvRow
  // ---------------------------------------------------------------

  /** The number of columns of the import file. */
  const ExpectedColumns: nat := 32

  /** `$row[$k]` read as a PHP value: a missing column is null. */
  function Cell(row: CsvRow, k: string): Val {
    if k in row then Str(row[k]) else Null
  }

  /**
   * `isValidCsvRow($row)`. `strtotime` is a parameter: it gives the
   * timestamp of a date text, or nothing. A timestamp of 0 (the epoch) is
   * falsy and so rejected like an unparsable date. The final trimming loop
   * writes to the function's own copy of the row and is not modelled.
   */
  function IsValidCsvRow(row: CsvRow, strtotime: string -> Option<int>): (r: bool)
    ensures r ==> |row| == ExpectedColumns
    ensures r ==> "Efternamn" in row && !EmptyStr(row["Efternamn"])
    ensures r && "Födelsedatum" in row && !EmptyStr(row["Födelsedatum"]) ==>
      strtotime(row["Födelsedatum"]).Some? && strtotime(row["Födelsedatum"]).value != 0
  {
    if |row| != ExpectedColumns then false
    else if !Truthy(Cell(row, "Efternamn")) then false
    else if Truthy(Cell(row, "Födelsedatum")) && !(strtotime(row["Födelsedatum"]).Some? && strtotime(row["Födelsedatum"]).value != 0) then false
    else true
  }

  /** The three checks are all there is: a row meeting them is valid. */
  lemma ValidRowIff(row: CsvRow, strtotime: string -> Option<int>)
    ensures IsValidCsvRow(row, strtotime) <==>
      && |row| == ExpectedColumns
      && "Efternamn" in row && !EmptyStr(row["Efternamn"])
      && ("Födelsedatum" in row && !EmptyStr(row["Födelsedatum"]) ==>
            strtotime(row["Födelsedatum"]).Some? && strtotime(row["Födelsedatum"]).value != 0)
  {
  }

  /**
   * The check runs before any trimming, so a blank-but-spaced surname
   * passes although it trims to nothing.
   */
  lemma BlankSurnamePasses(row: CsvRow, strtotime: string -> Option<int>)
    requires |row| == ExpectedColumns && "Födelsedatum" !in row
    requires "Efternamn" in row && row["Efternamn"] == " "
    ensures IsValidCsvRow(row, strtotime)
    ensures Trim(row["Efternamn"]) == ""
  {
    TrimAllBy(" ", IsTrimChar);
  }

  /** A birth date whose timestamp is the epoch is rejected as if it were not a date. */
  lemma EpochBirthDateRejected(row: CsvRow, strtotime: string -> Option<int>)
    requires "Födelsedatum" in row && !EmptyStr(row["Födelsedatum"])
    requires strtotime(row["Födelsedatum"]) == Some(0)
    ensures !IsValidCsvRow(row, strtotime)
  {
  }

  // ---------------------------------------------------------------
  // Role names
  // ---------------------------------------------------------------

  /** A row of the Roll table. */
  datatype Role = Role(id: int, rollNamn: string)

  function RoleNames(roles: seq<Role>): (r: seq<string>)
    ensures |r| == |roles|
    ensures forall k :: 0 <= k < |roles| ==> r[k] == roles[k].rollNamn
  {
    seq(|roles|, k requires 0 <= k < |roles| => roles[k].rollNamn)
  }

  /**
   * The role a name links to: the first role whose name is loosely equal
   * to the trimmed name (`array_search` compares with `==`); PHP-empty
   * names link to nothing.
   */
  function LinkOne(name: string, roles: seq<Role>): (r: Option<int>)
    ensures EmptyStr(Trim(name)) ==> r.None?
    ensures r.Some? <==> !EmptyStr(Trim(name)) && InLoose(Trim(name), RoleNames(roles))
  {
    var n := Trim(name);
    if EmptyStr(n) then None
    else
      match SearchLoose(n, RoleNames(roles))
      case None => None
      case Some(k) => Some(roles[k].id)
  }

  function LinkTo(roles: seq<Role>): string -> Option<int> {
    name => LinkOne(name, roles)
  }

  /** The ids `link` gives for a list of names, in name order; names it gives nothing for are skipped. */
  function LinkAll(names: seq<string>, link: string -> Option<int>): (r: seq<int>)
    ensures |r| <= |names|
    decreases |names|
  {
    if |names| == 0 then []
    else
      var rest := LinkAll(names[1..], link);
      match link(names[0])
      case None => rest
      case Some(id) => [id] + rest
  }

  /**
   * `addRolesForMember`: the crew-role and maintenance-role cells are
   * split at commas and concatenated; the result is the role ids inserted
   * for the member, in order (duplicates included).
   */
  function AddRolesForMember(besattningRoll: string, underhallRoll: string, roles: seq<Role>): seq<int> {
    LinkAll(Explode(',', besattningRoll) + Explode(',', underhallRoll), LinkTo(roles))
  }

  /** Linking distributes over concatenated name lists. */
  lemma {:induction false} LinkAllConcat(a: seq<string>, b: seq<string>, link: string -> Option<int>)
    ensures LinkAll(a + b, link) == LinkAll(a, link) + LinkAll(b, link)
    decreases |a|
  {
    if |a| > 0 {
      assert (a + b)[0] == a[0];
      assert (a + b)[1..] == a[1..] + b;
      LinkAllConcat(a[1..], b, link);
      match link(a[0])
      case None =>
      case Some(id) =>
        assert LinkAll(a + b, link) == [id] + LinkAll(a[1..] + b, link);
    } else {
      assert a + b == b;
    }
  }

  /** Every linked id is the link of some name of the list. */
  lemma {:induction false} LinkAllSound(names: seq<string>, link: string -> Option<int>, id: int)
    requires id in LinkAll(names, link)
    ensures exists i :: 0 <= i < |names| && link(names[i]) == Some(id)
    decreases |names|
  {
    if link(names[0]) != Some(id) {
      LinkAllSound(names[1..], link, id);
      var i :| 0 <= i < |names[1..]| && link(names[1..][i]) == Some(id);
      assert names[1..][i] == names[i + 1];
    }
  }

  /** Every name that links to a role contributes that role's id. */
  lemma {:induction false} LinkAllComplete(names: seq<string>, link: string -> Option<int>, i: nat)
    requires i < |names| && link(names[i]).Some?
    ensures link(names[i]).value in LinkAll(names, link)
    decreases |names|
  {
    if i > 0 {
      assert names[1..][i - 1] == names[i];
      LinkAllComplete(names[1..], link, i - 1);
    }
  }

  /** With no name linking to a role, nothing is linked. */
  lemma {:induction false} NothingLinked(names: seq<string>, link: string -> Option<int>)
    requires forall i :: 0 <= i < |names| ==> link(names[i]).None?
    ensures LinkAll(names, link) == []
    decreases |names|
  {
    if |names| > 0 {
      assert forall i :: 0 <= i < |names[1..]| ==> names[1..][i] == names[i + 1];
      NothingLinked(names[1..], link);
    }
  }

  /**
   * Each linked id is the id of a role whose name loosely equals a
   * non-empty trimmed name, and each such name links.
   */
  lemma LinkedRoles(names: seq<string>, roles: seq<Role>, id: int)
    ensures id in LinkAll(names, LinkTo(roles)) <==>
      exists i :: 0 <= i < |names| && LinkOne(names[i], roles) == Some(id)
  {
    if id in LinkAll(names, LinkTo(roles)) {
      LinkAllSound(names, LinkTo(roles), id);
    }
    if i :| 0 <= i < |names| && LinkOne(names[i], roles) == Some(id) {
      LinkAllComplete(names, LinkTo(roles), i);
    }
  }

  /** The crew roles come first, then the maintenance roles. */
  lemma CrewRolesFirst(besattningRoll: string, underhallRoll: string, roles: seq<Role>)
    ensures AddRolesForMember(besattningRoll, underhallRoll, roles) ==
      LinkAll(Explode(',', besattningRoll), LinkTo(roles)) + LinkAll(Explode(',', underhallRoll), LinkTo(roles))
  {
    LinkAllConcat(Explode(',', besattningRoll), Explode(',', underhallRoll), LinkTo(roles));
  }

  /** A linked name finds the first role loosely named like it. */
  lemma LinkOneFirst(name: string, roles: seq<Role>, k: nat)
    requires LinkOne(name, roles).Some?
    requires k < |roles| && LooseEqStr(roles[k].rollNamn, Trim(name))
    ensures exists j :: 0 <= j <= k && LinkOne(name, roles) == Some(roles[j].id)
  {
    var j := SearchLoose(Trim(name), RoleNames(roles)).value;
    assert j <= k;
  }

  /**
   * A name written with leading zeros, such as "01" or " 01 ", finds a
   * numeric role name, as `array_search` compares loosely.
   */
  lemma LooseRoleName(id: int, name: string)
    requires Trim(name) == "01"
    ensures LinkOne(name, [Role(id, "1")]) == Some(id)
  {
    LooseRoleSearch(id);
  }

  lemma LooseRoleSearch(id: int)
    ensures SearchLoose("01", RoleNames([Role(id, "1")])) == Some(0)
  {
    LooseOne();
    assert RoleNames([Role(id, "1")]) == ["1"];
  }

  lemma LooseOne()
    ensures SearchLoose("01", ["1"]) == Some(0)
  {
    LooseEqStrNumeric();
    SearchLooseAt("01", ["1"], 0);
  }

  // ---------------------------------------------------------------
  // Mailing preference and payments
  // ---------------------------------------------------------------

  /** `pref_kommunikation`: 0 only for the exact text "Nej" in EjUtskick. */
  function PrefKommunikation(row: CsvRow): (r: int)
    ensures r == 0 || r == 1
  {
    if "EjUtskick" in row && row["EjUtskick"] == "Nej" then 0 else 1
  }

  /** The comparison is exact: lower case or surrounding blanks still opt in. */
  lemma PrefKommunikationExact(row: CsvRow)
    requires "EjUtskick" in row
    ensures PrefKommunikation(row) == 0 <==> row["EjUtskick"] == "Nej"
    ensures row["EjUtskick"] == "nej" || row["EjUtskick"] == " Nej" ==> PrefKommunikation(row) == 1
  {
  }

  /** `formatDateWithHms` called with a missing column under strict types. */
  const FormatNullError := "TypeError: App\\Utils\\DateFormatter::formatDateWithHms(): Argument #1 ($dateString) must be of type string, null given"

  /** The fee recorded for each imported payment. */
  const ImportFee: int := 300
  const ImportComment: string := "Automatskapad vid import"

  /** A Betalning row as the import inserts it. */
  datatype Payment = Payment(medlemId: int, belopp: int, datum: string, avserAr: int, kommentar: string)

  /** The payment column for each year, newest first. */
  const PaymentColumns: seq<(int, string)> := [(2024, "B24"), (2023, "B23"), (2022, "B22")]

  /**
   * The payments for the listed columns: one per column whose cell `fmt`
   * accepts, dated with what `fmt` returns. A missing column passes null
   * to a string parameter: a `TypeError`.
   */
  function PaymentsFor(medlemId: int, row: CsvRow, cols: seq<(int, string)>, fmt: string -> Option<string>)
    : (r: Result<seq<Payment>, string>)
    ensures r.Success? <==> forall k :: 0 <= k < |cols| ==> cols[k].1 in row
    ensures r.Success? ==> |r.value| <= |cols|
    ensures r.Success? ==> forall p :: p in r.value ==> p.medlemId == medlemId && p.belopp == ImportFee && p.kommentar == ImportComment
    decreases |cols|
  {
    if |cols| == 0 then Success([])
    else
      var (year, col) := cols[0];
      if col !in row then Failure(FormatNullError)
      else
        match PaymentsFor(medlemId, row, cols[1..], fmt)
        case Failure(e) => Failure(e)
        case Success(rest) =>
          match fmt(row[col])
          case None => Success(rest)
          case Some(date) => Success([Payment(medlemId, ImportFee, date, year, ImportComment)] + rest)
  }

  function HmsFormatter(): string -> Option<string> {
    s => FormatDateWithHms(s)
  }

  /** The payments created for an imported member, newest year first. */
  function Payments(medlemId: int, row: CsvRow): Result<seq<Payment>, string> {
    PaymentsFor(medlemId, row, PaymentColumns, HmsFormatter())
  }

  /**
   * A payment is created for a year exactly when `fmt` accepts that
   * year's cell, and it carries what `fmt` returned.
   */
  lemma {:induction false} PaymentForYear(medlemId: int, row: CsvRow, cols: seq<(int, string)>, fmt: string -> Option<string>, k: nat)
    requires PaymentsFor(medlemId, row, cols, fmt).Success?
    requires k < |cols|
    requires forall i, j :: 0 <= i < j < |cols| ==> cols[i].0 != cols[j].0
    ensures (exists p :: p in PaymentsFor(medlemId, row, cols, fmt).value && p.avserAr == cols[k].0) <==>
      fmt(row[cols[k].1]).Some?
    ensures forall p :: p in PaymentsFor(medlemId, row, cols, fmt).value && p.avserAr == cols[k].0 ==>
      p.datum == fmt(row[cols[k].1]).value
    decreases |cols|
  {
    assert forall i :: 1 <= i < |cols| ==> cols[1..][i - 1] == cols[i];
    if k > 0 {
      PaymentForYear(medlemId, row, cols[1..], fmt, k - 1);
    }
    YearsListed(medlemId, row, cols[1..], fmt);
  }

  /** Every payment's year is one of the listed years. */
  lemma {:induction false} YearsListed(medlemId: int, row: CsvRow, cols: seq<(int, string)>, fmt: string -> Option<string>)
    requires PaymentsFor(medlemId, row, cols, fmt).Success?
    ensures forall p :: p in PaymentsFor(medlemId, row, cols, fmt).value ==>
      exists k :: 0 <= k < |cols| && cols[k].0 == p.avserAr
    decreases |cols|
  {
    if |cols| > 0 {
      YearsListed(medlemId, row, cols[1..], fmt);
      assert forall i :: 1 <= i < |cols| ==> cols[1..][i - 1] == cols[i];
    }
  }

  /**
   * For the import's three columns: a payment for a year exists exactly
   * when that year's cell is a canonical date-time, and its date is then a
   * valid 'Y-m-d' date.
   */
  lemma ImportPayment(medlemId: int, row: CsvRow, k: nat)
    requires Payments(medlemId, row).Success?
    requires k < 3
    ensures (exists p :: p in Payments(medlemId, row).value && p.avserAr == PaymentColumns[k].0) <==>
      FormatDateWithHms(row[PaymentColumns[k].1]).Some?
    ensures forall p :: p in Payments(medlemId, row).value && p.avserAr == PaymentColumns[k].0 ==>
      FormatDateYmd(p.datum) == Some(p.datum)
  {
    ColumnsDistinct();
    var cols, fmt := PaymentColumns, HmsFormatter();
    PaymentForYear(medlemId, row, cols, fmt, k);
    HmsDates(row[cols[k].1]);
  }

  lemma ColumnsDistinct()
    ensures |PaymentColumns| == 3
    ensures forall i, j :: 0 <= i < j < |PaymentColumns| ==> PaymentColumns[i].0 != PaymentColumns[j].0
  {
  }

  lemma HmsDates(s: string)
    ensures HmsFormatter()(s) == FormatDateWithHms(s)
    ensures FormatDateWithHms(s).Some? ==> FormatDateYmd(FormatDateWithHms(s).value) == FormatDateWithHms(s)
  {
    if FormatDateWithHms(s).Some? {
      HmsResultIsYmd(s);
    }
  }

  // ---------------------------------------------------------------
  // Importing rows
  // ---------------------------------------------------------------

  const SurnameNullError := "TypeError: Cannot assign null to property App\\Models\\Medlem::$efternamn of type string"

  /** `addRolesForMember` called with a missing role column under strict types. */
  const RolesNullError := "TypeError: App\\Utils\\CsvImporter::addRolesForMember(): Argument must be of type string, null given"

  /** PHP's name for the type of a value, as it appears in a `TypeError`. */
  function TypeName(v: Val): string {
    match v
    case Null => "null"
    case Bool(_) => "bool"
    case Int(_) => "int"
    case Str(_) => "string"
    case _ => "array"
  }

  /**
   * Assigning `v` to a `bool` property of Medlem in a file with strict
   * types: only a bool is accepted, anything else is a `TypeError`.
   */
  function StoreBool(prop: string, v: Val): (r: Result<bool, string>)
    ensures r.Success? <==> v.Bool?
    ensures r.Success? ==> r.value == v.b
    ensures r.Failure? ==> r.error == BoolTypeError(TypeName(v), prop)
  {
    if v.Bool? then Success(v.b)
    else Failure(BoolTypeError(TypeName(v), prop))
  }

  /** The message of a `TypeError` for a value of type `typeName` assigned to the bool property `prop`. */
  function BoolTypeError(typeName: string, prop: string): string {
    "TypeError: Cannot assign " + typeName + " to property App\\Models\\Medlem::$" + prop + " of type bool"
  }

  /** The preferences a stored row carries. */
  datatype Flags = Flags(prefKommunikation: bool, godkantGdpr: bool, isAdmin: bool)

  /** What one row of the loop ends in: created with its roles and payments, or caught by the PDO handler. */
  datatype RowOutcome =
    | Imported(id: int, flags: Flags, roleIds: seq<int>, payments: seq<Payment>)
    | NotCreated

  /**
   * One pass of `insertToDb`'s loop, with `pref`, `gdpr` and `admin` the
   * values assigned to the three bool properties and `created` the id
   * `create()` returns, or None when it throws a `PDOException`. A
   * missing birth-date or surname column throws before them; a missing
   * role or payment column throws after the create. Only the
   * `PDOException` of the create is caught.
   */
  function ImportRowWith(row: CsvRow, pref: Val, gdpr: Val, admin: Val, created: Option<int>, roles: seq<Role>)
    : (r: Result<RowOutcome, string>)
    ensures "Födelsedatum" !in row ==> r == Failure(FormatNullError)
    ensures "Födelsedatum" in row && "Efternamn" !in row ==> r == Failure(SurnameNullError)
    ensures r.Success? <==>
      "Födelsedatum" in row && "Efternamn" in row && pref.Bool? && gdpr.Bool? && admin.Bool?
      && (created.Some? ==>
            "BesättningRoll" in row && "UnderhållRoll" in row && Payments(created.value, row).Success?)
    ensures r.Success? ==> (r.value.NotCreated? <==> created.None?)
    ensures r.Success? && r.value.Imported? ==>
      r.value.id == created.value
      && r.value.flags == Flags(pref.b, gdpr.b, admin.b)
      && r.value.roleIds == AddRolesForMember(row["BesättningRoll"], row["UnderhållRoll"], roles)
      && r.value.payments == Payments(created.value, row).value
  {
    if "Födelsedatum" !in row then Failure(FormatNullError)
    else if "Efternamn" !in row then Failure(SurnameNullError)
    else
      match StoreBool("pref_kommunikation", pref)
      case Failure(e) => Failure(e)
      case Success(p) =>
        match StoreBool("godkant_gdpr", gdpr)
        case Failure(e) => Failure(e)
        case Success(g) =>
          match StoreBool("isAdmin", admin)
          case Failure(e) => Failure(e)
          case Success(a) =>
            match created
            case None => Success(NotCreated)
            case Some(id) =>
              if "BesättningRoll" !in row || "UnderhållRoll" !in row then Failure(RolesNullError)
              else
                var ids := AddRolesForMember(row["BesättningRoll"], row["UnderhållRoll"], roles);
                match Payments(id, row)
                case Failure(e) => Failure(e)
                case Success(pays) => Success(Imported(id, Flags(p, g, a), ids, pays))
  }

  /** The row as written: the preference and both flags are the ints 0 or 1. */
  function ImportRowAsWritten(row: CsvRow, created: Option<int>, roles: seq<Role>): Result<RowOutcome, string> {
    ImportRowWith(row, Int(PrefKommunikation(row)), Int(0), Int(0), created, roles)
  }

  /** The row as evidently intended: the same values as bools, 0 being false. */
  function ImportRow(row: CsvRow, created: Option<int>, roles: seq<Role>): Result<RowOutcome, string> {
    ImportRowWith(row, Bool(PrefKommunikation(row) == 1), Bool(false), Bool(false), created, roles)
  }

  const PrefTypeError := BoolTypeError("int", "pref_kommunikation")

  /**
   * As written, no row is ever imported: every row throws, and a row with
   * a birth date and a surname throws the preference's `TypeError`,
   * whatever `create` and the roles would have done.
   */
  lemma EveryRowFails(row: CsvRow, created: Option<int>, roles: seq<Role>)
    ensures ImportRowAsWritten(row, created, roles).Failure?
    ensures "Födelsedatum" in row && "Efternamn" in row ==> ImportRowAsWritten(row, created, roles) == Failure(PrefTypeError)
    ensures ImportRowAsWritten(row, created, roles) == ImportRowAsWritten(row, None, [])
  {
    assert TypeName(Int(PrefKommunikation(row))) == "int";
  }

  /**
   * The intended row stores the preference as the bool the int stood
   * for, and reaches the role linking and the payments.
   */
  lemma ImportRowStores(row: CsvRow, id: int, roles: seq<Role>)
    requires "Födelsedatum" in row && "Efternamn" in row && "BesättningRoll" in row && "UnderhållRoll" in row
    requires Payments(id, row).Success?
    ensures ImportRow(row, Some(id), roles).Success?
    ensures ImportRow(row, Some(id), roles).value.flags.prefKommunikation
      <==> !("EjUtskick" in row && row["EjUtskick"] == "Nej")
    ensures !ImportRow(row, Some(id), roles).value.flags.godkantGdpr && !ImportRow(row, Some(id), roles).value.flags.isAdmin
    ensures ImportRow(row, Some(id), roles).value.roleIds == AddRolesForMember(row["BesättningRoll"], row["UnderhållRoll"], roles)
  {
  }

  /**
   * `insertToDb`'s loop over the rows, each paired with what its create
   * does. The first exception ends the whole import; otherwise the result
   * is the number of rows created.
   */
  function InsertRows(data: seq<(CsvRow, Option<int>)>, roles: seq<Role>, asWritten: bool): (r: Result<nat, string>)
    ensures r.Success? ==> r.value <= |data|
    decreases |data|
  {
    if |data| == 0 then Success(0)
    else
      var (row, created) := data[0];
      var one := if asWritten then ImportRowAsWritten(row, created, roles) else ImportRow(row, created, roles);
      match one
      case Failure(e) => Failure(e)
      case Success(o) =>
        match InsertRows(data[1..], roles, asWritten)
        case Failure(e) => Failure(e)
        case Success(n) => Success(if o.Imported? then n + 1 else n)
  }

  /** The number of rows whose create succeeds. */
  function CreatedCount(data: seq<(CsvRow, Option<int>)>): (n: nat)
    ensures n <= |data|
  {
    if |data| == 0 then 0 else (if data[0].1.Some? then 1 else 0) + CreatedCount(data[1..])
  }

  /** As written, the import returns only for an empty file: the first row throws. */
  lemma {:induction false} InsertToDbAsWritten(data: seq<(CsvRow, Option<int>)>, roles: seq<Role>)
    ensures InsertRows(data, roles, true).Success? <==> |data| == 0
    ensures |data| > 0 ==> InsertRows(data, roles, true) == Failure(ImportRowAsWritten(data[0].0, None, []).error)
  {
    if |data| > 0 {
      EveryRowFails(data[0].0, data[0].1, roles);
    }
  }

  /** As intended, a completed import counts exactly the rows whose create succeeded. */
  lemma {:induction false} InsertToDbCounts(data: seq<(CsvRow, Option<int>)>, roles: seq<Role>)
    requires InsertRows(data, roles, false).Success?
    ensures InsertRows(data, roles, false).value == CreatedCount(data)
    decreases |data|
  {
    if |data| > 0 {
      InsertToDbCounts(data[1..], roles);
    }
  }
}


=== FILE: date_format.dfy ===
/**
 * `DateTime::createFromFormat` followed by `DateTime::format` with the
 * same format, for formats built from the fields Y, m, d, H, i, s and
 * literal characters. A value survives the round trip exactly when it is
 * the canonical (zero-padded) rendering of valid calendar components.
 */
module DateFormat {
  import opened Wrappers
  import opened Strings

  datatype Field = Year | Month | Day | Hour | Minute | Second

  /** One element of a parsed format string. */
  datatype Token = F(field: Field) | Lit(c: char)

  /** The fields a value was parsed into. */
  type Fields = map<Field, nat>

  /** Digits `format` writes for a field: Y pads to four, the rest to two. */
  function Width(f: Field): (w: nat)
    ensures w >= 2
  {
    if f == Year then 4 else 2
  }

  function FieldOf(c: char): Option<Field> {
    match c
    case 'Y' => Some(Year)
    case 'm' => Some(Month)
    case 'd' => Some(Day)
    case 'H' => Some(Hour)
    case 'i' => Some(Minute)
    case 's' => Some(Second)
    case _ => None
  }

  predicate NoRepeatedField(toks: seq<Token>) {
    forall i, j :: 0 <= i < j < |toks| && toks[i].F? && toks[j].F? ==> toks[i].field != toks[j].field
  }

  function FieldsIn(toks: seq<Token>): (r: set<Field>)
    ensures forall f :: f in r <==> exists i :: 0 <= i < |toks| && toks[i] == F(f)
  {
    if |toks| == 0 then {}
    else
      var rest := FieldsIn(toks[1..]);
      assert forall i :: 1 <= i < |toks| ==> toks[i] == toks[1..][i - 1];
      (if toks[0].F? then {toks[0].field} else {}) + rest
  }

  /** Each format character as a field or a literal. */
  function Tokenize(fmt: string): (r: seq<Token>)
    ensures |r| == |fmt|
    ensures forall i :: 0 <= i < |fmt| ==>
      r[i] == (if FieldOf(fmt[i]).Some? then F(FieldOf(fmt[i]).value) else Lit(fmt[i]))
  {
    seq(|fmt|, i requires 0 <= i < |fmt| =>
      if FieldOf(fmt[i]).Some? then F(FieldOf(fmt[i]).value) else Lit(fmt[i]))
  }

  /** No letter (or escape) outside the six modelled fields. */
  predicate OnlyModelledLetters(fmt: string) {
    forall i :: 0 <= i < |fmt| && FieldOf(fmt[i]).None? ==> !IsAlpha(fmt[i]) && fmt[i] != '\\'
  }

  /**
   * The date fields do not depend on the clock. `createFromFormat` takes
   * a missing year, month or day from the current date, so a month
   * without its day, or a day without its month and year, can roll over
   * on some days and not on others. Only no date field, the year alone,
   * or all three are independent of the current date.
   */
  predicate ClockFree(fields: set<Field>) {
    (Month in fields || Day in fields) ==> (Year in fields && Month in fields && Day in fields)
  }

  /**
   * The format string as tokens. Letters other than the six modelled
   * fields, a backslash, a repeated field, or date fields that leave part
   * of the date to the clock make the format unsupported (None); in
   * particular the meridian letter 'a' with no hour before it, which PHP
   * always rejects, is unsupported.
   */
  function ParseFormat(fmt: string): (r: Option<seq<Token>>)
    ensures r.Some? <==> OnlyModelledLetters(fmt) && NoRepeatedField(Tokenize(fmt)) && ClockFree(FieldsIn(Tokenize(fmt)))
    ensures r.Some? ==> r.value == Tokenize(fmt)
  {
    if OnlyModelledLetters(fmt) && NoRepeatedField(Tokenize(fmt)) && ClockFree(FieldsIn(Tokenize(fmt))) then Some(Tokenize(fmt)) else None
  }

  predicate IsLeap(y: nat) {
    y % 4 == 0 && (y % 100 != 0 || y % 400 == 0)
  }

  function DaysIn(y: nat, m: nat): nat
    requires 1 <= m <= 12
  {
    if m == 2 then (if IsLeap(y) then 29 else 28)
    else if m == 4 || m == 6 || m == 9 || m == 11 then 30
    else 31
  }

  /**
   * The parsed fields describe a real moment: month 1-12, a day that exists
   * in that month, hour below 24, minute and second below 60, and a year
   * that four digits render. A supported format parses a day only together
   * with its month and year; for any other field map a day is checked
   * against the longest month.
   */
  predicate Valid(m: Fields) {
    (Year in m ==> m[Year] <= 9999)
    && (Month in m ==> 1 <= m[Month] <= 12)
    && (Day in m ==> 1 <= m[Day] <= MaxDay(m))
    && (Hour in m ==> m[Hour] < 24)
    && (Minute in m ==> m[Minute] < 60)
    && (Second in m ==> m[Second] < 60)
  }

  /** The last day of the parsed month; the longest such month when the year or month is absent. */
  function MaxDay(m: Fields): nat {
    if Month in m && 1 <= m[Month] <= 12 then
      if Year in m then DaysIn(m[Year], m[Month]) else DaysIn(2000, m[Month])
    else 31
  }

  /**
   * "m-d" leaves the year to the clock (29 February), "Y-m" the day (the
   * 31st of a shorter month): both are unsupported. The year alone is not.
   */
  lemma ClockDependentUnsupported()
    ensures ParseFormat("m-d").None?
    ensures ParseFormat("Y-m").None?
    ensures ParseFormat("Y").Some?
  {
    var md, ym, y := Tokenize("m-d"), Tokenize("Y-m"), Tokenize("Y");
    assert md[0] == F(Month) && md[1] == Lit('-') && md[2] == F(Day);
    assert Year !in FieldsIn(md);
    assert ym[0] == F(Year) && ym[1] == Lit('-') && ym[2] == F(Month);
    assert Day !in FieldsIn(ym);
    assert y[0] == F(Year) && FieldsIn(y) == {Year};
    assert OnlyModelledLetters("Y") && NoRepeatedField(y);
  }

  /** `DateTime::format` for the fields of the format. */
  function Render(toks: seq<Token>, m: Fields): (s: string)
    requires forall i :: 0 <= i < |toks| && toks[i].F? ==> toks[i].field in m
  {
    if |toks| == 0 then ""
    else
      (match toks[0]
       case Lit(c) => [c]
       case F(f) => Pad(m[f], Width(f)))
      + Render(toks[1..], m)
  }

  /**
   * The parsing half of `createFromFormat`, as a strict-width scanner:
   * literals must match, each field reads exactly its field's number of
   * digits, and trailing data is an error. PHP also reads shorter fields
   * ("2024-1-05" parses under "Y-m-d"); every such text renders back
   * differently, so both scanners agree on what survives the round trip.
   */
  function Scan(toks: seq<Token>, s: string, acc: Fields): (r: Option<Fields>)
    ensures r.Some? ==> r.value.Keys == acc.Keys + FieldsIn(toks)
    ensures r.Some? ==> forall f :: f in acc && f !in FieldsIn(toks) ==> r.value[f] == acc[f]
    decreases |toks|
  {
    if |toks| == 0 then (if |s| == 0 then Some(acc) else None)
    else match toks[0]
      case Lit(c) =>
        if |s| > 0 && s[0] == c then Scan(toks[1..], s[1..], acc) else None
      case F(f) =>
        var w := Width(f);
        if |s| >= w && AllDigits(s[..w]) then Scan(toks[1..], s[w..], acc[f := DigitsValue(s[..w])])
        else None
  }

  /**
   * `DateTime::createFromFormat($fmt, $s)` with the strict-width scanner:
   * None for every text PHP rejects, and also for the short-field texts
   * PHP accepts but whose rendering differs from them. A parsed value with an out-of-range component is kept as parsed; PHP
   * would roll it over into a different date, and either way its rendering
   * differs from the input (see `Survives`).
   */
  function CreateFromFormat(fmt: string, s: string): (r: Option<Fields>)
    ensures r.Some? ==> ParseFormat(fmt).Some? && r.value.Keys == FieldsIn(ParseFormat(fmt).value)
  {
    var toks :- ParseFormat(fmt);
    Scan(toks, s, map[])
  }

  /**
   * `$d && $d->format($fmt) === $s`: the value parses under the format and
   * renders back to itself.
   */
  predicate Survives(fmt: string, s: string) {
    var d := CreateFromFormat(fmt, s);
    d.Some? && Valid(d.value) && Render(ParseFormat(fmt).value, d.value) == s
  }

  /** A value of `m` renders within the digits of its field. */
  predicate FitsWidths(m: Fields) {
    forall f :: f in m ==> m[f] < Pow10(Width(f))
  }

  lemma ValidFits(m: Fields)
    requires Valid(m)
    ensures FitsWidths(m)
  {
    assert Pow10(2) == 100;
    assert Pow10(4) == 10000;
  }

  /** Scanning reads back the digits rendering wrote. */
  lemma {:induction false} ScanRender(toks: seq<Token>, m: Fields, rest: string, acc: Fields)
    requires NoRepeatedField(toks)
    requires FieldsIn(toks) <= m.Keys && FitsWidths(m)
    ensures Scan(toks, Render(toks, m) + rest, acc).Some? <==> |rest| == 0
    ensures |rest| == 0 ==> forall f :: f in FieldsIn(toks) ==> Scan(toks, Render(toks, m) + rest, acc).value[f] == m[f]
    decreases |toks|
  {
    if |toks| > 0 {
      var tail := toks[1..];
      assert forall i :: 0 <= i < |tail| ==> tail[i] == toks[i + 1];
      assert FieldsIn(tail) <= FieldsIn(toks);
      var s := Render(toks, m) + rest;
      match toks[0]
      case Lit(c) =>
        assert s == [c] + (Render(tail, m) + rest);
        assert s[1..] == Render(tail, m) + rest;
        ScanRender(tail, m, rest, acc);
      case F(f) =>
        var w := Width(f);
        var digits := Pad(m[f], w);
        assert s == digits + (Render(tail, m) + rest);
        assert s[..w] == digits && s[w..] == Render(tail, m) + rest;
        PadDigitsValue(m[f], w);
        assert f !in FieldsIn(tail);
        ScanRender(tail, m, rest, acc[f := m[f]]);
    } else {
      assert Render(toks, m) + rest == rest;
    }
  }

  /** Whatever scanning accepts is the rendering of what it read. */
  lemma {:induction false} RenderScan(toks: seq<Token>, s: string, acc: Fields)
    requires NoRepeatedField(toks)
    requires acc.Keys !! FieldsIn(toks)
    requires Scan(toks, s, acc).Some?
    ensures Render(toks, Scan(toks, s, acc).value) == s
    decreases |toks|
  {
    var r := Scan(toks, s, acc).value;
    if |toks| > 0 {
      var tail := toks[1..];
      assert forall i :: 0 <= i < |tail| ==> tail[i] == toks[i + 1];
      match toks[0]
      case Lit(c) =>
        RenderScan(tail, s[1..], acc);
        assert s == [c] + s[1..];
      case F(f) =>
        var w := Width(f);
        assert f !in FieldsIn(tail);
        RenderScan(tail, s[w..], acc[f := DigitsValue(s[..w])]);
        RenderScanField(toks, s, acc, f);
    }
  }

  /** The field step of `RenderScan`, given the claim for the rest of the format. */
  lemma RenderScanField(toks: seq<Token>, s: string, acc: Fields, f: Field)
    requires |toks| > 0 && toks[0] == F(f)
    requires NoRepeatedField(toks)
    requires Scan(toks, s, acc).Some?
    requires var w := Width(f);
      |s| >= w && AllDigits(s[..w])
      && Render(toks[1..], Scan(toks[1..], s[w..], acc[f := DigitsValue(s[..w])]).value) == s[w..]
    ensures Render(toks, Scan(toks, s, acc).value) == s
  {
    var tail := toks[1..];
    var r := Scan(toks, s, acc).value;
    var w := Width(f);
    var v := DigitsValue(s[..w]);
    HeadFieldFresh(toks, f);
    assert r == Scan(tail, s[w..], acc[f := v]).value;
    assert r[f] == v;
    DigitsValuePad(s[..w]);
    assert Render(toks, r) == Pad(v, w) + Render(tail, r);
    assert s == s[..w] + s[w..];
  }

  /** A format without repeated fields does not name its first field again. */
  lemma HeadFieldFresh(toks: seq<Token>, f: Field)
    requires |toks| > 0 && toks[0] == F(f) && NoRepeatedField(toks)
    ensures f !in FieldsIn(toks[1..])
  {
    var tail := toks[1..];
    forall i | 0 <= i < |tail|
      ensures tail[i] != F(f)
    {
      assert tail[i] == toks[i + 1];
    }
  }

  /** The strict-width scan reads each field from its width of digits, so every value fits it. */
  lemma {:induction false} ScanFits(toks: seq<Token>, s: string, acc: Fields)
    requires NoRepeatedField(toks)
    requires acc.Keys !! FieldsIn(toks)
    requires Scan(toks, s, acc).Some?
    ensures FitsWidths(Scan(toks, s, acc).value - acc.Keys)
    decreases |toks|
  {
    var r := Scan(toks, s, acc).value;
    if |toks| > 0 {
      var tail := toks[1..];
      assert forall i :: 0 <= i < |tail| ==> tail[i] == toks[i + 1];
      match toks[0]
      case Lit(c) =>
        ScanFits(tail, s[1..], acc);
      case F(f) =>
        var w := Width(f);
        var v := DigitsValue(s[..w]);
        var acc' := acc[f := v];
        assert f !in FieldsIn(tail);
        ScanFits(tail, s[w..], acc');
        assert Scan(toks, s, acc) == Scan(tail, s[w..], acc');
        assert r[f] == v;
        DigitsValueBound(s[..w]);
        assert forall g :: g in r - acc.Keys ==> g == f || g in r - acc'.Keys;
    }
  }

  /**
   * The round trip accepts exactly the canonical renderings of valid
   * components: `Survives(fmt, s)` iff `s` is what `format` writes for some
   * valid set of the format's fields.
   */
  lemma SurvivesIffCanonical(fmt: string, s: string)
    requires ParseFormat(fmt).Some?
    ensures var toks := ParseFormat(fmt).value;
      Survives(fmt, s) <==>
        exists m: Fields :: m.Keys == FieldsIn(toks) && Valid(m) && Render(toks, m) == s
  {
    var toks := ParseFormat(fmt).value;
    if Survives(fmt, s) {
      SurvivorIsCanonical(fmt, s);
    }
    if m: Fields :| m.Keys == FieldsIn(toks) && Valid(m) && Render(toks, m) == s {
      CanonicalSurvives(fmt, m);
    }
  }

  /** A survivor is the rendering of the fields it parses to. */
  lemma SurvivorIsCanonical(fmt: string, s: string)
    requires ParseFormat(fmt).Some? && Survives(fmt, s)
    ensures var toks := ParseFormat(fmt).value;
      var m := CreateFromFormat(fmt, s).value;
      m.Keys == FieldsIn(toks) && Valid(m) && Render(toks, m) == s
  {
  }

  /** A canonical rendering of valid components survives the round trip. */
  lemma CanonicalSurvives(fmt: string, m: Fields)
    requires ParseFormat(fmt).Some?
    requires m.Keys == FieldsIn(ParseFormat(fmt).value) && Valid(m)
    ensures Survives(fmt, Render(ParseFormat(fmt).value, m))
  {
    var toks := ParseFormat(fmt).value;
    ValidFits(m);
    ScanCanonical(toks, m);
    assert CreateFromFormat(fmt, Render(toks, m)) == Some(m);
  }

  /** Scanning the rendering of values for exactly the format's fields gives back those values. */
  lemma ScanCanonical(toks: seq<Token>, m: Fields)
    requires NoRepeatedField(toks)
    requires m.Keys == FieldsIn(toks) && FitsWidths(m)
    ensures Scan(toks, Render(toks, m), map[]) == Some(m)
  {
    var s := Render(toks, m);
    ScanRender(toks, m, "", map[]);
    assert s + "" == s;
    var d := Scan(toks, s, map[]).value;
    assert d.Keys == m.Keys;
    assert forall f :: f in d ==> d[f] == m[f];
    assert d == m;
  }

  /**
   * A value that parses is rejected only for an out-of-range component:
   * the comparison with the rendering, not the parser, rejects month 13,
   * day 45 or hour 25.
   */
  lemma SurvivesIffParsesValid(fmt: string, s: string)
    requires ParseFormat(fmt).Some?
    ensures Survives(fmt, s) <==>
      CreateFromFormat(fmt, s).Some? && Valid(CreateFromFormat(fmt, s).value)
  {
    if CreateFromFormat(fmt, s).Some? {
      RenderScan(ParseFormat(fmt).value, s, map[]);
    }
  }
}

=== FILE: date_formatter.dfy ===
/**
 * The two static date validators: a string is accepted only when it is
 * already the canonical rendering of a valid date (and time).
 */
module DateFormatter {
  import opened Wrappers
  import opened Strings
  import opened DateFormat

  const YMD: string := "Y-m-d"
  const YMD_HMS: string := "Y-m-d H:i:s"

  /** A calendar date as the application stores it. */
  datatype Date = Date(year: nat, month: nat, day: nat)

  predicate ValidDate(d: Date) {
    d.year <= 9999 && 1 <= d.month <= 12 && 1 <= d.day <= DaysIn(d.year, d.month)
  }

  /** The zero-padded YYYY-MM-DD rendering. */
  function RenderYmd(d: Date): (s: string)
    ensures |s| == 10 && s[4] == '-' && s[7] == '-'
  {
    Pad(d.year, 4) + "-" + Pad(d.month, 2) + "-" + Pad(d.day, 2)
  }

  /** A time of day. */
  datatype Time = Time(hour: nat, minute: nat, second: nat)

  predicate ValidTime(t: Time) {
    t.hour < 24 && t.minute < 60 && t.second < 60
  }

  function RenderHms(t: Time): (s: string)
    ensures |s| == 8
  {
    Pad(t.hour, 2) + ":" + Pad(t.minute, 2) + ":" + Pad(t.second, 2)
  }

  function YmdTokens(): seq<Token> {
    [F(Year), Lit('-'), F(Month), Lit('-'), F(Day)]
  }

  /** The date tokens, then a space and the time tokens. */
  function HmsTokens(): seq<Token> {
    YmdTokens() + TimeTokens()
  }

  lemma ParseYmd()
    ensures ParseFormat(YMD) == Some(YmdTokens())
  {
    assert YMD[0] == 'Y' && YMD[1] == '-' && YMD[2] == 'm' && YMD[3] == '-' && YMD[4] == 'd';
    assert Tokenize(YMD) == YmdTokens();
    assert OnlyModelledLetters(YMD);
  }

  lemma ParseYmdHms()
    ensures ParseFormat(YMD_HMS) == Some(HmsTokens())
  {
    var f := YMD_HMS;
    assert f[0] == 'Y' && f[1] == '-' && f[2] == 'm' && f[3] == '-' && f[4] == 'd' && f[5] == ' ';
    assert f[6] == 'H' && f[7] == ':' && f[8] == 'i' && f[9] == ':' && f[10] == 's';
    assert Tokenize(f) == HmsTokens();
    assert OnlyModelledLetters(f);
  }

  function DateFields(d: Date): Fields {
    map[Year := d.year, Month := d.month, Day := d.day]
  }

  function DateTimeFields(d: Date, t: Time): Fields {
    DateFields(d)[Hour := t.hour][Minute := t.minute][Second := t.second]
  }

  lemma RenderYmdTokens(m: Fields)
    requires Year in m && Month in m && Day in m
    ensures Render(YmdTokens(), m) == RenderYmd(Date(m[Year], m[Month], m[Day]))
  {
    var toks := YmdTokens();
    var y, mo, d := Pad(m[Year], 4), Pad(m[Month], 2), Pad(m[Day], 2);
    assert Render(toks[5..], m) == "";
    RenderStep(toks, 4, m);
    RenderStep(toks, 3, m);
    RenderStep(toks, 2, m);
    RenderStep(toks, 1, m);
    RenderStep(toks, 0, m);
    assert Render(toks, m) == y + ("-" + (mo + ("-" + (d + ""))));
  }

  /** Rendering from position `k` writes token `k`, then the rest. */
  lemma RenderStep(toks: seq<Token>, k: nat, m: Fields)
    requires k < |toks|
    requires forall i :: 0 <= i < |toks| && toks[i].F? ==> toks[i].field in m
    ensures Render(toks[k..], m) ==
      (if toks[k].F? then Pad(m[toks[k].field], Width(toks[k].field)) else [toks[k].c]) + Render(toks[k + 1..], m)
  {
    assert toks[k..][1..] == toks[k + 1..];
  }

  lemma RenderConcat(a: seq<Token>, b: seq<Token>, m: Fields)
    requires forall i :: 0 <= i < |a| && a[i].F? ==> a[i].field in m
    requires forall i :: 0 <= i < |b| && b[i].F? ==> b[i].field in m
    ensures Render(a + b, m) == Render(a, m) + Render(b, m)
    decreases |a|
  {
    if |a| > 0 {
      assert (a + b)[1..] == a[1..] + b;
      RenderConcat(a[1..], b, m);
    } else {
      assert a + b == b;
    }
  }

  lemma RenderHmsTokens(m: Fields)
    requires Year in m && Month in m && Day in m && Hour in m && Minute in m && Second in m
    ensures Render(HmsTokens(), m)
      == RenderYmd(Date(m[Year], m[Month], m[Day])) + " " + RenderHms(Time(m[Hour], m[Minute], m[Second]))
  {
    RenderConcat(YmdTokens(), TimeTokens(), m);
    RenderYmdTokens(m);
    RenderTimeTokens(m);
  }

  lemma RenderTimeTokens(m: Fields)
    requires Hour in m && Minute in m && Second in m
    ensures Render(TimeTokens(), m) == " " + RenderHms(Time(m[Hour], m[Minute], m[Second]))
  {
    var toks := TimeTokens();
    assert Render(toks[6..], m) == "";
    assert Render(toks[5..], m) == Pad(m[Second], 2);
    assert Render(toks[4..], m) == ":" + Pad(m[Second], 2);
    assert Render(toks[3..], m) == Pad(m[Minute], 2) + ":" + Pad(m[Second], 2);
    assert Render(toks[2..], m) == ":" + Pad(m[Minute], 2) + ":" + Pad(m[Second], 2);
    assert Render(toks[1..], m) == RenderHms(Time(m[Hour], m[Minute], m[Second]));
  }

  lemma FieldsInStep(toks: seq<Token>)
    requires |toks| > 0
    ensures FieldsIn(toks) == (if toks[0].F? then {toks[0].field} else {}) + FieldsIn(toks[1..])
  {
  }

  lemma YmdFields()
    ensures FieldsIn(YmdTokens()) == {Year, Month, Day}
  {
    var toks := YmdTokens();
    assert FieldsIn(toks[5..]) == {};
    FieldsInStep(toks[4..]);
    FieldsInStep(toks[3..]);
    FieldsInStep(toks[2..]);
    FieldsInStep(toks[1..]);
    FieldsInStep(toks);
  }

  lemma {:induction false} FieldsInConcat(a: seq<Token>, b: seq<Token>)
    ensures FieldsIn(a + b) == FieldsIn(a) + FieldsIn(b)
    decreases |a|
  {
    if |a| > 0 {
      assert (a + b)[1..] == a[1..] + b;
      FieldsInStep(a + b);
      FieldsInStep(a);
      FieldsInConcat(a[1..], b);
    } else {
      assert a + b == b;
    }
  }

  function TimeTokens(): seq<Token> {
    [Lit(' '), F(Hour), Lit(':'), F(Minute), Lit(':'), F(Second)]
  }

  lemma TimeFields()
    ensures FieldsIn(TimeTokens()) == {Hour, Minute, Second}
  {
    var toks := TimeTokens();
    assert FieldsIn(toks[6..]) == {};
    FieldsInStep(toks[5..]);
    FieldsInStep(toks[4..]);
    FieldsInStep(toks[3..]);
    FieldsInStep(toks[2..]);
    FieldsInStep(toks[1..]);
    FieldsInStep(toks);
  }

  lemma HmsFields()
    ensures FieldsIn(HmsTokens()) == {Year, Month, Day, Hour, Minute, Second}
  {
    FieldsInConcat(YmdTokens(), TimeTokens());
    YmdFields();
    TimeFields();
  }

  /** The date part of a date-time rendering is its first ten characters. */
  lemma DatePrefix(d: Date, t: Time)
    ensures (RenderYmd(d) + " " + RenderHms(t))[..10] == RenderYmd(d)
  {
    var a := RenderYmd(d);
    assert (a + (" " + RenderHms(t)))[..|a|] == a;
    assert a + " " + RenderHms(t) == a + (" " + RenderHms(t));
  }

  /**
   * `formatDateYmd`: the value itself when it is the canonical rendering
   * of a valid date, otherwise null. When the round trip succeeds, the
   * formatted date is the input itself.
   */
  function FormatDateYmd(s: string): (r: Option<string>)
    ensures r.Some? <==> exists d :: ValidDate(d) && RenderYmd(d) == s
    ensures r.Some? ==> r.value == s
  {
    if Survives(YMD, s) then
      YmdSurvivesToDate(s);
      Some(s)
    else
      NoDateRendersTo(s);
      None
  }

  /**
   * `formatDateWithHms`: the date part of a canonical valid
   * 'Y-m-d H:i:s' value, otherwise null. The three date fields are always
   * present after a successful parse (`HmsFields`); the test only keeps
   * the rendering well defined.
   */
  function FormatDateWithHms(s: string): (r: Option<string>)
    ensures r.Some? <==> exists d, t :: ValidDate(d) && ValidTime(t) && RenderYmd(d) + " " + RenderHms(t) == s
    ensures r.Some? ==> 10 <= |s| && r.value == s[..10]
  {
    var d := CreateFromFormat(YMD_HMS, s);
    if Survives(YMD_HMS, s) && Year in d.value && Month in d.value && Day in d.value then
      HmsDatePart(s);
      Some(RenderYmd(Date(d.value[Year], d.value[Month], d.value[Day])))
    else
      NoDateTimeRendersTo(s);
      None
  }

  lemma YmdSurvivesToDate(s: string)
    requires Survives(YMD, s)
    ensures exists d :: ValidDate(d) && RenderYmd(d) == s
  {
    ParseYmd();
    YmdFields();
    var toks := YmdTokens();
    var m := CreateFromFormat(YMD, s).value;
    RenderYmdTokens(m);
    assert ValidDate(Date(m[Year], m[Month], m[Day]));
  }

  lemma DateSurvivesYmd(d: Date)
    requires ValidDate(d)
    ensures Survives(YMD, RenderYmd(d))
  {
    ParseYmd();
    YmdFields();
    var m := DateFields(d);
    RenderYmdTokens(m);
    CanonicalSurvives(YMD, m);
  }

  /** A text that does not survive the 'Y-m-d' round trip renders no valid date. */
  lemma NoDateRendersTo(s: string)
    requires !Survives(YMD, s)
    ensures forall d :: ValidDate(d) ==> RenderYmd(d) != s
  {
    forall d | ValidDate(d)
      ensures RenderYmd(d) != s
    {
      DateSurvivesYmd(d);
    }
  }

  lemma HmsSurvivesToDateTime(s: string)
    requires Survives(YMD_HMS, s)
    ensures var m := CreateFromFormat(YMD_HMS, s).value;
      Year in m && Month in m && Day in m && Hour in m && Minute in m && Second in m
      && ValidDate(Date(m[Year], m[Month], m[Day]))
      && ValidTime(Time(m[Hour], m[Minute], m[Second]))
      && RenderYmd(Date(m[Year], m[Month], m[Day])) + " " + RenderHms(Time(m[Hour], m[Minute], m[Second])) == s
  {
    ParseYmdHms();
    HmsFields();
    var m := CreateFromFormat(YMD_HMS, s).value;
    RenderHmsTokens(m);
  }

  lemma DateTimeFieldsValid(d: Date, t: Time)
    requires ValidDate(d) && ValidTime(t)
    ensures var m := DateTimeFields(d, t);
      m.Keys == {Year, Month, Day, Hour, Minute, Second} && Valid(m)
      && m[Year] == d.year && m[Month] == d.month && m[Day] == d.day
      && m[Hour] == t.hour && m[Minute] == t.minute && m[Second] == t.second
  {
  }

  lemma DateTimeSurvivesHms(d: Date, t: Time)
    requires ValidDate(d) && ValidTime(t)
    ensures Survives(YMD_HMS, RenderYmd(d) + " " + RenderHms(t))
  {
    ParseYmdHms();
    HmsFields();
    var m := DateTimeFields(d, t);
    DateTimeFieldsValid(d, t);
    assert Date(m[Year], m[Month], m[Day]) == d && Time(m[Hour], m[Minute], m[Second]) == t;
    RenderHmsTokens(m);
    CanonicalSurvives(YMD_HMS, m);
  }

  /** A surviving date-time renders a valid date and time, and its date is its first ten characters. */
  lemma HmsDatePart(s: string)
    requires Survives(YMD_HMS, s)
    ensures var m := CreateFromFormat(YMD_HMS, s).value;
      && Year in m && Month in m && Day in m
      && (exists d, t :: ValidDate(d) && ValidTime(t) && RenderYmd(d) + " " + RenderHms(t) == s)
      && 10 <= |s| && RenderYmd(Date(m[Year], m[Month], m[Day])) == s[..10]
  {
    HmsSurvivesToDateTime(s);
    var m := CreateFromFormat(YMD_HMS, s).value;
    var d, t := Date(m[Year], m[Month], m[Day]), Time(m[Hour], m[Minute], m[Second]);
    DatePrefix(d, t);
    assert ValidDate(d) && ValidTime(t) && RenderYmd(d) + " " + RenderHms(t) == s;
  }

  /** A text that renders a valid date and time survives with all six fields set. */
  lemma NoDateTimeRendersTo(s: string)
    requires !Survives(YMD_HMS, s) || !(var m := CreateFromFormat(YMD_HMS, s).value; Year in m && Month in m && Day in m)
    ensures forall d, t :: ValidDate(d) && ValidTime(t) ==> RenderYmd(d) + " " + RenderHms(t) != s
  {
    forall d, t | ValidDate(d) && ValidTime(t)
      ensures RenderYmd(d) + " " + RenderHms(t) != s
    {
      if RenderYmd(d) + " " + RenderHms(t) == s {
        DateTimeSurvivesHms(d, t);
        HmsSurvivesToDateTime(s);
      }
    }
  }

  /** A date `formatDateWithHms` returns is accepted unchanged by `formatDateYmd`. */
  lemma HmsResultIsYmd(s: string)
    requires FormatDateWithHms(s).Some?
    ensures FormatDateYmd(FormatDateWithHms(s).value) == FormatDateWithHms(s)
  {
    var d, t :| ValidDate(d) && ValidTime(t) && RenderYmd(d) + " " + RenderHms(t) == s;
    DatePrefix(d, t);
  }

  /** `formatDateYmd` returns its input unchanged, so applying it again changes nothing. */
  lemma FormatDateYmdIdempotent(s: string)
    ensures FormatDateYmd(s).Some? ==> FormatDateYmd(s).value == s
    ensures FormatDateYmd(s).Some? ==> FormatDateYmd(FormatDateYmd(s).value) == FormatDateYmd(s)
  {
  }

  /** Accepted values are exactly ten characters long, so an unpadded "2023-1-05" is rejected. */
  lemma FormatDateYmdLength(s: string)
    requires FormatDateYmd(s).Some?
    ensures |s| == 10
  {
  }

  /** A date with a day beyond the end of its month is never accepted, whatever the padding. */
  lemma OverflowDayRejected(d: Date)
    requires d.year <= 9999 && 1 <= d.month <= 12 && DaysIn(d.year, d.month) < d.day < 100
    ensures FormatDateYmd(RenderYmd(d)).None?
  {
    if e :| ValidDate(e) && RenderYmd(e) == RenderYmd(d) {
      RenderYmdInjective(e, d);
    }
  }

  /** Distinct dates that fit the field widths render differently. */
  lemma RenderYmdInjective(d: Date, e: Date)
    requires ValidDate(d) && e.year < 10000 && e.month < 100 && e.day < 100
    requires RenderYmd(d) == RenderYmd(e)
    ensures d == e
  {
    RenderYmdDecodes(d);
    RenderYmdDecodes(e);
  }

  /** The components can be read back off a rendering. */
  lemma RenderYmdDecodes(d: Date)
    requires d.year < 10000 && d.month < 100 && d.day < 100
    ensures var s := RenderYmd(d);
      AllDigits(s[..4]) && AllDigits(s[5..7]) && AllDigits(s[8..])
      && DigitsValue(s[..4]) == d.year && DigitsValue(s[5..7]) == d.month && DigitsValue(s[8..]) == d.day
  {
    var s := RenderYmd(d);
    assert Pow10(2) == 100 && Pow10(4) == 10000;
    assert s[..4] == Pad(d.year, 4);
    assert s[5..7] == Pad(d.month, 2);
    assert s[8..] == Pad(d.day, 2);
    PadDigitsValue(d.year, 4);
    PadDigitsValue(d.month, 2);
    PadDigitsValue(d.day, 2);
  }
}

=== FILE: find_duplicates.dfy ===
/**
 * The duplicate-address report over the cleaned member register: rows with
 * a blank key are discarded, every row whose key occurs at least twice is
 * reported, and the report is sorted by key.
 */
module DuplicateFinder {
  import opened Wrappers
  import opened Strings
  import opened CsvExporter

  type Row = seq<Cell>

  /** A CSV file as read: column names and rows of cells. */
  datatype Table = Table(columns: seq<string>, rows: seq<Row>)

  predicate WellFormed(t: Table) {
    forall i :: 0 <= i < |t.rows| ==> |t.rows[i]| == |t.columns|
  }

  /** What `find_duplicate_emails_in_csv` ends with; the printed count is `count`. */
  datatype Outcome =
    | ColumnMissing
    | NoDuplicates
    | Report(rows: seq<Row>, count: nat)
    | Failed

  /** The key filter: neither NaN nor the empty string. */
  predicate ValidKey(c: Cell) {
    !c.Missing? && c != Text("")
  }

  /** Lexicographic order on code points, as Python compares `str`. */
  predicate LexLeq(a: string, b: string)
    decreases |a|
  {
    |a| == 0 || (|b| > 0 && (a[0] < b[0] || (a[0] == b[0] && LexLeq(a[1..], b[1..]))))
  }

  lemma {:induction false} LexLeqTotal(a: string, b: string)
    ensures LexLeq(a, b) || LexLeq(b, a)
    decreases |a|
  {
    if |a| > 0 && |b| > 0 && a[0] == b[0] {
      LexLeqTotal(a[1..], b[1..]);
    }
  }

  lemma {:induction false} LexLeqTransitive(a: string, b: string, c: string)
    requires LexLeq(a, b) && LexLeq(b, c)
    ensures LexLeq(a, c)
    decreases |a|
  {
    if |a| > 0 && a[0] == b[0] && b[0] == c[0] {
      LexLeqTransitive(a[1..], b[1..], c[1..]);
    }
  }

  /** Keys of one kind compare; text and numbers do not (Python raises TypeError). */
  predicate Comparable(a: Cell, b: Cell) {
    (a.Text? && b.Text?) || (a.Num? && b.Num?)
  }

  predicate KeyLeq(a: Cell, b: Cell) {
    match (a, b)
    case (Text(x), Text(y)) => LexLeq(x, y)
    case (Num(x), Num(y)) => x <= y
    case _ => false
  }

  lemma KeyLeqTotal(a: Cell, b: Cell)
    requires Comparable(a, b)
    ensures KeyLeq(a, b) || KeyLeq(b, a)
  {
    if a.Text? {
      LexLeqTotal(a.t, b.t);
    }
  }

  lemma KeyLeqTransitive(a: Cell, b: Cell, c: Cell)
    requires KeyLeq(a, b) && KeyLeq(b, c)
    ensures KeyLeq(a, c)
  {
    if a.Text? {
      LexLeqTransitive(a.t, b.t, c.t);
    }
  }

  /** The key cell of a row; rows of a well-formed table always have one. */
  function Key(row: Row, k: nat): Cell {
    if k < |row| then row[k] else Missing
  }

  /** The key column `k` as a function on rows. */
  function KeyOf(k: nat): Row -> Cell {
    row => Key(row, k)
  }

  /** Rows whose key is `c`. */
  function KeyIs(k: nat, c: Cell): Row -> bool {
    row => Key(row, k) == c
  }

  /** Rows whose key is neither NaN nor "". */
  function HasValidKey(k: nat): Row -> bool {
    row => ValidKey(Key(row, k))
  }

  predicate OfKind(c: Cell, text: bool) {
    if text then c.Text? else c.Num?
  }

  /** Every key is text (when `text`) or every key is a number (otherwise). */
  predicate AllOfKind<T>(s: seq<T>, key: T -> Cell, text: bool) {
    forall i :: 0 <= i < |s| ==> OfKind(key(s[i]), text)
  }

  predicate SortedBy<T>(s: seq<T>, key: T -> Cell) {
    forall i, j :: 0 <= i < j < |s| ==> KeyLeq(key(s[i]), key(s[j]))
  }

  function Insert<T(==)>(x: T, s: seq<T>, key: T -> Cell, text: bool): (r: seq<T>)
    requires OfKind(key(x), text) && AllOfKind(s, key, text) && SortedBy(s, key)
    ensures AllOfKind(r, key, text) && SortedBy(r, key)
    ensures |r| == |s| + 1
    ensures multiset(r) == multiset(s) + multiset{x}
  {
    if |s| == 0 then [x]
    else if KeyLeq(key(x), key(s[0])) then
      forall i | 0 < i < |s|
        ensures KeyLeq(key(x), key(s[i]))
      {
        KeyLeqTransitive(key(x), key(s[0]), key(s[i]));
      }
      [x] + s
    else
      KeyLeqTotal(key(x), key(s[0]));
      var tail := s[1..];
      assert s == [s[0]] + tail;
      var rest := Insert(x, tail, key, text);
      BoundKept(s[0], x, tail, rest, key);
      ConsSorted(s[0], rest, key, text);
      [s[0]] + rest
  }

  /** Every element of `rest`, a rearrangement of `tail` and `x`, is at least `h`. */
  lemma BoundKept<T>(h: T, x: T, tail: seq<T>, rest: seq<T>, key: T -> Cell)
    requires KeyLeq(key(h), key(x))
    requires forall i :: 0 <= i < |tail| ==> KeyLeq(key(h), key(tail[i]))
    requires multiset(rest) == multiset(tail) + multiset{x}
    ensures forall j :: 0 <= j < |rest| ==> KeyLeq(key(h), key(rest[j]))
  {
    forall j | 0 <= j < |rest|
      ensures KeyLeq(key(h), key(rest[j]))
    {
      assert rest[j] in multiset(rest);
      if rest[j] != x {
        assert rest[j] in multiset(tail);
        var m :| 0 <= m < |tail| && tail[m] == rest[j];
      }
    }
  }

  /** A sorted sequence stays sorted with a lower bound of all its elements in front. */
  lemma ConsSorted<T>(h: T, rest: seq<T>, key: T -> Cell, text: bool)
    requires OfKind(key(h), text) && AllOfKind(rest, key, text) && SortedBy(rest, key)
    requires forall j :: 0 <= j < |rest| ==> KeyLeq(key(h), key(rest[j]))
    ensures AllOfKind([h] + rest, key, text) && SortedBy([h] + rest, key)
  {
    var r := [h] + rest;
    assert forall j :: 0 < j < |r| ==> r[j] == rest[j - 1];
  }

  /**
   * `sort_values(by=key)`. Quicksort is not stable, so only the key order
   * and the multiset of elements are promised; elements with equal keys
   * may come out in any order.
   */
  function SortBy<T(==)>(s: seq<T>, key: T -> Cell, text: bool): (r: seq<T>)
    requires AllOfKind(s, key, text)
    ensures AllOfKind(r, key, text) && SortedBy(r, key)
    ensures |r| == |s|
    ensures multiset(r) == multiset(s)
  {
    if |s| == 0 then []
    else
      var tail := s[1..];
      assert s == [s[0]] + tail;
      Insert(s[0], SortBy(tail, key, text), key, text)
  }

  /** Number of rows whose key is `c`. */
  function KeyCount(rows: seq<Row>, k: nat, c: Cell): nat {
    |Filter(rows, KeyIs(k, c))|
  }

  /** `df[df[key].notna() & (df[key] != '')]` */
  function NonBlank(rows: seq<Row>, k: nat): (r: seq<Row>)
    ensures forall row :: row in r ==> row in rows && ValidKey(Key(row, k))
  {
    Filter(rows, HasValidKey(k))
  }

  /** `df[df.duplicated(subset=[key], keep=False)]`: every row whose key occurs twice or more. */
  function Duplicated(rows: seq<Row>, k: nat): (r: seq<Row>)
    ensures forall row :: row in r ==> row in rows
  {
    Filter(rows, IsDuplicate(rows, k))
  }

  /** Rows whose key occurs at least twice in `rows`. */
  function IsDuplicate(rows: seq<Row>, k: nat): Row -> bool {
    row => KeyCount(rows, k, Key(row, k)) >= 2
  }

  /** `find_duplicate_emails_in_csv` without the file I/O and the timestamp. */
  function FindDuplicates(t: Table, key: string): (o: Outcome)
    ensures o.ColumnMissing? <==> key !in t.columns
  {
    match IndexOf(t.columns, key)
    case None => ColumnMissing
    case Some(k) => ReportOn(t.rows, k)
  }

  /** Everything after the key column `k` has been found. */
  function ReportOn(rows: seq<Row>, k: nat): (o: Outcome)
    ensures !o.ColumnMissing?
    ensures o.NoDuplicates? <==> |Duplicated(NonBlank(rows, k), k)| == 0
    ensures o.Report? ==> o.count == |o.rows| && o.count > 0
    ensures o.Report? ==> SortedBy(o.rows, KeyOf(k))
    ensures o.Report? ==> multiset(o.rows) == multiset(Duplicated(NonBlank(rows, k), k))
    ensures o.Failed? <==> var dups := Duplicated(NonBlank(rows, k), k);
      |dups| > 0 && !AllOfKind(dups, KeyOf(k), true) && !AllOfKind(dups, KeyOf(k), false)
  {
    var dups := Duplicated(NonBlank(rows, k), k);
    if |dups| == 0 then NoDuplicates
    else if AllOfKind(dups, KeyOf(k), true) then Report(SortBy(dups, KeyOf(k), true), |dups|)
    else if AllOfKind(dups, KeyOf(k), false) then Report(SortBy(dups, KeyOf(k), false), |dups|)
    else Failed
  }

  /** Equal multisets have equally large filters. */
  lemma FilterPermutation<T>(s: seq<T>, t: seq<T>, p: T -> bool)
    requires multiset(s) == multiset(t)
    ensures |Filter(s, p)| == |Filter(t, p)|
  {
    FilterSubMultiset(s, p);
    FilterSubMultiset(t, p);
    forall x | true
      ensures multiset(Filter(s, p))[x] == multiset(Filter(t, p))[x]
    {
      FilterMultiplicity(s, p, x);
      FilterMultiplicity(t, p, x);
    }
    assert multiset(Filter(s, p)) == multiset(Filter(t, p));
    assert |multiset(Filter(s, p))| == |Filter(s, p)|;
    assert |multiset(Filter(t, p))| == |Filter(t, p)|;
  }

  /** Filtering by `p` first loses nothing that `q` selects when `q` implies `p`. */
  lemma FilterNarrower<T>(s: seq<T>, p: T -> bool, q: T -> bool)
    requires forall x :: q(x) ==> p(x)
    ensures |Filter(Filter(s, p), q)| == |Filter(s, q)|
  {
    FilterSubMultiset(Filter(s, p), q);
    FilterSubMultiset(s, q);
    forall x | true
      ensures multiset(Filter(Filter(s, p), q))[x] == multiset(Filter(s, q))[x]
    {
      FilterMultiplicity(Filter(s, p), q, x);
      FilterMultiplicity(s, p, x);
      FilterMultiplicity(s, q, x);
    }
    assert multiset(Filter(Filter(s, p), q)) == multiset(Filter(s, q));
    assert |multiset(Filter(Filter(s, p), q))| == |Filter(Filter(s, p), q)|;
    assert |multiset(Filter(s, q))| == |Filter(s, q)|;
  }

  /**
   * The report holds, with their multiplicities, exactly the input rows
   * whose key is valid and occurs in at least two rows with a valid key.
   */
  lemma ReportIsExactlyDuplicates(rows: seq<Row>, k: nat, row: Row)
    requires ReportOn(rows, k).Report?
    ensures var valid := NonBlank(rows, k);
      multiset(ReportOn(rows, k).rows)[row] ==
        if ValidKey(Key(row, k)) && KeyCount(valid, k, Key(row, k)) >= 2 then multiset(rows)[row] else 0
  {
    var valid := NonBlank(rows, k);
    FilterMultiplicity(rows, HasValidKey(k), row);
    FilterMultiplicity(valid, IsDuplicate(valid, k), row);
  }

  /** Every reported key is valid and occurs at least twice in the report itself. */
  lemma ReportedKeysRepeat(rows: seq<Row>, k: nat, i: nat)
    requires ReportOn(rows, k).Report?
    requires i < |ReportOn(rows, k).rows|
    ensures var o := ReportOn(rows, k);
      ValidKey(Key(o.rows[i], k)) && KeyCount(o.rows, k, Key(o.rows[i], k)) >= 2
  {
    var o := ReportOn(rows, k);
    var valid := NonBlank(rows, k);
    var dup := IsDuplicate(valid, k);
    var dups := Filter(valid, dup);
    var c := Key(o.rows[i], k);
    assert o.rows[i] in multiset(dups);
    assert o.rows[i] in dups;
    var same := KeyIs(k, c);
    assert forall x :: same(x) ==> dup(x);
    FilterNarrower(valid, dup, same);
    FilterPermutation(o.rows, dups, same);
  }

  /** "No duplicate emails found." exactly when no valid key occurs twice. */
  lemma NoDuplicatesIff(rows: seq<Row>, k: nat)
    ensures var valid := NonBlank(rows, k);
      ReportOn(rows, k).NoDuplicates? <==>
        forall row :: row in valid ==> KeyCount(valid, k, Key(row, k)) < 2
  {
    var valid := NonBlank(rows, k);
    var dup := IsDuplicate(valid, k);
    forall row | row in valid && dup(row)
      ensures row in Filter(valid, dup)
    {
      FilterMultiplicity(valid, dup, row);
    }
  }
}

=== FILE: git_repository_service.dfy ===
/**
 * Keeping the staging copy of the repository up to date: the guard on the
 * clone URL, the directory the copy lives in, and the clone-or-fetch,
 * checkout, pull sequence. Whether the directory exists and whether each
 * git command exits with status 0 are parameters; the commands themselves
 * are not run.
 */
module GitRepositoryService {
  import opened Wrappers
  import opened Strings

  // ---------------------------------------------------------------
  // isValidRepositoryUrl: #^https://github\.com/[a-zA-Z0-9_-]+/[a-zA-Z0-9_-]+\.git$#
  // ---------------------------------------------------------------

  const UrlPrefix := "https://github.com/"
  const GitSuffix := ".git"

  /** The characters of the owner and repository names. */
  predicate IsNameChar(c: char) {
    IsAlnum(c) || c == '_' || c == '-'
  }

  predicate IsName(s: string) {
    |s| > 0 && forall i :: 0 <= i < |s| ==> IsNameChar(s[i])
  }

  /** The number of leading name characters of `s`. */
  function NameRun(s: string): (n: nat)
    ensures n <= |s|
    ensures forall i :: 0 <= i < n ==> IsNameChar(s[i])
    ensures n < |s| ==> !IsNameChar(s[n])
  {
    if |s| == 0 || !IsNameChar(s[0]) then 0
    else
      var k := NameRun(s[1..]);
      assert forall i :: 1 <= i <= k ==> s[i] == s[1..][i - 1];
      k + 1
  }

  /** "owner/repo.git", scanned as the regex engine does: names stop at the first other character. */
  predicate PathMatch(r: string) {
    var k := NameRun(r);
    k > 0 && k < |r| && r[k] == '/' &&
    var t := r[k + 1..];
    var m := NameRun(t);
    m > 0 && t[m..] == GitSuffix
  }

  /** The pattern without its end anchor. */
  predicate UrlBody(u: string) {
    |u| >= |UrlPrefix| && u[..|UrlPrefix|] == UrlPrefix && PathMatch(u[|UrlPrefix|..])
  }

  /**
   * `isValidRepositoryUrl($repoUrl)`. Without the D modifier `$` also
   * matches before a final "\n", so one trailing newline gets through.
   */
  predicate IsValidRepositoryUrl(u: string) {
    UrlBody(u) || (|u| > 0 && u[|u| - 1] == '\n' && UrlBody(u[..|u| - 1]))
  }

  /** The URL shape named by its parts. */
  function RepoUrl(owner: string, repo: string): string {
    UrlPrefix + owner + "/" + repo + GitSuffix
  }

  lemma NameRunExact(s: string, k: nat)
    requires k <= |s| && forall i :: 0 <= i < k ==> IsNameChar(s[i])
    requires k == |s| || !IsNameChar(s[k])
    ensures NameRun(s) == k
  {
  }

  lemma GitSuffixChars()
    ensures |GitSuffix| == 4 && GitSuffix[0] == '.' && !IsNameChar('.') && !IsNameChar('/')
    ensures |UrlPrefix| == 19
  {
  }

  /** The scan accepts "owner/repo.git" for any two names. */
  lemma PathOfNames(owner: string, repo: string)
    requires IsName(owner) && IsName(repo)
    ensures PathMatch(owner + "/" + repo + GitSuffix)
  {
    GitSuffixChars();
    var r := owner + "/" + repo + GitSuffix;
    var k := |owner|;
    assert r[k] == '/';
    assert forall i :: 0 <= i < k ==> r[i] == owner[i];
    NameRunExact(r, k);
    var t := r[k + 1..];
    assert t == repo + GitSuffix;
    assert forall i :: 0 <= i < |repo| ==> t[i] == repo[i];
    assert t[|repo|] == '.';
    NameRunExact(t, |repo|);
    assert t[|repo|..] == GitSuffix;
  }

  /** Whatever the scan accepts is "owner/repo.git" for two names. */
  lemma NamesOfPath(r: string)
    requires PathMatch(r)
    ensures exists owner, repo :: IsName(owner) && IsName(repo) && r == owner + "/" + repo + GitSuffix
  {
    var k := NameRun(r);
    assert 0 < k < |r| && r[k] == '/';
    var t := r[k + 1..];
    var m := NameRun(t);
    assert m > 0 && t[m..] == GitSuffix;
    var owner, repo := r[..k], t[..m];
    NameOfRun(r, k);
    NameOfRun(t, m);
    assert t == repo + t[m..];
    JoinPath(r, owner, repo, k);
    assert IsName(owner) && IsName(repo) && r == owner + "/" + repo + GitSuffix;
  }

  /** A non-empty run of name characters is a name. */
  lemma NameOfRun(s: string, k: nat)
    requires 0 < k <= |s| && forall i :: 0 <= i < k ==> IsNameChar(s[i])
    ensures IsName(s[..k])
  {
  }

  lemma JoinPath(r: string, owner: string, repo: string, k: nat)
    requires k < |r| && r[k] == '/' && owner == r[..k] && r[k + 1..] == repo + GitSuffix
    ensures r == owner + "/" + repo + GitSuffix
  {
    SplitAround(r, k);
  }

  lemma SplitAround(r: string, k: nat)
    requires k < |r|
    ensures r == r[..k] + [r[k]] + r[k + 1..]
  {
  }

  /** A URL passes the guard exactly when it is the GitHub HTTPS clone URL of two names, possibly plus "\n". */
  lemma ValidUrlIff(u: string)
    ensures IsValidRepositoryUrl(u) <==>
      (exists owner, repo :: IsName(owner) && IsName(repo) &&
        (u == RepoUrl(owner, repo) || u == RepoUrl(owner, repo) + "\n"))
  {
    if IsValidRepositoryUrl(u) {
      ValidUrlNames(u);
    }
    if owner, repo :| (IsName(owner) && IsName(repo) &&
        (u == RepoUrl(owner, repo) || u == RepoUrl(owner, repo) + "\n")) {
      UrlOfNames(owner, repo);
      if u != RepoUrl(owner, repo) {
        assert u[..|u| - 1] == RepoUrl(owner, repo);
      }
    }
  }

  lemma ValidUrlNames(u: string)
    requires IsValidRepositoryUrl(u)
    ensures exists owner, repo :: (IsName(owner) && IsName(repo) &&
      (u == RepoUrl(owner, repo) || u == RepoUrl(owner, repo) + "\n"))
  {
    if UrlBody(u) {
      BodyNames(u);
    } else {
      var body := u[..|u| - 1];
      BodyNames(body);
      assert u == body + "\n";
    }
  }

  lemma BodyNames(body: string)
    requires UrlBody(body)
    ensures exists owner, repo :: IsName(owner) && IsName(repo) && body == RepoUrl(owner, repo)
  {
    GitSuffixChars();
    var r := body[19..];
    assert body == body[..19] + r;
    NamesOfPath(r);
    var owner, repo :| IsName(owner) && IsName(repo) && r == owner + "/" + repo + GitSuffix;
    RepoUrlParts(owner, repo);
  }

  lemma RepoUrlParts(owner: string, repo: string)
    ensures RepoUrl(owner, repo) == UrlPrefix + (owner + "/" + repo + GitSuffix)
  {
  }

  lemma UrlOfNames(owner: string, repo: string)
    requires IsName(owner) && IsName(repo)
    ensures UrlBody(RepoUrl(owner, repo))
  {
    GitSuffixChars();
    var u := RepoUrl(owner, repo);
    PathOfNames(owner, repo);
    RepoUrlParts(owner, repo);
    assert u[..19] == UrlPrefix && u[19..] == owner + "/" + repo + GitSuffix;
  }

  /** The characters a URL that passes the guard may contain. */
  predicate IsUrlChar(c: char) {
    IsNameChar(c) || c == ':' || c == '/' || c == '.'
  }

  predicate AllUrlChars(s: string) {
    forall i :: 0 <= i < |s| ==> IsUrlChar(s[i])
  }

  lemma AllUrlCharsConcat(a: string, b: string)
    requires AllUrlChars(a) && AllUrlChars(b)
    ensures AllUrlChars(a + b)
  {
    assert forall i :: |a| <= i < |a + b| ==> (a + b)[i] == b[i - |a|];
  }

  lemma FixedPartsSafe()
    ensures AllUrlChars(UrlPrefix) && AllUrlChars(GitSuffix) && AllUrlChars("/")
  {
  }

  /**
   * A URL that passes the guard holds no whitespace, quote or shell
   * metacharacter, except a final newline.
   */
  lemma ValidUrlIsInert(u: string)
    requires IsValidRepositoryUrl(u)
    ensures forall i :: 0 <= i < |u| ==> IsUrlChar(u[i]) || (i == |u| - 1 && u[i] == '\n')
  {
    ValidUrlNames(u);
    var owner, repo :| IsName(owner) && IsName(repo) &&
      (u == RepoUrl(owner, repo) || u == RepoUrl(owner, repo) + "\n");
    var body := RepoUrl(owner, repo);
    RepoUrlSafe(owner, repo);
    if u != body {
      NewlineTail(body, u);
    }
  }

  lemma NewlineTail(body: string, u: string)
    requires AllUrlChars(body) && u == body + "\n"
    ensures forall i :: 0 <= i < |u| ==> IsUrlChar(u[i]) || (i == |u| - 1 && u[i] == '\n')
  {
    forall i | 0 <= i < |u|
      ensures IsUrlChar(u[i]) || (i == |u| - 1 && u[i] == '\n')
    {
      if i < |body| {
        assert u[i] == body[i];
      }
    }
  }

  lemma RepoUrlSafe(owner: string, repo: string)
    requires IsName(owner) && IsName(repo)
    ensures AllUrlChars(RepoUrl(owner, repo))
  {
    FixedPartsSafe();
    AllUrlCharsConcat(UrlPrefix, owner);
    AllUrlCharsConcat(UrlPrefix + owner, "/");
    AllUrlCharsConcat(UrlPrefix + owner + "/", repo);
    AllUrlCharsConcat(UrlPrefix + owner + "/" + repo, GitSuffix);
  }

  // ---------------------------------------------------------------
  // The clone directory: basename($repoUrl, '.git')
  // ---------------------------------------------------------------

  /** The text after the last '/' of `q`. */
  function LastSegment(q: string): (r: string)
    ensures |r| <= |q| && r == q[|q| - |r|..]
    ensures '/' !in r
    ensures |r| < |q| ==> q[|q| - |r| - 1] == '/'
  {
    if |q| == 0 || q[|q| - 1] == '/' then ""
    else
      var r := LastSegment(q[..|q| - 1]);
      r + [q[|q| - 1]]
  }

  predicate IsSlash(c: char) {
    c == '/'
  }

  /**
   * `basename($path, $suffix)`: trailing slashes are ignored, the last
   * component is taken, and the suffix is removed when the component ends
   * with it and is longer than it.
   */
  function Basename(path: string, suffix: string): (r: string)
    ensures '/' !in r
  {
    var c := LastSegment(TrimRightBy(path, IsSlash));
    if |c| > |suffix| && c[|c| - |suffix|..] == suffix then c[..|c| - |suffix|] else c
  }

  /** `$this->repoBaseDirectory . '/' . basename($repoUrl, '.git')` */
  function CloneDir(base: string, url: string): string {
    base + "/" + Basename(url, GitSuffix)
  }

  /** For a URL that passes the guard without a newline, the clone directory is named after the repository. */
  lemma CloneDirOfRepo(base: string, owner: string, repo: string)
    requires IsName(owner) && IsName(repo)
    ensures CloneDir(base, RepoUrl(owner, repo)) == base + "/" + repo
  {
    GitSuffixChars();
    var u := RepoUrl(owner, repo);
    var seg := repo + GitSuffix;
    assert u == (UrlPrefix + owner) + "/" + seg;
    TrimRightUnchanged(u);
    LastSegmentAfterSlash(UrlPrefix + owner, seg);
    assert seg[|seg| - 4..] == GitSuffix && seg[..|seg| - 4] == repo;
  }

  lemma TrimRightUnchanged(u: string)
    requires |u| > 0 && u[|u| - 1] != '/'
    ensures TrimRightBy(u, IsSlash) == u
  {
  }

  lemma {:induction false} LastSegmentAfterSlash(a: string, seg: string)
    requires '/' !in seg
    ensures LastSegment(a + "/" + seg) == seg
    decreases |seg|
  {
    var q := a + "/" + seg;
    if |seg| > 0 {
      var init := seg[..|seg| - 1];
      assert q[..|q| - 1] == a + "/" + init;
      assert q[|q| - 1] == seg[|seg| - 1];
      LastSegmentAfterSlash(a, init);
      assert init + [seg[|seg| - 1]] == seg;
    } else {
      assert q[|q| - 1] == '/';
    }
  }

  /** With the trailing newline the guard lets through, the suffix stays and the directory ends in ".git\n". */
  lemma CloneDirWithNewline(base: string, owner: string, repo: string)
    requires IsName(owner) && IsName(repo)
    ensures CloneDir(base, RepoUrl(owner, repo) + "\n") == base + "/" + repo + ".git\n"
  {
    var seg := repo + GitSuffix + "\n";
    var url := RepoUrl(owner, repo) + "\n";
    NewlineSegment(repo);
    UrlWithNewline(owner, repo);
    BasenameWhole(UrlPrefix + owner, seg, GitSuffix);
    assert Basename(url, GitSuffix) == seg;
    assert CloneDir(base, url) == base + "/" + seg;
    SuffixLiteral(repo);
  }

  lemma SuffixLiteral(repo: string)
    ensures repo + GitSuffix + "\n" == repo + ".git\n"
  {
  }

  /** The basename of `dir/seg` is `seg` itself when `seg` does not end in the suffix. */
  lemma BasenameWhole(dir: string, seg: string, suffix: string)
    requires |seg| > 0 && '/' !in seg
    requires !(|seg| > |suffix| && seg[|seg| - |suffix|..] == suffix)
    ensures Basename(dir + "/" + seg, suffix) == seg
  {
    BasenameOfSegment(dir, seg, suffix);
  }

  lemma UrlWithNewline(owner: string, repo: string)
    ensures RepoUrl(owner, repo) + "\n" == (UrlPrefix + owner) + "/" + (repo + GitSuffix + "\n")
  {
  }

  /** "repo.git\n" has no slash and does not end in ".git". */
  lemma NewlineSegment(repo: string)
    requires IsName(repo)
    ensures var seg := repo + GitSuffix + "\n";
      |seg| > 0 && '/' !in seg && !(|seg| > |GitSuffix| && seg[|seg| - |GitSuffix|..] == GitSuffix)
  {
    GitSuffixChars();
    var seg := repo + GitSuffix + "\n";
    NoSlashAfterName(repo, GitSuffix + "\n");
    assert seg == repo + (GitSuffix + "\n");
    assert seg[|seg| - 1] == '\n';
    assert seg[|seg| - 4..][3] == '\n';
  }

  lemma NoSlashAfterName(name: string, tail: string)
    requires IsName(name) && '/' !in tail
    ensures '/' !in name + tail
  {
    GitSuffixChars();
    forall i | 0 <= i < |name + tail|
      ensures (name + tail)[i] != '/'
    {
      if i < |name| {
        assert IsNameChar(name[i]);
      } else {
        assert (name + tail)[i] == tail[i - |name|];
      }
    }
  }

  /** The basename of `dir/seg` for a last component `seg` without slashes. */
  lemma BasenameOfSegment(dir: string, seg: string, suffix: string)
    requires |seg| > 0 && '/' !in seg
    ensures Basename(dir + "/" + seg, suffix) ==
            (if |seg| > |suffix| && seg[|seg| - |suffix|..] == suffix then seg[..|seg| - |suffix|] else seg)
  {
    var u := dir + "/" + seg;
    assert u[|u| - 1] == seg[|seg| - 1];
    TrimRightUnchanged(u);
    LastSegmentAfterSlash(dir, seg);
  }

  // ---------------------------------------------------------------
  // updateRepository
  // ---------------------------------------------------------------

  /** The git commands the update can run. */
  datatype Step =
    | Clone(url: string, dir: string)
    | Fetch(dir: string)
    | Checkout(dir: string, branch: string)
    | Pull(dir: string, branch: string)

  /** The `['status' => ..., 'message' => ...]` array: `ok` is status 'success'. */
  datatype Status = Status(ok: bool, message: string)

  function FailureMessage(s: Step): string {
    match s
    case Clone(_, _) => "Failed to clone repository"
    case Fetch(_) => "Failed to fetch latest changes"
    case Checkout(_, _) => "Failed to checkout branch"
    case Pull(_, _) => "Failed to pull latest changes"
  }

  const InvalidUrlMessage := "Invalid repository URL"
  const DoneMessage := "Repository operations completed successfully"

  /** What the update answered and which commands it ran, in order. */
  datatype Update = Update(status: Status, ran: seq<Step>)

  /** The three commands planned for a URL that passes the guard: clone or fetch, checkout, pull. */
  function Plan(base: string, branch: string, url: string, dirExists: bool): (p: seq<Step>)
    ensures |p| == 3
    ensures p[0] == (if dirExists then Fetch(CloneDir(base, url)) else Clone(url, CloneDir(base, url)))
    ensures p[1] == Checkout(CloneDir(base, url), branch) && p[2] == Pull(CloneDir(base, url), branch)
    ensures forall i :: 0 < i < |p| ==> !p[i].Clone? && !p[i].Fetch?
  {
    var dir := CloneDir(base, url);
    [if dirExists then Fetch(dir) else Clone(url, dir), Checkout(dir, branch), Pull(dir, branch)]
  }

  /**
   * Fail-fast: commands run in order until one fails, whose failure is the
   * answer; success is answered only after the last command succeeded.
   */
  function RunSteps(steps: seq<Step>, succeeds: Step -> bool): (r: Update)
    ensures |r.ran| <= |steps| && r.ran == steps[..|r.ran|]
    ensures |steps| > 0 ==> |r.ran| > 0
    ensures forall i :: 0 <= i < |r.ran| - 1 ==> succeeds(r.ran[i])
    ensures r.status.ok <==> |r.ran| == |steps| && forall i :: 0 <= i < |steps| ==> succeeds(steps[i])
    ensures r.status.ok ==> r.status.message == DoneMessage
    ensures !r.status.ok ==> |r.ran| > 0 && !succeeds(r.ran[|r.ran| - 1]) && r.status.message == FailureMessage(r.ran[|r.ran| - 1])
    decreases |steps|
  {
    if |steps| == 0 then Update(Status(true, DoneMessage), [])
    else if !succeeds(steps[0]) then Update(Status(false, FailureMessage(steps[0])), [steps[0]])
    else
      var rest := RunSteps(steps[1..], succeeds);
      RanCons(steps, rest.ran, succeeds);
      Update(rest.status, [steps[0]] + rest.ran)
  }

  /** A first command that succeeded, in front of the commands the rest of the plan ran. */
  lemma RanCons(steps: seq<Step>, ran: seq<Step>, succeeds: Step -> bool)
    requires |steps| > 0 && succeeds(steps[0])
    requires |ran| <= |steps| - 1 && ran == steps[1..][..|ran|]
    requires forall i :: 0 <= i < |ran| - 1 ==> succeeds(ran[i])
    ensures var ran' := [steps[0]] + ran;
      && |ran'| <= |steps| && ran' == steps[..|ran'|]
      && (forall i :: 0 <= i < |ran'| - 1 ==> succeeds(ran'[i]))
      && ran'[|ran'| - 1] == (if |ran| == 0 then steps[0] else ran[|ran| - 1])
      && ((|ran| == |steps| - 1 && forall i :: 0 <= i < |steps| - 1 ==> succeeds(steps[1..][i])) <==>
          (|ran'| == |steps| && forall i :: 0 <= i < |steps| ==> succeeds(steps[i])))
  {
    var ran' := [steps[0]] + ran;
    assert forall i :: 1 <= i < |steps| ==> steps[i] == steps[1..][i - 1];
    assert forall i :: 1 <= i < |ran'| ==> ran'[i] == ran[i - 1];
    assert steps[..|ran'|] == [steps[0]] + steps[1..][..|ran|];
  }

  /**
   * `updateRepository($branch, $repoUrl)` with the base directory `base`;
   * `dirExists` says whether the clone directory exists and `succeeds`
   * whether a command exits with status 0. A URL that fails the guard is
   * refused before any command runs.
   */
  function UpdateRepository(base: string, branch: string, url: string, dirExists: bool, succeeds: Step -> bool): (r: Update)
    ensures !IsValidRepositoryUrl(url) ==> r == Update(Status(false, InvalidUrlMessage), [])
    ensures IsValidRepositoryUrl(url) ==> r == RunSteps(Plan(base, branch, url, dirExists), succeeds)
  {
    if !IsValidRepositoryUrl(url) then Update(Status(false, InvalidUrlMessage), [])
    else RunSteps(Plan(base, branch, url, dirExists), succeeds)
  }

  /**
   * The outcome in terms of the commands: nothing runs for a refused URL;
   * otherwise at least the clone or fetch runs, success needs all three,
   * and a failure is the last command run.
   */
  lemma UpdateOutcome(base: string, branch: string, url: string, dirExists: bool, succeeds: Step -> bool)
    ensures var r := UpdateRepository(base, branch, url, dirExists, succeeds);
      && (|r.ran| == 0 <==> !IsValidRepositoryUrl(url))
      && (r.status.ok <==> IsValidRepositoryUrl(url) && |r.ran| == 3 && forall i :: 0 <= i < 3 ==> succeeds(r.ran[i]))
      && (r.status.ok ==> r.status.message == DoneMessage)
      && (forall i :: 0 <= i < |r.ran| - 1 ==> succeeds(r.ran[i]))
  {
    var r := UpdateRepository(base, branch, url, dirExists, succeeds);
    if IsValidRepositoryUrl(url) {
      var p := Plan(base, branch, url, dirExists);
      assert r.status.ok ==> r.ran == p[..3] == p;
    }
  }

  /** The copy is cloned when its directory is missing and fetched otherwise, and only by the first command. */
  lemma CloneOrFetch(base: string, branch: string, url: string, dirExists: bool, succeeds: Step -> bool)
    requires IsValidRepositoryUrl(url)
    ensures var r := UpdateRepository(base, branch, url, dirExists, succeeds);
      && |r.ran| > 0
      && r.ran[0] == (if dirExists then Fetch(CloneDir(base, url)) else Clone(url, CloneDir(base, url)))
      && (forall i :: 0 < i < |r.ran| ==> !r.ran[i].Clone? && !r.ran[i].Fetch?)
  {
    var p := Plan(base, branch, url, dirExists);
    var r := UpdateRepository(base, branch, url, dirExists, succeeds);
    PrefixSteps(p, r.ran);
  }

  lemma PrefixSteps(p: seq<Step>, ran: seq<Step>)
    requires |ran| <= |p| && ran == p[..|ran|]
    ensures forall i :: 0 <= i < |ran| ==> ran[i] == p[i]
  {
  }
}

=== FILE: github_service.dfy ===
/**
 * The checks the deployment webhook applies to a GitHub push: that it
 * comes from the expected repository, which branch it is about, and
 * whether that branch is a release branch. The HMAC signature check is
 * cryptography and is not modelled.
 */
module GitHubService {
  import opened Strings
  import opened Php

  // ---------------------------------------------------------------
  // isReleaseBranch: /^release\/v\d+(\.\d+)?$/
  // ---------------------------------------------------------------

  const ReleasePrefix := "release/v"

  /** The number of leading ASCII digits of `s`. */
  function LeadingDigits(s: string): (n: nat)
    ensures n <= |s| && AllDigits(s[..n])
    ensures n < |s| ==> !IsDigit(s[n])
  {
    if |s| == 0 || !IsDigit(s[0]) then 0
    else
      var k := LeadingDigits(s[1..]);
      assert s[..k + 1] == [s[0]] + s[1..][..k];
      k + 1
  }

  /** The version part `\d+(\.\d+)?`, read left to right as the regex engine does. */
  predicate VersionMatch(v: string) {
    var n := LeadingDigits(v);
    n > 0 && (n == |v| || (v[n] == '.' && n + 1 < |v| && AllDigits(v[n + 1..])))
  }

  /** The version part described without reference to the scan: digits, or digits '.' digits. */
  predicate VersionShape(v: string) {
    (|v| > 0 && AllDigits(v))
    || exists k :: 0 < k < |v| - 1 && v[k] == '.' && AllDigits(v[..k]) && AllDigits(v[k + 1..])
  }

  /** A run of digits ended by a non-digit is exactly what the scan counts. */
  lemma {:induction false} LeadingDigitsExact(v: string, k: nat)
    requires k <= |v| && AllDigits(v[..k])
    requires k == |v| || !IsDigit(v[k])
    ensures LeadingDigits(v) == k
  {
    if k > 0 {
      assert v[..k][0] == v[0];
      assert v[1..][..k - 1] == v[..k][1..];
      LeadingDigitsExact(v[1..], k - 1);
    }
  }

  /** The scan accepts exactly the strings of the described shape. */
  lemma VersionMatchIff(v: string)
    ensures VersionMatch(v) <==> VersionShape(v)
  {
    if VersionShape(v) {
      if |v| > 0 && AllDigits(v) {
        assert v[..|v|] == v;
        LeadingDigitsExact(v, |v|);
      } else {
        var k :| 0 < k < |v| - 1 && v[k] == '.' && AllDigits(v[..k]) && AllDigits(v[k + 1..]);
        LeadingDigitsExact(v, k);
      }
    }
    if VersionMatch(v) {
      var n := LeadingDigits(v);
      if n == |v| {
        assert v[..n] == v;
      }
    }
  }

  /** The pattern without its end anchor: "release/v" and a version. */
  predicate ReleaseBody(b: string) {
    |b| >= |ReleasePrefix| && b[..|ReleasePrefix|] == ReleasePrefix && VersionMatch(b[|ReleasePrefix|..])
  }

  /**
   * `isReleaseBranch($branch)`. Without the D modifier PCRE's `$` also
   * matches before a final "\n", so one trailing newline is accepted.
   */
  predicate IsReleaseBranch(b: string) {
    ReleaseBody(b) || (|b| > 0 && b[|b| - 1] == '\n' && ReleaseBody(b[..|b| - 1]))
  }

  /** A release branch is "release/v" and a version, possibly followed by one newline. */
  lemma ReleaseBranchIff(b: string)
    ensures IsReleaseBranch(b) <==>
      exists v :: VersionShape(v) && (b == ReleasePrefix + v || b == ReleasePrefix + v + "\n")
  {
    if IsReleaseBranch(b) {
      ReleaseBranchShape(b);
    }
    if v :| VersionShape(v) && (b == ReleasePrefix + v || b == ReleasePrefix + v + "\n") {
      ShapeIsReleaseBranch(v, b);
    }
  }

  lemma ReleaseBranchShape(b: string)
    requires IsReleaseBranch(b)
    ensures exists v :: VersionShape(v) && (b == ReleasePrefix + v || b == ReleasePrefix + v + "\n")
  {
    if ReleaseBody(b) {
      var v := BodyShape(b);
      assert VersionShape(v) && b == ReleasePrefix + v;
    } else {
      var body := b[..|b| - 1];
      var v := BodyShape(body);
      assert b == body + "\n";
      assert VersionShape(v) && b == ReleasePrefix + v + "\n";
    }
  }

  /** A release body splits into the prefix and a version of the described shape. */
  lemma BodyShape(body: string) returns (v: string)
    requires ReleaseBody(body)
    ensures VersionShape(v) && body == ReleasePrefix + v
  {
    v := body[|ReleasePrefix|..];
    VersionMatchIff(v);
    assert body == body[..|ReleasePrefix|] + v;
  }

  lemma ShapeIsReleaseBranch(v: string, b: string)
    requires VersionShape(v) && (b == ReleasePrefix + v || b == ReleasePrefix + v + "\n")
    ensures IsReleaseBranch(b)
  {
    VersionMatchIff(v);
    var body := ReleasePrefix + v;
    assert body[..|ReleasePrefix|] == ReleasePrefix && body[|ReleasePrefix|..] == v;
    assert ReleaseBody(body);
    if b != body {
      assert b[..|b| - 1] == body;
    }
  }

  /** "release/v" and digits is a release branch, with or without a trailing newline. */
  lemma ReleaseMajor(major: string)
    requires |major| > 0 && AllDigits(major)
    ensures IsReleaseBranch(ReleasePrefix + major)
    ensures IsReleaseBranch(ReleasePrefix + major + "\n")
  {
    ShapeIsReleaseBranch(major, ReleasePrefix + major);
    ShapeIsReleaseBranch(major, ReleasePrefix + major + "\n");
  }

  /** "release/v" and digits '.' digits is a release branch. */
  lemma ReleaseMajorMinor(major: string, minor: string)
    requires |major| > 0 && AllDigits(major)
    requires |minor| > 0 && AllDigits(minor)
    ensures IsReleaseBranch(ReleasePrefix + major + "." + minor)
  {
    var k := |major|;
    var v := major + "." + minor;
    assert v[..k] == major && v[k + 1..] == minor && v[k] == '.';
    assert VersionShape(v);
    ShapeIsReleaseBranch(v, ReleasePrefix + v);
    assert ReleasePrefix + major + "." + minor == ReleasePrefix + v;
  }

  /** A third version component is not accepted: "release/v1.0.0" is rejected. */
  lemma ThreeComponentsRejected()
    ensures !IsReleaseBranch("release/v1.0.0")
  {
    var b := "release/v1.0.0";
    assert b[..9] == ReleasePrefix;
    var v := b[9..];
    assert v == "1.0.0";
    assert LeadingDigits(v) == 1 by {
      assert LeadingDigits(v[1..]) == 0;
    }
    assert !AllDigits(v[2..]) by {
      assert v[2..][1] == '.';
    }
    assert b[..|b| - 1] == "release/v1.0." && b[|b| - 1] != '\n';
  }

  /** A name without "release/v" in front, or with nothing after it, is not a release branch. */
  lemma NotReleaseBranches(b: string)
    requires |b| < 10 || b[..9] != ReleasePrefix
    ensures !IsReleaseBranch(b)
  {
    if |b| > 0 && b[|b| - 1] == '\n' && |b| - 1 >= 9 {
      assert b[..|b| - 1][..9] == b[..9];
    }
  }

  // ---------------------------------------------------------------
  // extractBranchName
  // ---------------------------------------------------------------

  const HeadsPrefix := "refs/heads/"

  /** `extractBranchName($ref)`: every occurrence of "refs/heads/" is removed in one pass. */
  function ExtractBranchName(ref: string): (r: string)
    ensures |r| <= |ref|
    ensures !Contains(ref, HeadsPrefix) ==> r == ref
  {
    StrReplaceDeleteShrinks(HeadsPrefix, ref);
    StrReplaceUnchanged(HeadsPrefix, "", ref);
    StrReplace(HeadsPrefix, "", ref)
  }

  /** The usual case: a ref "refs/heads/<branch>" gives the branch, when the branch has no further occurrence. */
  lemma StripsHeadsPrefix(branch: string)
    requires !Contains(branch, HeadsPrefix)
    ensures ExtractBranchName(HeadsPrefix + branch) == branch
  {
    StrReplaceAtStart(HeadsPrefix, "", branch);
    StrReplaceAbsent(HeadsPrefix, "", branch);
  }

  /** Up to `j`, no occurrence of "refs/heads/" starts anywhere in `w`. */
  predicate NoneBefore(w: string, j: nat) {
    forall i :: 0 <= i < j ==> !OccursAt(w, HeadsPrefix, i)
  }

  /**
   * Removal is not idempotent: deleting the inner occurrence of
   * "refs/herefs/heads/ads/x" joins its halves into a new occurrence,
   * which a second call removes.
   */
  lemma ExtractNotIdempotent(x: string)
    requires !Contains(x, HeadsPrefix)
    ensures ExtractBranchName("refs/he" + HeadsPrefix + "ads/" + x) == HeadsPrefix + x
    ensures ExtractBranchName(HeadsPrefix + x) == x
  {
    var h := HeadsPrefix;
    var w := "refs/he" + h + "ads/" + x;
    HeadsPrefixChars();
    NoEarlyOccurrence(x);
    StrReplaceKeepsPrefix(h, "", w, 7);
    var tail := "ads/" + x;
    assert w[7..] == h + tail;
    AdsPrefix(x);
    StripsHeadsPrefix(tail);
    assert StrReplace(h, "", w[7..]) == tail;
    assert w[..7] == "refs/he";
    assert StrReplace(h, "", w) == "refs/he" + tail;
    ConcatAssoc("refs/he", "ads/", x);
    StripsHeadsPrefix(x);
  }

  lemma ConcatAssoc(a: string, b: string, c: string)
    ensures a + (b + c) == (a + b) + c
  {
  }

  lemma HeadsPrefixChars()
    ensures |HeadsPrefix| == 11 && HeadsPrefix[0] == 'r' && HeadsPrefix[7] == 'a'
    ensures "refs/he" + "ads/" == HeadsPrefix
  {
  }

  lemma NoEarlyOccurrence(x: string)
    ensures NoneBefore("refs/he" + HeadsPrefix + "ads/" + x, 7)
  {
    var w, h := "refs/he" + HeadsPrefix + "ads/" + x, HeadsPrefix;
    HeadsPrefixChars();
    assert |w| >= 18 && w[7] == h[0];
    forall i | 0 <= i < 7
      ensures !OccursAt(w, h, i)
    {
      var k := if i == 0 then 7 else 0;
      assert w[i + k] != h[k];
      assert w[i..i + 11][k] == w[i + k];
    }
  }

  /** No occurrence starts in "ads/", so one starting later is the only kind. */
  lemma AdsPrefix(x: string)
    requires !Contains(x, HeadsPrefix)
    ensures !Contains("ads/" + x, HeadsPrefix)
  {
    var w, h := "ads/" + x, HeadsPrefix;
    HeadsPrefixChars();
    if i :| 0 <= i <= |w| && OccursAt(w, h, i) {
      assert w[i..i + 11][0] == w[i];
      if i >= 4 {
        assert w[i..i + 11] == x[i - 4..i - 4 + 11];
        assert OccursAt(x, h, i - 4);
      }
    }
  }

  // ---------------------------------------------------------------
  // isValidRepository
  // ---------------------------------------------------------------

  /** The id of the one repository whose pushes are deployed. */
  const RepositoryId := 781366756

  /** A decoded JSON value: a scalar or an object. */
  datatype Json = Scalar(v: Val) | Object(fields: map<string, Json>)

  /**
   * `isValidRepository($payload)`: `repository.id` is set and is the
   * integer id itself; the same digits as a string do not count.
   */
  predicate IsValidRepository(payload: map<string, Json>) {
    && "repository" in payload
    && payload["repository"].Object?
    && "id" in payload["repository"].fields
    && payload["repository"].fields["id"] == Scalar(Int(RepositoryId))
  }

  /** Any payload whose repository id is something other than that integer is refused. */
  lemma OnlyTheIntegerId(payload: map<string, Json>, id: Val)
    requires payload == map["repository" := Object(map["id" := Scalar(id)])]
    ensures IsValidRepository(payload) <==> id == Int(781366756)
  {
  }
}

=== FILE: medlem.dfy ===
/**
 * The member record: its property defaults, the display name, and the
 * role list with its update and lookup.
 *
 * The role list is a PHP array: entries carry integer keys that `unset`
 * removes by key, while `array_column` and `array_search` work on the
 * re-indexed list of role ids. The model keeps the keys explicit.
 */
module Medlem {
  import opened Wrappers
  import opened Strings
  import opened Php

  /** One `['roll_id' => id]` entry of the role array, with its array key. */
  datatype RoleEntry = RoleEntry(key: nat, rollId: string)

  /** The role array: entries in iteration order, and the key the next append receives. */
  datatype Roller = Roller(entries: seq<RoleEntry>, next: nat)

  /** Keys are distinct and all below the next free key. */
  predicate WellKeyed(r: Roller) {
    (forall i, j :: 0 <= i < j < |r.entries| ==> r.entries[i].key != r.entries[j].key)
    && (forall i :: 0 <= i < |r.entries| ==> r.entries[i].key < r.next)
  }

  /** Roles as loaded from the database: a list, so each key is the position. */
  function FromIds(ids: seq<string>): (r: Roller)
    ensures WellKeyed(r) && |r.entries| == |ids|
    ensures forall i :: 0 <= i < |ids| ==> r.entries[i] == RoleEntry(i, ids[i])
  {
    Roller(seq(|ids|, i requires 0 <= i < |ids| => RoleEntry(i, ids[i])), |ids|)
  }

  /** `array_column($roller, 'roll_id')`: the ids, re-indexed from 0. */
  function Ids(r: Roller): (ids: seq<string>)
    ensures |ids| == |r.entries|
    ensures forall i :: 0 <= i < |ids| ==> ids[i] == r.entries[i].rollId
  {
    seq(|r.entries|, i requires 0 <= i < |r.entries| => r.entries[i].rollId)
  }

  function KeyIsNot(k: nat): RoleEntry -> bool {
    (e: RoleEntry) => e.key != k
  }

  /** `unset($roller[$k])`: removes the entry with key `k`, if any; the next free key does not move back. */
  function Unset(r: Roller, k: nat): (r': Roller)
    ensures r'.next == r.next
    ensures forall e :: e in r'.entries <==> e in r.entries && e.key != k
  {
    Roller(Filter(r.entries, KeyIsNot(k)), r.next)
  }

  /** `$roller[] = ['roll_id' => $id]` */
  function Append(r: Roller, id: string): (r': Roller)
    requires WellKeyed(r)
    ensures WellKeyed(r')
    ensures Ids(r') == Ids(r) + [id]
  {
    Roller(r.entries + [RoleEntry(r.next, id)], r.next + 1)
  }

  function NotIn(xs: seq<string>): string -> bool {
    x => x !in xs
  }

  /** `array_diff($ids, $new)`: the ids whose string form is not among the new ids, in order. */
  function ToRemove(ids: seq<string>, newIds: seq<string>): (r: seq<string>)
    ensures forall x :: x in r <==> x in ids && x !in newIds
  {
    Filter(ids, NotIn(newIds))
  }

  /**
   * The removal loop as written: each id is looked up in the CURRENT
   * re-indexed id list, and the position found is then unset as a KEY.
   * A failed search yields false, which as an array key is 0.
   */
  function RemoveAsWritten(r: Roller, toRemove: seq<string>): (r': Roller)
    ensures r'.next == r.next
    ensures forall e :: e in r'.entries ==> e in r.entries
    decreases |toRemove|
  {
    if |toRemove| == 0 then r
    else
      var k := match SearchLoose(toRemove[0], Ids(r)) case None => 0 case Some(p) => p;
      RemoveAsWritten(Unset(r, k), toRemove[1..])
  }

  /** One round of the adding loop: append `x` unless it is already loosely present (`in_array`). */
  function AddOne(r: Roller, x: string): (r': Roller)
    requires WellKeyed(r)
    ensures WellKeyed(r')
    ensures |Ids(r)| <= |Ids(r')| && Ids(r')[..|Ids(r)|] == Ids(r)
    ensures InLoose(x, Ids(r'))
    ensures forall y :: y in Ids(r') ==> y in Ids(r) || y == x
  {
    if InLoose(x, Ids(r)) then r
    else
      LooseEqStrReflexive(x);
      var r' := Append(r, x);
      assert Ids(r')[|Ids(r)|] == x;
      r'
  }

  /** The adding loop over the new ids, in order. */
  function AddNew(r: Roller, newIds: seq<string>): (r': Roller)
    requires WellKeyed(r)
    ensures WellKeyed(r')
    ensures |Ids(r)| <= |Ids(r')| && Ids(r')[..|Ids(r)|] == Ids(r)
    decreases |newIds|
  {
    if |newIds| == 0 then r
    else
      var r1 := AddOne(r, newIds[0]);
      var r2 := AddNew(r1, newIds[1..]);
      assert Ids(r2)[..|Ids(r)|] == Ids(r1)[..|Ids(r)|];
      r2
  }

  /** After the adding loop every new id is loosely present. */
  lemma {:induction false} AddNewHoldsAll(r: Roller, newIds: seq<string>)
    requires WellKeyed(r)
    ensures forall x :: x in newIds ==> InLoose(x, Ids(AddNew(r, newIds)))
    decreases |newIds|
  {
    if |newIds| > 0 {
      var r1 := AddOne(r, newIds[0]);
      AddNewHoldsAll(r1, newIds[1..]);
      InLoosePrefix(newIds[0], Ids(r1), Ids(AddNew(r1, newIds[1..])));
      assert forall x :: x in newIds ==> x == newIds[0] || x in newIds[1..];
    }
  }

  /** The adding loop adds nothing but new ids. */
  lemma {:induction false} AddNewOnlyNew(r: Roller, newIds: seq<string>)
    requires WellKeyed(r)
    ensures forall y :: y in Ids(AddNew(r, newIds)) ==> y in Ids(r) || y in newIds
    decreases |newIds|
  {
    if |newIds| > 0 {
      var r1 := AddOne(r, newIds[0]);
      AddNewOnlyNew(r1, newIds[1..]);
      assert forall y :: y in newIds[1..] ==> y in newIds;
    }
  }

  /** Loose membership in a prefix carries over to the whole list. */
  lemma InLoosePrefix(x: string, xs: seq<string>, ys: seq<string>)
    requires |xs| <= |ys| && ys[..|xs|] == xs
    requires InLoose(x, xs)
    ensures InLoose(x, ys)
  {
    var i :| 0 <= i < |xs| && LooseEqStr(xs[i], x);
    assert ys[i] == xs[i];
  }

  /**
   * Every entry with a key from `base` on was appended by the adding loop:
   * its id is loosely equal to no id before it, because `in_array` let it in.
   */
  predicate AppendedFresh(r: Roller, base: nat) {
    forall i, j :: 0 <= i < j < |r.entries| && r.entries[j].key >= base ==>
      !LooseEqStr(r.entries[i].rollId, r.entries[j].rollId)
  }

  /** The properties of the adding loop that `AddNewAppends` carries through it. */
  predicate Extends(r: Roller, r': Roller) {
    && r.next <= r'.next
    && |r.entries| <= |r'.entries| && r'.entries[..|r.entries|] == r.entries
    && (forall i :: |r.entries| <= i < |r'.entries| ==> r'.entries[i].key >= r.next)
  }

  /** One round of the adding loop appends only an id `in_array` did not find. */
  lemma AddOneAppends(r: Roller, x: string, base: nat)
    requires WellKeyed(r) && base <= r.next && AppendedFresh(r, base)
    ensures Extends(r, AddOne(r, x)) && AppendedFresh(AddOne(r, x), base)
  {
    if !InLoose(x, Ids(r)) {
      assert AddOne(r, x) == Append(r, x);
      assert Append(r, x) == Roller(r.entries + [RoleEntry(r.next, x)], r.next + 1);
      NotInLooseEntries(r, x);
      AppendFresh(r, RoleEntry(r.next, x), base);
    } else {
      assert AddOne(r, x) == r;
      assert r.entries[..|r.entries|] == r.entries;
    }
  }

  /** An id not loosely among the roles differs loosely from every entry's id. */
  lemma NotInLooseEntries(r: Roller, x: string)
    requires !InLoose(x, Ids(r))
    ensures forall i :: 0 <= i < |r.entries| ==> !LooseEqStr(r.entries[i].rollId, x)
  {
    forall i | 0 <= i < |r.entries|
      ensures !LooseEqStr(r.entries[i].rollId, x)
    {
      assert Ids(r)[i] == r.entries[i].rollId;
    }
  }

  /** Appending an entry loosely equal to none before it keeps the appended part free of loose repeats. */
  lemma AppendFresh(r: Roller, e: RoleEntry, base: nat)
    requires WellKeyed(r) && base <= r.next && AppendedFresh(r, base) && e.key == r.next
    requires forall i :: 0 <= i < |r.entries| ==> !LooseEqStr(r.entries[i].rollId, e.rollId)
    ensures Extends(r, Roller(r.entries + [e], r.next + 1))
    ensures AppendedFresh(Roller(r.entries + [e], r.next + 1), base)
  {
    var es := r.entries + [e];
    assert es[..|r.entries|] == r.entries;
    forall i, j | 0 <= i < j < |es| && es[j].key >= base
      ensures !LooseEqStr(es[i].rollId, es[j].rollId)
    {
      if j < |r.entries| {
        assert es[i] == r.entries[i] && es[j] == r.entries[j];
      } else {
        assert es[i] == r.entries[i] && es[j] == e;
      }
    }
  }

  /** The adding loop keeps the old entries as they are and appends with keys from `r.next` on. */
  lemma {:induction false} AddNewAppends(r: Roller, newIds: seq<string>, base: nat)
    requires WellKeyed(r) && base <= r.next && AppendedFresh(r, base)
    ensures Extends(r, AddNew(r, newIds)) && AppendedFresh(AddNew(r, newIds), base)
    decreases |newIds|
  {
    if |newIds| > 0 {
      var r1 := AddOne(r, newIds[0]);
      AddOneAppends(r, newIds[0], base);
      AddNewAppends(r1, newIds[1..], base);
      ExtendsTransitive(r, r1, AddNew(r1, newIds[1..]));
    }
  }

  lemma ExtendsTransitive(r: Roller, r1: Roller, r2: Roller)
    requires Extends(r, r1) && Extends(r1, r2)
    ensures Extends(r, r2)
  {
    assert r2.entries[..|r.entries|] == r2.entries[..|r1.entries|][..|r.entries|];
  }

  /**
   * `updateMedlemRoles($newRoleIds)` as written. Every requested role is
   * held afterwards; the roles held are old ones or requested ones; an old
   * entry is either kept untouched or gone; and nothing is appended that
   * `in_array` finds among the roles before it. The removal loop is the
   * faulty part: see `StaleRoleAsWritten` and `WantedRoleMoved`.
   */
  function UpdateRolesAsWritten(r: Roller, newIds: seq<string>): (r': Roller)
    requires WellKeyed(r)
    ensures WellKeyed(r')
    ensures forall x :: x in newIds ==> InLoose(x, Ids(r'))
    ensures forall y :: y in Ids(r') ==> y in Ids(r) || y in newIds
    ensures forall e :: e in r'.entries && e.key < r.next ==> e in r.entries
    ensures AppendedFresh(r', r.next)
  {
    var mid := RemoveAsWritten(r, ToRemove(Ids(r), newIds));
    RemoveAsWrittenKeyed(r, ToRemove(Ids(r), newIds));
    AddNewHoldsAll(mid, newIds);
    AddNewOnlyNew(mid, newIds);
    AddNewAppends(mid, newIds, r.next);
    var r' := AddNew(mid, newIds);
    IdsOfSubset(mid, r);
    OldKeysFromPrefix(r, mid, r');
    r'
  }

  /** Entries taken from `r` carry only ids of `r`. */
  lemma IdsOfSubset(mid: Roller, r: Roller)
    requires forall e :: e in mid.entries ==> e in r.entries
    ensures forall y :: y in Ids(mid) ==> y in Ids(r)
  {
    forall y | y in Ids(mid)
      ensures y in Ids(r)
    {
      var j :| 0 <= j < |Ids(mid)| && Ids(mid)[j] == y;
      assert mid.entries[j] in mid.entries;
      var k :| 0 <= k < |r.entries| && r.entries[k] == mid.entries[j];
      assert Ids(r)[k] == y;
    }
  }

  /** After the adding loop, an entry keyed below the old `next` is one of the entries kept from `r`. */
  lemma OldKeysFromPrefix(r: Roller, mid: Roller, r': Roller)
    requires mid.next == r.next && Extends(mid, r')
    requires forall e :: e in mid.entries ==> e in r.entries
    ensures forall e :: e in r'.entries && e.key < r.next ==> e in r.entries
  {
    forall e | e in r'.entries && e.key < r.next
      ensures e in r.entries
    {
      var j :| 0 <= j < |r'.entries| && r'.entries[j] == e;
      assert j < |mid.entries|;
      assert r'.entries[..|mid.entries|][j] == e;
      assert mid.entries[j] in mid.entries;
    }
  }

  lemma {:induction false} RemoveAsWrittenKeyed(r: Roller, toRemove: seq<string>)
    requires WellKeyed(r)
    ensures WellKeyed(RemoveAsWritten(r, toRemove))
    decreases |toRemove|
  {
    if |toRemove| > 0 {
      var k := match SearchLoose(toRemove[0], Ids(r)) case None => 0 case Some(p) => p;
      UnsetKeyed(r, k);
      RemoveAsWrittenKeyed(Unset(r, k), toRemove[1..]);
    }
  }

  lemma UnsetKeyed(r: Roller, k: nat)
    requires WellKeyed(r)
    ensures WellKeyed(Unset(r, k))
  {
    var es := Unset(r, k).entries;
    FilterIsSelectKeep(r.entries, KeyIsNot(k));
    var idx := Keep(r.entries, KeyIsNot(k));
    assert forall a :: 0 <= a < |es| ==> es[a] == r.entries[idx[a]];
  }

  function EntryKept(newIds: seq<string>): RoleEntry -> bool {
    (e: RoleEntry) => e.rollId in newIds
  }

  /**
   * The evident intent of the removal loop: drop every entry whose id
   * `array_diff` lists, by the entry's own key.
   */
  function RemoveFixed(r: Roller, newIds: seq<string>): (r': Roller)
    requires WellKeyed(r)
    ensures WellKeyed(r')
    ensures forall e :: e in r'.entries <==> e in r.entries && e.rollId in newIds
  {
    UnsetKeyedFilter(r, EntryKept(newIds));
    Roller(Filter(r.entries, EntryKept(newIds)), r.next)
  }

  lemma UnsetKeyedFilter(r: Roller, p: RoleEntry -> bool)
    requires WellKeyed(r)
    ensures WellKeyed(Roller(Filter(r.entries, p), r.next))
  {
    var es := Filter(r.entries, p);
    FilterIsSelectKeep(r.entries, p);
    var idx := Keep(r.entries, p);
    assert forall a :: 0 <= a < |es| ==> es[a] == r.entries[idx[a]];
  }

  /** `updateMedlemRoles` with the removal corrected. */
  function UpdateRoles(r: Roller, newIds: seq<string>): (r': Roller)
    requires WellKeyed(r)
    ensures WellKeyed(r')
  {
    AddNew(RemoveFixed(r, newIds), newIds)
  }

  /**
   * After the corrected update the roles are exactly the new ids: every
   * new id is present (up to PHP's loose comparison) and nothing else is.
   */
  lemma UpdateRolesExact(r: Roller, newIds: seq<string>)
    requires WellKeyed(r)
    ensures forall x :: x in newIds ==> InLoose(x, Ids(UpdateRoles(r, newIds)))
    ensures forall y :: y in Ids(UpdateRoles(r, newIds)) ==> y in newIds
  {
    var r1 := RemoveFixed(r, newIds);
    AddNewHoldsAll(r1, newIds);
    AddNewOnlyNew(r1, newIds);
    forall y | y in Ids(r1)
      ensures y in newIds
    {
      var j :| 0 <= j < |Ids(r1)| && Ids(r1)[j] == y;
      assert r1.entries[j] in r1.entries;
    }
  }

  /** Roles already present and still wanted keep their place, in order, ahead of the added ones. */
  lemma UpdateRolesKeepsOrder(r: Roller, newIds: seq<string>)
    requires WellKeyed(r)
    ensures var kept := Ids(RemoveFixed(r, newIds));
      |kept| <= |Ids(UpdateRoles(r, newIds))| && Ids(UpdateRoles(r, newIds))[..|kept|] == kept
  {
  }

  lemma FromThree(x: string, y: string, z: string)
    ensures FromIds([x, y, z]).entries == [RoleEntry(0, x), RoleEntry(1, y), RoleEntry(2, z)]
    ensures Ids(FromIds([x, y, z])) == [x, y, z]
  {
  }

  lemma UnsetSecond(e0: RoleEntry, e1: RoleEntry, e2: RoleEntry, n: nat)
    requires e0.key == 0 && e1.key == 1 && e2.key == 2
    ensures Unset(Roller([e0, e1, e2], n), 1) == Roller([e0, e2], n)
    ensures Unset(Roller([e0, e2], n), 1) == Roller([e0, e2], n)
  {
    var p := KeyIsNot(1);
    assert p(e0) && !p(e1) && p(e2);
    FilterThree(e0, e1, e2, p);
    FilterTwoOf(e0, e2, p);
    assert Filter([e0, e1, e2], p) == [e0, e2];
    assert Filter([e0, e2], p) == [e0, e2];
  }

  /** One round of the as-written removal loop. */
  lemma RemoveStep(r: Roller, t: string, rest: seq<string>, k: nat)
    requires SearchLoose(t, Ids(r)) == Some(k)
    ensures RemoveAsWritten(r, [t] + rest) == RemoveAsWritten(Unset(r, k), rest)
  {
    assert ([t] + rest)[0] == t && ([t] + rest)[1..] == rest;
  }

  lemma ToRemoveThree(x: string, y: string, z: string)
    requires x != y && x != z
    ensures ToRemove([x, y, z], [x]) == [y] + [z]
  {
    var p := NotIn([x]);
    assert !p(x) && p(y) && p(z);
    FilterThree(x, y, z, p);
  }

  lemma StaleFirstRound(x: string, y: string, z: string)
    requires SearchLoose(y, [x, y, z]) == Some(1)
    ensures RemoveAsWritten(FromIds([x, y, z]), [y] + [z])
      == RemoveAsWritten(Roller([RoleEntry(0, x), RoleEntry(2, z)], 3), [z])
  {
    var e0, e1, e2 := RoleEntry(0, x), RoleEntry(1, y), RoleEntry(2, z);
    FromThree(x, y, z);
    UnsetSecond(e0, e1, e2, 3);
    RemoveStep(FromIds([x, y, z]), y, [z], 1);
  }

  lemma StaleSecondRound(x: string, y: string, z: string)
    requires SearchLoose(z, [x, z]) == Some(1)
    ensures var r1 := Roller([RoleEntry(0, x), RoleEntry(2, z)], 3);
      RemoveAsWritten(r1, [z]) == r1 && Ids(r1) == [x, z]
  {
    var e0, e1, e2 := RoleEntry(0, x), RoleEntry(1, y), RoleEntry(2, z);
    var r1 := Roller([e0, e2], 3);
    assert Ids(r1) == [x, z];
    UnsetSecond(e0, e1, e2, 3);
    RemoveStep(r1, z, [], 1);
    assert [z] + [] == [z];
  }

  /** Both rounds of the removal loop on roles x, y, z asked to keep only x. */
  lemma StaleRounds(x: string, y: string, z: string)
    requires SearchLoose(y, [x, y, z]) == Some(1)
    requires SearchLoose(z, [x, z]) == Some(1)
    ensures Ids(RemoveAsWritten(FromIds([x, y, z]), [y] + [z])) == [x, z]
  {
    StaleFirstRound(x, y, z);
    StaleSecondRound(x, y, z);
  }

  /**
   * The removal half of the counterexample, given where the two searches
   * land: y is found at position 1, and so is z once y is gone.
   */
  lemma StaleRemoval(x: string, y: string, z: string)
    requires x != y && x != z
    requires SearchLoose(y, [x, y, z]) == Some(1)
    requires SearchLoose(z, [x, z]) == Some(1)
    ensures Ids(RemoveAsWritten(FromIds([x, y, z]), ToRemove([x, y, z], [x]))) == [x, z]
  {
    ToRemoveThree(x, y, z);
    StaleRounds(x, y, z);
  }

  /**
   * The as-written update leaves a stale role when two roles are removed:
   * from roles x, y, z updated to [x], removing y unsets key 1, after which
   * z sits at position 1 of the re-indexed list, so key 1 (already gone)
   * is unset again and z survives.
   */
  lemma StaleRoleGeneral(x: string, y: string, z: string)
    requires !LooseEqStr(x, y) && !LooseEqStr(y, x)
    requires !LooseEqStr(x, z) && !LooseEqStr(z, x)
    requires !LooseEqStr(y, z) && !LooseEqStr(z, y)
    ensures z in Ids(UpdateRolesAsWritten(FromIds([x, y, z]), [x]))
    ensures z !in [x]
  {
    StaleSearches(x, y, z);
    var r := FromIds([x, y, z]);
    FromThree(x, y, z);
    StaleRemoval(x, y, z);
    RemoveAsWrittenKeyed(r, ToRemove(Ids(r), [x]));
    StaleSurvivesAdd(RemoveAsWritten(r, ToRemove(Ids(r), [x])), x, z);
  }

  /** Where the two searches of the counterexample land. */
  lemma StaleSearches(x: string, y: string, z: string)
    requires !LooseEqStr(x, y) && !LooseEqStr(x, z)
    ensures SearchLoose(y, [x, y, z]) == Some(1)
    ensures SearchLoose(z, [x, z]) == Some(1)
  {
    SearchSecond(x, y, [z]);
    SearchSecond(x, z, []);
    assert [x, y] + [z] == [x, y, z];
    assert [x, z] + [] == [x, z];
  }

  /** An id not loosely equal to the first is found second when it is second. */
  lemma SearchSecond(x: string, y: string, rest: seq<string>)
    requires !LooseEqStr(x, y)
    ensures SearchLoose(y, [x, y] + rest) == Some(1)
  {
    LooseEqStrReflexive(y);
    var xs := [x, y] + rest;
    assert xs[0] == x && xs[1] == y;
    SearchLooseAt(y, xs, 1);
  }

  /** The adding loop never drops a role, so a stale role outlives it. */
  lemma StaleSurvivesAdd(r: Roller, x: string, z: string)
    requires WellKeyed(r) && Ids(r) == [x, z]
    ensures z in Ids(AddNew(r, [x]))
  {
    assert Ids(r)[1] == z;
    AddNewKeeps(r, [x], z);
  }

  /** A role held before the adding loop is held after it. */
  lemma AddNewKeeps(r: Roller, newIds: seq<string>, y: string)
    requires WellKeyed(r) && y in Ids(r)
    ensures y in Ids(AddNew(r, newIds))
  {
    var ids := Ids(r);
    var ids' := Ids(AddNew(r, newIds));
    var i :| 0 <= i < |ids| && ids[i] == y;
    assert ids'[..|ids|][i] == ids'[i];
  }

  /** Roles 1, 2, 3 updated to [1] keep role 3, which the update was asked to drop. */
  lemma StaleRoleAsWritten()
    ensures "3" in Ids(UpdateRolesAsWritten(FromIds(["1", "2", "3"]), ["1"]))
    ensures "3" !in ["1"]
  {
    NotLooseDigits("1", "2");
    NotLooseDigits("1", "3");
    NotLooseDigits("2", "3");
    StaleRoleGeneral("1", "2", "3");
  }

  /**
   * The removal loop can also drop a role that was asked to stay: from
   * roles a, y, b, z updated to [a, b], removing y unsets key 1, then z is
   * found at position 2 of the re-indexed list [a, b, z] and key 2 -- the
   * entry of b -- is unset, while z survives.
   */
  lemma WantedRemovalRounds(a: string, y: string, b: string, z: string)
    requires SearchLoose(y, [a, y, b, z]) == Some(1)
    requires SearchLoose(z, [a, b, z]) == Some(2)
    ensures Ids(RemoveAsWritten(FromIds([a, y, b, z]), [y] + [z])) == [a, z]
  {
    var e0, e1, e2, e3 := RoleEntry(0, a), RoleEntry(1, y), RoleEntry(2, b), RoleEntry(3, z);
    WantedFirstRound(e0, e1, e2, e3);
    WantedSecondRound(e0, e2, e3);
  }

  lemma WantedFirstRound(e0: RoleEntry, e1: RoleEntry, e2: RoleEntry, e3: RoleEntry)
    requires e0.key == 0 && e1.key == 1 && e2.key == 2 && e3.key == 3
    requires SearchLoose(e1.rollId, [e0.rollId, e1.rollId, e2.rollId, e3.rollId]) == Some(1)
    ensures FromIds([e0.rollId, e1.rollId, e2.rollId, e3.rollId]) == Roller([e0, e1, e2, e3], 4)
    ensures RemoveAsWritten(Roller([e0, e1, e2, e3], 4), [e1.rollId] + [e3.rollId])
         == RemoveAsWritten(Roller([e0, e2, e3], 4), [e3.rollId])
  {
    FromFour(e0, e1, e2, e3);
    UnsetSecondOfFour(e0, e1, e2, e3);
    RemoveStep(Roller([e0, e1, e2, e3], 4), e1.rollId, [e3.rollId], 1);
  }

  lemma FromFour(e0: RoleEntry, e1: RoleEntry, e2: RoleEntry, e3: RoleEntry)
    requires e0.key == 0 && e1.key == 1 && e2.key == 2 && e3.key == 3
    ensures FromIds([e0.rollId, e1.rollId, e2.rollId, e3.rollId]) == Roller([e0, e1, e2, e3], 4)
    ensures Ids(Roller([e0, e1, e2, e3], 4)) == [e0.rollId, e1.rollId, e2.rollId, e3.rollId]
  {
  }

  lemma UnsetSecondOfFour(e0: RoleEntry, e1: RoleEntry, e2: RoleEntry, e3: RoleEntry)
    requires e0.key == 0 && e1.key == 1 && e2.key == 2 && e3.key == 3
    ensures Unset(Roller([e0, e1, e2, e3], 4), 1) == Roller([e0, e2, e3], 4)
  {
    var k := KeyIsNot(1);
    assert k(e0) && !k(e1) && k(e2) && k(e3);
    FilterFour(e0, e1, e2, e3, k);
  }

  lemma WantedSecondRound(e0: RoleEntry, e2: RoleEntry, e3: RoleEntry)
    requires e0.key == 0 && e2.key == 2 && e3.key == 3
    requires SearchLoose(e3.rollId, [e0.rollId, e2.rollId, e3.rollId]) == Some(2)
    ensures Ids(RemoveAsWritten(Roller([e0, e2, e3], 4), [e3.rollId])) == [e0.rollId, e3.rollId]
  {
    var r1 := Roller([e0, e2, e3], 4);
    var k := KeyIsNot(2);
    assert k(e0) && !k(e2) && k(e3);
    FilterThree(e0, e2, e3, k);
    var r2 := Roller([e0, e3], 4);
    assert Unset(r1, 2) == r2;
    assert Ids(r1) == [e0.rollId, e2.rollId, e3.rollId];
    RemoveStep(r1, e3.rollId, [], 2);
    assert [e3.rollId] + [] == [e3.rollId];
    assert RemoveAsWritten(r2, []) == r2;
    assert Ids(r2) == [e0.rollId, e3.rollId];
  }

  lemma ToRemoveFour(a: string, y: string, b: string, z: string)
    requires y != a && y != b && z != a && z != b
    ensures ToRemove([a, y, b, z], [a, b]) == [y] + [z]
  {
    var p := NotIn([a, b]);
    assert !p(a) && p(y) && !p(b) && p(z);
    FilterFour(a, y, b, z, p);
  }

  /** The removal loop on roles 1, 2, 3, 4 updated to [1, 3] drops the wanted role 3 and keeps role 4. */
  lemma WantedRoleMoved()
    ensures "3" in ["1", "3"] && "4" !in ["1", "3"]
    ensures Ids(RemoveAsWritten(FromIds(["1", "2", "3", "4"]), ToRemove(["1", "2", "3", "4"], ["1", "3"])))
            == ["1", "4"]
  {
    NotLooseDigits("1", "2");
    NotLooseDigits("1", "4");
    NotLooseDigits("3", "4");
    SearchSecond("1", "2", ["3", "4"]);
    LooseEqStrReflexive("4");
    SearchLooseAt("4", ["1", "3", "4"], 2);
    ToRemoveFour("1", "2", "3", "4");
    IdsFromIds(["1", "2", "3", "4"]);
    WantedRemovalRounds("1", "2", "3", "4");
  }

  /** Distinct one-digit ids are not loosely equal. */
  lemma NotLooseDigits(a: string, b: string)
    requires |a| == 1 && |b| == 1 && IsDigit(a[0]) && IsDigit(b[0]) && a != b
    ensures !LooseEqStr(a, b) && !LooseEqStr(b, a)
  {
    assert a[0] != b[0] by {
      assert a == [a[0]] && b == [b[0]];
    }
    assert AllDigits(a) && AllDigits(b);
    DigitsValueOne(a);
    DigitsValueOne(b);
    assert DigitsValue(a) != DigitsValue(b);
    LooseEqStrDigits(a, b);
    LooseEqStrDigits(b, a);
  }

  /** Ids no two of which PHP considers loosely equal. */
  predicate LooselyDistinct(ids: seq<string>) {
    forall i, j :: 0 <= i < |ids| && 0 <= j < |ids| && i != j ==> !LooseEqStr(ids[i], ids[j])
  }

  /**
   * With at most one role to remove, roles freshly loaded (keys equal to
   * positions) and loosely distinct ids, the as-written update agrees with
   * the corrected one: the removal bug needs two removals.
   */
  lemma OneRemovalAgrees(ids: seq<string>, newIds: seq<string>)
    requires LooselyDistinct(ids)
    requires |ToRemove(ids, newIds)| <= 1
    ensures UpdateRolesAsWritten(FromIds(ids), newIds) == UpdateRoles(FromIds(ids), newIds)
  {
    var rm := ToRemove(ids, newIds);
    if |rm| == 0 {
      NothingRemovedAgrees(ids, newIds);
    } else {
      var t := rm[0];
      assert t in rm;
      var p :| 0 <= p < |ids| && ids[p] == t;
      OnlyOneRemoved(ids, newIds, p);
      SearchDistinct(ids, p);
      SingleRemovalAgrees(ids, newIds, p);
    }
    RemovalsAgree(FromIds(ids), newIds);
  }

  /** The two updates differ only in their removal step. */
  lemma RemovalsAgree(r: Roller, newIds: seq<string>)
    requires WellKeyed(r)
    requires RemoveAsWritten(r, ToRemove(Ids(r), newIds)) == RemoveFixed(r, newIds)
    ensures UpdateRolesAsWritten(r, newIds) == UpdateRoles(r, newIds)
  {
  }

  /** When every held role is wanted, both removals leave the roles alone. */
  lemma NothingRemovedAgrees(ids: seq<string>, newIds: seq<string>)
    requires |ToRemove(ids, newIds)| == 0
    ensures RemoveAsWritten(FromIds(ids), ToRemove(Ids(FromIds(ids)), newIds)) == RemoveFixed(FromIds(ids), newIds)
  {
    var r := FromIds(ids);
    IdsFromIds(ids);
    var rm := ToRemove(ids, newIds);
    assert rm == [];
    assert RemoveAsWritten(r, rm) == r;
    assert forall i :: 0 <= i < |ids| ==> ids[i] in newIds;
    FilterAllKept(r.entries, EntryKept(newIds));
    assert RemoveFixed(r, newIds) == r;
  }

  lemma IdsFromIds(ids: seq<string>)
    ensures Ids(FromIds(ids)) == ids
  {
  }

  /** With at most one id to remove, found at p, every other id is wanted. */
  lemma OnlyOneRemoved(ids: seq<string>, newIds: seq<string>, p: nat)
    requires |ToRemove(ids, newIds)| <= 1
    requires p < |ids| && ids[p] !in newIds
    ensures forall i :: 0 <= i < |ids| && i != p ==> ids[i] in newIds
  {
    forall i | 0 <= i < |ids| && i != p
      ensures ids[i] in newIds
    {
      if ids[i] !in newIds {
        if i < p {
          FilterTwo(ids, NotIn(newIds), i, p);
        } else {
          FilterTwo(ids, NotIn(newIds), p, i);
        }
      }
    }
  }

  /** In loosely distinct ids, `array_search` finds each id at its own position. */
  lemma SearchDistinct(ids: seq<string>, p: nat)
    requires LooselyDistinct(ids) && p < |ids|
    ensures SearchLoose(ids[p], ids) == Some(p)
  {
    LooseEqStrReflexive(ids[p]);
    SearchLooseAt(ids[p], ids, p);
  }

  /** One removal, of the id at position p: unsetting key p is the corrected removal. */
  lemma SingleRemovalAgrees(ids: seq<string>, newIds: seq<string>, p: nat)
    requires |ToRemove(ids, newIds)| <= 1
    requires p < |ids| && ids[p] !in newIds
    requires forall i :: 0 <= i < |ids| && i != p ==> ids[i] in newIds
    requires SearchLoose(ids[p], ids) == Some(p)
    ensures RemoveAsWritten(FromIds(ids), ToRemove(Ids(FromIds(ids)), newIds)) == RemoveFixed(FromIds(ids), newIds)
  {
    var r := FromIds(ids);
    var rm := ToRemove(ids, newIds);
    assert rm == [ids[p]] by {
      OneElement(rm, ids[p], ids, newIds, p);
    }
    assert Ids(r) == ids;
    RemoveStep(r, ids[p], [], p);
    assert [ids[p]] + [] == rm;
    FilterCongruent(r.entries, KeyIsNot(p), EntryKept(newIds));
  }

  /** An `array_diff` of at most one id that lists the id at position p is that id alone. */
  lemma OneElement(rm: seq<string>, t: string, ids: seq<string>, newIds: seq<string>, p: nat)
    requires rm == ToRemove(ids, newIds) && |rm| <= 1
    requires p < |ids| && ids[p] == t && t !in newIds
    ensures rm == [t]
  {
    var q := NotIn(newIds);
    FilterIsSelectKeep(ids, q);
    var k := Keep(ids, q);
    assert p in k;
    assert |k| == 1 && k[0] == p;
    assert k == [p];
  }

  /** `hasRole($x)`: `in_array` over the role ids, with loose comparison. */
  function HasRole(r: Roller, x: string): (b: bool)
    ensures b <==> exists i :: 0 <= i < |r.entries| && LooseEqStr(r.entries[i].rollId, x)
  {
    assert forall i :: 0 <= i < |r.entries| ==> Ids(r)[i] == r.entries[i].rollId;
    InLoose(x, Ids(r))
  }

  /** After an update every requested role is held; with the correction, no other role is. */
  lemma HasRoleAfterUpdate(r: Roller, newIds: seq<string>, x: string)
    requires WellKeyed(r)
    ensures x in newIds ==> HasRole(UpdateRolesAsWritten(r, newIds), x) && HasRole(UpdateRoles(r, newIds), x)
    ensures HasRole(UpdateRoles(r, newIds), x) ==> exists y :: y in newIds && LooseEqStr(y, x)
  {
    UpdateRolesExact(r, newIds);
    var r2 := UpdateRoles(r, newIds);
    if HasRole(r2, x) {
      var i :| 0 <= i < |r2.entries| && LooseEqStr(r2.entries[i].rollId, x);
      assert Ids(r2)[i] in Ids(r2);
    }
  }

  /** The names of the nullable string properties, in declaration order. */
  const StringProps: seq<string> :=
    ["fodelsedatum", "fornamn", "efternamn", "email", "mobil", "telefon",
     "adress", "postnummer", "postort", "kommentar"]

  /** The boolean preference properties. */
  const BoolProps: seq<string> :=
    ["godkant_gdpr", "pref_kommunikation", "foretag", "standig_medlem", "skickat_valkomstbrev", "isAdmin"]

  /**
   * A member object. String properties without a default are absent from
   * `strs` until assigned (an uninitialized typed property); `id` likewise.
   */
  datatype Member = Member(
    id: Option<int>,
    strs: map<string, Option<string>>,
    flags: map<string, bool>,
    password: Option<string>,
    roller: Roller,
    createdAt: string,
    updatedAt: string)

  /** `new Medlem()` */
  function NewMember(): (m: Member)
    ensures m.id.None? && m.strs == map[] && m.password.None?
    ensures m.flags.Keys == set p | p in BoolProps
    ensures forall p :: p in m.flags ==> (m.flags[p] <==> p == "pref_kommunikation")
    ensures Ids(m.roller) == [] && WellKeyed(m.roller)
    ensures m.createdAt == "" && m.updatedAt == ""
  {
    Member(None, map[], map p | p in BoolProps :: p == "pref_kommunikation", None, Roller([], 0), "", "")
  }

  /** `isset($medlem->email)` and its value. */
  function Email(m: Member): Option<string> {
    if "email" in m.strs then m.strs["email"] else None
  }

  /** The `Error` PHP throws when the typed property `prop` is read before it was assigned. */
  function UninitializedRead(prop: string): string {
    "Error: Typed property App\\Models\\Medlem::$" + prop + " must not be accessed before initialization"
  }

  /**
   * The error of reading the first name and then the last name: the first
   * of the two that is not yet assigned is the one named.
   */
  function NameReadError(m: Member): string {
    if "fornamn" !in m.strs then UninitializedRead("fornamn") else UninitializedRead("efternamn")
  }

  /**
   * `getNamn()`: first name, a space, last name; a null first name
   * contributes nothing. Reading an uninitialized property is an Error
   * (None here).
   */
  function Namn(m: Member): (r: Option<string>)
  {
    if "fornamn" in m.strs && "efternamn" in m.strs && m.strs["efternamn"].Some? then
      Some(m.strs["fornamn"].GetOr("") + " " + m.strs["efternamn"].value)
    else None
  }

  /** A first name without spaces can be read back off the display name, and so can the last name. */
  lemma NamnSplits(m: Member, f: string, e: string)
    requires "fornamn" in m.strs && m.strs["fornamn"] == Some(f)
    requires "efternamn" in m.strs && m.strs["efternamn"] == Some(e)
    requires ' ' !in f
    ensures Namn(m).Some?
    ensures IndexOf(Namn(m).value, ' ') == Some(|f|)
    ensures Namn(m).value[..|f|] == f && Namn(m).value[|f| + 1..] == e
  {
    var n := Namn(m).value;
    assert n == f + " " + e;
    assert n[|f|] == ' ';
    assert forall i :: 0 <= i < |f| ==> n[i] == f[i];
  }
}

=== FILE: medlem_service.dfy ===
/**
 * The member service behind the member pages: update, create and delete a
 * member through the validator and the repository, and refresh the mail
 * alias of all active members afterwards.
 *
 * The repository and the mail-alias service are outside the model: what
 * their calls return or throw is part of the `Backend` parameter, and a
 * run records what was handed to them.
 */
module MedlemService {
  import opened Wrappers
  import opened Strings
  import opened Php
  import opened Medlem
  import opened MedlemValidator
  import Application

  /** `MedlemServiceResult`: success, a flash message, and the route to redirect to. */
  datatype ServiceResult = ServiceResult(success: bool, message: string, redirect: string)

  /** An `updateAlias($mailAlias, $allEmails)` call: the alias name and the active members' addresses. */
  datatype AliasUpdate = AliasUpdate(alias: string, emails: seq<string>)

  /** The alias call made, if any, and what `updateEmailAliases` threw, if anything. */
  datatype AliasRun = AliasRun(update: Option<AliasUpdate>, error: Option<string>)

  /**
   * What the code outside the model does: the member `getById` finds,
   * what `save` or `delete` returns or throws, the configuration, the
   * addresses of the active members, and what `updateAlias` throws.
   */
  datatype Backend = Backend(
    lookup: Effect<Option<Member>>,
    store: Effect<bool>,
    config: Application.Config,
    activeEmails: seq<string>,
    aliasError: Option<string>)

  /**
   * The outcome (a result, or the message of what was thrown), the member
   * handed to `save` or `delete`, and the alias call made.
   */
  datatype Run = Run(result: Result<ServiceResult, string>, stored: Option<Member>, alias: Option<AliasUpdate>)

  const NotFoundMessage := "Medlem not found"
  const UpdateFailedMessage := "Kunde inte uppdatera medlem!"
  const CreateFailedMessage := "Kunde inte skapa medlem!"
  const DeleteFailedMessage := "Kunde inte ta bort medlem!"
  const DeletedMessage := "Medlem borttagen!"
  const ListRoute := "medlem-list"
  const EditRoute := "medlem-edit"
  const NewRoute := "medlem-new"
  const CreateRoute := "medlem-create"
  const EnabledKey := "SMARTEREMAIL_ENABLED"
  const AliasKey := "SMARTEREMAIL_ALIASNAME"

  /** `updateAlias(string $aliasName, ...)` called with the null an unset alias setting reads as. */
  const NullAliasError :=
    "TypeError: App\\Services\\MailAliasService::updateAlias(): Argument #1 ($aliasName) must be of type string, null given"

  /** Members the repository hands out have roles keyed as loaded. */
  predicate LoadsWellKeyed(b: Backend) {
    b.lookup.Done? && b.lookup.value.Some? ==> WellKeyed(b.lookup.value.value.roller)
  }

  // ---------------------------------------------------------------
  // updateEmailAliases
  // ---------------------------------------------------------------

  /** The alias refresh is switched on by a truthy string setting. */
  predicate AliasesEnabled(c: Application.Config) {
    var v := Application.GetConfig(c, EnabledKey);
    v.Success? && v.value.Some? && !EmptyStr(v.value.value)
  }

  /**
   * `updateEmailAliases()`: when the setting is truthy, hand the alias
   * name and every active member's address to the alias service. Both
   * settings are read through `getConfig`, whose string return type makes
   * a boolean setting throw; an unset alias name reads as null, which the
   * `string` parameter of `updateAlias` refuses.
   */
  function RefreshAliases(b: Backend): (r: AliasRun)
    ensures r.update.Some? <==>
      AliasesEnabled(b.config) && Application.GetConfig(b.config, AliasKey).Success?
      && Application.GetConfig(b.config, AliasKey).value.Some?
    ensures r.update.Some? ==> r.update.value == AliasUpdate(Application.GetConfig(b.config, AliasKey).value.value, b.activeEmails)
    ensures r.update.Some? ==> r.error == b.aliasError
    ensures r.error.None? && r.update.None? <==> Application.GetConfig(b.config, EnabledKey).Success? && !AliasesEnabled(b.config)
    ensures AliasesEnabled(b.config) && Application.GetConfig(b.config, AliasKey) == Success(None) ==>
      r == AliasRun(None, Some(NullAliasError))
  {
    match Application.GetConfig(b.config, EnabledKey)
    case Failure(e) => AliasRun(None, Some(e))
    case Success(v) =>
      if v.None? || EmptyStr(v.value) then AliasRun(None, None)
      else
        match Application.GetConfig(b.config, AliasKey)
        case Failure(e) => AliasRun(None, Some(e))
        case Success(None) => AliasRun(None, Some(NullAliasError))
        case Success(Some(alias)) => AliasRun(Some(AliasUpdate(alias, b.activeEmails)), b.aliasError)
  }

  /**
   * With the refresh switched on by the string "1" and no alias name in
   * the environment, the refresh throws the `updateAlias` `TypeError`
   * and nothing reaches the alias service, whatever the service would do.
   */
  lemma UnsetAliasNameIsFatal(env: map<string, string>, b: Backend)
    requires EnabledKey in env && env[EnabledKey] == "1" && AliasKey !in env
    requires b.config == Application.LoadConfig(env)
    ensures RefreshAliases(b) == AliasRun(None, Some(NullAliasError))
  {
    Application.GetConfigThrowsIff(env, EnabledKey);
    Application.GetConfigThrowsIff(env, AliasKey);
  }

  /** So a saved new member is reported as an error, not as created, although it is stored. */
  lemma UnsetAliasNameFailsCreate(post: map<string, Val>, flag: bool, env: map<string, string>, b: Backend)
    requires EnabledKey in env && env[EnabledKey] == "1" && AliasKey !in env
    requires b.config == Application.LoadConfig(env) && b.store == Done(true)
    requires ValidateAndPrepare(NewMember(), post, flag).Accepted?
    ensures CreateMember(post, flag, b).result == Failure(NullAliasError)
    ensures CreateMember(post, flag, b).stored.Some? && CreateMember(post, flag, b).alias.None?
  {
    UnsetAliasNameIsFatal(env, b);
  }

  /**
   * The settings come from the environment file, where `true` becomes a
   * boolean: enabling the refresh that way makes every refresh throw.
   */
  lemma BooleanAliasSettingIsFatal(env: map<string, string>, b: Backend)
    requires EnabledKey in env && env[EnabledKey] == "true"
    requires b.config == Application.LoadConfig(env)
    ensures RefreshAliases(b) == AliasRun(None, Some(Application.ReturnTypeError))
  {
    Application.GetConfigThrowsIff(env, EnabledKey);
  }

  /** After a successful write: refresh the aliases when asked to, then report `verb` for the member's name. */
  function Finish(m: Member, refresh: bool, b: Backend, verb: string): (r: Run)
    ensures r.stored == Some(m)
    ensures r.alias == (if refresh then RefreshAliases(b).update else None)
    ensures r.result.Success? <==> (!refresh || RefreshAliases(b).error.None?) && Namn(m).Some?
    ensures r.result.Success? ==> r.result.value == ServiceResult(true, "Medlem " + Namn(m).value + verb, ListRoute)
  {
    var aliases := if refresh then RefreshAliases(b) else AliasRun(None, None);
    if aliases.error.Some? then Run(Failure(aliases.error.value), Some(m), aliases.update)
    else match Namn(m)
      case None => Run(Failure(NameReadError(m)), Some(m), aliases.update)
      case Some(n) => Run(Success(ServiceResult(true, "Medlem " + n + verb, ListRoute)), Some(m), aliases.update)
  }

  // ---------------------------------------------------------------
  // updateMember
  // ---------------------------------------------------------------

  /**
   * `updateMember($id, $postData)` with the validator's email-changed flag
   * at `flag`: not found, rejected by the validator, or not saved, each
   * with its own reply; after a save the aliases are refreshed only when
   * the email changed.
   */
  function UpdateMember(post: map<string, Val>, flag: bool, b: Backend): (r: Run)
    requires LoadsWellKeyed(b)
    ensures b.lookup == Done(None) ==> r == Run(Success(ServiceResult(false, NotFoundMessage, ListRoute)), None, None)
    ensures r.stored.Some? ==>
      && b.lookup.Done? && b.lookup.value.Some?
      && ValidateAndPrepare(b.lookup.value.value, post, flag).Accepted?
      && r.stored.value == ValidateAndPrepare(b.lookup.value.value, post, flag).member
    ensures r.alias.Some? ==>
      r.stored.Some? && b.store == Done(true) && ValidateAndPrepare(b.lookup.value.value, post, flag).emailChanged
    ensures r.result.Success? && r.result.value.success ==> b.store == Done(true) && r.stored.Some?
    ensures r.result.Success? && !r.result.value.success ==> r.alias.None?
  {
    match b.lookup
    case Threw(e) => Run(Failure(e), None, None)
    case Done(None) => Run(Success(ServiceResult(false, NotFoundMessage, ListRoute)), None, None)
    case Done(Some(m)) =>
      match ValidateAndPrepare(m, post, flag)
      case Thrown(e) => Run(Failure(e), None, None)
      case Rejected(_) => Run(Success(ServiceResult(false, "", EditRoute)), None, None)
      case Accepted(m', changed) =>
        match b.store
        case Threw(e) => Run(Failure(e), Some(m'), None)
        case Done(ok) =>
          if !ok then Run(Success(ServiceResult(false, UpdateFailedMessage, ListRoute)), Some(m'), None)
          else Finish(m', changed, b, " uppdaterad!")
  }

  /** A rejected form leads back to the edit page and writes nothing. */
  lemma RejectedUpdateWritesNothing(post: map<string, Val>, flag: bool, b: Backend)
    requires LoadsWellKeyed(b) && b.lookup.Done? && b.lookup.value.Some?
    requires ValidateAndPrepare(b.lookup.value.value, post, flag).Rejected?
    ensures UpdateMember(post, flag, b) == Run(Success(ServiceResult(false, "", EditRoute)), None, None)
  {
  }

  /**
   * The success message names the saved member: the text between
   * "Medlem " and the verb is its first and last name.
   */
  lemma FinishMessageNamesMember(m: Member, refresh: bool, b: Backend, verb: string)
    requires Finish(m, refresh, b, verb).result.Success?
    ensures var msg := Finish(m, refresh, b, verb).result.value.message;
      && Namn(m).Some?
      && |msg| == 7 + |Namn(m).value| + |verb|
      && msg[..7] == "Medlem "
      && msg[7..|msg| - |verb|] == Namn(m).value
      && msg[|msg| - |verb|..] == verb
  {
    var n := Namn(m).value;
    var msg := Finish(m, refresh, b, verb).result.value.message;
    assert msg == "Medlem " + n + verb;
    assert msg[..7] == "Medlem ";
  }

  /** A successful update reports the saved member's name. */
  lemma UpdateMessageNamesMember(post: map<string, Val>, flag: bool, b: Backend)
    requires LoadsWellKeyed(b)
    requires UpdateMember(post, flag, b).result.Success? && UpdateMember(post, flag, b).result.value.success
    ensures var r := UpdateMember(post, flag, b);
      && r.stored.Some? && Namn(r.stored.value).Some?
      && r.result.value.message == "Medlem " + Namn(r.stored.value).value + " uppdaterad!"
  {
  }

  // ---------------------------------------------------------------
  // createMember
  // ---------------------------------------------------------------

  /**
   * `createMember($postData)`: validate a new member; a rejected form goes
   * back to the new-member page, a failed save to the create route; after
   * a save the aliases are always refreshed.
   */
  function CreateMember(post: map<string, Val>, flag: bool, b: Backend): (r: Run)
    ensures r.stored.Some? ==>
      && ValidateAndPrepare(NewMember(), post, flag).Accepted?
      && r.stored.value == ValidateAndPrepare(NewMember(), post, flag).member
    ensures r.stored.Some? && b.store == Done(true) ==> r.alias == RefreshAliases(b).update
    ensures r.alias.Some? ==> b.store == Done(true)
    ensures ValidateAndPrepare(NewMember(), post, flag).Rejected? ==>
      r == Run(Success(ServiceResult(false, "", NewRoute)), None, None)
    ensures ValidateAndPrepare(NewMember(), post, flag).Accepted? && b.store == Done(false) ==>
      r.result == Success(ServiceResult(false, CreateFailedMessage, CreateRoute))
  {
    SaveNew(ValidateAndPrepare(NewMember(), post, flag), b)
  }

  /** The part of `createMember` after the validator answered `o`. */
  function SaveNew(o: Outcome, b: Backend): (r: Run)
    ensures r.stored.Some? ==> o.Accepted? && r.stored.value == o.member
    ensures r.stored.Some? && b.store == Done(true) ==> r.alias == RefreshAliases(b).update
    ensures r.alias.Some? ==> b.store == Done(true)
    ensures o.Rejected? ==> r == Run(Success(ServiceResult(false, "", NewRoute)), None, None)
    ensures o.Accepted? && b.store == Done(false) ==>
      r.result == Success(ServiceResult(false, CreateFailedMessage, CreateRoute))
  {
    match o
    case Thrown(e) => Run(Failure(e), None, None)
    case Rejected(_) => Run(Success(ServiceResult(false, "", NewRoute)), None, None)
    case Accepted(m', _) =>
      match b.store
      case Threw(e) => Run(Failure(e), Some(m'), None)
      case Done(ok) =>
        if !ok then Run(Success(ServiceResult(false, CreateFailedMessage, CreateRoute)), Some(m'), None)
        else Finish(m', true, b, " skapad!")
  }

  /** A new member gets no id from the form: posting one fails in the validator, before anything is saved. */
  lemma CreateRejectsPostedId(post: map<string, Val>, flag: bool, b: Backend)
    requires IsSet(post, "id")
    ensures CreateMember(post, flag, b).stored.None?
  {
  }

  // ---------------------------------------------------------------
  // deleteMember
  // ---------------------------------------------------------------

  /**
   * `deleteMember($id)`: not found, or not deleted, each with its own
   * reply; after a delete the aliases are always refreshed, and then the
   * log line reads both names, which throws for a name never assigned.
   */
  function DeleteMember(b: Backend): (r: Run)
    ensures b.lookup == Done(None) ==> r == Run(Success(ServiceResult(false, NotFoundMessage, ListRoute)), None, None)
    ensures r.stored.Some? <==> b.lookup.Done? && b.lookup.value.Some?
    ensures r.stored.Some? ==> r.stored.value == b.lookup.value.value
    ensures r.alias.Some? ==> b.store == Done(true)
    ensures r.result.Success? && r.result.value.success <==>
      b.lookup.Done? && b.lookup.value.Some? && b.store == Done(true) && RefreshAliases(b).error.None?
      && Namn(b.lookup.value.value).Some?
    ensures r.result.Success? && r.result.value.success ==>
      r.result.value == ServiceResult(true, DeletedMessage, ListRoute) && r.alias == RefreshAliases(b).update
    ensures (b.lookup.Done? && b.lookup.value.Some? && b.store == Done(true) && RefreshAliases(b).error.None?
             && Namn(b.lookup.value.value).None?) ==> r.result == Failure(NameReadError(b.lookup.value.value))
  {
    match b.lookup
    case Threw(e) => Run(Failure(e), None, None)
    case Done(None) => Run(Success(ServiceResult(false, NotFoundMessage, ListRoute)), None, None)
    case Done(Some(m)) =>
      match b.store
      case Threw(e) => Run(Failure(e), Some(m), None)
      case Done(ok) =>
        if !ok then Run(Success(ServiceResult(false, DeleteFailedMessage, ListRoute)), Some(m), None)
        else
          var aliases := RefreshAliases(b);
          if aliases.error.Some? then Run(Failure(aliases.error.value), Some(m), aliases.update)
          else if Namn(m).None? then Run(Failure(NameReadError(m)), Some(m), aliases.update)
          else Run(Success(ServiceResult(true, DeletedMessage, ListRoute)), Some(m), aliases.update)
  }

  /**
   * Every path that reports failure leaves the mail alias alone, in all
   * three operations: the alias is refreshed only after a write.
   */
  lemma FailureLeavesAliasAlone(post: map<string, Val>, flag: bool, b: Backend)
    requires LoadsWellKeyed(b) && b.store != Done(true)
    ensures UpdateMember(post, flag, b).alias.None?
    ensures CreateMember(post, flag, b).alias.None?
    ensures DeleteMember(b).alias.None?
  {
  }
}

=== FILE: medlem_validator.dfy ===
/**
 * The validation step of the member edit and create forms: sanitize the
 * posted fields, insist on the required ones, copy the sanitized values
 * onto the member, set the boolean preferences from their presence,
 * update the roles, and remember whether the email address changed.
 */
module MedlemValidator {
  import opened Wrappers
  import opened Strings
  import opened Php
  import opened DateFormat
  import opened DateFormatter
  import opened Sanitizer
  import opened Medlem

  /** The validator's rule table, in declaration order. */
  const Rules: seq<(string, Rule)> := [
    ("id", Named("int")),
    ("fodelsedatum", Listed(["date", YMD])),
    ("fornamn", Named("string")),
    ("efternamn", Named("string")),
    ("email", Named("email")),
    ("mobil", Named("string")),
    ("telefon", Named("string")),
    ("adress", Named("string")),
    ("postnummer", Named("string")),
    ("postort", Named("string")),
    ("kommentar", Named("string")),
    ("godkant_gdpr", Named("bool")),
    ("pref_kommunikation", Named("bool")),
    ("isAdmin", Named("bool")),
    ("foretag", Named("bool")),
    ("standig_medlem", Named("bool")),
    ("skickat_valkomstbrev", Named("bool"))
  ]

  /** The fields that must be non-empty after sanitizing, in reporting order. */
  const Required: seq<string> := ["fornamn", "efternamn", "fodelsedatum"]

  /** The preference fields set from their presence. */
  const BooleanFields: seq<string> :=
    ["godkant_gdpr", "pref_kommunikation", "isAdmin", "foretag", "standig_medlem", "skickat_valkomstbrev"]

  const MissingPrefix: string := "Följande obligatoriska fält måste fyllas i: "

  /** `empty($cleanValues[$f])`: absent, null, "" or "0". */
  predicate EmptyClean(clean: map<string, Clean>, f: string) {
    f !in clean || clean[f].None? || EmptyStr(clean[f].value)
  }

  function IsEmptyIn(clean: map<string, Clean>): string -> bool {
    f => EmptyClean(clean, f)
  }

  /** `validateRequiredFields`: the required fields that are empty, in the order of `Required`. */
  function Missing(clean: map<string, Clean>): (r: seq<string>)
    ensures forall f :: f in r <==> f in Required && EmptyClean(clean, f)
    ensures |r| <= |Required|
  {
    Filter(Required, IsEmptyIn(clean))
  }

  /** The flash message naming the missing fields. */
  function MissingMessage(missing: seq<string>): string {
    MissingPrefix + Join(missing, ", ")
  }

  /** The outcome of `validateAndPrepare` and the validator's email-changed flag after it. */
  datatype Outcome =
    | Rejected(flash: string)
    | Accepted(member: Member, emailChanged: bool)
    | Thrown(error: string)

  /** The copy loop's effect on the flag: an email that was set and now differs. */
  predicate EmailDiffers(m: Member, clean: map<string, Clean>) {
    "email" in clean && Email(m).Some? && Email(m) != clean["email"]
  }

  /**
   * `updateMedlemFields`: every sanitized value whose key names a
   * non-boolean property is assigned to that property. Only the names of
   * `StringProps` reach this point, because `id` fails earlier.
   */
  function CopyFields(m: Member, clean: map<string, Clean>): (m': Member)
    ensures forall k :: k in clean && k in StringProps ==> k in m'.strs && m'.strs[k] == clean[k]
    ensures forall k :: k !in clean || k !in StringProps ==> (k in m'.strs <==> k in m.strs)
    ensures forall k :: (k !in clean || k !in StringProps) && k in m.strs ==> m'.strs[k] == m.strs[k]
    ensures m'.id == m.id && m'.flags == m.flags && m'.roller == m.roller && m'.password == m.password
  {
    var strs := map k | k in m.strs.Keys + (clean.Keys * (set p | p in StringProps)) ::
      if k in clean && k in StringProps then clean[k] else m.strs[k];
    m.(strs := strs)
  }

  /** `updateBooleanFields`: each preference is true exactly when it survived sanitizing as a non-null value. */
  function SetFlags(m: Member, clean: map<string, Clean>): (m': Member)
    ensures forall f :: f in BooleanFields ==> f in m'.flags && (m'.flags[f] <==> f in clean && clean[f].Some?)
    ensures forall f :: f !in BooleanFields ==> (f in m'.flags <==> f in m.flags)
    ensures forall f :: f !in BooleanFields && f in m.flags ==> m'.flags[f] == m.flags[f]
    ensures m'.strs == m.strs && m'.id == m.id && m'.roller == m.roller
  {
    m.(flags := m.flags + map f | f in BooleanFields :: f in clean && clean[f].Some?)
  }

  /**
   * `$postData['roller'] ?? []` passed to a parameter typed `array`:
   * absent or null gives the empty list, a list passes, anything else is
   * a `TypeError`.
   */
  function RollerArg(post: map<string, Val>): (r: Option<seq<string>>)
    ensures !IsSet(post, "roller") ==> r == Some([])
    ensures r.Some? && |r.value| > 0 ==> post["roller"].StrList? || post["roller"].Assoc?
  {
    match Lookup(post, "roller")
    case Null => Some([])
    case StrList(items) => Some(items)
    case Assoc(es) => Some(seq(|es|, i requires 0 <= i < |es| => es[i].1))
    case _ => None
  }

  /** `updateRoles`: the role update, as written, runs only for a non-empty list. */
  function UpdateRoller(m: Member, roller: seq<string>): (m': Member)
    requires WellKeyed(m.roller)
    ensures WellKeyed(m'.roller)
    ensures |roller| == 0 ==> m' == m
    ensures |roller| > 0 ==> m'.roller == UpdateRolesAsWritten(m.roller, roller)
    ensures m'.strs == m.strs && m'.flags == m.flags && m'.id == m.id
  {
    if |roller| > 0 then m.(roller := UpdateRolesAsWritten(m.roller, roller)) else m
  }

  /** A member with roles 1, 2, 3 whose form posts roles [1] keeps role 3. */
  lemma UpdateRollerKeepsStaleRole(m: Member)
    requires m.roller == FromIds(["1", "2", "3"])
    ensures "3" in Ids(UpdateRoller(m, ["1"]).roller) && "3" !in ["1"]
  {
    StaleRoleAsWritten();
  }

  /**
   * The three update steps after the required check: copy the fields,
   * set the preferences, then update the roles, whose argument must be an
   * array.
   */
  function Update(m: Member, post: map<string, Val>, clean: map<string, Clean>, changed: bool): (o: Outcome)
    requires WellKeyed(m.roller)
    ensures !o.Rejected?
    ensures o.Accepted? <==> RollerArg(post).Some?
    ensures o.Accepted? ==> WellKeyed(o.member.roller)
    ensures o.Accepted? ==> (o.emailChanged <==> changed || EmailDiffers(m, clean))
  {
    var changed' := changed || EmailDiffers(m, clean);
    var m1 := SetFlags(CopyFields(m, clean), clean);
    match RollerArg(post)
    case None => Thrown("TypeError: App\\Services\\MedlemDataValidatorService::updateRoles(): Argument #2 ($roller) must be of type array")
    case Some(roller) => Accepted(UpdateRoller(m1, roller), changed')
  }

  /**
   * `validateAndPrepare($medlem, $postData)` for a validator whose
   * email-changed flag is `changed`.
   */
  function ValidateAndPrepare(m: Member, post: map<string, Val>, changed: bool): (o: Outcome)
    requires WellKeyed(m.roller)
    ensures Sanitize(post, Rules).Failure? ==> o == Thrown(ErrorMessage(Sanitize(post, Rules).error))
    ensures o.Rejected? <==> Sanitize(post, Rules).Success? && |Missing(Sanitize(post, Rules).value)| > 0
    ensures o.Rejected? ==> o.flash == MissingMessage(Missing(Sanitize(post, Rules).value))
    ensures o.Accepted? ==> Sanitize(post, Rules).Success? && Missing(Sanitize(post, Rules).value) == []
    ensures o.Accepted? ==> !IsSet(post, "id") && RollerArg(post).Some?
    ensures o.Accepted? ==> (o.emailChanged <==> changed || EmailDiffers(m, Sanitize(post, Rules).value))
    ensures o.Accepted? ==> WellKeyed(o.member.roller)
  {
    match Sanitize(post, Rules)
    case Failure(e) =>
      Thrown(ErrorMessage(e))
    case Success(clean) =>
      SanitizeIdPresent(post);
      PrepareClean(m, post, clean, changed)
  }

  /** `validateAndPrepare` once sanitizing has succeeded with the values `clean`. */
  function PrepareClean(m: Member, post: map<string, Val>, clean: map<string, Clean>, changed: bool): (o: Outcome)
    requires WellKeyed(m.roller)
    requires "id" in clean <==> IsSet(post, "id")
    ensures o.Rejected? <==> |Missing(clean)| > 0
    ensures o.Rejected? ==> o.flash == MissingMessage(Missing(clean))
    ensures o.Accepted? ==> Missing(clean) == [] && !IsSet(post, "id") && RollerArg(post).Some?
    ensures o.Accepted? ==> (o.emailChanged <==> changed || EmailDiffers(m, clean))
    ensures o.Accepted? ==> WellKeyed(o.member.roller)
  {
    var missing := Missing(clean);
    if |missing| > 0 then Rejected(MissingMessage(missing))
    else if "id" in clean then
      Thrown("TypeError: Cannot assign string to property App\\Models\\Medlem::$id of type int")
    else
      Update(m, post, clean, changed)
  }

  /** The id field is in the sanitized values exactly when it was posted. */
  lemma SanitizeIdPresent(post: map<string, Val>)
    requires Sanitize(post, Rules).Success?
    ensures "id" in Sanitize(post, Rules).value <==> IsSet(post, "id")
  {
    assert Rules[0].0 == "id";
  }

  /** Each field has one rule, as the keys of a PHP array do. */
  lemma RulesDistinct()
    ensures DistinctFields(Rules)
  {
  }

  /** Where each group of fields sits in the rule table. */
  lemma RulesLayout()
    ensures |Rules| == 17
    ensures Rules[0] == ("id", Named("int"))
    ensures Rules[1] == ("fodelsedatum", Listed(["date", YMD]))
    ensures Rules[2] == ("fornamn", Named("string")) && Rules[3] == ("efternamn", Named("string"))
    ensures Rules[4] == ("email", Named("email"))
    ensures forall j :: 0 <= j < |BooleanFields| ==> Rules[11 + j] == (BooleanFields[j], Named("bool"))
    ensures forall i :: 1 <= i < 11 ==> Rules[i] == (StringProps[i - 1], Rules[i].1)
  {
  }

  lemma IdRule()
    ensures |Rules| == 17 && Rules[0].0 == "id"
  {
  }

  lemma EmailRule()
    ensures |Rules| == 17 && Rules[4] == ("email", Named("email"))
  {
  }

  /** The sanitizer has no rule called 'bool', so a posted preference field always fails. */
  lemma PostedBooleanFails(post: map<string, Val>, f: string)
    requires f in BooleanFields && IsSet(post, f)
    ensures Sanitize(post, Rules).Failure?
  {
    RulesLayout();
    var j :| 0 <= j < |BooleanFields| && BooleanFields[j] == f;
    assert !KnownRule("bool");
    ApplyOutcomes(post[f], Named("bool"));
    assert Rules[11 + j] == (f, Named("bool"));
  }

  /** Posting any preference field ends in an exception; the form can never switch one on. */
  lemma PostedBooleanThrows(m: Member, post: map<string, Val>, changed: bool, f: string)
    requires WellKeyed(m.roller)
    requires f in BooleanFields && IsSet(post, f)
    ensures ValidateAndPrepare(m, post, changed).Thrown?
  {
    PostedBooleanFails(post, f);
  }

  /** With string values only, the one rule that can fail is the missing 'bool' rule. */
  lemma StringsFailOnlyOnBool(i: nat, s: string)
    requires i < |Rules|
    ensures Apply(Str(s), Rules[i].1).Failure? ==> Apply(Str(s), Rules[i].1).error == UnknownRule("bool")
  {
    RulesLayout();
    if i == 1 {
      ApplyDate(s, YMD);
    } else if i >= 11 {
      assert Rules[i].1 == Named("bool");
      ApplyOutcomes(Str(s), Named("bool"));
    } else {
      ApplyOutcomes(Str(s), Rules[i].1);
    }
  }

  /**
   * A form of strings that posts a preference is refused with the message
   * that the 'bool' rule does not exist, the message the member form shows.
   */
  lemma PostedBooleanMessage(m: Member, post: map<string, Val>, changed: bool, f: string)
    requires WellKeyed(m.roller)
    requires f in BooleanFields && IsSet(post, f)
    requires forall k :: k in post ==> post[k].Str? || post[k] == Null
    ensures ValidateAndPrepare(m, post, changed) == Thrown(ErrorMessage(UnknownRule("bool")))
  {
    PostedBooleanFails(post, f);
    SanitizeFirstError(post, Rules);
    var i :| FirstFailure(post, Rules, i) && Sanitize(post, Rules).error == Apply(post[Rules[i].0], Rules[i].1).error;
    StringsFailOnlyOnBool(i, post[Rules[i].0].s);
  }

  /** Without a posted id, a successful sanitize yields string properties only: the preferences fail. */
  lemma SanitizedKeys(post: map<string, Val>)
    requires Sanitize(post, Rules).Success? && !IsSet(post, "id")
    ensures forall k :: k in Sanitize(post, Rules).value ==> k in StringProps
  {
    RulesLayout();
    forall k | k in Sanitize(post, Rules).value
      ensures k in StringProps
    {
      var i :| 0 <= i < |Rules| && Rules[i].0 == k && IsSet(post, k);
      if i >= 11 {
        PostedBooleanFails(post, BooleanFields[i - 11]);
      } else if i >= 1 {
        assert StringProps[i - 1] in StringProps;
      }
    }
  }

  /**
   * What an accepted form does to the member: the sanitized string fields
   * are copied and nothing else of them changes, every preference is
   * switched off, the roles follow a non-empty posted list, and the id is
   * untouched.
   */
  lemma AcceptedMember(m: Member, post: map<string, Val>, changed: bool)
    requires WellKeyed(m.roller)
    requires ValidateAndPrepare(m, post, changed).Accepted?
    ensures var m' := ValidateAndPrepare(m, post, changed).member;
      var clean := Sanitize(post, Rules).value;
      && (forall k :: k in clean ==> k in m'.strs && m'.strs[k] == clean[k])
      && (forall k :: k !in clean ==> (k in m'.strs <==> k in m.strs))
      && (forall k :: k !in clean && k in m.strs ==> m'.strs[k] == m.strs[k])
      && (forall f :: f in BooleanFields ==> f in m'.flags && !m'.flags[f])
      && (forall f :: f !in BooleanFields && f in m.flags ==> f in m'.flags && m'.flags[f] == m.flags[f])
      && m'.roller == (if |RollerArg(post).value| > 0 then UpdateRolesAsWritten(m.roller, RollerArg(post).value) else m.roller)
      && m'.id == m.id
  {
    var clean := Sanitize(post, Rules).value;
    SanitizedKeys(post);
    forall f | f in BooleanFields
      ensures f !in clean
    {
      if IsSet(post, f) {
        PostedBooleanFails(post, f);
      }
    }
    assert ValidateAndPrepare(m, post, changed) == Update(m, post, clean, changed);
    UpdatedMember(m, post, clean, changed);
  }

  /** The member the three update steps produce from sanitized values naming string properties only. */
  lemma UpdatedMember(m: Member, post: map<string, Val>, clean: map<string, Clean>, changed: bool)
    requires WellKeyed(m.roller) && Update(m, post, clean, changed).Accepted?
    requires forall k :: k in clean ==> k in StringProps
    requires forall f :: f in BooleanFields ==> f !in clean
    ensures var m' := Update(m, post, clean, changed).member;
      && (forall k :: k in clean ==> k in m'.strs && m'.strs[k] == clean[k])
      && (forall k :: k !in clean ==> (k in m'.strs <==> k in m.strs))
      && (forall k :: k !in clean && k in m.strs ==> m'.strs[k] == m.strs[k])
      && (forall f :: f in BooleanFields ==> f in m'.flags && !m'.flags[f])
      && (forall f :: f !in BooleanFields && f in m.flags ==> f in m'.flags && m'.flags[f] == m.flags[f])
      && m'.roller == (if |RollerArg(post).value| > 0 then UpdateRolesAsWritten(m.roller, RollerArg(post).value) else m.roller)
      && m'.id == m.id
  {
  }

  /** The sanitized value of a posted field is its own rule's result. */
  lemma CleanValue(post: map<string, Val>, i: nat)
    requires Sanitize(post, Rules).Success?
    requires i < |Rules| && IsSet(post, Rules[i].0)
    ensures Rules[i].0 in Sanitize(post, Rules).value
    ensures Sanitize(post, Rules).value[Rules[i].0] == Apply(post[Rules[i].0], Rules[i].1).value
  {
    RulesDistinct();
    SanitizeValues(post, Rules);
  }

  /** A sanitized birth date is empty exactly when it does not survive the Y-m-d round trip. */
  lemma BirthDateEmpty(s: string, c: Clean)
    requires c == Apply(Str(s), Listed(["date", YMD])).value
    ensures (c.None? || EmptyStr(c.value)) <==> !Survives(YMD, Trim(s))
  {
    ApplyDate(s, YMD);
    if Survives(YMD, Trim(s)) {
      FormatDateYmdLength(Trim(s));
    }
  }

  /**
   * A posted birth date counts as missing exactly when its trimmed value is
   * not the canonical Y-m-d rendering of a valid date, and such a form is
   * rejected.
   */
  lemma BirthDateCounted(m: Member, post: map<string, Val>, changed: bool, s: string)
    requires WellKeyed(m.roller)
    requires "fodelsedatum" in post && post["fodelsedatum"] == Str(s)
    requires Sanitize(post, Rules).Success?
    ensures "fodelsedatum" in Missing(Sanitize(post, Rules).value) <==> !Survives(YMD, Trim(s))
    ensures !Survives(YMD, Trim(s)) ==> ValidateAndPrepare(m, post, changed).Rejected?
  {
    RulesLayout();
    CleanValue(post, 1);
    var clean := Sanitize(post, Rules).value;
    BirthDateEmpty(s, clean["fodelsedatum"]);
    assert EmptyClean(clean, "fodelsedatum") <==> !Survives(YMD, Trim(s));
  }

  /**
   * With an email already set, a posted address made of email characters
   * marks the email as changed exactly when it differs from the old one
   * after trimming; a flag already set stays set.
   */
  lemma EmailChangeFromPost(m: Member, post: map<string, Val>, changed: bool, s: string)
    requires WellKeyed(m.roller)
    requires ValidateAndPrepare(m, post, changed).Accepted?
    requires "email" in post && post["email"] == Str(s)
    requires forall i :: 0 <= i < |Trim(s)| ==> EmailChar(Trim(s)[i])
    ensures ValidateAndPrepare(m, post, changed).emailChanged <==>
      changed || (Email(m).Some? && Email(m).value != Trim(s))
  {
    EmailRule();
    CleanValue(post, 4);
    ApplyFilter(s, Named("email"));
    FilterVarKeepsClean("email", Trim(s));
  }

  /**
   * A form that carries none of the required fields, but otherwise
   * sanitizes, is rejected with all three named in order.
   */
  lemma NoRequiredFieldPosted(m: Member, post: map<string, Val>, changed: bool)
    requires WellKeyed(m.roller)
    requires !IsSet(post, "fornamn") && !IsSet(post, "efternamn") && !IsSet(post, "fodelsedatum")
    requires Sanitize(post, Rules).Success?
    ensures ValidateAndPrepare(m, post, changed) ==
      Rejected(MissingPrefix + "fornamn" + ", " + "efternamn" + ", " + "fodelsedatum")
  {
    var clean := Sanitize(post, Rules).value;
    assert "fornamn" !in clean && "efternamn" !in clean && "fodelsedatum" !in clean;
    AllMissing(clean);
    assert ValidateAndPrepare(m, post, changed) == Rejected(MissingMessage(Required));
    RequiredMessage();
  }

  /** The message naming every required field. */
  lemma RequiredMessage()
    ensures MissingMessage(Required) == MissingPrefix + "fornamn" + ", " + "efternamn" + ", " + "fodelsedatum"
  {
    Join3("fornamn", "efternamn", "fodelsedatum", ", ");
  }

  lemma AllMissing(clean: map<string, Clean>)
    requires "fornamn" !in clean && "efternamn" !in clean && "fodelsedatum" !in clean
    ensures Missing(clean) == Required
  {
    FilterAllKept(Required, IsEmptyIn(clean));
  }

  lemma Join3(a: string, b: string, c: string, sep: string)
    ensures Join([a, b, c], sep) == a + sep + b + sep + c
  {
    assert [a, b, c][1..] == [b, c];
    assert [b, c][1..] == [c];
    assert Join([b, c], sep) == b + sep + c;
    assert a + sep + (b + sep + c) == a + sep + b + sep + c;
  }

  /** A value the string rule passes through unchanged: no surrounding blanks, no HTML specials, not empty. */
  predicate PlainValue(s: string) {
    |s| > 0 && s != "0" && !IsTrimChar(s[0]) && !IsTrimChar(s[|s| - 1])
    && forall i :: 0 <= i < |s| ==> !IsSpecial(s[i])
  }

  /** An address the email filter passes through unchanged. */
  predicate PlainEmail(s: string) {
    |s| > 0 && !IsTrimChar(s[0]) && !IsTrimChar(s[|s| - 1])
    && forall i :: 0 <= i < |s| ==> EmailChar(s[i])
  }

  lemma PlainValueKept(s: string)
    requires PlainValue(s)
    ensures Apply(Str(s), Named("string")) == Success(Some(s))
  {
    ApplyString(s, Named("string"));
    HtmlEscapePlain(s);
  }

  lemma PlainEmailKept(s: string)
    requires PlainEmail(s)
    ensures Apply(Str(s), Named("email")) == Success(Some(s))
  {
    ApplyFilter(s, Named("email"));
    FilterVarKeepsClean("email", s);
  }

  lemma DateKept(d: Date)
    requires ValidDate(d)
    ensures Apply(Str(RenderYmd(d)), Listed(["date", YMD])) == Success(Some(RenderYmd(d)))
  {
    var s := RenderYmd(d);
    RenderYmdEnds(d);
    ApplyDate(s, YMD);
    DateSurvivesYmd(d);
  }

  lemma RenderYmdEnds(d: Date)
    ensures !IsTrimChar(RenderYmd(d)[0]) && !IsTrimChar(RenderYmd(d)[9])
  {
    var y, dd := Pad(d.year, 4), Pad(d.day, 2);
    assert RenderYmd(d)[0] == y[0] && RenderYmd(d)[9] == dd[1];
    assert IsDigit(y[0]) && IsDigit(dd[1]);
  }

  /**
   * A form posting the two names, a birth date and an email address, and
   * none of the other fields the rules name (it may carry roles, which no
   * rule names).
   */
  predicate CompleteForm(post: map<string, Val>, f: string, e: string, date: string, email: string) {
    && "fornamn" in post && post["fornamn"] == Str(f)
    && "efternamn" in post && post["efternamn"] == Str(e)
    && "fodelsedatum" in post && post["fodelsedatum"] == Str(date)
    && "email" in post && post["email"] == Str(email)
    && forall i :: 0 <= i < |Rules| && (i == 0 || 4 < i) ==> !IsSet(post, Rules[i].0)
  }

  /** Such a form sanitizes: only the four named fields reach a rule, and each keeps its value. */
  lemma FormApplies(post: map<string, Val>, f: string, e: string, d: Date, email: string)
    requires PlainValue(f) && PlainValue(e) && ValidDate(d) && PlainEmail(email)
    requires CompleteForm(post, f, e, RenderYmd(d), email)
    ensures AllApply(post, Rules)
  {
    RulesLayout();
    forall i | 0 <= i < |Rules| && IsSet(post, Rules[i].0)
      ensures Apply(post[Rules[i].0], Rules[i].1).Success?
    {
      if i == 1 {
        DateKept(d);
      } else if i == 2 {
        PlainValueKept(f);
      } else if i == 3 {
        PlainValueKept(e);
      } else if i == 4 {
        PlainEmailKept(email);
      }
    }
  }

  lemma FormSanitizes(post: map<string, Val>, f: string, e: string, d: Date, email: string)
    requires PlainValue(f) && PlainValue(e) && ValidDate(d) && PlainEmail(email)
    requires CompleteForm(post, f, e, RenderYmd(d), email)
    ensures Sanitize(post, Rules).Success?
    ensures var clean := Sanitize(post, Rules).value;
      && "fornamn" in clean && clean["fornamn"] == Some(f)
      && "efternamn" in clean && clean["efternamn"] == Some(e)
      && "fodelsedatum" in clean && clean["fodelsedatum"] == Some(RenderYmd(d))
      && "email" in clean && clean["email"] == Some(email)
  {
    FormApplies(post, f, e, d, email);
    RulesLayout();
    PlainValueKept(f);
    CleanValue(post, 2);
    PlainValueKept(e);
    CleanValue(post, 3);
    DateKept(d);
    CleanValue(post, 1);
    PlainEmailKept(email);
    CleanValue(post, 4);
  }

  /** With all three required fields non-empty nothing is missing. */
  lemma NoneMissing(clean: map<string, Clean>)
    requires !EmptyClean(clean, "fornamn") && !EmptyClean(clean, "efternamn") && !EmptyClean(clean, "fodelsedatum")
    ensures Missing(clean) == []
  {
    HeadIsMember(Missing(clean));
  }

  /**
   * A complete form is accepted: the member takes the posted names, birth
   * date and address, and the email counts as changed exactly when an
   * address was set before and differs from the posted one.
   */
  lemma CompleteFormAccepted(m: Member, post: map<string, Val>, changed: bool, f: string, e: string, d: Date, email: string)
    requires WellKeyed(m.roller)
    requires PlainValue(f) && PlainValue(e) && ValidDate(d) && PlainEmail(email)
    requires CompleteForm(post, f, e, RenderYmd(d), email)
    requires RollerArg(post).Some?
    ensures ValidateAndPrepare(m, post, changed).Accepted?
    ensures var m' := ValidateAndPrepare(m, post, changed).member;
      && "fornamn" in m'.strs && m'.strs["fornamn"] == Some(f)
      && "efternamn" in m'.strs && m'.strs["efternamn"] == Some(e)
      && "fodelsedatum" in m'.strs && m'.strs["fodelsedatum"] == Some(RenderYmd(d))
      && "email" in m'.strs && m'.strs["email"] == Some(email)
    ensures ValidateAndPrepare(m, post, changed).emailChanged <==>
      changed || (Email(m).Some? && Email(m).value != email)
  {
    CompleteFormUpdates(m, post, changed, f, e, d, email);
    FormSanitizes(post, f, e, d, email);
    var clean := Sanitize(post, Rules).value;
    var roller := RollerArg(post).value;
    assert ValidateAndPrepare(m, post, changed) ==
      Accepted(UpdateRoller(SetFlags(CopyFields(m, clean), clean), roller), changed || EmailDiffers(m, clean));
  }

  /** A complete form passes the required check and reaches the update step. */
  lemma CompleteFormUpdates(m: Member, post: map<string, Val>, changed: bool, f: string, e: string, d: Date, email: string)
    requires WellKeyed(m.roller)
    requires PlainValue(f) && PlainValue(e) && ValidDate(d) && PlainEmail(email)
    requires CompleteForm(post, f, e, RenderYmd(d), email)
    ensures Sanitize(post, Rules).Success?
    ensures ValidateAndPrepare(m, post, changed) == Update(m, post, Sanitize(post, Rules).value, changed)
  {
    FormComplete(post, f, e, d, email);
    FormHasNoId(post, f, e, RenderYmd(d), email);
    ReachesUpdate(m, post, changed);
  }

  lemma FormComplete(post: map<string, Val>, f: string, e: string, d: Date, email: string)
    requires PlainValue(f) && PlainValue(e) && ValidDate(d) && PlainEmail(email)
    requires CompleteForm(post, f, e, RenderYmd(d), email)
    ensures Sanitize(post, Rules).Success? && Missing(Sanitize(post, Rules).value) == []
  {
    FormSanitizes(post, f, e, d, email);
    var clean := Sanitize(post, Rules).value;
    Filled(clean, "fornamn", f);
    Filled(clean, "efternamn", e);
    Filled(clean, "fodelsedatum", RenderYmd(d));
    NoneMissing(clean);
  }

  lemma Filled(clean: map<string, Clean>, k: string, v: string)
    requires k in clean && clean[k] == Some(v) && |v| > 0 && v != "0"
    ensures !EmptyClean(clean, k)
  {
  }

  lemma FormHasNoId(post: map<string, Val>, f: string, e: string, date: string, email: string)
    requires CompleteForm(post, f, e, date, email)
    ensures !IsSet(post, "id")
  {
    IdRule();
    assert !IsSet(post, Rules[0].0);
  }

  /** Without an id and with nothing missing, the form reaches the update step. */
  lemma ReachesUpdate(m: Member, post: map<string, Val>, changed: bool)
    requires WellKeyed(m.roller)
    requires Sanitize(post, Rules).Success? && Missing(Sanitize(post, Rules).value) == []
    requires !IsSet(post, "id")
    ensures ValidateAndPrepare(m, post, changed) == Update(m, post, Sanitize(post, Rules).value, changed)
  {
    SanitizeIdPresent(post);
  }
}

=== FILE: middleware_stack.dfy ===
/**
 * The PSR-15 style middleware chain: middlewares run in the order they
 * were added, each either answers the request itself or hands it (perhaps
 * changed) to the rest of the chain, whose answer it may then adjust; the
 * fallback handler answers when the chain runs out. Requests and
 * responses are left abstract.
 */
module MiddlewareStack {

  /**
   * What one middleware does with a request: answer it, or pass a request
   * on to the next handler and map the response that comes back.
   */
  datatype Action<!Req, !Resp> =
    | Respond(response: Resp)
    | Delegate(request: Req, after: Resp -> Resp)

  /** A middleware's `process`, seen through what it does with the next handler. */
  type Middleware<!Req, !Resp> = Req -> Action<Req, Resp>

  /** The stack: the middlewares in insertion order and the fallback handler. */
  datatype Stack<!Req, !Resp> = Stack(middlewares: seq<Middleware<Req, Resp>>, fallback: Req -> Resp)

  /**
   * What handling a request did: the response, the request each invoked
   * middleware received (middleware `index + j` received `calls[j]`), and
   * whether the fallback handler ran.
   */
  datatype Run<Req, Resp> = Run(response: Resp, calls: seq<Req>, fallbackRan: bool)

  /** `add($middleware)`: appended at the end, the others keep their places. */
  function Add<Req, Resp>(s: Stack<Req, Resp>, m: Middleware<Req, Resp>): (r: Stack<Req, Resp>)
    ensures |r.middlewares| == |s.middlewares| + 1
    ensures forall i :: 0 <= i < |s.middlewares| ==> r.middlewares[i] == s.middlewares[i]
    ensures r.middlewares[|s.middlewares|] == m && r.fallback == s.fallback
  {
    Stack(s.middlewares + [m], s.fallback)
  }

  /** The request that reaches middleware `index + j` in a run that started at `index`. */
  ghost predicate ChainedCalls<Req, Resp>(ms: seq<Middleware<Req, Resp>>, index: nat, req: Req, calls: seq<Req>)
    requires |calls| == 0 || index + |calls| <= |ms|
  {
    && (|calls| > 0 ==> calls[0] == req)
    && forall j :: 0 <= j < |calls| - 1 ==>
         ms[index + j](calls[j]).Delegate? && calls[j + 1] == ms[index + j](calls[j]).request
  }

  /**
   * `processMiddleware($request, $index)`: with no middleware at `index`
   * the fallback handler answers; otherwise middleware `index` runs with a
   * next handler that continues at `index + 1`.
   */
  function Process<Req, Resp>(s: Stack<Req, Resp>, index: nat, req: Req): (r: Run<Req, Resp>)
    ensures index >= |s.middlewares| ==> r == Run(s.fallback(req), [], true)
    ensures index < |s.middlewares| ==> 0 < |r.calls| && index + |r.calls| <= |s.middlewares|
    ensures ChainedCalls(s.middlewares, index, req, r.calls)
    ensures r.fallbackRan && index < |s.middlewares| ==> index + |r.calls| == |s.middlewares|
    ensures !r.fallbackRan ==>
      0 < |r.calls| && index + |r.calls| <= |s.middlewares| &&
      s.middlewares[index + |r.calls| - 1](r.calls[|r.calls| - 1]).Respond?
    decreases |s.middlewares| - index
  {
    if index >= |s.middlewares| then Run(s.fallback(req), [], true)
    else
      match s.middlewares[index](req)
      case Respond(response) => Run(response, [req], false)
      case Delegate(next, after) =>
        var rest := Process(s, index + 1, next);
        ChainCons(s.middlewares, index, req, rest.calls);
        Run(after(rest.response), [req] + rest.calls, rest.fallbackRan)
  }

  /** A middleware that delegates puts its request in front of the calls of the rest of the chain. */
  lemma ChainCons<Req, Resp>(ms: seq<Middleware<Req, Resp>>, index: nat, req: Req, calls: seq<Req>)
    requires index < |ms| && ms[index](req).Delegate?
    requires |calls| == 0 || index + 1 + |calls| <= |ms|
    requires ChainedCalls(ms, index + 1, ms[index](req).request, calls)
    ensures ChainedCalls(ms, index, req, [req] + calls)
    ensures ([req] + calls)[1..] == calls && |[req] + calls| == |calls| + 1
  {
    var c := [req] + calls;
    assert forall j :: 1 <= j < |c| ==> c[j] == calls[j - 1];
  }

  /** `handle($request)`: the chain starts at the first middleware added. */
  function Handle<Req, Resp>(s: Stack<Req, Resp>, req: Req): (r: Run<Req, Resp>)
    ensures |r.calls| <= |s.middlewares|
    ensures ChainedCalls(s.middlewares, 0, req, r.calls)
    ensures |s.middlewares| == 0 ==> r == Run(s.fallback(req), [], true)
  {
    Process(s, 0, req)
  }

  /** Every middleware from `index` on delegated, starting from `req`. */
  predicate AllDelegate<Req, Resp>(ms: seq<Middleware<Req, Resp>>, index: nat, req: Req)
    decreases |ms| - index
  {
    index >= |ms| ||
    match ms[index](req)
    case Respond(_) => false
    case Delegate(next, _) => AllDelegate(ms, index + 1, next)
  }

  /** The fallback handler runs exactly when every middleware passed the request on. */
  lemma {:induction false} FallbackIffAllDelegate<Req, Resp>(s: Stack<Req, Resp>, index: nat, req: Req)
    ensures Process(s, index, req).fallbackRan <==> AllDelegate(s.middlewares, index, req)
    decreases |s.middlewares| - index
  {
    if index < |s.middlewares| {
      match s.middlewares[index](req)
      case Respond(_) =>
      case Delegate(next, _) => FallbackIffAllDelegate(s, index + 1, next);
    }
  }

  /**
   * A middleware that answers ends the chain: no later middleware and not
   * the fallback handler is invoked, and its answer is the result.
   */
  lemma ShortCircuit<Req, Resp>(s: Stack<Req, Resp>, index: nat, req: Req)
    requires index < |s.middlewares| && s.middlewares[index](req).Respond?
    ensures Process(s, index, req) == Run(s.middlewares[index](req).response, [req], false)
  {
  }

  /** A stack holding one middleware that answers returns that answer. */
  lemma SingleMiddleware<Req, Resp>(fallback: Req -> Resp, m: Middleware<Req, Resp>, req: Req)
    requires m(req).Respond?
    ensures Handle(Add(Stack([], fallback), m), req).response == m(req).response
    ensures !Handle(Add(Stack([], fallback), m), req).fallbackRan
  {
  }

  /**
   * Running a stack `a + b` is running `a` with, as its fallback, the
   * stack `b` and the original fallback: the chain is a composition.
   */
  lemma {:induction false} ProcessConcat<Req, Resp>(a: seq<Middleware<Req, Resp>>, b: seq<Middleware<Req, Resp>>,
                                                     fallback: Req -> Resp, index: nat, req: Req)
    requires index <= |a|
    ensures Process(Stack(a + b, fallback), index, req).response ==
            Process(Stack(a, Then(b, fallback)), index, req).response
    decreases |a| - index
  {
    if index == |a| {
      ConcatBoundary(a, b, fallback, req);
    } else {
      var left, right := Stack(a + b, fallback), Stack(a, Then(b, fallback));
      assert left.middlewares[index] == right.middlewares[index];
      var step := a[index](req);
      StepResponse(left, index, req);
      StepResponse(right, index, req);
      if step.Delegate? {
        ProcessConcat(a, b, fallback, index + 1, step.request);
      }
    }
  }

  /** At the end of `a`, the stack `a` hands over to `Then(b, fallback)`, which is where `a + b` enters `b`. */
  lemma ConcatBoundary<Req, Resp>(a: seq<Middleware<Req, Resp>>, b: seq<Middleware<Req, Resp>>,
                                  fallback: Req -> Resp, req: Req)
    ensures Process(Stack(a + b, fallback), |a|, req).response ==
            Process(Stack(a, Then(b, fallback)), |a|, req).response
  {
    ProcessShift(a, b, fallback, 0, req);
    assert Process(Stack(a, Then(b, fallback)), |a|, req).response == Then(b, fallback)(req);
  }

  /** One step of the chain: an answer is the result; a delegation wraps the rest of the chain. */
  lemma StepResponse<Req, Resp>(s: Stack<Req, Resp>, index: nat, req: Req)
    requires index < |s.middlewares|
    ensures var step := s.middlewares[index](req);
            Process(s, index, req).response ==
            (if step.Respond? then step.response
             else step.after(Process(s, index + 1, step.request).response))
  {
  }

  /** The fallback that first runs the stack `b` and then, if it gets through, `fallback`. */
  function Then<Req, Resp>(b: seq<Middleware<Req, Resp>>, fallback: Req -> Resp): Req -> Resp {
    (q: Req) => Process(Stack(b, fallback), 0, q).response
  }

  /** Running `a + b` from inside `b` is running `b` alone from the same place. */
  lemma {:induction false} ProcessShift<Req, Resp>(a: seq<Middleware<Req, Resp>>, b: seq<Middleware<Req, Resp>>,
                                                   fallback: Req -> Resp, k: nat, req: Req)
    ensures Process(Stack(a + b, fallback), |a| + k, req).response == Process(Stack(b, fallback), k, req).response
    decreases |b| - k
  {
    if k < |b| {
      assert (a + b)[|a| + k] == b[k];
      match b[k](req)
      case Respond(_) =>
      case Delegate(next, after) =>
        ProcessShift(a, b, fallback, k + 1, next);
        DelegateStep(Stack(a + b, fallback), |a| + k, req, next, after);
        DelegateStep(Stack(b, fallback), k, req, next, after);
    }
  }

  /** `StepResponse` for a middleware known to delegate. */
  lemma DelegateStep<Req, Resp>(s: Stack<Req, Resp>, index: nat, req: Req, next: Req, after: Resp -> Resp)
    requires index < |s.middlewares| && s.middlewares[index](req) == Delegate(next, after)
    ensures Process(s, index, req).response == after(Process(s, index + 1, next).response)
  {
  }

  /** Adding a middleware is the old chain with the new middleware placed in front of the fallback. */
  lemma AddIsInnermost<Req, Resp>(s: Stack<Req, Resp>, m: Middleware<Req, Resp>, req: Req)
    ensures Handle(Add(s, m), req).response ==
            Handle(Stack(s.middlewares, Then([m], s.fallback)), req).response
  {
    ProcessConcat(s.middlewares, [m], s.fallback, 0, req);
  }
}

=== FILE: password_service.dfy ===
/**
 * The password rules applied at registration and password reset: an
 * ordered list of rule violations, and the confirmation comparison.
 *
 * Passwords are PHP byte strings. The model keeps them as character
 * sequences and counts the length in UTF-8 bytes, which is what `strlen`
 * reports; the class checks and the case mapping are ASCII-only, so they
 * read the same on characters as on bytes.
 */
module PasswordService {
  import opened Wrappers
  import opened Strings
  import opened Php

  /** The seven rule violations, in the order the checks run. */
  datatype PwError =
    | TooShort
    | NoUpper
    | NoLower
    | NoDigit
    | HasMailPart
    | HasFirstName
    | HasLastName

  /** Position of a violation in the fixed check order. */
  function Rank(e: PwError): (n: nat)
    ensures n < 7
  {
    match e
    case TooShort => 0
    case NoUpper => 1
    case NoLower => 2
    case NoDigit => 3
    case HasMailPart => 4
    case HasFirstName => 5
    case HasLastName => 6
  }

  /** The message shown to the user for each violation. */
  function Message(e: PwError): string {
    match e
    case TooShort => "Lösenordet måste vara minst 8 tecken."
    case NoUpper => "Lösenordet måste innehålla minst en stor bokstav."
    case NoLower => "Lösenordet måste innehålla minst en liten bokstav."
    case NoDigit => "Lösenordet måste innehålla minst en siffra"
    case HasMailPart => "Lösenordet får inte innehålla delar från din mailadress."
    case HasFirstName => "Lösenordet får inte innehålla ditt förnamn."
    case HasLastName => "Lösenordet får inte innehålla ditt efternamn."
  }

  /** Number of bytes in the UTF-8 encoding of one character. */
  function Utf8Width(c: char): (n: nat)
    ensures 1 <= n <= 4
    ensures n == 1 <==> c as int < 0x80
  {
    if c as int < 0x80 then 1
    else if c as int < 0x800 then 2
    else if c as int < 0x10000 then 3
    else 4
  }

  /** `strlen`: the length in bytes. */
  function ByteLength(s: string): (n: nat)
    ensures |s| <= n <= 4 * |s|
  {
    if |s| == 0 then 0 else Utf8Width(s[0]) + ByteLength(s[1..])
  }

  predicate IsAscii(s: string) {
    forall i :: 0 <= i < |s| ==> s[i] as int < 0x80
  }

  predicate HasUpper(s: string) { exists i :: 0 <= i < |s| && IsUpper(s[i]) }
  predicate HasLower(s: string) { exists i :: 0 <= i < |s| && IsLower(s[i]) }
  predicate HasDigit(s: string) { exists i :: 0 <= i < |s| && IsDigit(s[i]) }

  /**
   * `strstr($email, '@', true)`: the text before the first '@', or None
   * where PHP returns false.
   */
  function LocalPart(email: string): (r: Option<string>)
    ensures r.None? <==> '@' !in email
    ensures r.Some? ==> |r.value| < |email| && email[..|r.value|] == r.value
    ensures r.Some? ==> email[|r.value|] == '@' && '@' !in r.value
  {
    match IndexOf(email, '@')
    case None => None
    case Some(i) => Some(email[..i])
  }

  /** `explode('.', $u, 2)` when `$u` holds a '.': the parts before and after the first '.'. */
  function NameParts(u: string): (r: Option<(string, string)>)
    ensures r.None? <==> '.' !in u
    ensures r.Some? ==> u == r.value.0 + "." + r.value.1 && '.' !in r.value.0
  {
    match IndexOf(u, '.')
    case None => None
    case Some(i) =>
      assert u == u[..i] + "." + u[i + 1..];
      Some((u[..i], u[i + 1..]))
  }

  /** `strpos(strtolower($haystack), strtolower($needle)) !== false` */
  predicate FoundIgnoringCase(haystack: string, needle: string) {
    Contains(Lower(haystack), Lower(needle))
  }

  /** The length and character-class rules, each stated for the password alone. */
  predicate ClassFires(e: PwError, password: string) {
    match e
    case TooShort => ByteLength(password) < 8
    case NoUpper => !HasUpper(password)
    case NoLower => !HasLower(password)
    case NoDigit => !HasDigit(password)
    case _ => false
  }

  /** The rules about the local part `u` of the address and its two name halves. */
  predicate MailFires(e: PwError, password: string, u: string) {
    match e
    case HasMailPart => FoundIgnoringCase(password, u)
    case HasFirstName => NameParts(u).Some? && FoundIgnoringCase(password, NameParts(u).value.0)
    case HasLastName => NameParts(u).Some? && FoundIgnoringCase(password, NameParts(u).value.1)
    case _ => false
  }

  /** The condition under which each violation is reported. */
  predicate Fires(e: PwError, password: string, u: string) {
    ClassFires(e, password) || MailFires(e, password, u)
  }

  /** Strictly increasing in the check order, so free of repeats. */
  predicate InCheckOrder(errs: seq<PwError>) {
    forall i, j :: 0 <= i < j < |errs| ==> Rank(errs[i]) < Rank(errs[j])
  }

  function When(c: bool, e: PwError): seq<PwError> {
    if c then [e] else []
  }

  /** The length and character-class checks. */
  function ClassViolations(password: string): (errs: seq<PwError>)
    ensures forall e :: e in errs <==> ClassFires(e, password)
    ensures forall i :: 0 <= i < |errs| ==> Rank(errs[i]) < 4
    ensures InCheckOrder(errs)
  {
    var short, upper, lower, digit := ByteLength(password) < 8, !HasUpper(password), !HasLower(password), !HasDigit(password);
    ClassParts(short, upper, lower, digit);
    When(short, TooShort) + (When(upper, NoUpper) + (When(lower, NoLower) + When(digit, NoDigit)))
  }

  /**
   * A check in front of later-ranked ones keeps the list in check order,
   * adds only its own rule, and keeps every rank from `Rank(x)` up to below `n`.
   */
  lemma WhenInFront(c: bool, x: PwError, rest: seq<PwError>, n: nat)
    requires InCheckOrder(rest) && Rank(x) < n
    requires forall i :: 0 <= i < |rest| ==> Rank(x) < Rank(rest[i]) < n
    ensures InCheckOrder(When(c, x) + rest)
    ensures forall e :: e in When(c, x) + rest <==> (c && e == x) || e in rest
    ensures forall i :: 0 <= i < |When(c, x) + rest| ==> Rank(x) <= Rank((When(c, x) + rest)[i]) < n
  {
    var r := When(c, x) + rest;
    if c {
      assert forall i :: 0 < i < |r| ==> r[i] == rest[i - 1];
    } else {
      assert r == rest;
    }
  }

  /** The four class checks list exactly the rules whose condition holds, ranked below 4 and in check order. */
  lemma ClassParts(short: bool, upper: bool, lower: bool, digit: bool)
    ensures var r := When(short, TooShort) + (When(upper, NoUpper) + (When(lower, NoLower) + When(digit, NoDigit)));
      && (forall e :: e in r <==> (short && e == TooShort) || (upper && e == NoUpper) || (lower && e == NoLower) || (digit && e == NoDigit))
      && (forall i :: 0 <= i < |r| ==> Rank(r[i]) < 4)
      && InCheckOrder(r)
  {
    var d := When(digit, NoDigit);
    WhenInFront(digit, NoDigit, [], 4);
    assert d + [] == d;
    var cd := When(lower, NoLower) + d;
    WhenInFront(lower, NoLower, d, 4);
    var bcd := When(upper, NoUpper) + cd;
    WhenInFront(upper, NoUpper, cd, 4);
    WhenInFront(short, TooShort, bcd, 4);
  }

  /** The checks against the two halves of a local part holding a '.'. */
  function NameViolations(password: string, u: string): (errs: seq<PwError>)
    ensures forall e :: e in errs <==> (e == HasFirstName || e == HasLastName) && MailFires(e, password, u)
    ensures forall i :: 0 <= i < |errs| ==> Rank(errs[i]) >= 5
    ensures InCheckOrder(errs)
  {
    match NameParts(u)
    case None => []
    case Some((first, last)) =>
      var inFirst, inLast := FoundIgnoringCase(password, first), FoundIgnoringCase(password, last);
      NameChecks(inFirst, inLast);
      When(inFirst, HasFirstName) + When(inLast, HasLastName)
  }

  /** The two name checks list exactly the rules whose condition holds, ranked from 5 on and in check order. */
  lemma NameChecks(inFirst: bool, inLast: bool)
    ensures var r := When(inFirst, HasFirstName) + When(inLast, HasLastName);
      && (forall e :: e in r <==> (inFirst && e == HasFirstName) || (inLast && e == HasLastName))
      && (forall i :: 0 <= i < |r| ==> Rank(r[i]) >= 5)
      && InCheckOrder(r)
  {
    var b := When(inLast, HasLastName);
    WhenInFront(inLast, HasLastName, [], 7);
    assert b + [] == b;
    WhenInFront(inFirst, HasFirstName, b, 7);
  }

  /** The checks against the local part of the address and its name halves. */
  function MailViolations(password: string, u: string): (errs: seq<PwError>)
    ensures forall e :: e in errs <==> MailFires(e, password, u)
    ensures forall i :: 0 <= i < |errs| ==> Rank(errs[i]) >= 4
    ensures InCheckOrder(errs)
  {
    var h, n := When(FoundIgnoringCase(password, u), HasMailPart), NameViolations(password, u);
    assert forall e :: e in h <==> e == HasMailPart && MailFires(e, password, u);
    InOrderAppend(h, n, 5);
    h + n
  }

  /** Two lists in check order, all of the first ranked below `r` and all of the second from `r` on, append in check order. */
  lemma InOrderAppend(a: seq<PwError>, b: seq<PwError>, r: nat)
    requires InCheckOrder(a) && InCheckOrder(b)
    requires forall i :: 0 <= i < |a| ==> Rank(a[i]) < r
    requires forall j :: 0 <= j < |b| ==> Rank(b[j]) >= r
    ensures InCheckOrder(a + b)
  {
    var c := a + b;
    forall i, j | 0 <= i < j < |c|
      ensures Rank(c[i]) < Rank(c[j])
    {
      if j < |a| {
        assert c[i] == a[i] && c[j] == a[j];
      } else if i < |a| {
        assert c[i] == a[i] && c[j] == b[j - |a|];
      } else {
        assert c[i] == b[i - |a|] && c[j] == b[j - |a|];
      }
    }
  }

  /** The checks of `validatePassword` once the local part is known. */
  function Violations(password: string, u: string): (errs: seq<PwError>)
    ensures forall e :: e in errs <==> Fires(e, password, u)
    ensures InCheckOrder(errs)
  {
    var c, m := ClassViolations(password), MailViolations(password, u);
    c + m
  }

  /**
   * `validatePassword($password, $email)`. Without an '@' in the address
   * `strstr` returns false, and under strict types `strtolower(false)`
   * throws a TypeError.
   */
  function ValidatePassword(password: string, email: string): (r: Result<seq<PwError>, string>)
    ensures r.Failure? <==> '@' !in email
    ensures r.Success? ==> InCheckOrder(r.value)
    ensures r.Success? ==> forall e :: e in r.value <==> Fires(e, password, LocalPart(email).value)
  {
    match LocalPart(email)
    case None => Failure("TypeError: strtolower(): Argument #1 ($string) must be of type string, bool given")
    case Some(u) => Success(Violations(password, u))
  }

  /** `passwordsMatch`: exact comparison, so equal length and no numeric coercion. */
  function PasswordsMatch(password: string, confirm: string): (r: bool)
    ensures r <==> |password| == |confirm| && forall i :: 0 <= i < |password| ==> password[i] == confirm[i]
  {
    password == confirm
  }

  /** Two violation lists in check order with the same members are the same list. */
  lemma {:induction false} InCheckOrderUnique(a: seq<PwError>, b: seq<PwError>)
    requires InCheckOrder(a) && InCheckOrder(b)
    requires forall e :: e in a <==> e in b
    ensures a == b
    decreases |a|
  {
    HeadIsMember(a);
    HeadIsMember(b);
    if |a| > 0 && |b| > 0 {
      HeadsAgree(a, b);
      TailsAgree(a, b);
      InCheckOrderUnique(a[1..], b[1..]);
      assert a == [a[0]] + a[1..] && b == [b[0]] + b[1..];
    }
  }

  /** The first entries of two ordered lists with the same members hold the lowest rank. */
  lemma HeadsAgree(a: seq<PwError>, b: seq<PwError>)
    requires InCheckOrder(a) && InCheckOrder(b)
    requires forall e :: e in a <==> e in b
    requires |a| > 0 && |b| > 0
    ensures a[0] == b[0]
  {
    assert a[0] in a && b[0] in b;
    var j :| 0 <= j < |b| && b[j] == a[0];
    var i :| 0 <= i < |a| && a[i] == b[0];
    RankInjective(a[0], b[0]);
  }

  /** Dropping a shared head leaves lists with the same members. */
  lemma TailsAgree(a: seq<PwError>, b: seq<PwError>)
    requires InCheckOrder(a) && InCheckOrder(b)
    requires forall e :: e in a <==> e in b
    requires |a| > 0 && |b| > 0 && a[0] == b[0]
    ensures forall e :: e in a[1..] <==> e in b[1..]
  {
    forall e | e in a[1..] ensures e in b[1..] {
      var i :| 0 <= i < |a[1..]| && a[1..][i] == e;
      assert a[i + 1] == e;
      assert e in a;
      var j :| 0 <= j < |b| && b[j] == e;
      assert Rank(a[0]) < Rank(a[i + 1]);
      assert b[1..][j - 1] == e;
    }
    forall e | e in b[1..] ensures e in a[1..] {
      var j :| 0 <= j < |b[1..]| && b[1..][j] == e;
      assert b[j + 1] == e;
      assert e in b;
      var i :| 0 <= i < |a| && a[i] == e;
      assert Rank(b[0]) < Rank(b[j + 1]);
      assert a[1..][i - 1] == e;
    }
  }

  lemma RankInjective(d: PwError, e: PwError)
    requires Rank(d) == Rank(e)
    ensures d == e
  {
  }

  /** A list in check order whose ranks stay below `n` has at most `n` entries. */
  lemma {:induction false} InCheckOrderBound(errs: seq<PwError>, n: nat)
    requires InCheckOrder(errs)
    requires forall i :: 0 <= i < |errs| ==> Rank(errs[i]) < n
    ensures |errs| <= n
    decreases |errs|
  {
    if |errs| > 0 {
      var last := |errs| - 1;
      var init := errs[..last];
      assert forall i :: 0 <= i < |init| ==> Rank(init[i]) < Rank(errs[last]);
      InCheckOrderBound(init, Rank(errs[last]));
    }
  }

  /** At most seven violations are ever reported. */
  lemma AtMostSeven(password: string, email: string)
    requires ValidatePassword(password, email).Success?
    ensures |ValidatePassword(password, email).value| <= 7
  {
    InCheckOrderBound(ValidatePassword(password, email).value, 7);
  }

  /**
   * The result is determined by the per-violation conditions alone: any
   * list in check order holding exactly the violations that fire is it.
   */
  lemma ValidatePasswordIsUnique(password: string, email: string, errs: seq<PwError>)
    requires '@' in email
    requires InCheckOrder(errs)
    requires forall e :: e in errs <==> Fires(e, password, LocalPart(email).value)
    ensures ValidatePassword(password, email) == Success(errs)
  {
    InCheckOrderUnique(ValidatePassword(password, email).value, errs);
  }

  /** Case-insensitive containment passes from a string to its substrings. */
  lemma {:induction false} FoundIgnoringCaseSub(p: string, u: string, a: string, b: string)
    requires u == a + "." + b
    requires FoundIgnoringCase(p, u)
    ensures FoundIgnoringCase(p, a) && FoundIgnoringCase(p, b)
  {
    var lp, lu := Lower(p), Lower(u);
    var i :| 0 <= i <= |lp| && OccursAt(lp, lu, i);
    assert Lower(a) == lu[..|a|];
    assert OccursAt(lp, Lower(a), i) by {
      assert lp[i..i + |a|] == lp[i..i + |lu|][..|a|];
    }
    var k := i + |a| + 1;
    assert Lower(b) == lu[|a| + 1..];
    assert OccursAt(lp, Lower(b), k) by {
      assert lp[k..k + |b|] == lp[i..i + |lu|][|a| + 1..];
    }
  }

  /**
   * A password containing the whole local part also contains both name
   * halves, so the mail error never comes alone when the local part has a '.'.
   */
  lemma MailPartBringsNames(password: string, email: string)
    requires ValidatePassword(password, email).Success?
    requires '.' in LocalPart(email).value
    requires HasMailPart in ValidatePassword(password, email).value
    ensures HasFirstName in ValidatePassword(password, email).value
    ensures HasLastName in ValidatePassword(password, email).value
  {
    var u := LocalPart(email).value;
    var parts := NameParts(u).value;
    FoundIgnoringCaseSub(password, u, parts.0, parts.1);
  }

  /** An address starting with '@' has an empty local part, which every password contains. */
  lemma EmptyLocalPartAlwaysFires(password: string, rest: string)
    ensures ValidatePassword(password, "@" + rest).Success?
    ensures HasMailPart in ValidatePassword(password, "@" + rest).value
  {
    assert LocalPart("@" + rest) == Some("");
    EmptyNeedleOccurs(Lower(password));
  }

  /** The length rule counts bytes: four two-byte letters are long enough. */
  lemma LengthCountsBytes()
    ensures ByteLength("åäöå") == 8
    ensures !Fires(TooShort, "åäöå", "x")
  {
  }

  /** On ASCII text the byte length is the character count. */
  lemma {:induction false} AsciiByteLength(s: string)
    requires IsAscii(s)
    ensures ByteLength(s) == |s|
  {
    if |s| > 0 {
      AsciiByteLength(s[1..]);
    }
  }

  /** A needle whose first character does not occur in the haystack is not found. */
  lemma FirstCharMissing(s: string, needle: string)
    requires |needle| > 0 && needle[0] !in s
    ensures !Contains(s, needle)
  {
  }

  /** The local part of `u@rest` is `u` when `u` has no '@'. */
  lemma LocalPartOf(u: string, rest: string)
    requires '@' !in u
    ensures LocalPart(u + "@" + rest) == Some(u)
  {
    IndexOfAfter(u, '@', rest);
    assert (u + "@" + rest)[..|u|] == u;
  }

  /** A name part before the first '.' has no '.' of its own. */
  lemma NamePartsOf(first: string, last: string)
    requires '.' !in first
    ensures NameParts(first + "." + last) == Some((first, last))
  {
    IndexOfAfter(first, '.', last);
    var u := first + "." + last;
    assert u[..|first|] == first && u[|first| + 1..] == last;
  }

  /** Case mapping commutes with taking a slice, so an occurrence survives lowering both sides. */
  lemma LowerOccurs(s: string, needle: string, i: nat)
    requires OccursAt(s, needle, i)
    ensures OccursAt(Lower(s), Lower(needle), i)
  {
    assert forall k :: 0 <= k < |needle| ==> Lower(s)[i + k] == LowerChar(s[i + k]) == LowerChar(needle[k]);
  }

  /** A lowercase letter that no character of `s` lowers to does not occur in `Lower(s)`. */
  lemma LowerMisses(s: string, c: char)
    requires forall i :: 0 <= i < |s| ==> LowerChar(s[i]) != c
    ensures c !in Lower(s)
  {
  }

  /**
   * A password with all character classes, long enough, and holding
   * neither name half's first letter (in either case) is accepted.
   */
  lemma {:induction false} NoNameLetters(p: string, first: string, last: string, domain: string)
    requires |first| > 0 && |last| > 0
    requires '.' !in first && '@' !in first && '@' !in last
    requires ClassViolations(p) == []
    requires IsLower(first[0]) && first[0] !in p && UpperChar(first[0]) !in p
    requires IsLower(last[0]) && last[0] !in p && UpperChar(last[0]) !in p
    ensures ValidatePassword(p, first + "." + last + "@" + domain) == Success([])
  {
    LetterMissing(p, first[0]);
    LetterMissing(p, last[0]);
    var u := first + "." + last;
    LocalPartOf(u, domain);
    NamePartsOf(first, last);
    var lp := Lower(p);
    assert Lower(u)[0] == LowerChar(first[0]) && Lower(first)[0] == LowerChar(first[0]);
    assert Lower(last)[0] == LowerChar(last[0]);
    FirstCharMissing(lp, Lower(u));
    FirstCharMissing(lp, Lower(first));
    FirstCharMissing(lp, Lower(last));
    assert NameViolations(p, u) == [];
    assert MailViolations(p, u) == [];
    assert Violations(p, u) == [];
    assert ValidatePassword(p, u + "@" + domain) == Success(Violations(p, u));
  }

  function UpperChar(c: char): char
    requires IsLower(c)
  {
    (c as int - 'a' as int + 'A' as int) as char
  }

  /** A lowercase letter absent from `s` in both cases is absent from `Lower(s)`. */
  lemma LetterMissing(s: string, c: char)
    requires IsLower(c) && c !in s && UpperChar(c) !in s
    ensures LowerChar(c) !in Lower(s)
  {
    forall i | 0 <= i < |s| ensures LowerChar(s[i]) != c {
      assert s[i] != c && s[i] != UpperChar(c);
    }
    LowerMisses(s, c);
  }

  lemma TestPassClasses()
    ensures ClassViolations("TestPass123") == []
  {
    var p := "TestPass123";
    assert IsUpper(p[0]) && IsLower(p[1]) && IsDigit(p[8]);
  }

  lemma TestPassLacks(c: char)
    requires c == 'j' || c == 'J' || c == 'd' || c == 'D'
    ensures c !in "TestPass123"
  {
  }

  lemma JohnDoeShape()
    ensures |"john"| > 0 && |"doe"| > 0
    ensures '.' !in "john" && '@' !in "john" && '@' !in "doe"
    ensures "john"[0] == 'j' && "doe"[0] == 'd'
  {
  }

  /** The letter conditions of `NoNameLetters` for "TestPass123" and john.doe. */
  lemma TestPassLetters()
    ensures IsLower('j') && 'j' !in "TestPass123" && UpperChar('j') !in "TestPass123"
    ensures IsLower('d') && 'd' !in "TestPass123" && UpperChar('d') !in "TestPass123"
  {
    assert UpperChar('j') == 'J' && UpperChar('d') == 'D';
    TestPassLacks('j');
    TestPassLacks('d');
    TestPassLacks('J');
    TestPassLacks('D');
  }

  /** "TestPass123" is accepted for john.doe at any domain. */
  lemma AcceptsTestPass(domain: string)
    ensures ValidatePassword("TestPass123", "john" + "." + "doe" + "@" + domain) == Success([])
  {
    JohnDoeShape();
    TestPassClasses();
    TestPassLetters();
    NoNameLetters("TestPass123", "john", "doe", domain);
  }

  /** A needle with a character absent from the haystack is not found. */
  lemma CharMissing(s: string, needle: string, k: nat)
    requires k < |needle| && needle[k] !in s
    ensures !Contains(s, needle)
  {
    forall i | 0 <= i <= |s|
      ensures !OccursAt(s, needle, i)
    {
      if i + |needle| <= |s| {
        assert s[i..i + |needle|][k] == s[i + k] && s[i + k] in s;
      }
    }
  }

  lemma ShortClasses()
    ensures ClassViolations("short") == [TooShort, NoUpper, NoDigit]
  {
    var p := "short";
    AsciiByteLength(p);
    assert IsLower(p[0]);
    assert forall i :: 0 <= i < |p| ==> !IsUpper(p[i]) && !IsDigit(p[i]);
  }

  /**
   * "short" for test at any domain breaks the length, uppercase and digit
   * rules and no other: "test" has no '.', so there are no name halves,
   * and it does not occur in "short".
   */
  lemma ShortPasswordErrors(domain: string)
    ensures ValidatePassword("short", "test" + "@" + domain) == Success([TooShort, NoUpper, NoDigit])
  {
    ShortTestFacts();
    NoMailPartFound("short", "test", domain, 1);
    ShortClasses();
  }

  /** The literal facts `ShortPasswordErrors` needs: "test" is one plain word whose 'e' is not in "short". */
  lemma ShortTestFacts()
    ensures '@' !in "test" && '.' !in "test"
    ensures 1 < |"test"| && LowerChar("test"[1]) !in Lower("short")
  {
    LowerMisses("short", 'e');
  }

  /**
   * A local part without '.' has no name halves, and one with a character
   * the lower-cased password lacks is not found in it: only the length
   * and class rules can fire.
   */
  lemma NoMailPartFound(p: string, u: string, domain: string, k: nat)
    requires '@' !in u && '.' !in u
    requires k < |u| && LowerChar(u[k]) !in Lower(p)
    ensures ValidatePassword(p, u + "@" + domain) == Success(ClassViolations(p))
  {
    ValidateOfLocalPart(p, u, domain);
    NotFoundIgnoringCase(p, u, k);
    NoNamesWithoutDot(p, u);
    OnlyClassViolations(p, u);
  }

  /** For an address `u@domain` the checks run on the local part `u`. */
  lemma ValidateOfLocalPart(p: string, u: string, domain: string)
    requires '@' !in u
    ensures ValidatePassword(p, u + "@" + domain) == Success(Violations(p, u))
  {
    LocalPartOf(u, domain);
  }

  /** With the local part not found and no name halves, only the length and class rules remain. */
  lemma OnlyClassViolations(p: string, u: string)
    requires !FoundIgnoringCase(p, u) && NameViolations(p, u) == []
    ensures Violations(p, u) == ClassViolations(p)
  {
    assert MailViolations(p, u) == [] + [];
    assert Violations(p, u) == ClassViolations(p) + [];
  }

  /** A local part with a character the lower-cased password lacks is not found in it. */
  lemma NotFoundIgnoringCase(p: string, u: string, k: nat)
    requires k < |u| && LowerChar(u[k]) !in Lower(p)
    ensures !FoundIgnoringCase(p, u)
  {
    assert Lower(u)[k] == LowerChar(u[k]);
    CharMissing(Lower(p), Lower(u), k);
  }

  /** A local part without '.' has no name halves to look for. */
  lemma NoNamesWithoutDot(p: string, u: string)
    requires '.' !in u
    ensures NameViolations(p, u) == []
  {
    assert NameParts(u).None?;
  }

  /**
   * A password that starts with the whole local part `first.last` breaks
   * the mail rule and both name rules, and only those when it is long
   * enough and has all three character classes.
   */
  lemma {:induction false} LocalPartInPassword(first: string, last: string, domain: string, tail: string)
    requires '.' !in first && '@' !in first && '@' !in last
    requires ClassViolations(first + "." + last + tail) == []
    ensures ValidatePassword(first + "." + last + tail, first + "." + last + "@" + domain)
         == Success([HasMailPart, HasFirstName, HasLastName])
  {
    var u := first + "." + last;
    var p := u + tail;
    LocalPartOf(u, domain);
    StartsWithLocalPart(first, last, tail);
    assert Violations(p, u) == [HasMailPart, HasFirstName, HasLastName];
    assert ValidatePassword(p, u + "@" + domain) == Success(Violations(p, u));
  }

  lemma StartsWithLocalPart(first: string, last: string, tail: string)
    requires '.' !in first
    ensures MailViolations(first + "." + last + tail, first + "." + last) == [HasMailPart, HasFirstName, HasLastName]
  {
    var u := first + "." + last;
    var p := u + tail;
    NamePartsOf(first, last);
    assert FoundIgnoringCase(p, u) by {
      assert OccursAt(p, u, 0);
      LowerOccurs(p, u, 0);
    }
    FoundIgnoringCaseSub(p, u, first, last);
    assert NameViolations(p, u) == [HasFirstName, HasLastName];
  }

  lemma NamePassClasses()
    ensures ClassViolations("john" + "." + "doe" + "Pass123") == []
  {
    var p := "john" + "." + "doe" + "Pass123";
    assert |p| == 15;
    assert IsUpper(p[8]) && IsLower(p[0]) && IsDigit(p[12]);
  }

  /** "john.doePass123" breaks the mail, first-name and last-name rules for john.doe at any domain. */
  lemma RejectsNameInPassword(domain: string)
    ensures ValidatePassword("john" + "." + "doe" + "Pass123", "john" + "." + "doe" + "@" + domain)
         == Success([HasMailPart, HasFirstName, HasLastName])
  {
    NamePassClasses();
    LocalPartInPassword("john", "doe", domain, "Pass123");
  }

  /** Matching is exact: "1" and "01" are loosely equal in PHP but do not match. */
  lemma MatchIsStrict()
    ensures !PasswordsMatch("1", "01") && LooseEqStr("1", "01")
  {
    LooseEqStrNumeric();
  }
}

=== FILE: php.dfy ===
/**
 * The fragment of PHP 8 value semantics the application relies on:
 * truthiness, `isset`, `trim`, `strtolower`, the `(int)` cast, loose
 * string comparison, `str_replace` and `explode`.
 */
module Php {
  import opened Wrappers
  import opened Strings

  /**
   * A PHP value as it occurs in request bodies, the session and decoded
   * JSON: scalars, a list of strings and a string-keyed array of strings.
   */
  datatype Val =
    | Null
    | Bool(b: bool)
    | Int(i: int)
    | Str(s: string)
    | StrList(items: seq<string>)
    | Assoc(entries: seq<(string, string)>)

  /** PHP's conversion to bool: null, false, 0, "", "0" and [] are falsy. */
  predicate Truthy(v: Val) {
    match v
    case Null => false
    case Bool(b) => b
    case Int(i) => i != 0
    case Str(s) => s != "" && s != "0"
    case StrList(xs) => |xs| > 0
    case Assoc(es) => |es| > 0
  }

  /** `empty($s)` on a string: only "" and "0" are empty. */
  predicate EmptyStr(s: string) {
    s == "" || s == "0"
  }

  /** `empty($a[$k])` where the key may be absent. */
  predicate EmptyAt(m: map<string, Val>, k: string) {
    k !in m || !Truthy(m[k])
  }

  /** `isset($a[$k])`: present and not null. */
  predicate IsSet(m: map<string, Val>, k: string) {
    k in m && m[k] != Null
  }

  /** `$a[$k] ?? null` read as an optional value. */
  function Lookup(m: map<string, Val>, k: string): (r: Val)
    ensures r == Null <==> !IsSet(m, k)
  {
    if k in m then m[k] else Null
  }

  /** The characters PHP's `trim` removes by default. */
  predicate IsTrimChar(c: char) {
    c == ' ' || c == '\t' || c == '\n' || c == '\r' || c == '\0' || c == '\U{0B}'
  }

  /** `trim($s)`: the surrounding trim characters are removed (exactly those: `TrimExact`). */
  function Trim(s: string): (r: string)
    ensures |r| == 0 <==> forall k :: 0 <= k < |s| ==> IsTrimChar(s[k])
    ensures |r| <= |s|
    ensures |r| > 0 ==> !IsTrimChar(r[0]) && !IsTrimChar(r[|r| - 1])
  {
    TrimBy(s, IsTrimChar)
  }

  /** `trim` removes exactly the leading and trailing trim characters, and nothing else. */
  lemma TrimExact(s: string)
    ensures exists i :: TrimmedAt(s, Trim(s), IsTrimChar, i)
    ensures forall t, i :: TrimmedAt(s, t, IsTrimChar, i) ==> t == Trim(s)
  {
    TrimByExact(s, IsTrimChar);
    forall t, i | TrimmedAt(s, t, IsTrimChar, i)
      ensures t == Trim(s)
    {
      TrimByUnique(s, IsTrimChar, t, i);
    }
  }

  function LowerChar(c: char): (d: char)
    ensures !IsUpper(d)
    ensures !IsUpper(c) ==> d == c
  {
    if IsUpper(c) then (c as int - 'A' as int + 'a' as int) as char else c
  }

  /** `strtolower`: byte-wise ASCII case mapping (PHP 8.2 and later). */
  function Lower(s: string): (r: string)
    ensures |r| == |s|
    ensures forall i :: 0 <= i < |s| ==> r[i] == LowerChar(s[i])
  {
    seq(|s|, i requires 0 <= i < |s| => LowerChar(s[i]))
  }

  /** Whitespace PHP skips in front of a numeric string. */
  predicate IsNumericSpace(c: char) {
    c == ' ' || c == '\t' || c == '\n' || c == '\r' || c == '\U{0B}' || c == '\U{0C}'
  }

  /** Length of the run of decimal digits at the start of `s`. */
  function DigitRun(s: string): (n: nat)
    ensures n <= |s| && AllDigits(s[..n])
    ensures n < |s| ==> !IsDigit(s[n])
  {
    if |s| > 0 && IsDigit(s[0]) then
      var k := DigitRun(s[1..]);
      assert s[..k + 1] == [s[0]] + s[1..][..k];
      k + 1
    else 0
  }

  /**
   * `(int)$s` for the decimal forms the application produces: leading
   * whitespace, an optional sign, then the longest run of digits; anything
   * else gives 0.
   */
  function IntCast(s: string): int {
    var t := TrimLeftBy(s, IsNumericSpace);
    var neg := |t| > 0 && t[0] == '-';
    var u := if |t| > 0 && (t[0] == '-' || t[0] == '+') then t[1..] else t;
    var k := DigitRun(u);
    var v: int := DigitsValue(u[..k]);
    if neg then -v else v
  }

  /** `(int)$v`: null and false are 0, true is 1, an array is 0 when empty and 1 otherwise. */
  function ValToInt(v: Val): int {
    match v
    case Null => 0
    case Bool(b) => if b then 1 else 0
    case Int(i) => i
    case Str(s) => IntCast(s)
    case StrList(xs) => if |xs| > 0 then 1 else 0
    case Assoc(es) => if |es| > 0 then 1 else 0
  }

  /**
   * The value of an integer numeric string: optional leading whitespace,
   * an optional sign, at least one digit and optional trailing whitespace.
   * None for any other string.
   */
  function IntNumericValue(s: string): (r: Option<int>)
    decreases |s|
  {
    if |s| == 0 then None
    else if IsNumericSpace(s[0]) then IntNumericValue(s[1..])
    else if s[0] == '-' then
      match UnsignedValue(s[1..]) case Some(v) => Some(-(v as int)) case None => None
    else if s[0] == '+' then
      match UnsignedValue(s[1..]) case Some(v) => Some(v) case None => None
    else
      match UnsignedValue(s) case Some(v) => Some(v) case None => None
  }

  /** Digits followed by optional whitespace, read as a number. */
  function UnsignedValue(s: string): (r: Option<nat>)
    decreases |s|
  {
    if |s| == 0 then None
    else if IsNumericSpace(s[|s| - 1]) then UnsignedValue(s[..|s| - 1])
    else if AllDigits(s) then Some(DigitsValue(s))
    else None
  }

  predicate IsIntNumeric(s: string) {
    IntNumericValue(s).Some?
  }

  /**
   * `$a == $b` on two strings: integer numeric strings compare by value,
   * any other pair compares as strings.
   */
  predicate LooseEqStr(a: string, b: string) {
    var x, y := IntNumericValue(a), IntNumericValue(b);
    if x.Some? && y.Some? then x.value == y.value else a == b
  }

  lemma LooseEqStrReflexive(a: string)
    ensures LooseEqStr(a, a)
  {
  }

  lemma LooseEqStrSymmetric(a: string, b: string)
    ensures LooseEqStr(a, b) <==> LooseEqStr(b, a)
  {
  }

  /** A non-empty string of digits is an integer numeric string with its decimal value. */
  lemma DigitsNumericValue(s: string)
    requires |s| > 0 && AllDigits(s)
    ensures IntNumericValue(s) == Some(DigitsValue(s))
  {
    assert !IsNumericSpace(s[0]) && s[0] != '-' && s[0] != '+';
    assert !IsNumericSpace(s[|s| - 1]);
  }

  /** On a string of digits the cast is the decimal value. */
  lemma IntCastOfDigits(s: string)
    requires AllDigits(s)
    ensures IntCast(s) == DigitsValue(s)
  {
    assert TrimLeftBy(s, IsNumericSpace) == s;
    DigitRunAll(s);
    assert s[..|s|] == s;
  }

  /** `(string)$i`: an optional minus sign and the decimal digits. */
  function IntToString(i: int): (s: string)
    ensures |s| >= 1
    ensures i >= 0 ==> AllDigits(s)
    ensures i < 0 ==> s[0] == '-' && AllDigits(s[1..])
  {
    if i < 0 then "-" + NatToString(-i) else NatToString(i)
  }

  /** The cast back to int undoes the rendering. */
  lemma IntCastOfIntToString(i: int)
    ensures IntCast(IntToString(i)) == i
  {
    var s := IntToString(i);
    NatToStringValue(if i < 0 then -i else i);
    if i < 0 {
      var u := s[1..];
      assert u == NatToString(-i);
      assert TrimLeftBy(s, IsNumericSpace) == s;
      DigitRunAll(u);
      assert u[..|u|] == u;
    } else {
      IntCastOfDigits(s);
    }
  }

  lemma {:induction false} DigitRunAll(s: string)
    requires AllDigits(s)
    ensures DigitRun(s) == |s|
  {
    if |s| > 0 {
      DigitRunAll(s[1..]);
    }
  }

  /** Two digit strings are loosely equal exactly when their decimal values are. */
  lemma LooseEqStrDigits(a: string, b: string)
    requires |a| > 0 && AllDigits(a) && |b| > 0 && AllDigits(b)
    ensures LooseEqStr(a, b) <==> DigitsValue(a) == DigitsValue(b)
  {
    DigitsNumericValue(a);
    DigitsNumericValue(b);
  }

  /** "1" and "01" are loosely equal although they differ as strings. */
  lemma LooseEqStrNumeric()
    ensures LooseEqStr("1", "01") && "1" != "01"
  {
    assert AllDigits("1") && AllDigits("01");
    DigitsValueOne("1");
    assert "01"[..1] == "0";
    DigitsValueOne("0");
    assert DigitsValue("01") == 1;
    LooseEqStrDigits("1", "01");
  }

  /** `in_array($x, $xs)` with loose comparison on strings. */
  predicate InLoose(x: string, xs: seq<string>) {
    exists i :: 0 <= i < |xs| && LooseEqStr(xs[i], x)
  }

  function LooselyEquals(x: string): string -> bool {
    (y: string) => LooseEqStr(y, x)
  }

  /** `array_search($x, $xs)`: the first loosely equal position. */
  function SearchLoose(x: string, xs: seq<string>): (r: Option<nat>)
    ensures r.None? <==> !InLoose(x, xs)
    ensures r.Some? ==> r.value < |xs| && LooseEqStr(xs[r.value], x)
    ensures r.Some? ==> forall j :: 0 <= j < r.value ==> !LooseEqStr(xs[j], x)
  {
    var p := LooselyEquals(x);
    assert forall i :: 0 <= i < |xs| ==> (p(xs[i]) <==> LooseEqStr(xs[i], x));
    FirstWhere(xs, p)
  }

  /** The search stops at the first loosely equal position. */
  lemma SearchLooseAt(x: string, xs: seq<string>, k: nat)
    requires k < |xs| && LooseEqStr(xs[k], x)
    requires forall j :: 0 <= j < k ==> !LooseEqStr(xs[j], x)
    ensures SearchLoose(x, xs) == Some(k)
  {
    assert InLoose(x, xs);
  }

  /**
   * `str_replace($search, $rep, $s)` for a non-empty search string:
   * non-overlapping occurrences, replaced left to right in one pass.
   */
  function StrReplace(search: string, rep: string, s: string): (r: string)
    requires |search| > 0
    decreases |s|
  {
    if |s| < |search| then s
    else if s[..|search|] == search then rep + StrReplace(search, rep, s[|search|..])
    else [s[0]] + StrReplace(search, rep, s[1..])
  }

  /** Deleting occurrences never lengthens a string. */
  lemma {:induction false} StrReplaceDeleteShrinks(search: string, s: string)
    requires |search| > 0
    ensures |StrReplace(search, "", s)| <= |s|
    decreases |s|
  {
    if |s| >= |search| {
      if s[..|search|] == search {
        StrReplaceDeleteShrinks(search, s[|search|..]);
      } else {
        StrReplaceDeleteShrinks(search, s[1..]);
      }
    }
  }

  /** A string without an occurrence of the search string is returned unchanged. */
  lemma {:induction false} StrReplaceAbsent(search: string, rep: string, s: string)
    requires |search| > 0
    requires !Contains(s, search)
    ensures StrReplace(search, rep, s) == s
    decreases |s|
  {
    if |s| >= |search| {
      assert !OccursAt(s, search, 0);
      assert s[..|search|] != search;
      assert !Contains(s[1..], search) by {
        forall i | 0 <= i <= |s[1..]| && OccursAt(s[1..], search, i)
          ensures false
        {
          assert s[1..][i..i + |search|] == s[i + 1..i + 1 + |search|];
          assert OccursAt(s, search, i + 1);
        }
      }
      StrReplaceAbsent(search, rep, s[1..]);
      assert s == [s[0]] + s[1..];
    }
  }

  /** `StrReplaceAbsent` as an implication, for use inside expressions. */
  lemma StrReplaceUnchanged(search: string, rep: string, s: string)
    requires |search| > 0
    ensures !Contains(s, search) ==> StrReplace(search, rep, s) == s
  {
    if !Contains(s, search) {
      StrReplaceAbsent(search, rep, s);
    }
  }

  lemma NoOccurrenceShift(search: string, s: string, j: nat)
    requires 0 < j <= |s|
    requires forall i :: 0 <= i < j ==> !OccursAt(s, search, i)
    ensures forall i :: 0 <= i < j - 1 ==> !OccursAt(s[1..], search, i)
  {
    forall i | 0 <= i < j - 1
      ensures !OccursAt(s[1..], search, i)
    {
      if OccursAt(s[1..], search, i) {
        assert s[1..][i..i + |search|] == s[i + 1..i + 1 + |search|];
        assert OccursAt(s, search, i + 1);
      }
    }
  }

  /** Characters before the first occurrence are copied unchanged. */
  lemma {:induction false} StrReplaceKeepsPrefix(search: string, rep: string, s: string, j: nat)
    requires |search| > 0 && j <= |s|
    requires forall i :: 0 <= i < j ==> !OccursAt(s, search, i)
    ensures StrReplace(search, rep, s) == s[..j] + StrReplace(search, rep, s[j..])
    decreases j
  {
    if j > 0 && |s| >= |search| {
      assert !OccursAt(s, search, 0);
      assert s[..|search|] != search;
      NoOccurrenceShift(search, s, j);
      StrReplaceKeepsPrefix(search, rep, s[1..], j - 1);
      assert StrReplace(search, rep, s) == [s[0]] + StrReplace(search, rep, s[1..]);
      assert s[1..][j - 1..] == s[j..];
      assert s[..j] == [s[0]] + s[1..][..j - 1];
    } else if j > 0 {
      assert StrReplace(search, rep, s) == s;
      assert StrReplace(search, rep, s[j..]) == s[j..];
      assert s == s[..j] + s[j..];
    } else {
      assert s[..0] == [] && s[0..] == s;
    }
  }

  /** A string that starts with the search string loses that occurrence. */
  lemma StrReplaceAtStart(search: string, rep: string, s: string)
    requires |search| > 0
    ensures StrReplace(search, rep, search + s) == rep + StrReplace(search, rep, s)
  {
    assert (search + s)[..|search|] == search;
    assert (search + s)[|search|..] == s;
  }

  /**
   * `explode($d, $s)` for a one-character delimiter: the pieces between
   * delimiters; joining them back with the delimiter gives `s`.
   */
  function Explode(d: char, s: string): (r: seq<string>)
    ensures |r| >= 1
    ensures Join(r, [d]) == s
    ensures forall k :: 0 <= k < |r| ==> d !in r[k]
    decreases |s|
  {
    match IndexOf(s, d)
    case None => [s]
    case Some(i) =>
      var rest := Explode(d, s[i + 1..]);
      assert s == s[..i] + [d] + s[i + 1..];
      assert ([s[..i]] + rest)[1..] == rest;
      [s[..i]] + rest
  }

  /** `str_contains` / `strpos(...) !== false`: the empty needle is always found. */
  predicate StrContains(haystack: string, needle: string) {
    Contains(haystack, needle)
  }

  /** `str_starts_with` / `strpos(...) === 0`. */
  predicate StartsWith(s: string, prefix: string) {
    IsPrefix(prefix, s)
  }
}

=== FILE: require_admin_middleware.dfy ===
/**
 * The PSR-15 admin gate: the login check of the login gate, then a
 * truthy `is_admin`; a logged-in non-admin is sent to "/user".
 */
module RequireAdminMiddleware {
  import opened Wrappers
  import opened Php
  import opened Session
  import opened Middleware
  import RequireAuthenticationMiddleware

  /** `is_admin` read by truthiness. */
  predicate HasTruthyAdmin(s: SessionMap) {
    Truthy(Get(s, IsAdminKey))
  }

  /** `process($request, $handler)`: the handler answers only for a logged-in admin. */
  function Process(req: Request, s: SessionMap): (o: Outcome)
    ensures Passes(o) <==> HasTruthyUser(s) && HasTruthyAdmin(s)
    ensures HasTruthyUser(s) ==> o.session == s
    ensures HasTruthyUser(s) && !HasTruthyAdmin(s) ==> o.reply == Some(RedirectResponse("/user")) && !o.exits
    ensures !HasTruthyUser(s) ==>
      && o.reply == Some(RedirectResponse("/login")) && !o.exits
      && Get(o.session, FlashKey) == Flash("error", LoginMessage)
      && Get(o.session, "redirect_url") == (if Truthy(req.routeName) then req.routeName else Get(s, "redirect_url"))
    ensures OnlyFlashAndRedirect(s, o.session)
  {
    if !HasTruthyUser(s) then Outcome(RequireLogin(s, req.routeName), Some(RedirectResponse("/login")), false)
    else if !HasTruthyAdmin(s) then Outcome(s, Some(RedirectResponse("/user")), false)
    else Outcome(s, None, false)
  }

  /**
   * The admin gate is the login gate plus one more check: a logged-out
   * visitor gets the same answer from both, and whatever passes the admin
   * gate passes the login gate.
   */
  lemma RefinesLoginGate(req: Request, s: SessionMap)
    ensures !HasTruthyUser(s) ==> Process(req, s) == RequireAuthenticationMiddleware.Process(req, s)
    ensures Passes(Process(req, s)) ==> Passes(RequireAuthenticationMiddleware.Process(req, s))
  {
  }

  /**
   * Truthiness, not `Session::isAdmin`: an `is_admin` of 1 or "1" lets the
   * request through although the session helper does not call it admin.
   */
  lemma LooseAdminPasses(req: Request, s: SessionMap, flag: Val)
    requires flag == Int(1) || flag == Str("1")
    requires s == map[UserIdKey := Int(7), IsAdminKey := flag]
    ensures Passes(Process(req, s)) && !IsAdmin(s)
  {
  }
}

=== FILE: require_authentication_middleware.dfy ===
/**
 * The PSR-15 login gate: a request without a logged-in user is answered
 * with a redirect to the login page; otherwise the handler answers.
 */
module RequireAuthenticationMiddleware {
  import opened Wrappers
  import opened Php
  import opened Session
  import opened Middleware

  /**
   * `process($request, $handler)`. An outcome that passes stands for the
   * handler's response, returned unchanged.
   */
  function Process(req: Request, s: SessionMap): (o: Outcome)
    ensures Passes(o) <==> HasTruthyUser(s)
    ensures Passes(o) ==> o.session == s
    ensures !Passes(o) ==>
      && o.reply == Some(RedirectResponse("/login")) && !o.exits
      && Get(o.session, FlashKey) == Flash("error", LoginMessage)
      && Get(o.session, "redirect_url") == (if Truthy(req.routeName) then req.routeName else Get(s, "redirect_url"))
    ensures OnlyFlashAndRedirect(s, o.session)
  {
    if !HasTruthyUser(s) then Outcome(RequireLogin(s, req.routeName), Some(RedirectResponse("/login")), false)
    else Outcome(s, None, false)
  }

  /** Without a route name, an earlier post-login redirect target is kept. */
  lemma KeepsEarlierRedirect(req: Request, s: SessionMap)
    requires !HasTruthyUser(s) && !Truthy(req.routeName)
    ensures Get(Process(req, s).session, "redirect_url") == Get(s, "redirect_url")
  {
  }
}

=== FILE: sanitizer.dfy ===
/**
 * The request-input sanitizer: a table of named rules, each either a
 * method of the sanitizer (HTML escaping, date validation) or one of PHP's
 * sanitizing filters, applied field by field to the fields a request
 * actually carries.
 */
module Sanitizer {
  import opened Wrappers
  import opened Strings
  import opened Php
  import opened DateFormat

  /** A field's rule: a bare rule name, or a list whose head names the rule and whose second element is its argument. */
  datatype Rule = Named(name: string) | Listed(items: seq<string>)

  /** Why sanitizing stopped: an `InvalidArgumentException` naming the rule, or a `TypeError`. */
  datatype SanError = UnknownRule(rule: string) | TypeError

  /** The sanitized value of one field: a string, or null when a date does not validate. */
  type Clean = Option<string>

  /** The names the rule table defines. */
  predicate KnownRule(name: string) {
    name in {"string", "email", "int", "float", "url", "date"}
  }

  /** The rules implemented by a method of the sanitizer rather than by a filter. */
  predicate IsMethodRule(name: string) {
    name == "string" || name == "date"
  }

  /**
   * The rule's name: the rule itself, or the first list element. An empty
   * list has no first element; PHP reads null there, which as an array key
   * is the empty string.
   */
  function RuleName(rule: Rule): (n: string)
    ensures rule.Listed? && |rule.items| == 0 ==> n == ""
  {
    match rule
    case Named(n) => n
    case Listed(items) => if |items| > 0 then items[0] else ""
  }

  /**
   * `$rule[1] ?? null`: for a list its second element; for a bare name the
   * name's second character, since indexing a string yields a character.
   */
  function RuleArgument(rule: Rule): (r: Option<string>)
    ensures rule.Named? && |rule.name| >= 2 ==> r == Some([rule.name[1]])
    ensures rule.Listed? ==> (r.Some? <==> |rule.items| >= 2)
  {
    match rule
    case Named(n) => if |n| >= 2 then Some([n[1]]) else None
    case Listed(items) => if |items| >= 2 then Some(items[1]) else None
  }

  // ---------------------------------------------------------------
  // PHP's sanitizing filters: each removes every character outside its
  // whitelist and keeps the others in order.
  // ---------------------------------------------------------------

  /** `FILTER_SANITIZE_EMAIL`: letters, digits and ``!#$%&'*+-=?^_`{|}~@.[]``. */
  predicate EmailChar(c: char) {
    IsAlnum(c) || c in "!#$%&'*+-=?^_`{|}~@.[]"
  }

  /** `FILTER_SANITIZE_NUMBER_INT`, and `FILTER_SANITIZE_NUMBER_FLOAT` without flags: digits, plus and minus. */
  predicate NumberChar(c: char) {
    IsDigit(c) || c == '+' || c == '-'
  }

  /** `FILTER_SANITIZE_URL`: letters, digits and ``$-_.+!*'(),{}|\^~[]`<>#%";/?:@&=``. */
  predicate UrlChar(c: char) {
    IsAlnum(c) || c in "$-_.+!*'(),{}|\\^~[]`<>#%\";/?:@&="
  }

  /** The whitelist of each filter rule. */
  function FilterOf(name: string): char -> bool
    requires KnownRule(name) && !IsMethodRule(name)
  {
    if name == "email" then EmailChar
    else if name == "url" then UrlChar
    else NumberChar
  }

  /** `filter_var($value, FILTER_SANITIZE_...)` on a string. */
  function FilterVar(name: string, s: string): (r: string)
    requires KnownRule(name) && !IsMethodRule(name)
    ensures |r| <= |s|
    ensures forall i :: 0 <= i < |r| ==> FilterOf(name)(r[i])
    ensures forall c :: multiset(r)[c] == if FilterOf(name)(c) then multiset(s)[c] else 0
  {
    var r := Filter(s, FilterOf(name));
    assert forall i :: 0 <= i < |r| ==> r[i] in r;
    forall c
      ensures multiset(r)[c] == if FilterOf(name)(c) then multiset(s)[c] else 0
    {
      FilterMultiplicity(s, FilterOf(name), c);
    }
    r
  }

  /** A string already within a filter's whitelist passes through it unchanged. */
  lemma FilterVarKeepsClean(name: string, s: string)
    requires KnownRule(name) && !IsMethodRule(name)
    requires forall i :: 0 <= i < |s| ==> FilterOf(name)(s[i])
    ensures FilterVar(name, s) == s
  {
    FilterAllKept(s, FilterOf(name));
  }

  /** Filtering is idempotent. */
  lemma FilterVarIdempotent(name: string, s: string)
    requires KnownRule(name) && !IsMethodRule(name)
    ensures FilterVar(name, FilterVar(name, s)) == FilterVar(name, s)
  {
    FilterIdempotent(s, FilterOf(name));
  }

  // ---------------------------------------------------------------
  // htmlspecialchars($value, ENT_QUOTES, 'UTF-8')
  // ---------------------------------------------------------------

  /** The characters `htmlspecialchars` replaces under `ENT_QUOTES`. */
  predicate IsSpecial(c: char) {
    c == '&' || c == '"' || c == '\'' || c == '<' || c == '>'
  }

  function EscapeChar(c: char): (r: string)
    ensures |r| >= 1 && r[0] == (if IsSpecial(c) then '&' else c)
    ensures forall i :: 0 <= i < |r| ==> !IsSpecial(r[i]) || (i == 0 && r[i] == '&')
    ensures !IsSpecial(c) <==> r == [c]
  {
    match c
    case '&' => "&amp;"
    case '"' => "&quot;"
    case '\'' => "&#039;"
    case '<' => "&lt;"
    case '>' => "&gt;"
    case _ => [c]
  }

  /** `htmlspecialchars` with `ENT_QUOTES` and double encoding (the default). */
  function HtmlEscape(s: string): (r: string)
    ensures |r| >= |s|
    ensures '<' !in r && '>' !in r && '"' !in r && '\'' !in r
  {
    if |s| == 0 then ""
    else EscapeChar(s[0]) + HtmlEscape(s[1..])
  }

  /** The inverse, `htmlspecialchars_decode` with `ENT_QUOTES`, for the five entities the escape writes. */
  function HtmlDecode(t: string): (r: string)
    ensures |r| <= |t|
    decreases |t|
  {
    if |t| == 0 then ""
    else if IsPrefix("&amp;", t) then "&" + HtmlDecode(t[5..])
    else if IsPrefix("&quot;", t) then "\"" + HtmlDecode(t[6..])
    else if IsPrefix("&#039;", t) then "'" + HtmlDecode(t[6..])
    else if IsPrefix("&lt;", t) then "<" + HtmlDecode(t[4..])
    else if IsPrefix("&gt;", t) then ">" + HtmlDecode(t[4..])
    else [t[0]] + HtmlDecode(t[1..])
  }

  lemma DecodeEscapeChar(c: char, rest: string)
    ensures HtmlDecode(EscapeChar(c) + rest) == [c] + HtmlDecode(rest)
  {
    if !IsSpecial(c) {
      DecodePlain(c, rest);
    } else if c == '&' {
      DecodeEntity("&amp;", rest);
    } else if c == '"' {
      DecodeEntity("&quot;", rest);
    } else if c == '\'' {
      DecodeEntity("&#039;", rest);
    } else if c == '<' {
      DecodeEntity("&lt;", rest);
    } else {
      DecodeEntity("&gt;", rest);
    }
  }

  /** A character the escape leaves alone decodes as itself. */
  lemma DecodePlain(c: char, rest: string)
    requires !IsSpecial(c)
    ensures HtmlDecode([c] + rest) == [c] + HtmlDecode(rest)
  {
    var t := [c] + rest;
    assert t[0] == c && t[1..] == rest;
    assert !IsPrefix("&amp;", t) && !IsPrefix("&quot;", t) && !IsPrefix("&#039;", t);
    assert !IsPrefix("&lt;", t) && !IsPrefix("&gt;", t);
  }

  /** Each of the five entities decodes to the character it stands for. */
  lemma DecodeEntity(e: string, rest: string)
    requires e in {"&amp;", "&quot;", "&#039;", "&lt;", "&gt;"}
    ensures var c := if e == "&amp;" then '&' else if e == "&quot;" then '"'
      else if e == "&#039;" then '\'' else if e == "&lt;" then '<' else '>';
      HtmlDecode(e + rest) == [c] + HtmlDecode(rest)
  {
    var t := e + rest;
    assert t[..|e|] == e && t[|e|..] == rest;
    assert IsPrefix(e, t);
    if e != "&amp;" {
      assert t[1] != 'a';
      assert !IsPrefix("&amp;", t);
      if e != "&quot;" {
        assert t[1] != 'q';
        assert !IsPrefix("&quot;", t);
        if e != "&#039;" {
          assert t[1] != '#';
          assert !IsPrefix("&#039;", t);
          if e != "&lt;" {
            assert t[1] != 'l';
            assert !IsPrefix("&lt;", t);
          }
        }
      }
    }
  }

  /** Decoding undoes escaping: no information is lost. */
  lemma {:induction false} HtmlRoundTrip(s: string)
    ensures HtmlDecode(HtmlEscape(s)) == s
    decreases |s|
  {
    if |s| > 0 {
      DecodeEscapeChar(s[0], HtmlEscape(s[1..]));
      HtmlRoundTrip(s[1..]);
    }
  }

  /** A string without special characters is left unchanged. */
  lemma {:induction false} HtmlEscapePlain(s: string)
    requires forall i :: 0 <= i < |s| ==> !IsSpecial(s[i])
    ensures HtmlEscape(s) == s
    decreases |s|
  {
    if |s| > 0 {
      HtmlEscapePlain(s[1..]);
    }
  }

  /** An ampersand survives escaping, so escaping an escaped ampersand encodes it twice. */
  lemma {:induction false} HtmlEscapeKeepsAmpersand(s: string)
    requires '&' in s
    ensures '&' in HtmlEscape(s)
    decreases |s|
  {
    if s[0] != '&' {
      assert '&' in s[1..];
      HtmlEscapeKeepsAmpersand(s[1..]);
    }
  }

  /** Escaping is not idempotent: a value with a special character changes when sanitized twice. */
  lemma HtmlEscapeNotIdempotent(s: string)
    requires exists i :: 0 <= i < |s| && IsSpecial(s[i])
    ensures HtmlEscape(HtmlEscape(s)) != HtmlEscape(s)
  {
    var t := HtmlEscape(s);
    var i :| 0 <= i < |s| && IsSpecial(s[i]);
    HtmlEscapeGrows(s, i);
    HtmlEscapeGrowsAt(t);
  }

  lemma {:induction false} HtmlEscapeGrows(s: string, i: int)
    requires 0 <= i < |s| && IsSpecial(s[i])
    ensures |HtmlEscape(s)| > |s|
    ensures '&' in HtmlEscape(s)
    decreases |s|
  {
    if i > 0 {
      HtmlEscapeGrows(s[1..], i - 1);
    } else {
      assert HtmlEscape(s)[0] == '&';
    }
  }

  lemma HtmlEscapeGrowsAt(t: string)
    requires '&' in t
    ensures HtmlEscape(t) != t
  {
    var i :| 0 <= i < |t| && t[i] == '&';
    HtmlEscapeGrows(t, i);
  }

  // ---------------------------------------------------------------
  // Applying one rule, and the whole table
  // ---------------------------------------------------------------

  /**
   * `sanitizeDate($value, $format)`: the value when it survives a parse
   * and render with the format, otherwise null; a null format is a
   * `TypeError` under strict types.
   */
  function SanitizeDate(value: string, format: Option<string>): (r: Result<Clean, SanError>)
    ensures format.None? <==> r == Failure(TypeError)
    ensures format.Some? ==> r == Success(if Survives(format.value, value) then Some(value) else None)
  {
    match format
    case None => Failure(TypeError)
    case Some(f) => Success(if Survives(f, value) then Some(value) else None)
  }

  /**
   * `applySanitizationRule`: trim (a `TypeError` for a non-string under
   * strict types), check the rule name, then call the rule's method or
   * filter. A filter named through a list reaches `isset` with an array
   * offset, which is a `TypeError`.
   */
  function Apply(v: Val, rule: Rule): (r: Result<Clean, SanError>)
    ensures r.Success? ==> v.Str? && KnownRule(RuleName(rule))
    ensures v.Str? && RuleName(rule) == "string" ==>
      r.Success? && r.value.Some? && HtmlDecode(r.value.value) == Trim(v.s)
  {
    if !v.Str? then Failure(TypeError)
    else
      var value := Trim(v.s);
      var name := RuleName(rule);
      if !KnownRule(name) then Failure(UnknownRule(name))
      else if name == "string" then
        HtmlRoundTrip(value);
        Success(Some(HtmlEscape(value)))
      else if name == "date" then SanitizeDate(value, RuleArgument(rule))
      else if rule.Listed? then Failure(TypeError)
      else Success(Some(FilterVar(name, value)))
  }

  /**
   * The message of what sanitizing throws. An unknown rule is refused by
   * the `isset` test on the rule table, with the rule named in quotes.
   */
  function ErrorMessage(e: SanError): string {
    match e
    case UnknownRule(name) => "InvalidArgumentException: Sanitization rule '" + name + "' does not exist."
    case TypeError => "TypeError"
  }

  /** Which outcome each kind of value and rule gets. */
  lemma ApplyOutcomes(v: Val, rule: Rule)
    ensures !v.Str? ==> Apply(v, rule) == Failure(TypeError)
    ensures v.Str? && !KnownRule(RuleName(rule)) ==> Apply(v, rule) == Failure(UnknownRule(RuleName(rule)))
    ensures Apply(v, rule).Failure? && Apply(v, rule).error.UnknownRule? ==> !KnownRule(Apply(v, rule).error.rule)
    ensures Apply(v, rule).Success? ==> v.Str? && KnownRule(RuleName(rule))
    ensures Apply(v, rule).Success? && RuleName(rule) != "date" ==> Apply(v, rule).value.Some?
  {
  }

  /** The string rule, bare or listed, is the HTML escape of the trimmed value. */
  lemma ApplyString(s: string, rule: Rule)
    requires RuleName(rule) == "string"
    ensures Apply(Str(s), rule) == Success(Some(HtmlEscape(Trim(s))))
    ensures '<' !in Apply(Str(s), rule).value.value && '>' !in Apply(Str(s), rule).value.value
    ensures HtmlDecode(Apply(Str(s), rule).value.value) == Trim(s)
  {
    HtmlRoundTrip(Trim(s));
  }

  /** A bare filter rule keeps the trimmed value's whitelisted characters; a listed one is a `TypeError`. */
  lemma ApplyFilter(s: string, rule: Rule)
    requires RuleName(rule) in {"email", "int", "float", "url"}
    ensures rule.Named? ==> Apply(Str(s), rule) == Success(Some(Filter(Trim(s), FilterOf(rule.name))))
    ensures rule.Listed? ==> Apply(Str(s), rule) == Failure(TypeError)
  {
  }

  /**
   * The date rule with a format keeps the trimmed value exactly when it is
   * the canonical rendering of a valid date in that format.
   */
  lemma ApplyDate(s: string, format: string)
    ensures Apply(Str(s), Listed(["date", format])).Success?
    ensures Apply(Str(s), Listed(["date", format])).value == Some(Trim(s)) <==> Survives(format, Trim(s))
    ensures Apply(Str(s), Listed(["date", format])).value.Some? ==> Apply(Str(s), Listed(["date", format])).value.value == Trim(s)
  {
  }

  /**
   * The bare rule 'date' passes the single character "a" as the format,
   * which no value survives, so every date sanitized that way is null; a
   * list with no format is a `TypeError`.
   */
  lemma ApplyDateWithoutFormat(s: string)
    ensures Apply(Str(s), Named("date")) == Success(None)
    ensures Apply(Str(s), Listed(["date"])) == Failure(TypeError)
  {
    assert RuleArgument(Named("date")) == Some("a");
    assert ParseFormat("a").None? by {
      assert !OnlyModelledLetters("a") by {
        assert FieldOf("a"[0]).None? && IsAlpha("a"[0]);
      }
    }
  }

  /** The fields of `rules` the input carries a non-null value for. */
  function PresentFields(input: map<string, Val>, rules: seq<(string, Rule)>): (r: set<string>)
    ensures forall f :: f in r <==> exists i :: 0 <= i < |rules| && rules[i].0 == f && IsSet(input, f)
  {
    set i | 0 <= i < |rules| && IsSet(input, rules[i].0) :: rules[i].0
  }

  /** Every field the input carries sanitizes without error. */
  predicate AllApply(input: map<string, Val>, rules: seq<(string, Rule)>) {
    forall i :: 0 <= i < |rules| && IsSet(input, rules[i].0) ==> Apply(input[rules[i].0], rules[i].1).Success?
  }

  /** `rules[i]` is the first entry the input carries whose rule fails. */
  predicate FirstFailure(input: map<string, Val>, rules: seq<(string, Rule)>, i: int) {
    0 <= i < |rules| && IsSet(input, rules[i].0) && Apply(input[rules[i].0], rules[i].1).Failure?
    && AllApply(input, rules[..i])
  }

  /** Both predicates over the rules, split into the first rule and the rest. */
  lemma RulesStep(input: map<string, Val>, rules: seq<(string, Rule)>)
    requires |rules| > 0
    ensures var field := rules[0].0;
      PresentFields(input, rules) == (if IsSet(input, field) then {field} else {}) + PresentFields(input, rules[1..])
    ensures AllApply(input, rules) <==>
      (IsSet(input, rules[0].0) ==> Apply(input[rules[0].0], rules[0].1).Success?) && AllApply(input, rules[1..])
  {
    var rest := rules[1..];
    assert forall i :: 1 <= i < |rules| ==> rules[i] == rest[i - 1];
  }

  /** The loop of `sanitize` from a given partial result. */
  function SanitizeFrom(input: map<string, Val>, rules: seq<(string, Rule)>, acc: map<string, Clean>)
    : (r: Result<map<string, Clean>, SanError>)
    ensures r.Success? <==> AllApply(input, rules)
    ensures r.Success? ==> r.value.Keys == acc.Keys + PresentFields(input, rules)
    ensures r.Success? ==> forall f :: f in acc && f !in PresentFields(input, rules) ==> r.value[f] == acc[f]
    decreases |rules|
  {
    if |rules| == 0 then Success(acc)
    else
      var field := rules[0].0;
      var rest := rules[1..];
      RulesStep(input, rules);
      if IsSet(input, field) then
        match Apply(input[field], rules[0].1)
        case Failure(e) => Failure(e)
        case Success(v) => SanitizeFrom(input, rest, acc[field := v])
      else SanitizeFrom(input, rest, acc)
  }

  /**
   * `sanitize($input, $fieldRules)`: the sanitized value of every field
   * the input carries, or the first error (PHP throws and the caller sees
   * no partial result).
   */
  function Sanitize(input: map<string, Val>, rules: seq<(string, Rule)>): (r: Result<map<string, Clean>, SanError>)
    ensures r.Success? <==> AllApply(input, rules)
    ensures r.Success? ==> r.value.Keys == PresentFields(input, rules)
  {
    SanitizeFrom(input, rules, map[])
  }

  /** Rules name each field at most once, as PHP array keys do. */
  predicate DistinctFields(rules: seq<(string, Rule)>) {
    forall i, j :: 0 <= i < j < |rules| ==> rules[i].0 != rules[j].0
  }

  /** With distinct fields, each present field holds its own rule's result. */
  lemma {:induction false} SanitizeFromValues(input: map<string, Val>, rules: seq<(string, Rule)>, acc: map<string, Clean>)
    requires DistinctFields(rules)
    requires SanitizeFrom(input, rules, acc).Success?
    ensures forall i :: 0 <= i < |rules| && IsSet(input, rules[i].0) ==>
      SanitizeFrom(input, rules, acc).value[rules[i].0] == Apply(input[rules[i].0], rules[i].1).value
    decreases |rules|
  {
    if |rules| > 0 {
      var field := rules[0].0;
      var rest := rules[1..];
      assert forall i :: 1 <= i < |rules| ==> rules[i] == rest[i - 1];
      var acc' := if IsSet(input, field) then acc[field := Apply(input[field], rules[0].1).value] else acc;
      assert SanitizeFrom(input, rules, acc) == SanitizeFrom(input, rest, acc');
      SanitizeFromValues(input, rest, acc');
      if IsSet(input, field) {
        assert field !in PresentFields(input, rest);
      }
    }
  }

  lemma SanitizeValues(input: map<string, Val>, rules: seq<(string, Rule)>)
    requires DistinctFields(rules)
    requires Sanitize(input, rules).Success?
    ensures forall i :: 0 <= i < |rules| && IsSet(input, rules[i].0) ==>
      Sanitize(input, rules).value[rules[i].0] == Apply(input[rules[i].0], rules[i].1).value
  {
    SanitizeFromValues(input, rules, map[]);
  }

  /** A failing sanitize reports the error of the first present field whose rule fails. */
  lemma {:induction false} SanitizeFromFirstError(input: map<string, Val>, rules: seq<(string, Rule)>, acc: map<string, Clean>)
    requires SanitizeFrom(input, rules, acc).Failure?
    ensures exists i :: (FirstFailure(input, rules, i)
      && SanitizeFrom(input, rules, acc).error == Apply(input[rules[i].0], rules[i].1).error)
    decreases |rules|
  {
    var field := rules[0].0;
    var rest := rules[1..];
    assert forall i :: 1 <= i < |rules| ==> rules[i] == rest[i - 1];
    assert rules[..0] == [];
    if IsSet(input, field) && Apply(input[field], rules[0].1).Failure? {
      assert FirstFailure(input, rules, 0);
    } else {
      var acc' := if IsSet(input, field) then acc[field := Apply(input[field], rules[0].1).value] else acc;
      assert SanitizeFrom(input, rules, acc) == SanitizeFrom(input, rest, acc');
      SanitizeFromFirstError(input, rest, acc');
      var i :| FirstFailure(input, rest, i)
        && SanitizeFrom(input, rest, acc').error == Apply(input[rest[i].0], rest[i].1).error;
      assert rules[..i + 1] == [rules[0]] + rest[..i];
      assert FirstFailure(input, rules, i + 1);
    }
  }

  lemma SanitizeFirstError(input: map<string, Val>, rules: seq<(string, Rule)>)
    requires Sanitize(input, rules).Failure?
    ensures exists i :: (FirstFailure(input, rules, i)
      && Sanitize(input, rules).error == Apply(input[rules[i].0], rules[i].1).error)
  {
    SanitizeFromFirstError(input, rules, map[]);
  }

  /** Fields the input does not carry, or carries as null, never reach a rule, so their rules cannot fail. */
  lemma SanitizeIgnoresAbsent(input: map<string, Val>, rules: seq<(string, Rule)>, f: string)
    requires !IsSet(input, f)
    ensures Sanitize(input, rules).Success? ==> f !in Sanitize(input, rules).value
    ensures Sanitize(input, rules) == Sanitize(input - {f}, rules)
  {
    SanitizeFromIgnoresAbsent(input, rules, f, map[]);
  }

  lemma {:induction false} SanitizeFromIgnoresAbsent(input: map<string, Val>, rules: seq<(string, Rule)>, f: string, acc: map<string, Clean>)
    requires !IsSet(input, f)
    ensures SanitizeFrom(input, rules, acc) == SanitizeFrom(input - {f}, rules, acc)
    decreases |rules|
  {
    if |rules| > 0 {
      var field := rules[0].0;
      assert IsSet(input, field) <==> IsSet(input - {f}, field);
      if IsSet(input, field) {
        assert input[field] == (input - {f})[field];
        match Apply(input[field], rules[0].1)
        case Failure(e) =>
        case Success(v) => SanitizeFromIgnoresAbsent(input, rules[1..], f, acc[field := v]);
      } else {
        SanitizeFromIgnoresAbsent(input, rules[1..], f, acc);
      }
    }
  }
}

=== FILE: segling.dfy ===
/**
 * A sailing (segling) and the crew lookup by role name. Crew rows are the
 * associative arrays the repository fetches: column name to value.
 */
module Segling {
  import opened Wrappers
  import opened Strings
  import opened Php

  /** One crew row: `medlem_id`, `fornamn`, `efternamn`, `roll_namn`, ... */
  type CrewRow = map<string, Val>

  datatype Segling = Segling(
    id: int,
    startDat: string,
    slutDat: string,
    skeppslag: string,
    kommentar: Option<string>,
    deltagare: seq<CrewRow>,
    createdAt: string,
    updatedAt: string)

  /** `new Segling()` with every argument defaulted. */
  function NewSegling(): (s: Segling)
    ensures s.id == 0 && s.startDat == "" && s.slutDat == "" && s.skeppslag == ""
    ensures s.kommentar.None? && |s.deltagare| == 0
    ensures s.createdAt == "" && s.updatedAt == ""
  {
    Segling(0, "", "", "", None, [], "", "")
  }

  /** One entry of the lookup's result: the member id and the two names. */
  datatype Picked = Picked(id: Val, fornamn: Val, efternamn: Val)

  /** A missing column reads as null. */
  function Pick(row: CrewRow): Picked {
    Picked(Lookup(row, "medlem_id"), Lookup(row, "fornamn"), Lookup(row, "efternamn"))
  }

  /** `$crewMember['roll_namn'] === $targetRole`: identical type and contents. */
  predicate HasRoleName(row: CrewRow, target: string) {
    Lookup(row, "roll_namn") == Str(target)
  }

  function RoleIs(target: string): CrewRow -> bool {
    row => HasRoleName(row, target)
  }

  function Picks(rows: seq<CrewRow>): (r: seq<Picked>)
    ensures |r| == |rows|
    ensures forall k :: 0 <= k < |rows| ==> r[k] == Pick(rows[k])
  {
    seq(|rows|, k requires 0 <= k < |rows| => Pick(rows[k]))
  }

  /**
   * The crew rows a role lookup reports, in crew order: the rows whose
   * role name is the target.
   */
  function Matching(s: Segling, target: string): seq<CrewRow> {
    Filter(s.deltagare, RoleIs(target))
  }

  /** `getDeltagareByRoleName($targetRole)` */
  method GetDeltagareByRoleName(s: Segling, target: string) returns (results: seq<Picked>)
    ensures results == Picks(Matching(s, target))
    ensures |results| <= |s.deltagare|
  {
    results := [];
    var i := 0;
    while i < |s.deltagare|
      invariant 0 <= i <= |s.deltagare|
      invariant results == Picks(Filter(s.deltagare[..i], RoleIs(target)))
    {
      var crew := s.deltagare[i];
      assert s.deltagare[..i + 1][..i] == s.deltagare[..i];
      if Lookup(crew, "roll_namn") == Str(target) {
        results := results + [Pick(crew)];
      }
      i := i + 1;
    }
    assert s.deltagare[..i] == s.deltagare;
  }

  /**
   * The reported rows are the crew rows at increasing positions, and
   * every row with the target role is among them.
   */
  lemma MatchingInOrder(s: Segling, target: string)
    ensures var idx := Keep(s.deltagare, RoleIs(target));
      && Matching(s, target) == Select(s.deltagare, idx)
      && (forall k, l :: 0 <= k < l < |idx| ==> idx[k] < idx[l])
      && (forall k :: 0 <= k < |idx| ==> HasRoleName(s.deltagare[idx[k]], target))
      && (forall i :: 0 <= i < |s.deltagare| && HasRoleName(s.deltagare[i], target) ==> i in idx)
  {
    FilterIsSelectKeep(s.deltagare, RoleIs(target));
  }

  /** A row is reported exactly when its role name is the target string. */
  lemma MatchingMembership(s: Segling, target: string, row: CrewRow)
    ensures row in Matching(s, target) <==> row in s.deltagare && HasRoleName(row, target)
  {
    if row in s.deltagare && HasRoleName(row, target) {
      var i :| 0 <= i < |s.deltagare| && s.deltagare[i] == row;
      assert RoleIs(target)(s.deltagare[i]);
    }
  }

  /** The lookup is empty exactly when no crew row carries the target role. */
  lemma EmptyIffNoMatch(s: Segling, target: string)
    ensures |Matching(s, target)| == 0 <==> forall i :: 0 <= i < |s.deltagare| ==> !HasRoleName(s.deltagare[i], target)
  {
    var m := Matching(s, target);
    HeadIsMember(m);
    if exists i :: 0 <= i < |s.deltagare| && HasRoleName(s.deltagare[i], target) {
      var i :| 0 <= i < |s.deltagare| && HasRoleName(s.deltagare[i], target);
      assert RoleIs(target)(s.deltagare[i]);
    }
  }

  /** A role name stored as a number never equals the same digits as a string. */
  lemma StrictRoleMatch(row: CrewRow, n: int)
    requires "roll_namn" in row && row["roll_namn"] == Int(n)
    ensures forall target :: !HasRoleName(row, target)
  {
  }

  /** Role names are compared case by case: "skeppare" does not find "Skeppare". */
  lemma CaseSensitiveRole(row: CrewRow)
    requires "roll_namn" in row && row["roll_namn"] == Str("Skeppare")
    ensures HasRoleName(row, "Skeppare") && !HasRoleName(row, "skeppare")
  {
    assert "Skeppare"[0] != "skeppare"[0];
  }

  /** Three crew rows with the target role at the first and last give those two, in order. */
  lemma FirstAndLastMatch(a: CrewRow, b: CrewRow, c: CrewRow, target: string)
    requires HasRoleName(a, target) && !HasRoleName(b, target) && HasRoleName(c, target)
    ensures Picks(Matching(NewSegling().(deltagare := [a, b, c]), target)) == [Pick(a), Pick(c)]
  {
    FilterThree(a, b, c, RoleIs(target));
  }

  /** A sailing without crew reports nobody, whatever the role. */
  lemma NoCrewNoMatch(target: string)
    ensures Matching(NewSegling(), target) == []
  {
  }
}

=== FILE: segling_service.dfy ===
/**
 * The sailing service: the edit view's participant list with payment
 * status, and the create, update, delete and crew operations. The
 * repository calls are parameters; each records the call it was given so
 * the contracts can say which calls were made.
 */
module SeglingService {
  import opened Wrappers
  import opened Strings
  import opened Php
  import opened Sanitizer
  import opened Segling

  /** `SeglingServiceResult`: success, a message, the route to redirect to, and a new sailing's id. */
  datatype ServiceResult = ServiceResult(success: bool, message: string, redirect: Option<string>, id: Option<int>)

  const NotFound := "Segling not found"
  const IdTypeError := "TypeError: App\\Models\\BetalningRepository::memberHasPayed(): Argument #1 ($medlemId) must be of type int"
  const PaidKey := "har_betalt"
  const UpdatedMessage := "Segling uppdaterad!"
  const UpdateFailedMessage := "Kunde inte uppdatera seglingen. Försök igen."
  const DeletedMessage := "Seglingen är nu borttagen!"
  const DeleteFailedMessage := "Kunde inte ta bort seglingen. Försök igen."
  const MissingFieldsMessage := "Indata saknades. Kunde inte spara seglingen. Försök igen."
  const CreatedMessage := "Seglingen är nu skapad!"
  const CreateFailedMessage := "Kunde inte spara till databas. Försök igen."
  const MissingInput := "Missing input"
  const AlreadyOnBoard := "Medlemmen är redan tillagd på seglingen."
  const AddedMessage := "Medlem tillagd på segling"
  const InsertFailed := "Failed to insert row"
  const PdoPrefix := "PDO error: "
  const InvalidData := "Invalid data"
  const RemovedMessage := "Member removed successfully"
  const RemoveFailed := "Deletion failed"
  const ListRoute := "segling-list"
  const EditRoute := "segling-edit"
  const CreateRoute := "segling-show-create"

  /** The sanitizing rules shared by create and update. */
  const SeglingRules: seq<(string, Rule)> := [
    ("startdat", Listed(["date", "Y-m-d"])),
    ("slutdat", Listed(["date", "Y-m-d"])),
    ("skeppslag", Named("string")),
    ("kommentar", Named("string"))]

  // ---------------------------------------------------------------
  // getSeglingEditData
  // ---------------------------------------------------------------

  /** `(int) substr($start_dat, 0, 4)`: the cast of at most the first four characters. */
  function Year(startDat: string): int {
    IntCast(if |startDat| < 4 then startDat else startDat[..4])
  }

  /** A start date that begins with four digits gives the year those digits spell. */
  lemma YearOfDate(startDat: string)
    requires |startDat| >= 4 && AllDigits(startDat[..4])
    ensures Year(startDat) == DigitsValue(startDat[..4])
  {
    IntCastOfDigits(startDat[..4]);
  }

  /** The crew row's member id reaches `memberHasPayed(int $medlemId, ...)` only as an integer. */
  predicate IntMemberId(row: CrewRow) {
    Lookup(row, "medlem_id").Int?
  }

  /**
   * One participant with `har_betalt` set: every other column is kept,
   * and the member id, an integer, is what the payment lookup is asked
   * about.
   */
  function MarkRow(row: CrewRow, year: int, hasPayed: (int, int) -> bool): (r: CrewRow)
    requires IntMemberId(row)
    ensures r.Keys == row.Keys + {PaidKey}
    ensures r[PaidKey] == Bool(hasPayed(Lookup(row, "medlem_id").i, year))
    ensures forall c :: c in row && c != PaidKey ==> r[c] == row[c]
  {
    row[PaidKey := Bool(hasPayed(row["medlem_id"].i, year))]
  }

  /**
   * The loop of `getSeglingEditData`: each row, in order, marked with
   * whether that member paid for `year`. Under strict types a member id
   * that is not an integer is a `TypeError`.
   */
  function WithPayments(rows: seq<CrewRow>, year: int, hasPayed: (int, int) -> bool): (r: Result<seq<CrewRow>, string>)
    ensures r.Failure? <==> exists k :: 0 <= k < |rows| && !IntMemberId(rows[k])
    ensures r.Failure? ==> r.error == IdTypeError
    ensures r.Success? ==> |r.value| == |rows|
    ensures r.Success? ==> forall k :: 0 <= k < |rows| ==> IntMemberId(rows[k]) && r.value[k] == MarkRow(rows[k], year, hasPayed)
  {
    if exists k :: 0 <= k < |rows| && !IntMemberId(rows[k]) then Failure(IdTypeError)
    else Success(seq(|rows|, k requires 0 <= k < |rows| => MarkRow(rows[k], year, hasPayed)))
  }

  /**
   * `getSeglingEditData($id)`, given what the repository found: the
   * sailing with its participants, in order, marked paid or unpaid for the
   * year of its start date. The role and crew lists the view also receives
   * are repository reads and are not modelled.
   */
  function EditData(found: Option<Segling>, hasPayed: (int, int) -> bool): (r: Result<Segling, string>)
    ensures found.None? ==> r == Failure(NotFound)
    ensures found.Some? ==> (r.Failure? <==> exists k :: 0 <= k < |found.value.deltagare| && !IntMemberId(found.value.deltagare[k]))
    ensures found.Some? && r.Success? ==>
      && r.value == found.value.(deltagare := r.value.deltagare)
      && |r.value.deltagare| == |found.value.deltagare|
      && forall k :: 0 <= k < |r.value.deltagare| ==>
           IntMemberId(found.value.deltagare[k]) &&
           r.value.deltagare[k] == MarkRow(found.value.deltagare[k], Year(found.value.startDat), hasPayed)
  {
    match found
    case None => Failure(NotFound)
    case Some(s) =>
      match WithPayments(s.deltagare, Year(s.startDat), hasPayed)
      case Failure(e) => Failure(e)
      case Success(rows) => Success(s.(deltagare := rows))
  }

  /**
   * Marking payments leaves the crew lookups of the edit view unchanged:
   * `har_betalt` is neither the role column nor one of the picked columns.
   */
  lemma EditDataKeepsCrewLookup(found: Option<Segling>, hasPayed: (int, int) -> bool, target: string)
    requires found.Some? && EditData(found, hasPayed).Success?
    ensures Picks(Matching(EditData(found, hasPayed).value, target)) == Picks(Matching(found.value, target))
  {
    var s := found.value;
    var t := EditData(found, hasPayed).value;
    forall k | 0 <= k < |s.deltagare|
      ensures RoleIs(target)(t.deltagare[k]) == RoleIs(target)(s.deltagare[k])
      ensures Pick(t.deltagare[k]) == Pick(s.deltagare[k])
    {
      MarkRowKeepsColumns(s.deltagare[k], Year(s.startDat), hasPayed, target);
    }
    PicksOfFilterAgree(t.deltagare, s.deltagare, RoleIs(target));
  }

  lemma MarkRowKeepsColumns(row: CrewRow, year: int, hasPayed: (int, int) -> bool, target: string)
    requires IntMemberId(row)
    ensures RoleIs(target)(MarkRow(row, year, hasPayed)) == RoleIs(target)(row)
    ensures Pick(MarkRow(row, year, hasPayed)) == Pick(row)
  {
    var r := MarkRow(row, year, hasPayed);
    assert Lookup(r, "roll_namn") == Lookup(row, "roll_namn");
    assert Lookup(r, "medlem_id") == Lookup(row, "medlem_id");
    assert Lookup(r, "fornamn") == Lookup(row, "fornamn");
    assert Lookup(r, "efternamn") == Lookup(row, "efternamn");
  }

  /** Two crews that agree row by row on the predicate and on the picked columns give the same picks. */
  lemma {:induction false} PicksOfFilterAgree(a: seq<CrewRow>, b: seq<CrewRow>, p: CrewRow -> bool)
    requires |a| == |b|
    requires forall k :: 0 <= k < |a| ==> p(a[k]) == p(b[k]) && Pick(a[k]) == Pick(b[k])
    ensures Picks(Filter(a, p)) == Picks(Filter(b, p))
  {
    if |a| > 0 {
      var n := |a| - 1;
      PicksOfFilterAgree(a[..n], b[..n], p);
      PicksConcat(Filter(a[..n], p), [a[n]]);
      PicksConcat(Filter(b[..n], p), [b[n]]);
    }
  }

  lemma PicksConcat(x: seq<CrewRow>, y: seq<CrewRow>)
    ensures Picks(x + y) == Picks(x) + Picks(y)
  {
  }

  // ---------------------------------------------------------------
  // updateSegling, deleteSegling, createSegling
  // ---------------------------------------------------------------

  /**
   * `updateSegling($id, $postData)`: the repository's update receives the
   * sanitized values. A sanitizer exception propagates.
   */
  function UpdateSegling(post: map<string, Val>, update: map<string, Clean> -> bool): (r: Result<ServiceResult, SanError>)
    ensures r.Failure? <==> !AllApply(post, SeglingRules)
    ensures r.Success? ==> (r.value.success <==> update(Sanitize(post, SeglingRules).value))
    ensures r.Success? && r.value.success ==> r.value == ServiceResult(true, UpdatedMessage, Some(ListRoute), None)
    ensures r.Success? && !r.value.success ==> r.value == ServiceResult(false, UpdateFailedMessage, None, None)
  {
    match Sanitize(post, SeglingRules)
    case Failure(e) => Failure(e)
    case Success(clean) =>
      if update(clean) then Success(ServiceResult(true, UpdatedMessage, Some(ListRoute), None))
      else Success(ServiceResult(false, UpdateFailedMessage, None, None))
  }

  /** `deleteSegling($id)`: both outcomes return to the list. */
  function DeleteSegling(deleted: bool): (r: ServiceResult)
    ensures r.success == deleted && r.redirect == Some(ListRoute) && r.id.None?
    ensures r.message == if deleted then DeletedMessage else DeleteFailedMessage
  {
    if deleted then ServiceResult(true, DeletedMessage, Some(ListRoute), None)
    else ServiceResult(false, DeleteFailedMessage, Some(ListRoute), None)
  }

  /** `empty($cleanValues[$f])`: absent, null, "" or "0". */
  predicate CleanEmpty(clean: map<string, Clean>, f: string) {
    f !in clean || clean[f].None? || EmptyStr(clean[f].value)
  }

  /** A sanitized form lacks a start date, an end date or a crew group. */
  predicate MissingFields(clean: map<string, Clean>) {
    CleanEmpty(clean, "startdat") || CleanEmpty(clean, "slutdat") || CleanEmpty(clean, "skeppslag")
  }

  /**
   * The part of `createSegling` after sanitizing: require the three
   * fields, then create; the repository's result is truthy for a new id.
   */
  function CreateFromClean(clean: map<string, Clean>, create: map<string, Clean> -> Option<int>): (r: ServiceResult)
    ensures MissingFields(clean) ==> r == ServiceResult(false, MissingFieldsMessage, Some(CreateRoute), None)
    ensures !MissingFields(clean) ==> (r.success <==> Truthy(IdVal(create(clean))))
    ensures r.success ==>
              (!MissingFields(clean) && create(clean).Some? && create(clean).value != 0 &&
               r == ServiceResult(true, CreatedMessage, Some(EditRoute), create(clean)))
    ensures !r.success ==> r.redirect == Some(CreateRoute) && r.id.None?
  {
    if MissingFields(clean) then ServiceResult(false, MissingFieldsMessage, Some(CreateRoute), None)
    else
      var id := create(clean);
      if Truthy(IdVal(id)) then ServiceResult(true, CreatedMessage, Some(EditRoute), id)
      else ServiceResult(false, CreateFailedMessage, Some(CreateRoute), None)
  }

  /** `createSegling($postData)`: a sanitizer exception propagates; otherwise the sanitized form decides. */
  function CreateSegling(post: map<string, Val>, create: map<string, Clean> -> Option<int>): (r: Result<ServiceResult, SanError>)
    ensures r.Failure? <==> !AllApply(post, SeglingRules)
    ensures r.Success? ==> r.value == CreateFromClean(Sanitize(post, SeglingRules).value, create)
  {
    match Sanitize(post, SeglingRules)
    case Failure(e) => Failure(e)
    case Success(clean) => Success(CreateFromClean(clean, create))
  }

  /** The repository's `?int` result as a PHP value. */
  function IdVal(id: Option<int>): Val {
    match id case None => Null case Some(i) => Int(i)
  }

  /** A form missing a required field never reaches the repository: the outcome is the same whatever `create` would do. */
  lemma CreateChecksBeforeRepository(post: map<string, Val>, c1: map<string, Clean> -> Option<int>, c2: map<string, Clean> -> Option<int>)
    requires AllApply(post, SeglingRules) && MissingFields(Sanitize(post, SeglingRules).value)
    ensures CreateSegling(post, c1) == CreateSegling(post, c2)
    ensures !CreateSegling(post, c1).value.success
  {
  }

  /** A start date that is not a valid Y-m-d date sanitizes to null, so the create stops at the required-field check. */
  lemma InvalidStartDateIsMissing(post: map<string, Val>, create: map<string, Clean> -> Option<int>)
    requires AllApply(post, SeglingRules)
    requires IsSet(post, "startdat") && post["startdat"].Str?
    requires !DateFormat.Survives("Y-m-d", Trim(post["startdat"].s))
    ensures CreateSegling(post, create) == Success(ServiceResult(false, MissingFieldsMessage, Some(CreateRoute), None))
  {
    SeglingRulesDistinct();
    SanitizeValues(post, SeglingRules);
    assert SeglingRules[0] == ("startdat", Listed(["date", "Y-m-d"]));
    ApplyDate(post["startdat"].s, "Y-m-d");
    assert "startdat" in PresentFields(post, SeglingRules);
  }

  lemma SeglingRulesDistinct()
    ensures DistinctFields(SeglingRules)
  {
  }

  // ---------------------------------------------------------------
  // addMemberToSegling, removeMemberFromSegling
  // ---------------------------------------------------------------

  /** A crew change and the repository call it made, if any: (sailing id, member id, role id). */
  datatype AddRun = AddRun(result: ServiceResult, call: Option<(int, int, Option<int>)>)

  /** The role id passed on: null when no role was posted, the cast value otherwise. */
  function RoleArgument(post: map<string, Val>): (r: Option<int>)
    ensures r.None? <==> !IsSet(post, "segling_roll")
  {
    if IsSet(post, "segling_roll") then Some(ValToInt(post["segling_roll"])) else None
  }

  /**
   * `addMemberToSegling($postData)`: both ids must be set; a member
   * already aboard is refused before any insert; a `PDOException` from the
   * insert becomes a failure naming its message.
   */
  function AddMember(post: map<string, Val>, aboard: (int, int) -> bool, insert: (int, int, Option<int>) -> Effect<bool>)
    : (r: AddRun)
    ensures r.result.redirect.None? && r.result.id.None?
    ensures !IsSet(post, "segling_id") || !IsSet(post, "segling_person") ==> r == AddRun(ServiceResult(false, MissingInput, None, None), None)
    ensures r.call.Some? <==>
      IsSet(post, "segling_id") && IsSet(post, "segling_person") &&
      !aboard(ValToInt(post["segling_id"]), ValToInt(post["segling_person"]))
    ensures r.call.Some? ==>
      r.call.value == (ValToInt(post["segling_id"]), ValToInt(post["segling_person"]), RoleArgument(post))
    ensures IsSet(post, "segling_id") && IsSet(post, "segling_person") && r.call.None? ==> r.result.message == AlreadyOnBoard
    ensures r.result.success <==> r.call.Some? && insert(r.call.value.0, r.call.value.1, r.call.value.2) == Done(true)
    ensures r.call.Some? && insert(r.call.value.0, r.call.value.1, r.call.value.2).Threw? ==>
      r.result.message == PdoPrefix + insert(r.call.value.0, r.call.value.1, r.call.value.2).message
  {
    if !IsSet(post, "segling_id") || !IsSet(post, "segling_person") then AddRun(ServiceResult(false, MissingInput, None, None), None)
    else
      var seglingId, memberId := ValToInt(post["segling_id"]), ValToInt(post["segling_person"]);
      if aboard(seglingId, memberId) then AddRun(ServiceResult(false, AlreadyOnBoard, None, None), None)
      else
        var call := (seglingId, memberId, RoleArgument(post));
        match insert(call.0, call.1, call.2)
        case Threw(msg) => AddRun(ServiceResult(false, PdoPrefix + msg, None, None), Some(call))
        case Done(ok) =>
          if ok then AddRun(ServiceResult(true, AddedMessage, None, None), Some(call))
          else AddRun(ServiceResult(false, InsertFailed, None, None), Some(call))
  }

  /** A crew removal and the repository call it made, if any: (sailing id, member id). */
  datatype RemoveRun = RemoveRun(result: ServiceResult, call: Option<(int, int)>)

  /**
   * `removeMemberFromSegling($data)`: both ids must be truthy (a missing
   * id is null); they reach the repository cast to int.
   */
  function RemoveMember(data: map<string, Val>, remove: (int, int) -> bool): (r: RemoveRun)
    ensures r.result.redirect.None? && r.result.id.None?
    ensures r.call.None? <==> !Truthy(Lookup(data, "segling_id")) || !Truthy(Lookup(data, "medlem_id"))
    ensures r.call.None? ==> r.result == ServiceResult(false, InvalidData, None, None)
    ensures r.call.Some? ==> r.call.value == (ValToInt(data["segling_id"]), ValToInt(data["medlem_id"]))
    ensures r.call.Some? ==>
      (r.result.success <==> remove(r.call.value.0, r.call.value.1)) &&
      r.result.message == (if r.result.success then RemovedMessage else RemoveFailed)
  {
    var seglingId, medlemId := Lookup(data, "segling_id"), Lookup(data, "medlem_id");
    if !Truthy(seglingId) || !Truthy(medlemId) then RemoveRun(ServiceResult(false, InvalidData, None, None), None)
    else
      var call := (ValToInt(seglingId), ValToInt(medlemId));
      if remove(call.0, call.1) then RemoveRun(ServiceResult(true, RemovedMessage, None, None), Some(call))
      else RemoveRun(ServiceResult(false, RemoveFailed, None, None), Some(call))
  }

  /**
   * The removal tests truthiness, not the cast: an id of "0" is refused,
   * while a truthy id that casts to 0, such as one starting with a letter,
   * reaches the repository as 0.
   */
  lemma RemoveTruthinessNotCast(data: map<string, Val>, remove: (int, int) -> bool, id: string)
    requires "segling_id" in data && data["segling_id"] == Str(id) && Truthy(Lookup(data, "medlem_id"))
    requires |id| > 0 && IsAlpha(id[0])
    ensures RemoveMember(data, remove).call.Some? && RemoveMember(data, remove).call.value.0 == 0
    ensures RemoveMember(data["segling_id" := Str("0")], remove).call.None?
  {
    LetterCastsToZero(id);
  }

  lemma LetterCastsToZero(s: string)
    requires |s| > 0 && IsAlpha(s[0])
    ensures IntCast(s) == 0
  {
    assert !IsNumericSpace(s[0]) && !IsDigit(s[0]) && s[0] != '-' && s[0] != '+';
    assert TrimLeftBy(s, IsNumericSpace) == s;
    assert DigitRun(s) == 0;
    assert s[..0] == [];
  }
}

=== FILE: session.dfy ===
/**
 * The session store: `$_SESSION` as a map from key to PHP value, with the
 * static accessors the application uses. Starting, regenerating and
 * destroying the PHP session are runtime effects and are not modelled.
 */
module Session {
  import opened Php

  type SessionMap = map<string, Val>

  const FlashKey := "flash_message"
  const UserIdKey := "user_id"
  const IsAdminKey := "is_admin"

  /** `Session::get($key)`: the stored value, null when absent. */
  function Get(s: SessionMap, key: string): (v: Val)
    ensures key !in s ==> v == Null
    ensures key in s ==> v == s[key]
  {
    Lookup(s, key)
  }

  /** `Session::set($key, $value)`: only `key` changes, and it now reads `value`. */
  function Set(s: SessionMap, key: string, value: Val): (r: SessionMap)
    ensures Get(r, key) == value
    ensures forall k :: k != key ==> Get(r, k) == Get(s, k)
    ensures r.Keys == s.Keys + {key}
  {
    s[key := value]
  }

  /** `Session::remove($key)`: `key` reads null afterwards, the other keys are untouched. */
  function Remove(s: SessionMap, key: string): (r: SessionMap)
    ensures key !in r && Get(r, key) == Null
    ensures forall k :: k != key ==> Get(r, k) == Get(s, k)
    ensures r.Keys == s.Keys - {key}
  {
    s - {key}
  }

  /** The array `['type' => $type, 'message' => $message]`. */
  function Flash(kind: string, message: string): Val {
    Assoc([("type", kind), ("message", message)])
  }

  /** `Session::setFlashMessage($type, $message)`: replaces any earlier flash message. */
  function SetFlashMessage(s: SessionMap, kind: string, message: string): (r: SessionMap)
    ensures Get(r, FlashKey) == Flash(kind, message)
    ensures forall k :: k != FlashKey ==> Get(r, k) == Get(s, k)
  {
    Set(s, FlashKey, Flash(kind, message))
  }

  /** `Session::isLoggedIn()`: `isset($_SESSION['user_id'])`. */
  predicate IsLoggedIn(s: SessionMap) {
    IsSet(s, UserIdKey)
  }

  /** `Session::isAdmin()`: `is_admin` is the boolean `true` itself. */
  predicate IsAdmin(s: SessionMap) {
    IsSet(s, IsAdminKey) && s[IsAdminKey] == Bool(true)
  }

  /** Only the boolean `true` makes an admin: `1` and `"1"` do not. */
  lemma AdminIsStrict(s: SessionMap)
    ensures IsAdmin(s[IsAdminKey := Bool(true)])
    ensures !IsAdmin(s[IsAdminKey := Int(1)]) && !IsAdmin(s[IsAdminKey := Str("1")])
    ensures !IsAdmin(Remove(s, IsAdminKey))
  {
  }

  /** Any stored user id other than null counts as logged in, even 0 and "". */
  lemma LoggedInIffStored(s: SessionMap, v: Val)
    ensures IsLoggedIn(Set(s, UserIdKey, v)) <==> v != Null
    ensures !IsLoggedIn(Remove(s, UserIdKey))
  {
  }

  /** What `getSessionDataForViews()` returns. */
  datatype ViewData = ViewData(
    isLoggedIn: bool,
    isAdmin: bool,
    fornamn: Val,
    userId: Val,
    flashMessage: Val,
    csrfToken: Val)

  /** `Session::getSessionDataForViews()`: six fields read from the session. */
  function SessionDataForViews(s: SessionMap): (d: ViewData)
    ensures d.isLoggedIn <==> d.userId != Null
    ensures d.isAdmin <==> IsAdminKey in s && s[IsAdminKey] == Bool(true)
    ensures d.fornamn == Get(s, "fornamn") && d.userId == Get(s, UserIdKey)
    ensures d.flashMessage == Get(s, FlashKey) && d.csrfToken == Get(s, "csrf_token")
  {
    ViewData(IsLoggedIn(s), IsAdmin(s), Get(s, "fornamn"), Get(s, UserIdKey), Get(s, FlashKey), Get(s, "csrf_token"))
  }
}

=== FILE: strings.dfy ===
/**
 * Character classes, substrings, decimal digits and order-preserving
 * filtering over sequences. Everything here is independent of the
 * language the modelled code was written in.
 */
module Strings {
  import opened Wrappers

  /** An octet, as produced by `random_bytes`. */
  type Byte = b: int | 0 <= b < 256

  predicate IsDigit(c: char) { '0' <= c <= '9' }
  predicate IsUpper(c: char) { 'A' <= c <= 'Z' }
  predicate IsLower(c: char) { 'a' <= c <= 'z' }
  predicate IsAlpha(c: char) { IsUpper(c) || IsLower(c) }
  predicate IsAlnum(c: char) { IsDigit(c) || IsAlpha(c) }

  predicate AllDigits(s: string) {
    forall i :: 0 <= i < |s| ==> IsDigit(s[i])
  }

  predicate IsPrefix<T(==)>(p: seq<T>, s: seq<T>) {
    |p| <= |s| && s[..|p|] == p
  }

  /** `needle` occurs in `s` starting at index `i`. */
  predicate OccursAt<T(==)>(s: seq<T>, needle: seq<T>, i: int) {
    0 <= i && i + |needle| <= |s| && s[i..i + |needle|] == needle
  }

  /** `needle` is a substring of `s`; the empty needle occurs everywhere. */
  predicate Contains<T(==)>(s: seq<T>, needle: seq<T>) {
    exists i :: 0 <= i <= |s| && OccursAt(s, needle, i)
  }

  /** A needle longer than the sequence does not occur in it. */
  lemma TooShortToContain<T>(s: seq<T>, needle: seq<T>)
    requires |s| < |needle|
    ensures !Contains(s, needle)
  {
  }

  lemma EmptyNeedleOccurs<T>(s: seq<T>)
    ensures Contains(s, [])
  {
    assert OccursAt(s, [], 0);
  }

  /** Index of the first occurrence of `c` in `s`, if any. */
  function IndexOf<T(==)>(s: seq<T>, c: T): (r: Option<nat>)
    ensures r.None? <==> c !in s
    ensures r.Some? ==> r.value < |s| && s[r.value] == c && c !in s[..r.value]
  {
    if |s| == 0 then None
    else if s[0] == c then Some(0)
    else
      match IndexOf(s[1..], c)
      case None => None
      case Some(k) =>
        assert s[1..][..k] == s[1..k + 1];
        Some(k + 1)
  }

  /** The first occurrence of `c` follows a prefix free of it. */
  /** A non-empty sequence contains its first element. */
  lemma HeadIsMember<T>(s: seq<T>)
    ensures |s| == 0 || s[0] in s
  {
  }

  lemma {:induction false} IndexOfAfter<T>(u: seq<T>, c: T, rest: seq<T>)
    requires c !in u
    ensures IndexOf(u + [c] + rest, c) == Some(|u|)
  {
    if |u| > 0 {
      assert (u + [c] + rest)[1..] == u[1..] + [c] + rest;
      IndexOfAfter(u[1..], c, rest);
    }
  }

  /** The first position whose element satisfies `p`, if any. */
  function FirstWhere<T>(s: seq<T>, p: T -> bool): (r: Option<nat>)
    ensures r.None? <==> forall i :: 0 <= i < |s| ==> !p(s[i])
    ensures r.Some? ==> r.value < |s| && p(s[r.value])
    ensures r.Some? ==> forall j :: 0 <= j < r.value ==> !p(s[j])
  {
    if |s| == 0 then None
    else if p(s[0]) then Some(0)
    else
      match FirstWhere(s[1..], p)
      case None =>
        assert forall i :: 1 <= i < |s| ==> s[i] == s[1..][i - 1];
        None
      case Some(k) =>
        assert forall j :: 1 <= j <= k ==> s[j] == s[1..][j - 1];
        Some(k + 1)
  }

  /** Decimal value of a string of digits. */
  function DigitsValue(s: string): (n: nat)
    requires AllDigits(s)
  {
    if |s| == 0 then 0
    else DigitsValue(s[..|s| - 1]) * 10 + (s[|s| - 1] as int - '0' as int)
  }

  function Pow10(w: nat): (p: nat)
    ensures p >= 1
  {
    if w == 0 then 1 else 10 * Pow10(w - 1)
  }

  function DigitChar(d: nat): (c: char)
    requires d < 10
    ensures IsDigit(c) && c as int - '0' as int == d
  {
    ('0' as int + d) as char
  }

  /** The `w`-digit zero-padded decimal rendering of `n`. */
  function Pad(n: nat, w: nat): (s: string)
    ensures |s| == w && AllDigits(s)
  {
    if w == 0 then [] else Pad(n / 10, w - 1) + [DigitChar(n % 10)]
  }

  lemma {:induction false} DigitsValueBound(s: string)
    requires AllDigits(s)
    ensures DigitsValue(s) < Pow10(|s|)
  {
    if |s| > 0 {
      DigitsValueBound(s[..|s| - 1]);
    }
  }

  lemma DivTenBound(n: nat, q: nat)
    requires n < 10 * q
    ensures n / 10 < q
  {
  }

  lemma {:induction false} PadDigitsValue(n: nat, w: nat)
    requires n < Pow10(w)
    ensures DigitsValue(Pad(n, w)) == n
  {
    if w > 0 {
      var s := Pad(n, w);
      assert s[..|s| - 1] == Pad(n / 10, w - 1);
      assert s[|s| - 1] == DigitChar(n % 10);
      DivTenBound(n, Pow10(w - 1));
      PadDigitsValue(n / 10, w - 1);
      LastDigit(s, n / 10, n % 10);
    }
  }

  /** The value of a digit string is ten times the value of its front plus its last digit. */
  lemma LastDigit(s: string, front: nat, d: nat)
    requires |s| > 0 && AllDigits(s)
    requires DigitsValue(s[..|s| - 1]) == front && s[|s| - 1] as int - '0' as int == d
    ensures DigitsValue(s) == front * 10 + d
  {
  }

  lemma {:induction false} DigitsValuePad(s: string)
    requires AllDigits(s)
    ensures Pad(DigitsValue(s), |s|) == s
  {
    if |s| > 0 {
      var init := s[..|s| - 1];
      DigitsValuePad(init);
      var n := DigitsValue(s);
      assert n / 10 == DigitsValue(init);
      assert s == init + [s[|s| - 1]];
    }
  }

  /** The decimal rendering of `n`: digits only, no leading zero except for 0 itself. */
  function NatToString(n: nat): (s: string)
    ensures |s| >= 1 && AllDigits(s)
    ensures |s| > 1 ==> s[0] != '0'
  {
    if n < 10 then [DigitChar(n)] else NatToString(n / 10) + [DigitChar(n % 10)]
  }

  /** Reading the rendering back gives the number. */
  lemma {:induction false} NatToStringValue(n: nat)
    ensures DigitsValue(NatToString(n)) == n
  {
    if n >= 10 {
      var s := NatToString(n);
      assert s[..|s| - 1] == NatToString(n / 10);
      NatToStringValue(n / 10);
    }
  }

  /** Concatenation of `parts` with `sep` between neighbours (PHP implode). */
  function Join(parts: seq<string>, sep: string): string {
    if |parts| == 0 then ""
    else if |parts| == 1 then parts[0]
    else parts[0] + sep + Join(parts[1..], sep)
  }

  /**
   * Indices of the elements of `s` satisfying `p`, in increasing order:
   * the positions an order-preserving filter keeps.
   */
  function Keep<T>(s: seq<T>, p: T -> bool): (r: seq<nat>)
    ensures forall k :: 0 <= k < |r| ==> r[k] < |s| && p(s[r[k]])
    ensures forall k, l :: 0 <= k < l < |r| ==> r[k] < r[l]
    ensures forall i :: 0 <= i < |s| && p(s[i]) ==> i in r
  {
    if |s| == 0 then []
    else
      var rest := Keep(s[..|s| - 1], p);
      if p(s[|s| - 1]) then rest + [|s| - 1] else rest
  }

  /** The elements of `s` at the positions `idx`, in the order of `idx`. */
  function Select<T>(s: seq<T>, idx: seq<nat>): (r: seq<T>)
    requires forall k :: 0 <= k < |idx| ==> idx[k] < |s|
    ensures |r| == |idx|
    ensures forall k :: 0 <= k < |idx| ==> r[k] == s[idx[k]]
  {
    seq(|idx|, k requires 0 <= k < |idx| => s[idx[k]])
  }

  /** Order-preserving filter. */
  function Filter<T>(s: seq<T>, p: T -> bool): (r: seq<T>)
    ensures |r| <= |s|
    ensures forall x :: x in r ==> x in s && p(x)
    ensures forall i :: 0 <= i < |s| && p(s[i]) ==> s[i] in r
  {
    if |s| == 0 then []
    else
      var rest := Filter(s[..|s| - 1], p);
      assert s == s[..|s| - 1] + [s[|s| - 1]];
      if p(s[|s| - 1]) then rest + [s[|s| - 1]] else rest
  }

  /** The filter keeps exactly the elements at the positions `Keep` lists. */
  lemma {:induction false} FilterIsSelectKeep<T>(s: seq<T>, p: T -> bool)
    ensures Filter(s, p) == Select(s, Keep(s, p))
  {
    if |s| > 0 {
      var init := s[..|s| - 1];
      FilterIsSelectKeep(init, p);
      var ki := Keep(init, p);
      assert Select(s, ki) == Select(init, ki);
      if p(s[|s| - 1]) {
        assert Keep(s, p) == ki + [|s| - 1];
        assert Select(s, ki + [|s| - 1]) == Select(s, ki) + [s[|s| - 1]];
      } else {
        assert Keep(s, p) == ki;
      }
    }
  }

  /** Number of elements equal to `x`. */
  function Count<T(==)>(s: seq<T>, x: T): (n: nat)
    ensures n == multiset(s)[x]
  {
    if |s| == 0 then 0
    else
      assert s == s[..|s| - 1] + [s[|s| - 1]];
      Count(s[..|s| - 1], x) + (if s[|s| - 1] == x then 1 else 0)
  }

  /** `s` with the leading characters satisfying `p` removed. */
  function TrimLeftBy(s: string, p: char -> bool): (r: string)
    ensures |r| <= |s| && r == s[|s| - |r|..]
    ensures |r| > 0 ==> !p(r[0])
    ensures forall i :: 0 <= i < |s| - |r| ==> p(s[i])
  {
    if |s| > 0 && p(s[0]) then
      var r := TrimLeftBy(s[1..], p);
      assert forall i :: 1 <= i < |s| - |r| ==> s[i] == s[1..][i - 1];
      r
    else s
  }

  /** `s` with the trailing characters satisfying `p` removed. */
  function TrimRightBy(s: string, p: char -> bool): (r: string)
    ensures |r| <= |s| && r == s[..|r|]
    ensures |r| > 0 ==> !p(r[|r| - 1])
    ensures forall i :: |r| <= i < |s| ==> p(s[i])
  {
    if |s| > 0 && p(s[|s| - 1]) then
      var r := TrimRightBy(s[..|s| - 1], p);
      assert forall i :: |r| <= i < |s| - 1 ==> s[i] == s[..|s| - 1][i];
      r
    else s
  }

  /**
   * `r` is `s` from position `i` on, with everything before `i` and after
   * `r` satisfying `p`, and `r` neither starting nor ending with such a
   * character: `s` trimmed by `p`.
   */
  predicate TrimmedAt(s: string, r: string, p: char -> bool, i: int) {
    OccursAt(s, r, i)
    && (forall k :: 0 <= k < i ==> p(s[k]))
    && (forall k :: i + |r| <= k < |s| ==> p(s[k]))
    && (|r| > 0 ==> !p(r[0]) && !p(r[|r| - 1]))
  }

  /** `s` with leading and trailing characters satisfying `p` removed. */
  function TrimBy(s: string, p: char -> bool): (r: string)
    ensures |r| <= |s|
    ensures |r| > 0 ==> !p(r[0]) && !p(r[|r| - 1])
    ensures |r| == 0 <==> forall k :: 0 <= k < |s| ==> p(s[k])
    ensures (|s| == 0 || (!p(s[0]) && !p(s[|s| - 1]))) ==> r == s
  {
    var l := TrimLeftBy(s, p);
    var r := TrimRightBy(l, p);
    assert LeftTrimmed(s, l, p) && RightTrimmed(l, r, p);
    TrimByAt(s, p, l, r);
    TrimmedEmpty(s, r, p, |s| - |l|);
    TrimmedWhole(s, r, p, |s| - |l|);
    r
  }

  /** Nothing is trimmed from a string whose ends do not satisfy `p`. */
  lemma TrimmedWhole(s: string, r: string, p: char -> bool, i: int)
    requires TrimmedAt(s, r, p, i)
    ensures (|s| == 0 || (!p(s[0]) && !p(s[|s| - 1]))) ==> r == s
  {
    if |s| > 0 && !p(s[0]) && !p(s[|s| - 1]) {
      assert i == 0;
      assert |r| == |s|;
    }
  }

  /**
   * `TrimBy(s, p)` is exactly `s` with its leading and trailing `p`
   * characters removed. Stated apart from `TrimBy`'s contract: a caller
   * that also knows `TrimBy(s, p) == s` would otherwise chase ever new
   * positions of `s` through the unknown offset.
   */
  lemma TrimByExact(s: string, p: char -> bool)
    ensures exists i :: TrimmedAt(s, TrimBy(s, p), p, i)
  {
    var l := TrimLeftBy(s, p);
    var r := TrimRightBy(l, p);
    assert LeftTrimmed(s, l, p) && RightTrimmed(l, r, p);
    TrimByAt(s, p, l, r);
    assert TrimBy(s, p) == r;
    assert TrimmedAt(s, TrimBy(s, p), p, |s| - |l|);
  }

  /** A trim is empty exactly when every character is trimmed. */
  lemma TrimmedEmpty(s: string, r: string, p: char -> bool, i: int)
    requires TrimmedAt(s, r, p, i)
    ensures |r| == 0 <==> forall k :: 0 <= k < |s| ==> p(s[k])
  {
    if |r| == 0 {
      forall k | 0 <= k < |s|
        ensures p(s[k])
      {
        if k >= i { assert i + |r| <= k; }
      }
    } else {
      assert s[i] == r[0];
    }
  }

  /** The left trim `l` of `s`: a suffix, preceded only by `p` characters, not starting with one. */
  predicate LeftTrimmed(s: string, l: string, p: char -> bool) {
    |l| <= |s| && l == s[|s| - |l|..]
    && (forall k :: 0 <= k < |s| - |l| ==> p(s[k]))
    && (|l| > 0 ==> !p(l[0]))
  }

  /** The right trim `r` of `l`: a prefix, followed only by `p` characters, not ending with one. */
  predicate RightTrimmed(l: string, r: string, p: char -> bool) {
    |r| <= |l| && r == l[..|r|]
    && (forall k :: |r| <= k < |l| ==> p(l[k]))
    && (|r| > 0 ==> !p(r[|r| - 1]))
  }

  /** The two halves of the trim meet at the start of the left-trimmed string. */
  lemma TrimByAt(s: string, p: char -> bool, l: string, r: string)
    requires LeftTrimmed(s, l, p) && RightTrimmed(l, r, p)
    ensures TrimmedAt(s, r, p, |s| - |l|)
  {
    var i := |s| - |l|;
    assert r == s[i..i + |r|];
    forall k | i + |r| <= k < |s|
      ensures p(s[k])
    {
      assert s[k] == l[k - i];
    }
    if |r| > 0 {
      assert r[0] == l[0];
    }
  }

  /** Trimming is determined: any string trimmed from `s` by `p` is `TrimBy(s, p)`. */
  lemma TrimByUnique(s: string, p: char -> bool, t: string, i: int)
    requires TrimmedAt(s, t, p, i)
    ensures t == TrimBy(s, p)
  {
    var l := TrimLeftBy(s, p);
    var r := TrimRightBy(l, p);
    assert LeftTrimmed(s, l, p) && RightTrimmed(l, r, p);
    if |t| == 0 {
      TrimmedEmpty(s, t, p, i);
      TrimAllBy(s, p);
    } else {
      TrimStartsAt(s, p, t, i, l);
      SliceOfSuffix(s, t, l, i);
      TrimEndsAt(l, p, t, r);
      assert TrimBy(s, p) == r;
    }
  }

  /** A slice of `s` at `i` is a prefix of the suffix of `s` starting at `i`. */
  lemma SliceOfSuffix(s: string, t: string, l: string, i: int)
    requires OccursAt(s, t, i)
    requires |l| <= |s| && l == s[|s| - |l|..] && i == |s| - |l|
    ensures |t| <= |l| && t == l[..|t|]
  {
    assert forall k :: 0 <= k < |t| ==> t[k] == s[i + k] == l[k];
  }

  /** A trimmed string starts where the left trim stops. */
  lemma TrimStartsAt(s: string, p: char -> bool, t: string, i: int, l: string)
    requires TrimmedAt(s, t, p, i) && |t| > 0
    requires LeftTrimmed(s, l, p)
    ensures i == |s| - |l|
  {
    var a := |s| - |l|;
    assert !p(s[i]) by { assert s[i] == t[0]; }
    assert a <= i;
    assert a < |s| ==> !p(s[a]) by { if a < |s| { assert l[0] == s[a]; } }
    assert i <= a;
  }

  /** A prefix of `l` that ends in a character not satisfying `p`, followed only by such characters, is its right trim. */
  lemma TrimEndsAt(l: string, p: char -> bool, t: string, r: string)
    requires |t| > 0 && |t| <= |l| && t == l[..|t|]
    requires !p(t[|t| - 1])
    requires forall k :: |t| <= k < |l| ==> p(l[k])
    requires RightTrimmed(l, r, p)
    ensures r == t
  {
    assert !p(l[|t| - 1]);
    assert |t| <= |r|;
    assert !p(l[|r| - 1]) by { assert r[|r| - 1] == l[|r| - 1]; }
    assert |r| <= |t|;
  }

  /** Every character of `s` satisfies `p`, so trimming by `p` empties it. */
  lemma TrimAllBy(s: string, p: char -> bool)
    requires forall i :: 0 <= i < |s| ==> p(s[i])
    ensures TrimBy(s, p) == ""
  {
  }

  /** Positions chosen by `Keep` depend only on which elements satisfy the predicate. */
  lemma {:induction false} KeepCongruent<T, U>(s: seq<T>, p: T -> bool, t: seq<U>, q: U -> bool)
    requires |s| == |t|
    requires forall i :: 0 <= i < |s| ==> (p(s[i]) <==> q(t[i]))
    ensures Keep(s, p) == Keep(t, q)
  {
    if |s| > 0 {
      KeepCongruent(s[..|s| - 1], p, t[..|t| - 1], q);
    }
  }

  /** The indices `0 .. n-1` in order. */
  function Range(n: nat): (r: seq<nat>)
    ensures |r| == n
    ensures forall i :: 0 <= i < n ==> r[i] == i
  {
    seq(n, i => i)
  }

  lemma {:induction false} FilterConcat<T>(s: seq<T>, t: seq<T>, p: T -> bool)
    ensures Filter(s + t, p) == Filter(s, p) + Filter(t, p)
  {
    if |t| > 0 {
      var init := t[..|t| - 1];
      FilterConcat(s, init, p);
      assert (s + t)[..|s + t| - 1] == s + init;
    } else {
      assert s + t == s;
    }
  }

  /** A filter result is a sub-multiset of its input. */
  lemma {:induction false} FilterSubMultiset<T>(s: seq<T>, p: T -> bool)
    ensures multiset(Filter(s, p)) <= multiset(s)
  {
    if |s| > 0 {
      var init, last := s[..|s| - 1], s[|s| - 1];
      FilterSubMultiset(init, p);
      assert s == init + [last];
      assert multiset(s) == multiset(init) + multiset{last};
    }
  }

  /** The filter keeps every occurrence of an element that satisfies the predicate, and none of any other. */
  lemma {:induction false} FilterMultiplicity<T>(s: seq<T>, p: T -> bool, x: T)
    ensures multiset(Filter(s, p))[x] == if p(x) then multiset(s)[x] else 0
  {
    if |s| > 0 {
      var init, last := s[..|s| - 1], s[|s| - 1];
      FilterMultiplicity(init, p, x);
      assert s == init + [last];
      assert multiset(s) == multiset(init) + multiset{last};
      if p(last) {
        assert Filter(s, p) == Filter(init, p) + [last];
        assert multiset(Filter(s, p)) == multiset(Filter(init, p)) + multiset{last};
      } else {
        assert Filter(s, p) == Filter(init, p);
      }
    }
  }

  /** A filter keeps a sequence whose every element satisfies the predicate. */
  lemma {:induction false} FilterAllKept<T>(s: seq<T>, p: T -> bool)
    requires forall i :: 0 <= i < |s| ==> p(s[i])
    ensures Filter(s, p) == s
  {
    if |s| > 0 {
      FilterAllKept(s[..|s| - 1], p);
      assert s == s[..|s| - 1] + [s[|s| - 1]];
    }
  }

  /** A filter that drops some element gives a strictly shorter sequence. */
  lemma {:induction false} FilterShorter<T>(s: seq<T>, p: T -> bool, i: nat)
    requires i < |s| && !p(s[i])
    ensures |Filter(s, p)| < |s|
  {
    var init := s[..|s| - 1];
    if i < |s| - 1 {
      FilterShorter(init, p, i);
    }
  }

  /** Filtering twice with the same predicate is filtering once. */
  lemma FilterIdempotent<T>(s: seq<T>, p: T -> bool)
    ensures Filter(Filter(s, p), p) == Filter(s, p)
  {
    var r := Filter(s, p);
    assert forall i :: 0 <= i < |r| ==> r[i] in r;
    FilterAllKept(r, p);
  }

  /** Filters with predicates that agree on every element give the same result. */
  lemma {:induction false} FilterCongruent<T>(s: seq<T>, p: T -> bool, q: T -> bool)
    requires forall i :: 0 <= i < |s| ==> p(s[i]) == q(s[i])
    ensures Filter(s, p) == Filter(s, q)
  {
    if |s| > 0 {
      FilterCongruent(s[..|s| - 1], p, q);
    }
  }

  /** Two elements that pass a filter both appear in its result. */
  lemma FilterTwo<T>(s: seq<T>, p: T -> bool, i: int, j: int)
    requires 0 <= i < j < |s| && p(s[i]) && p(s[j])
    ensures |Filter(s, p)| >= 2
  {
    FilterIsSelectKeep(s, p);
    var k := Keep(s, p);
    assert i in k && j in k;
    var a :| 0 <= a < |k| && k[a] == i;
    var b :| 0 <= b < |k| && k[b] == j;
    assert a != b;
    assert |Filter(s, p)| == |k|;
  }

  lemma DigitsValueOne(s: string)
    requires |s| == 1 && IsDigit(s[0])
    ensures DigitsValue(s) == s[0] as int - '0' as int
  {
    assert s[..0] == [];
  }

  lemma FilterTwoOf<T>(a: T, b: T, p: T -> bool)
    ensures Filter([a, b], p) == (if p(a) then [a] else []) + (if p(b) then [b] else [])
  {
    assert [a, b][..1] == [a];
    assert [a][..0] == [];
    assert Filter([a], p) == (if p(a) then [a] else []);
    assert Filter([a, b], p) == Filter([a], p) + (if p(b) then [b] else []);
  }

  lemma FilterThree<T>(a: T, b: T, c: T, p: T -> bool)
    ensures Filter([a, b, c], p)
      == (if p(a) then [a] else []) + (if p(b) then [b] else []) + (if p(c) then [c] else [])
  {
    assert [a, b, c][..2] == [a, b];
    FilterTwoOf(a, b, p);
    assert Filter([a, b, c], p) == Filter([a, b], p) + (if p(c) then [c] else []);
  }

  lemma FilterFour<T>(a: T, b: T, c: T, d: T, p: T -> bool)
    ensures Filter([a, b, c, d], p)
      == (if p(a) then [a] else []) + (if p(b) then [b] else []) + (if p(c) then [c] else [])
         + (if p(d) then [d] else [])
  {
    assert [a, b, c, d][..3] == [a, b, c];
    FilterThree(a, b, c, p);
    assert Filter([a, b, c, d], p) == Filter([a, b, c], p) + (if p(d) then [d] else []);
  }
}

=== FILE: token_handler.dfy ===
/**
 * Account-activation and password-reset tokens: generating a token from
 * random bytes, and saving, validating and deleting tokens in the
 * `AuthToken` table, modelled as a sequence of rows. The random bytes, the
 * clock and storage failures are parameters.
 */
module TokenHandler {
  import opened Wrappers
  import opened Strings
  import opened Php

  // ---------------------------------------------------------------
  // generateToken
  // ---------------------------------------------------------------

  /**
   * The character for a six-bit value in the standard base64 alphabet of
   * RFC 4648, section 4: A-Z, a-z, 0-9, then '+' and '/'.
   */
  function Sextet(n: nat): (c: char)
    requires n < 64
    ensures n < 62 ==> IsAlnum(c)
    ensures c != '='
  {
    if n < 26 then 'A' + n as char
    else if n < 52 then 'a' + (n - 26) as char
    else if n < 62 then '0' + (n - 52) as char
    else if n == 62 then '+'
    else '/'
  }

  /** Three bytes become four characters. */
  function Group3(x: Byte, y: Byte, z: Byte): (r: string)
    ensures |r| == 4
  {
    [Sextet(x / 4), Sextet((x % 4) * 16 + y / 16), Sextet((y % 16) * 4 + z / 64), Sextet(z % 64)]
  }

  /** A final pair of bytes becomes three characters and one '='. */
  function Group2(x: Byte, y: Byte): (r: string)
    ensures |r| == 4 && r[3] == '=' && r[2] == Sextet((y % 16) * 4)
  {
    [Sextet(x / 4), Sextet((x % 4) * 16 + y / 16), Sextet((y % 16) * 4), '=']
  }

  /** A final single byte becomes two characters and "==". */
  function Group1(x: Byte): (r: string)
    ensures |r| == 4 && r[2] == '=' && r[3] == '='
  {
    [Sextet(x / 4), Sextet((x % 4) * 16), '=', '=']
  }

  /** The number of four-character blocks for `n` bytes: `n / 3` rounded up. */
  function Blocks(n: nat): (k: nat)
    ensures 3 * k - 2 <= n <= 3 * k
  {
    if n == 0 then 0 else 1 + Blocks(if n < 3 then 0 else n - 3)
  }

  /**
   * `base64_encode`: each group of three bytes becomes four characters; a
   * final group of two bytes becomes three characters and one '=', a final
   * single byte two characters and "==".
   */
  function Base64(bytes: seq<Byte>): (r: string)
    ensures |r| == 4 * Blocks(|bytes|)
    ensures Padded(bytes, r)
    decreases |bytes|
  {
    if |bytes| == 0 then ""
    else if |bytes| == 1 then assert Blocks(1) == 1; Group1(bytes[0])
    else if |bytes| == 2 then assert Blocks(2) == 1; Group2(bytes[0], bytes[1])
    else
      var rest := Base64(bytes[3..]);
      Base64Cons(bytes, Group3(bytes[0], bytes[1], bytes[2]), rest);
      Group3(bytes[0], bytes[1], bytes[2]) + rest
  }

  /**
   * The padding of an encoding `r` of `bytes`: two bytes short of a full
   * last group end in "==", one byte short ends in one '=' after the
   * character holding the last byte's low four bits.
   */
  predicate Padded(bytes: seq<Byte>, r: string)
    requires |r| == 4 * Blocks(|bytes|)
  {
    && (|bytes| == 3 * Blocks(|bytes|) - 1 ==> r[|r| - 1] == '=' && r[|r| - 2] == Sextet((bytes[|bytes| - 1] % 16) * 4))
    && (|bytes| == 3 * Blocks(|bytes|) - 2 ==> r[|r| - 1] == '=' && r[|r| - 2] == '=')
  }

  /** A full group in front of the encoding of the remaining bytes keeps its length and padding. */
  lemma Base64Cons(bytes: seq<Byte>, g: string, rest: string)
    requires |bytes| >= 3 && |g| == 4
    requires |rest| == 4 * Blocks(|bytes| - 3) && Padded(bytes[3..], rest)
    ensures |g + rest| == 4 * Blocks(|bytes|) && Padded(bytes, g + rest)
  {
    assert Blocks(|bytes|) == 1 + Blocks(|bytes| - 3);
    if |rest| > 0 {
      assert bytes[3..][|bytes| - 4] == bytes[|bytes| - 1];
      assert (g + rest)[|g + rest| - 1] == rest[|rest| - 1] && (g + rest)[|g + rest| - 2] == rest[|rest| - 2];
    }
  }

  function IsAlnumChar(): char -> bool {
    c => IsAlnum(c)
  }

  /**
   * `generateToken()`: 20 random bytes, base64-encoded, with every
   * character outside [A-Za-z0-9] removed. The padding '=' always goes, so
   * at most 27 characters remain, and the character before the padding is
   * never '+' or '/', so at least one does.
   */
  function GenerateToken(random: seq<Byte>): (t: string)
    requires |random| == 20
    ensures forall i :: 0 <= i < |t| ==> IsAlnum(t[i])
    ensures 1 <= |t| <= 27
  {
    var e := Base64(random);
    var t := Filter(e, IsAlnumChar());
    assert forall i :: 0 <= i < |t| ==> t[i] in t;
    FilterShorter(e, IsAlnumChar(), 27);
    assert IsAlnumChar()(e[26]);
    HeadIsMember(t);
    t
  }

  // ---------------------------------------------------------------
  // The AuthToken table
  // ---------------------------------------------------------------

  /** `TokenType`: the two kinds of link the application mails out. */
  datatype TokenType = Activation | Reset

  /** One row of `AuthToken`; `createdAt` is the creation time in seconds. */
  datatype TokenRow = TokenRow(email: string, token: string, tokenType: TokenType, passwordHash: Option<string>, createdAt: int)

  type Store = seq<TokenRow>

  /** Tokens are valid for 30 minutes. */
  const ValidSeconds := 60 * 30
  /** `deleteExpiredTokens` removes rows older than one hour. */
  const CleanupSeconds := 60 * 60

  const NotValidMessage := "Länken är inte giltig"
  const ExpiredMessage := "Länkens giltighetstid är 30 min. Den fungerar inte längre. Försök igen"

  /** The store after a storage call and whether the call reported success. */
  datatype Stored = Stored(ok: bool, store: Store)

  /**
   * `saveToken($token, $type, $email, $hashedPassword)` at time `now`. An
   * activation row keeps the password hash, a reset row never has one. A
   * storage failure (`PDOException`) is caught: false, nothing stored.
   */
  function SaveToken(store: Store, token: string, kind: TokenType, email: string, hashedPassword: Option<string>, now: int, fails: bool): (r: Stored)
    ensures r.ok <==> !fails
    ensures !r.ok ==> r.store == store
    ensures r.ok ==> |r.store| == |store| + 1 && r.store[..|store|] == store
    ensures r.ok ==> var row := r.store[|store|];
      row.token == token && row.tokenType == kind && row.email == email && row.createdAt == now
      && row.passwordHash == (if kind == Activation then hashedPassword else None)
  {
    if fails then Stored(false, store)
    else
      var hash := match kind case Activation => hashedPassword case Reset => None;
      Stored(true, store + [TokenRow(email, token, kind, hash, now)])
  }

  /** What `isValidToken` returns: a failure message, or the row's email and password hash. */
  datatype Validity = Invalid(message: string) | Valid(email: string, hashedPassword: string)

  predicate RowMatches(row: TokenRow, token: string, kind: TokenType) {
    row.token == token && row.tokenType == kind
  }

  function MatchesToken(token: string, kind: TokenType): TokenRow -> bool {
    (row: TokenRow) => RowMatches(row, token, kind)
  }

  /** `$result['password_hash'] ?: ''`: a null, "" or "0" hash reads as "". */
  function HashOrEmpty(h: Option<string>): (r: string)
    ensures r == "" <==> h.None? || EmptyStr(h.value)
    ensures r != "" ==> r == h.value
  {
    if h.Some? && !EmptyStr(h.value) then h.value else ""
  }

  /** A fetched row is expired once `now` is past its creation time plus 30 minutes. */
  predicate Expired(row: TokenRow, now: int) {
    now > row.createdAt + ValidSeconds
  }

  /** Row `i` is the first row with both the token and the type. */
  predicate FirstMatch(store: Store, token: string, kind: TokenType, i: int) {
    0 <= i < |store| && RowMatches(store[i], token, kind)
    && forall j :: 0 <= j < i ==> !RowMatches(store[j], token, kind)
  }

  /**
   * `isValidToken($token, $type)` at time `now`: the first row with both
   * the token and the type decides.
   */
  function IsValidToken(store: Store, token: string, kind: TokenType, now: int): (r: Validity)
    ensures r == Invalid(NotValidMessage) <==> forall i :: 0 <= i < |store| ==> !RowMatches(store[i], token, kind)
    ensures r.Valid? <==> exists i :: (0 <= i < |store| && RowMatches(store[i], token, kind) && !Expired(store[i], now)
      && forall j :: 0 <= j < i ==> !RowMatches(store[j], token, kind))
    ensures forall i :: FirstMatch(store, token, kind, i) ==>
      r == if Expired(store[i], now) then Invalid(ExpiredMessage) else Valid(store[i].email, HashOrEmpty(store[i].passwordHash))
  {
    FirstWhereMatches(store, token, kind);
    match FirstWhere(store, MatchesToken(token, kind))
    case None => Invalid(NotValidMessage)
    case Some(i) =>
      var row := store[i];
      if Expired(row, now) then Invalid(ExpiredMessage)
      else Valid(row.email, HashOrEmpty(row.passwordHash))
  }

  /** The search the query runs finds the first matching row, and it is the only first one. */
  lemma FirstWhereMatches(store: Store, token: string, kind: TokenType)
    ensures var f := FirstWhere(store, MatchesToken(token, kind));
      && (f.None? <==> forall i :: 0 <= i < |store| ==> !RowMatches(store[i], token, kind))
      && (f.Some? ==> FirstMatch(store, token, kind, f.value))
      && forall i :: FirstMatch(store, token, kind, i) ==> f == Some(i)
  {
    var f := FirstWhere(store, MatchesToken(token, kind));
    forall i | FirstMatch(store, token, kind, i)
      ensures f == Some(i)
    {
      assert MatchesToken(token, kind)(store[i]);
    }
  }

  /** A token of one type never validates as the other type. */
  lemma TypeMustMatch(store: Store, token: string, now: int)
    requires forall i :: 0 <= i < |store| && store[i].token == token ==> store[i].tokenType == Reset
    ensures IsValidToken(store, token, Activation, now) == Invalid(NotValidMessage)
  {
  }

  /**
   * A freshly saved token, with no earlier row of the same token and type,
   * validates for exactly 30 minutes, with the saved email and hash.
   */
  lemma SavedTokenValidates(store: Store, token: string, kind: TokenType, email: string,
                              hashedPassword: Option<string>, created: int, now: int)
    requires forall i :: 0 <= i < |store| ==> !RowMatches(store[i], token, kind)
    ensures var s := SaveToken(store, token, kind, email, hashedPassword, created, false).store;
      IsValidToken(s, token, kind, now) ==
        if now > created + 1800 then Invalid(ExpiredMessage)
        else Valid(email, if kind == Activation then HashOrEmpty(hashedPassword) else "")
  {
    var s := SaveToken(store, token, kind, email, hashedPassword, created, false).store;
    assert forall i :: 0 <= i < |store| ==> s[i] == store[i];
    FirstIsLast(s, MatchesToken(token, kind));
  }

  lemma FirstIsLast(s: Store, p: TokenRow -> bool)
    requires |s| > 0 && p(s[|s| - 1])
    requires forall i :: 0 <= i < |s| - 1 ==> !p(s[i])
    ensures FirstWhere(s, p) == Some(|s| - 1)
  {
  }

  /** The boundary: a token exactly 30 minutes old still validates, one second later it does not. */
  lemma ExpiryBoundary(row: TokenRow)
    ensures !Expired(row, row.createdAt + 1800)
    ensures Expired(row, row.createdAt + 1801)
  {
  }

  function OtherToken(token: string): TokenRow -> bool {
    (row: TokenRow) => row.token != token
  }

  /**
   * `deleteToken($token)`: every row with the token goes, whatever its
   * type; a storage failure is caught and leaves the store as it was.
   */
  function DeleteToken(store: Store, token: string, fails: bool): (r: Stored)
    ensures r.ok <==> !fails
    ensures !r.ok ==> r.store == store
    ensures r.ok ==> forall row :: row in r.store <==> row in store && row.token != token
  {
    if fails then Stored(false, store)
    else Stored(true, Filter(store, OtherToken(token)))
  }

  /** After a successful delete the token validates as nothing, of either type. */
  lemma DeletedTokenInvalid(store: Store, token: string, kind: TokenType, now: int)
    requires DeleteToken(store, token, false).ok
    ensures IsValidToken(DeleteToken(store, token, false).store, token, kind, now) == Invalid(NotValidMessage)
  {
    var s := DeleteToken(store, token, false).store;
    assert forall i :: 0 <= i < |s| ==> s[i] in s;
  }

  function Recent(now: int): TokenRow -> bool {
    (row: TokenRow) => !(row.createdAt < now - CleanupSeconds)
  }

  /** The count of removed rows and the remaining store. */
  datatype Cleanup = Cleanup(deleted: nat, store: Store)

  /**
   * `deleteExpiredTokens()` at time `now`: rows created more than one hour
   * ago go; the result counts them.
   */
  function DeleteExpiredTokens(store: Store, now: int): (r: Cleanup)
    ensures r.deleted + |r.store| == |store|
    ensures forall row :: row in r.store <==> row in store && row.createdAt >= now - 3600
  {
    var kept := Filter(store, Recent(now));
    Cleanup(|store| - |kept|, kept)
  }

  /** A token that still validates survives the cleanup. */
  lemma ValidTokensSurviveCleanup(store: Store, token: string, kind: TokenType, now: int)
    requires IsValidToken(store, token, kind, now).Valid?
    ensures exists row :: row in DeleteExpiredTokens(store, now).store && RowMatches(row, token, kind) && !Expired(row, now)
  {
    var i :| 0 <= i < |store| && RowMatches(store[i], token, kind) && !Expired(store[i], now)
      && forall j :: 0 <= j < i ==> !RowMatches(store[j], token, kind);
    assert store[i] in store;
  }

  /**
   * Between 30 and 60 minutes a token no longer validates but the cleanup
   * keeps its row.
   */
  lemma ExpiredButRetained(row: TokenRow, now: int)
    requires row.createdAt + 1800 < now <= row.createdAt + 3600
    ensures IsValidToken([row], row.token, row.tokenType, now) == Invalid(ExpiredMessage)
    ensures DeleteExpiredTokens([row], now).store == [row]
  {
    assert RowMatches([row][0], row.token, row.tokenType);
    FilterAllKept([row], Recent(now));
  }
}

=== FILE: user_auth_service.dfy ===
/**
 * Account registration, activation and password reset: the checks each
 * step makes, the activation or reset token it stores, the mail it sends
 * and the password it writes.
 *
 * The member table is a map from email to row (the lookup
 * `getMemberByEmail` is taken to return the row with exactly that email,
 * or a falsy value); the token table is the one of `TokenHandler`. The
 * clock, the random bytes, password hashing, and whether each storage or
 * mail call succeeds are parameters.
 */
module UserAuthenticationService {
  import opened Wrappers
  import opened Strings
  import opened Php
  import opened PasswordService
  import opened TokenHandler
  import Sanitizer
  import Application
  import Medlem

  /** A member row as `getMemberByEmail` returns it. */
  datatype Account = Account(id: int, fornamn: Option<string>, password: Option<string>)

  /** The member rows by email, and the `AuthToken` table. */
  datatype Db = Db(accounts: map<string, Account>, tokens: Store)

  /**
   * What a call cannot compute itself: the time, the 20 random bytes of a
   * new token, `password_hash`, the configuration, and whether saving a
   * token, saving a password, deleting a token and sending a mail succeed.
   */
  datatype Env = Env(now: int, random: seq<Byte>, hash: string -> string, config: Application.Config,
                     saveTokenFails: bool, savePasswordFails: bool, deleteFails: bool, mailOk: bool)

  /** The `['success' => ..., 'message' => ...]` array the methods return. */
  datatype Reply = Reply(success: bool, message: Option<string>)

  datatype EmailType = Verification | PasswordReset

  /** A mail handed to the mailer: its type, recipient, token, greeting name and link route. */
  datatype Mail = Mail(kind: EmailType, to: string, token: string, firstName: string, route: string)

  /**
   * The outcome of a call (a reply, or the message of what it throws),
   * the database afterwards -- writes made before a throw stay -- and the
   * mail handed to the mailer, if any.
   */
  datatype Run = Run(outcome: Result<Reply, string>, db: Db, mail: Option<Mail>)

  const NoMemberMessage := "Det finns ingen medlem med den emailadressen. Använd den mailadress du angav när du registrerade dina medlemsuppgifter."
  const RegisteredMessage := "Ditt konto är redan redan registrerat. Har du glömt ditt lösenord? Prova att byta lösenord."
  const MismatchMessage := "Lösenorden matchar inte!"
  const RegisterFailedMessage := "Något gick fel vid registreringen. Försök igen."
  const RegisterMailMessage := "Kunde inte skicka registreringsmail. Försök igen."
  const ResetMailMessage := "Kunde inte skicka mail för lösenordsåterställning. Försök igen."
  const ResetMismatchMessage := "Lösenorden stämmer inte överens. Försök igen"
  const NoUserMessage := "OJ! Nu blev det ett tekniskt fel. Användaren finns inte."

  const ActivateRoute := "register-activate"
  const ResetRoute := "show-reset-password"

  /** Passing anything but a string to a `string` parameter under strict types. */
  const StringTypeError := "TypeError: argument must be of type string"
  /** `PasswordService` declares no `formatPasswordErrors`. */
  const UndefinedFormat := "Error: Call to undefined method App\\Services\\Auth\\PasswordService::formatPasswordErrors()"
  /** `new Medlem(...)` is an empty data object whose `?string $fornamn` has no default. */
  const UninitializedFornamn := Medlem.UninitializedRead("fornamn")

  // ---------------------------------------------------------------
  // Helpers
  // ---------------------------------------------------------------

  /** A form field read with `$formData[$key]` and passed on as a string: None unless it holds a string. */
  function FormString(form: map<string, Val>, key: string): (r: Option<string>)
    ensures r.Some? <==> key in form && form[key].Str?
    ensures r.Some? ==> form[key] == Str(r.value)
  {
    if key in form && form[key].Str? then Some(form[key].s) else None
  }

  /**
   * `$s->sanitize($formData, ['email' => 'email'])['email']`: the trimmed
   * address with the characters `FILTER_SANITIZE_EMAIL` drops removed;
   * None when the field is absent or null; a `TypeError` for a non-string.
   */
  function FormEmail(form: map<string, Val>): (r: Result<Option<string>, string>)
    ensures r.Failure? <==> IsSet(form, "email") && !form["email"].Str?
    ensures r == Success(None) <==> !IsSet(form, "email")
  {
    if !IsSet(form, "email") then Success(None)
    else match form["email"]
      case Str(s) => Success(Some(Sanitizer.FilterVar("email", Trim(s))))
      case _ => Failure(StringTypeError)
  }

  /** The email rule alone, in the order `sanitize` applies it: the same value or the same failure. */
  lemma FormEmailIsSanitize(form: map<string, Val>)
    ensures var s := Sanitizer.Sanitize(form, [("email", Sanitizer.Named("email"))]);
      && (s.Failure? <==> FormEmail(form).Failure?)
      && (s.Success? ==> (FormEmail(form) == Success(if "email" in s.value then s.value["email"] else None)))
  {
    var rules := [("email", Sanitizer.Named("email"))];
    assert rules[1..] == [];
    assert Sanitizer.RuleName(rules[0].1) == "email";
  }

  /** The messages `validatePassword` returns. */
  function Messages(errs: seq<PwError>): (ms: seq<string>)
    ensures |ms| == |errs| && forall i :: 0 <= i < |errs| ==> ms[i] == Message(errs[i])
  {
    seq(|errs|, i requires 0 <= i < |errs| => Message(errs[i]))
  }

  /** The list items of `formatPasswordErrors`. */
  function Items(ms: seq<string>): (r: string)
    ensures |r| >= 9 * |ms|
  {
    if |ms| == 0 then "" else "<li>" + ms[0] + "</li>" + Items(ms[1..])
  }

  /** `formatPasswordErrors($errors)` as the unit test for it expects: an HTML list of the messages. */
  function FormatPasswordErrors(ms: seq<string>): (r: string)
    ensures |r| >= 9 + 9 * |ms|
    ensures r[..4] == "<ul>" && r[|r| - 5..] == "</ul>"
  {
    "<ul>" + Items(ms) + "</ul>"
  }

  /** Every message appears in the list, wrapped in its own item. */
  lemma {:induction false} ItemsListEvery(ms: seq<string>, i: nat)
    requires i < |ms|
    ensures Contains(Items(ms), "<li>" + ms[i] + "</li>")
  {
    var item := "<li>" + ms[0] + "</li>";
    var rest := Items(ms[1..]);
    if i == 0 {
      assert OccursAt(item + rest, item, 0) by {
        assert (item + rest)[..|item|] == item;
      }
    } else {
      ItemsListEvery(ms[1..], i - 1);
      var needle := "<li>" + ms[i] + "</li>";
      var k :| 0 <= k <= |rest| && OccursAt(rest, needle, k);
      assert (item + rest)[|item| + k..|item| + k + |needle|] == rest[k..k + |needle|];
      assert OccursAt(item + rest, needle, |item| + k);
    }
  }

  /** The list the unit test checks: two messages, two items. */
  lemma FormatTwo(a: string, b: string)
    ensures FormatPasswordErrors([a, b]) == "<ul><li>" + a + "</li><li>" + b + "</li></ul>"
  {
    assert [a, b][1..] == [b];
    assert [b][1..] == [];
    var x, y := "<li>" + a + "</li>", "<li>" + b + "</li>";
    assert Items([b]) == y + Items([]);
    assert Items([a, b]) == x + Items([b]);
    assert Items([]) == "";
    assert "<ul>" + (x + (y + "")) + "</ul>" == "<ul><li>" + a + "</li><li>" + b + "</li></ul>";
  }

  /**
   * `saveMembersPassword($hash, $email)`: `UPDATE ... WHERE email = :email`
   * sets the password of the row with that email, if any; a caught
   * `PDOException` leaves the table as it was.
   */
  function SavePassword(accounts: map<string, Account>, email: string, hash: string, fails: bool)
    : (r: map<string, Account>)
    ensures r.Keys == accounts.Keys
    ensures forall e :: e in accounts && e != email ==> r[e] == accounts[e]
    ensures email in accounts ==> r[email] == if fails then accounts[email] else accounts[email].(password := Some(hash))
  {
    if fails || email !in accounts then accounts
    else accounts[email := accounts[email].(password := Some(hash))]
  }

  /**
   * `sendAuthenticationEmail`: the link is built from `getConfig('SITE_ADDRESS')`
   * outside the `try`, so a boolean setting throws; the send itself
   * reports a caught exception as false.
   */
  function SendMail(env: Env): (r: Result<bool, string>)
    ensures r.Failure? <==> Application.GetConfig(env.config, "SITE_ADDRESS").Failure?
    ensures r.Success? ==> r.value == env.mailOk
  {
    match Application.GetConfig(env.config, "SITE_ADDRESS")
    case Failure(e) => Failure(e)
    case Success(_) => Success(env.mailOk)
  }

  predicate HasPassword(acc: Account) {
    acc.password.Some? && !EmptyStr(acc.password.value)
  }

  // ---------------------------------------------------------------
  // registerUser
  // ---------------------------------------------------------------

  /**
   * The password checks shared by registration and reset: a `TypeError`
   * for a non-string, the mismatch reply, then `validatePassword`, whose
   * errors are formatted by `format` (None: the call throws).
   */
  function CheckPasswords(p: Option<string>, q: Option<string>, email: string, mismatch: string,
                          format: Option<seq<string> -> string>): (r: Option<Result<Reply, string>>)
    ensures r.None? <==> p.Some? && q.Some? && PasswordsMatch(p.value, q.value) && ValidatePassword(p.value, email) == Success([])
    ensures r.Some? && r.value.Success? ==> !r.value.value.success
    ensures p.Some? && q.Some? && !PasswordsMatch(p.value, q.value) ==> r == Some(Success(Reply(false, Some(mismatch))))
  {
    if p.None? || q.None? then Some(Failure(StringTypeError))
    else if !PasswordsMatch(p.value, q.value) then Some(Success(Reply(false, Some(mismatch))))
    else match ValidatePassword(p.value, email)
      case Failure(e) => Some(Failure(e))
      case Success(errs) =>
        if |errs| == 0 then None
        else if format.None? then Some(Failure(UndefinedFormat))
        else Some(Success(Reply(false, Some(format.value(Messages(errs))))))
  }

  /**
   * "short" with the address test@domain breaks three password rules. As
   * written the error list reaches the undefined `formatPasswordErrors`
   * and the request ends in an `Error`; with the formatter the reply lists
   * the three messages.
   */
  lemma ShortPasswordHitsUndefinedFormat(domain: string)
    ensures CheckPasswords(Some("short"), Some("short"), "test@" + domain, MismatchMessage, None)
            == Some(Failure(UndefinedFormat))
    ensures CheckPasswords(Some("short"), Some("short"), "test@" + domain, MismatchMessage, Some(FormatPasswordErrors))
            == Some(Success(Reply(false, Some(FormatPasswordErrors(Messages([TooShort, NoUpper, NoDigit]))))))
  {
    assert "test@" + domain == "test" + "@" + domain;
    ShortPasswordErrors(domain);
  }

  /**
   * `registerUser($formData)` as written. The member is looked up by
   * email, but the object the next checks read is `new Medlem(...)`, an
   * empty data object whose constructor ignores its arguments: its
   * password is the default null, so the already-registered check never
   * fires, and reading its uninitialized first name for the mail throws.
   */
  function RegisterUserAsWritten(form: map<string, Val>, db: Db, env: Env): (r: Run)
    requires |env.random| == 20
    ensures r.db.accounts == db.accounts && r.mail.None?
    ensures !(r.outcome.Success? && r.outcome.value.success)
  {
    match FormEmail(form)
    case Failure(e) => Run(Failure(e), db, None)
    case Success(None) => Run(Failure(StringTypeError), db, None)
    case Success(Some(email)) =>
      if email !in db.accounts then Run(Success(Reply(false, Some(NoMemberMessage))), db, None)
      else
        var p, q := FormString(form, "password"), FormString(form, "verifyPassword");
        match CheckPasswords(p, q, email, MismatchMessage, None)
        case Some(o) => Run(o, db, None)
        case None =>
          var token := GenerateToken(env.random);
          var saved := SaveToken(db.tokens, token, Activation, email, Some(env.hash(p.value)), env.now, env.saveTokenFails);
          if !saved.ok then Run(Success(Reply(false, Some(RegisterFailedMessage))), db, None)
          else Run(Failure(UninitializedFornamn), db.(tokens := saved.store), None)
  }

  /**
   * A member who already has a password is not turned away by the
   * as-written registration: with a matching, valid password pair a new
   * activation token carrying the new hash is stored.
   */
  lemma RegisteredMemberGetsNewToken(form: map<string, Val>, db: Db, env: Env, email: string, p: string)
    requires |env.random| == 20 && !env.saveTokenFails
    requires "email" in form && form["email"] == Str(email) && Trim(email) == email
    requires Sanitizer.FilterVar("email", email) == email
    requires email in db.accounts && HasPassword(db.accounts[email])
    requires FormString(form, "password") == Some(p) && FormString(form, "verifyPassword") == Some(p)
    requires ValidatePassword(p, email) == Success([])
    ensures var r := RegisterUserAsWritten(form, db, env);
      && r.outcome != Success(Reply(false, Some(RegisteredMessage)))
      && r.db.tokens == db.tokens + [TokenRow(email, GenerateToken(env.random), Activation, Some(env.hash(p)), env.now)]
  {
    FormEmailOf(form, email);
    assert CheckPasswords(Some(p), Some(p), email, MismatchMessage, None).None?;
    RegisterReachesSave(form, db, env, email, p);
  }

  lemma FormEmailOf(form: map<string, Val>, email: string)
    requires "email" in form && form["email"] == Str(email) && Trim(email) == email
    requires Sanitizer.FilterVar("email", email) == email
    ensures FormEmail(form) == Success(Some(email))
  {
    assert IsSet(form, "email");
  }

  /** With an address of a member and passwords that pass, the as-written registration stores a token and then fails. */
  lemma RegisterReachesSave(form: map<string, Val>, db: Db, env: Env, email: string, p: string)
    requires |env.random| == 20 && !env.saveTokenFails
    requires FormEmail(form) == Success(Some(email)) && email in db.accounts
    requires FormString(form, "password") == Some(p) && FormString(form, "verifyPassword") == Some(p)
    requires CheckPasswords(Some(p), Some(p), email, MismatchMessage, None).None?
    ensures var saved := SaveToken(db.tokens, GenerateToken(env.random), Activation, email, Some(env.hash(p)), env.now, false);
      saved.ok && RegisterUserAsWritten(form, db, env) == Run(Failure(UninitializedFornamn), db.(tokens := saved.store), None)
  {
  }

  /**
   * `registerUser` as evidently intended: the checks read the member row
   * that was looked up, and password errors are formatted as a list.
   */
  function RegisterUser(form: map<string, Val>, db: Db, env: Env): (r: Run)
    requires |env.random| == 20
    ensures r.db.accounts == db.accounts
    ensures r.outcome == Success(Reply(true, None)) ==>
      && FormEmail(form).Success? && FormEmail(form).value.Some?
      && var email := FormEmail(form).value.value;
      && email in db.accounts && !HasPassword(db.accounts[email]) && db.accounts[email].fornamn.Some?
      && FormString(form, "password").Some?
      && r.db.tokens == SaveToken(db.tokens, GenerateToken(env.random), Activation, email,
                                  Some(env.hash(FormString(form, "password").value)), env.now, false).store
      && r.mail == Some(Mail(Verification, email, GenerateToken(env.random), db.accounts[email].fornamn.value, ActivateRoute))
    ensures FormEmail(form).Success? && FormEmail(form).value.Some? && FormEmail(form).value.value in db.accounts
            && HasPassword(db.accounts[FormEmail(form).value.value])
            ==> r == Run(Success(Reply(false, Some(RegisteredMessage))), db, None)
  {
    match FormEmail(form)
    case Failure(e) => Run(Failure(e), db, None)
    case Success(None) => Run(Failure(StringTypeError), db, None)
    case Success(Some(email)) =>
      if email !in db.accounts then Run(Success(Reply(false, Some(NoMemberMessage))), db, None)
      else RegisterAccount(form, email, db.accounts[email], db, env)
  }

  /** The part of the intended `registerUser` after the member row was found. */
  function RegisterAccount(form: map<string, Val>, email: string, acc: Account, db: Db, env: Env): (r: Run)
    requires |env.random| == 20
    ensures r.db.accounts == db.accounts
    ensures HasPassword(acc) ==> r == Run(Success(Reply(false, Some(RegisteredMessage))), db, None)
    ensures r.outcome == Success(Reply(true, None)) ==>
      && !HasPassword(acc) && acc.fornamn.Some? && FormString(form, "password").Some?
      && CheckPasswords(FormString(form, "password"), FormString(form, "verifyPassword"), email, MismatchMessage,
                        Some(FormatPasswordErrors)).None?
      && r.db.tokens == SaveToken(db.tokens, GenerateToken(env.random), Activation, email,
                                  Some(env.hash(FormString(form, "password").value)), env.now, false).store
      && r.mail == Some(Mail(Verification, email, GenerateToken(env.random), acc.fornamn.value, ActivateRoute))
  {
    if HasPassword(acc) then Run(Success(Reply(false, Some(RegisteredMessage))), db, None)
    else
      var p, q := FormString(form, "password"), FormString(form, "verifyPassword");
      match CheckPasswords(p, q, email, MismatchMessage, Some(FormatPasswordErrors))
      case Some(o) => Run(o, db, None)
      case None =>
        var token := GenerateToken(env.random);
        var saved := SaveToken(db.tokens, token, Activation, email, Some(env.hash(p.value)), env.now, env.saveTokenFails);
        if !saved.ok then Run(Success(Reply(false, Some(RegisterFailedMessage))), db, None)
        else if acc.fornamn.None? then Run(Failure(StringTypeError), db.(tokens := saved.store), None)
        else
          var mail := Mail(Verification, email, token, acc.fornamn.value, ActivateRoute);
          match SendMail(env)
          case Failure(e) => Run(Failure(e), db.(tokens := saved.store), None)
          case Success(sent) =>
            Run(Success(if sent then Reply(true, None) else Reply(false, Some(RegisterMailMessage))),
                db.(tokens := saved.store), Some(mail))
  }

  // ---------------------------------------------------------------
  // activateAccount
  // ---------------------------------------------------------------

  /**
   * `activateAccount($token)`: an invalid or expired activation token is
   * answered with the token check's own reply and changes nothing. A
   * valid one sets the member's password to the hash the token carries,
   * deletes the token and the expired ones. Success is reported whether
   * or not the password write went through. A token whose member is gone
   * makes `$member['email']` null, which the string parameter rejects.
   */
  function ActivateAccount(token: string, db: Db, env: Env): (r: Run)
    ensures r.mail.None?
    ensures IsValidToken(db.tokens, token, Activation, env.now).Invalid? ==>
      r == Run(Success(Reply(false, Some(IsValidToken(db.tokens, token, Activation, env.now).message))), db, None)
    ensures r.outcome == Success(Reply(true, None)) <==>
      IsValidToken(db.tokens, token, Activation, env.now).Valid? && IsValidToken(db.tokens, token, Activation, env.now).email in db.accounts
    ensures r.outcome == Success(Reply(true, None)) ==>
      var v := IsValidToken(db.tokens, token, Activation, env.now);
      r.db.accounts == SavePassword(db.accounts, v.email, v.hashedPassword, env.savePasswordFails)
    ensures r.outcome == Success(Reply(true, None)) && !env.deleteFails ==>
      forall row :: row in r.db.tokens ==> row.token != token
  {
    match IsValidToken(db.tokens, token, Activation, env.now)
    case Invalid(m) => Run(Success(Reply(false, Some(m))), db, None)
    case Valid(email, hash) =>
      if email !in db.accounts then Run(Failure(StringTypeError), db, None)
      else
        var accounts := SavePassword(db.accounts, email, hash, env.savePasswordFails);
        var tokens := DeleteToken(db.tokens, token, env.deleteFails).store;
        Run(Success(Reply(true, None)), Db(accounts, DeleteExpiredTokens(tokens, env.now).store), None)
  }

  /** Activation can be used once: a second activation with the same token is refused. */
  lemma ActivateOnce(token: string, db: Db, env: Env)
    requires !env.deleteFails
    requires ActivateAccount(token, db, env).outcome == Success(Reply(true, None))
    ensures ActivateAccount(token, ActivateAccount(token, db, env).db, env).outcome
            == Success(Reply(false, Some(NotValidMessage)))
  {
    var s := ActivateAccount(token, db, env).db.tokens;
    assert forall i :: 0 <= i < |s| ==> s[i] in s;
  }

  /**
   * Registration then activation: once the intended registration has
   * succeeded with a token not seen before, activating that token within
   * 30 minutes sets the member's password to the hash of the chosen one.
   */
  lemma RegisterThenActivate(form: map<string, Val>, db: Db, env: Env, later: Env)
    requires |env.random| == 20
    requires forall i :: 0 <= i < |db.tokens| ==> db.tokens[i].token != GenerateToken(env.random)
    requires RegisterUser(form, db, env).outcome == Success(Reply(true, None))
    requires env.now <= later.now <= env.now + 1800 && !later.savePasswordFails
    ensures var email := FormEmail(form).value.value;
      var p := FormString(form, "password").value;
      var r := ActivateAccount(GenerateToken(env.random), RegisterUser(form, db, env).db, later);
      && r.outcome == Success(Reply(true, None))
      && email in r.db.accounts
      && r.db.accounts[email].password == Some(HashOrEmpty(Some(env.hash(p))))
  {
    var email := FormEmail(form).value.value;
    var p := FormString(form, "password").value;
    var token := GenerateToken(env.random);
    SavedTokenValidates(db.tokens, token, Activation, email, Some(env.hash(p)), env.now, later.now);
  }

  // ---------------------------------------------------------------
  // requestPasswordReset
  // ---------------------------------------------------------------

  /**
   * `requestPasswordReset($email)`: an unknown address or a failed token
   * save is a bare failure; otherwise a reset token is stored and mailed
   * to the address, greeting the member by first name.
   */
  function RequestPasswordReset(email: string, db: Db, env: Env): (r: Run)
    requires |env.random| == 20
    ensures r.db.accounts == db.accounts
    ensures email !in db.accounts ==> r == Run(Success(Reply(false, None)), db, None)
    ensures r.outcome == Success(Reply(true, None)) ==>
      && email in db.accounts && db.accounts[email].fornamn.Some?
      && r.db.tokens == SaveToken(db.tokens, GenerateToken(env.random), Reset, email, None, env.now, false).store
      && r.mail == Some(Mail(PasswordReset, email, GenerateToken(env.random), db.accounts[email].fornamn.value, ResetRoute))
    ensures r.mail.Some? ==> r.outcome.Success? && (r.outcome.value.success <==> env.mailOk)
  {
    if email !in db.accounts then Run(Success(Reply(false, None)), db, None)
    else
      var token := GenerateToken(env.random);
      var saved := SaveToken(db.tokens, token, Reset, email, None, env.now, env.saveTokenFails);
      var fornamn := db.accounts[email].fornamn;
      if !saved.ok then Run(Success(Reply(false, None)), db, None)
      else if fornamn.None? then Run(Failure(StringTypeError), db.(tokens := saved.store), None)
      else
        match SendMail(env)
        case Failure(e) => Run(Failure(e), db.(tokens := saved.store), None)
        case Success(sent) =>
          Run(Success(if sent then Reply(true, None) else Reply(false, Some(ResetMailMessage))),
              db.(tokens := saved.store), Some(Mail(PasswordReset, email, token, fornamn.value, ResetRoute)))
  }

  // ---------------------------------------------------------------
  // resetPassword
  // ---------------------------------------------------------------

  /** The email, token and password pair the reset form posts. */
  datatype ResetForm = ResetForm(email: Option<string>, token: Option<string>, p: Option<string>, q: Option<string>)

  function ReadResetForm(form: map<string, Val>): ResetForm {
    ResetForm(FormString(form, "email"), FormString(form, "token"), FormString(form, "password"), FormString(form, "password2"))
  }

  /**
   * The checks `resetPassword` makes before touching the database: the
   * password pair must be strings and match, and `validatePassword` needs
   * a string email holding an '@' and finds no violation.
   */
  function ResetChecks(f: ResetForm, format: Option<seq<string> -> string>): (r: Option<Result<Reply, string>>)
    ensures r.None? <==> f.email.Some? && f.p.Some? && f.q.Some? && PasswordsMatch(f.p.value, f.q.value)
                         && ValidatePassword(f.p.value, f.email.value) == Success([])
    ensures r.Some? && r.value.Success? ==> !r.value.value.success
  {
    if f.email.None? && f.p.Some? && f.q.Some? && PasswordsMatch(f.p.value, f.q.value) then Some(Failure(StringTypeError))
    else CheckPasswords(f.p, f.q, if f.email.Some? then f.email.value else "", ResetMismatchMessage, format)
  }

  /**
   * `resetPassword($formData)` as written: after the password checks and
   * the member lookup it writes the new hash for the posted email and
   * deletes the posted token, without ever asking whether that token is a
   * valid reset token, or one for that email.
   */
  function ResetPasswordAsWritten(form: map<string, Val>, db: Db, env: Env): (r: Run)
    ensures r.mail.None?
    ensures r.outcome == Success(Reply(true, None)) ==>
      var f := ReadResetForm(form);
      && f.email.Some? && f.email.value in db.accounts && f.token.Some? && f.p.Some?
      && r.db.accounts == SavePassword(db.accounts, f.email.value, env.hash(f.p.value), env.savePasswordFails)
  {
    var f := ReadResetForm(form);
    match ResetChecks(f, None)
    case Some(o) => Run(o, db, None)
    case None =>
      var email := f.email.value;
      if email !in db.accounts then Run(Success(Reply(false, Some(NoUserMessage))), db, None)
      else
        var accounts := SavePassword(db.accounts, email, env.hash(f.p.value), env.savePasswordFails);
        if f.token.None? then Run(Failure(StringTypeError), db.(accounts := accounts), None)
        else Run(Success(Reply(true, None)), Db(accounts, DeleteToken(db.tokens, f.token.value, env.deleteFails).store), None)
  }

  /**
   * The as-written reset changes the password of any member whose email
   * is posted, with any token -- here one that validates as nothing.
   */
  lemma ResetWithoutValidToken(form: map<string, Val>, db: Db, env: Env, email: string, token: string, p: string)
    requires !env.savePasswordFails
    requires ReadResetForm(form) == ResetForm(Some(email), Some(token), Some(p), Some(p))
    requires email in db.accounts && ValidatePassword(p, email) == Success([])
    requires IsValidToken(db.tokens, token, Reset, env.now) == Invalid(NotValidMessage)
    ensures ResetPasswordAsWritten(form, db, env).outcome == Success(Reply(true, None))
    ensures ResetPasswordAsWritten(form, db, env).db.accounts[email].password == Some(env.hash(p))
  {
    assert PasswordsMatch(p, p);
  }

  /**
   * `resetPassword` as evidently intended: after the same password
   * checks, the posted token must be a valid reset token issued for the
   * posted email before any password is written, and password errors are
   * formatted as a list.
   */
  function ResetPassword(form: map<string, Val>, db: Db, env: Env): (r: Run)
    ensures r.mail.None?
    ensures r.db.accounts != db.accounts ==> r.outcome == Success(Reply(true, None))
    ensures r.outcome == Success(Reply(true, None)) ==>
      var f := ReadResetForm(form);
      && f.email.Some? && f.email.value in db.accounts && f.token.Some? && f.p.Some?
      && IsValidToken(db.tokens, f.token.value, Reset, env.now).Valid?
      && IsValidToken(db.tokens, f.token.value, Reset, env.now).email == f.email.value
      && r.db.accounts == SavePassword(db.accounts, f.email.value, env.hash(f.p.value), env.savePasswordFails)
  {
    var f := ReadResetForm(form);
    match ResetChecks(f, Some(FormatPasswordErrors))
    case Some(o) => Run(o, db, None)
    case None =>
      if f.token.None? then Run(Failure(StringTypeError), db, None)
      else ResetWithToken(f.email.value, f.token.value, f.p.value, db, env)
  }

  /** The part of the intended reset after the password checks. */
  function ResetWithToken(email: string, token: string, p: string, db: Db, env: Env): (r: Run)
    ensures r.mail.None?
    ensures r.db.accounts != db.accounts ==> r.outcome == Success(Reply(true, None))
    ensures r.outcome == Success(Reply(true, None)) <==>
      email in db.accounts && IsValidToken(db.tokens, token, Reset, env.now).Valid?
      && IsValidToken(db.tokens, token, Reset, env.now).email == email
    ensures r.outcome == Success(Reply(true, None)) ==>
      r.db.accounts == SavePassword(db.accounts, email, env.hash(p), env.savePasswordFails)
  {
    match IsValidToken(db.tokens, token, Reset, env.now)
    case Invalid(m) => Run(Success(Reply(false, Some(m))), db, None)
    case Valid(e, _) =>
      if e != email then Run(Success(Reply(false, Some(NotValidMessage))), db, None)
      else if email !in db.accounts then Run(Success(Reply(false, Some(NoUserMessage))), db, None)
      else
        var accounts := SavePassword(db.accounts, email, env.hash(p), env.savePasswordFails);
        Run(Success(Reply(true, None)), Db(accounts, DeleteToken(db.tokens, token, env.deleteFails).store), None)
  }

  /**
   * Request then reset: after a successful reset request with a token not
   * seen before, posting that token within 30 minutes with a valid
   * password pair sets the member's password to the new hash.
   */
  lemma RequestThenReset(email: string, db: Db, env: Env, later: Env, form: map<string, Val>, p: string)
    requires |env.random| == 20
    requires forall i :: 0 <= i < |db.tokens| ==> db.tokens[i].token != GenerateToken(env.random)
    requires RequestPasswordReset(email, db, env).outcome == Success(Reply(true, None))
    requires env.now <= later.now <= env.now + 1800 && !later.savePasswordFails
    requires ReadResetForm(form) == ResetForm(Some(email), Some(GenerateToken(env.random)), Some(p), Some(p))
    requires ValidatePassword(p, email) == Success([])
    ensures var r := ResetPassword(form, RequestPasswordReset(email, db, env).db, later);
      && r.outcome == Success(Reply(true, None))
      && r.db.accounts[email].password == Some(later.hash(p))
  {
    SavedTokenValidates(db.tokens, GenerateToken(env.random), Reset, email, None, env.now, later.now);
    assert PasswordsMatch(p, p);
  }
}

=== FILE: wrappers.dfy ===
/** Failure-compatible datatypes shared by every module of the model. */
module Wrappers {

  /** A value that may be absent; PHP's `null` and Python's `None`. */
  datatype Option<+T> = None | Some(value: T) {
    predicate IsFailure() {
      None?
    }

    function PropagateFailure<U>(): Option<U>
      requires None?
    {
      None
    }

    function Extract(): T
      requires Some?
    {
      value
    }

    function GetOr(default: T): T {
      match this
      case Some(v) => v
      case None => default
    }
  }

  /** Either a value or an error; used for thrown exceptions and errors. */
  datatype Result<+R, +E> = Success(value: R) | Failure(error: E) {
    predicate IsFailure() {
      Failure?
    }

    function PropagateFailure<U>(): Result<U, E>
      requires Failure?
    {
      Failure(error)
    }

    function Extract(): R
      requires Success?
    {
      value
    }
  }

  /** The outcome of a call into code outside the model: a value, or an exception with its message. */
  datatype Effect<+T> = Done(value: T) | Threw(message: string)
}
